=== FILE: README.md ===
# piet, modelled in Dafny

piet is a backend-neutral 2D drawing API for Rust. Each platform has its own
backend: Cairo, CoreGraphics, Direct2D, the web canvas, SVG and Pathfinder,
plus the `piet-next` recorder and the `cpu-sparse` rasteriser. Most of a backend
is calls into the platform library. This project models the logic piet keeps
for itself and proves what that logic promises:

- **Text offsets and buffers** (`Util`, `Unicode`). UTF-8 to UTF-16 offset
  conversion, line lookup, range clamping, strided image repacking and
  unpremultiplication.
- **Line breaking** (`LineBreaking`, `CairoLines`, `WebLines`, `D2DLines`).
  The greedy break loop the Cairo and web backends share, their line metrics,
  and the scan that turns DirectWrite's line lengths into offsets.
- **Text layouts and hit testing** (`CairoText`, `WebText`, `D2DText`,
  `CairoGrapheme`, `WebGrapheme`, `CairoOldGrapheme`, `Graphemes`,
  `PathfinderText`). Builders, line text, layout size, the trailing empty
  line, hit testing by point and by text position, and the binary search
  over grapheme clusters together with its termination.
- **Render-context state** (`CairoContext`, `CgContext`, `D2DContext`,
  `WebContext`, `Svg`, `Pathfinder`, `GenericRecord`). Transform stacks,
  save/restore with `StackUnbalance`, clip layers, pending errors, SVG ids
  and attributes, recorded commands and their replay.
- **Pixel conversion** (`Pixels`, `CairoContext`, `D2DContext`,
  `WebContext`, `CairoTarget`, `CgTarget`). Premultiplication, swizzles and
  stride handling in `make_image` and `copy_raw_pixels`, written as array
  methods proved against functions of the input buffer.
- **Value types** (`Shapes`, `Font`, `Colors`, `Hex`, `Affine`). Stroke
  styles, font weights and families, packed colours and their formatting.
  An affine transform is treated as an element of a monoid.
- **cpu-sparse** (`Flatten`, `Strip`). The line-soup bookkeeping of
  fill and stroke, tile ordering, the sentinel tiles, and the strip/column
  bookkeeping of `render_strips`.
- **Samples and the Mondrian example** (`Samples`, `Mondrian`). Sample
  lookup, argument validation, `run_all`, file naming, snapshot comparison
  and the PNG diff rule. The Mondrian example's rectangle splitting and
  colouring, with its random draws taken as inputs.

The general modelling choices:

- `f64` values are `real`. Rounding is ignored unless a contract depends on it.
- Fixed-width integers are `int` with explicit bounds. The `as i32` casts
  of `make_image_with_stride` in the Cairo backend and the `u32` pixel count
  of `compare_pngs` are written out with their wrap-around. `usize`
  arithmetic on sizes and offsets is unbounded (see "Left out").
- A source `panic!`, `assert!`, `unwrap`, `expect`, `todo!` or out-of-bounds
  index becomes a `requires` that rules the panicking inputs out; each such
  member is listed under "Left out".
- Strings are sequences of Unicode scalar values. Their byte offsets are
  computed from the UTF-8 encoding.
- Everything decided by a platform library is an input: the outcome of an
  FFI call, a measured text width, the break opportunities of UAX #14, and
  the grapheme clusters of section 3 of UAX #29.

## Model

| member | source | states |
|---|---|---|
| Affine.MulIdentity | piet-cairo/src/lib.rs:200-211 | the identity is neutral on both sides of a product, so the identity current_transform reports on an empty stack composes as no transform |
| Affine.MulAssoc | piet-cairo/src/lib.rs:200-207 | products associate, so multiplying the top of the stack by each transform in turn is multiplying it by their product |
| CairoContext.CairoRenderContext.constructor | piet-cairo/src/lib.rs:418-425 | `CairoRenderContext::new`: no transforms of piet's own. |
| CairoContext.CairoRenderContext.Save | piet-cairo/src/lib.rs:178-183 | `save`: Cairo saves first; if that fails its error is returned and the stack is left alone, otherwise a copy of the top (the identity on an empty stack) is pushed. |
| CairoContext.CairoRenderContext.Restore | piet-cairo/src/lib.rs:185-193 | `restore`: pops, and only then restores Cairo and returns its outcome; on an empty stack it is `StackUnbalance` and Cairo is not called. |
| CairoContext.CairoRenderContext.Transform | piet-cairo/src/lib.rs:200-207 | `transform`: the top is multiplied by the transform in place; on an empty stack the transform itself is pushed. Cairo is always told. |
| CairoContext.CairoRenderContext.CurrentTransform | piet-cairo/src/lib.rs:209-211 | `current_transform`: the top of the stack, or the identity. |
| CairoContext.CairoRenderContext.SaveTransformRestore | piet-cairo/src/lib.rs:178-183 | A successful `save`, any `transform` and a `restore` give back the transform that was current before, and the stack as it was. |
| CairoContext.TransformThenRestore | piet-cairo/src/lib.rs:200-207 | On a fresh context, a `transform` pushes an entry, so a `restore` with no `save` before it succeeds as far as piet is concerned, and Cairo is asked to restore a state it never saved. |
| CairoContext.CairoFormatFor | piet-cairo/src/lib.rs:223-227 | RGB and grey get the 24-bit format and both RGBA formats the 32-bit one, each exactly |
| CairoContext.Pixel32 | piet-cairo/src/lib.rs:594-595 | the packed pixel fits in 32 bits |
| CairoContext.NeBytes | piet-cairo/src/lib.rs:597 | to_ne_bytes gives four bytes |
| CairoContext.PixelLayout | piet-cairo/src/lib.rs:590-598 | the packed pixel lies in memory as blue, green, red, alpha on a little-endian machine and as alpha, red, green, blue on a big-endian one |
| CairoContext.WriteRgba | piet-cairo/src/lib.rs:590-598 | `write_rgba`: the four bytes of pixel `column` of the row starting at `start` become the native-endian bytes of the pixel; every other byte is kept. |
| CairoContext.RowBytesIs | piet-cairo/src/lib.rs:241-246 | the row length checked is the width times the format's bytes per pixel |
| CairoContext.PixelBytes | piet-cairo/src/lib.rs:252-311 | every converted pixel is four bytes |
| CairoContext.RowData | piet-cairo/src/lib.rs:257-308 | a converted row of n pixels is 4n bytes |
| CairoContext.RowDataPrefix | piet-cairo/src/lib.rs:257-308 | The first `m` converted pixels of a row are the row of `m` pixels. |
| CairoContext.RowPixelAt | piet-cairo/src/lib.rs:257-308 | Pixel `x` of a converted row is its four bytes at `4 * x`. |
| CairoContext.ImageData | piet-cairo/src/lib.rs:252-312 | the converted surface data is height rows of 4 * width bytes |
| CairoContext.ImageDataPrefix | piet-cairo/src/lib.rs:252-312 | The first `k` rows of the surface data are the data of `k` rows. |
| CairoContext.ImageRowAt | piet-cairo/src/lib.rs:252-312 | Row `y` of the surface data, at `RowOffset(y, 4 * width)`, is source row `y` converted. |
| CairoContext.ImagePixelAt | piet-cairo/src/lib.rs:252-312 | Pixel `(x, y)` of the surface (at `y * 4 * width + 4 * x`, see `RowOffsetIsProduct`) holds the native-endian 32-bit pixel of source pixel `(x, y)` (at `y * stride`). |
| CairoContext.PixelBytesIs | piet-cairo/src/lib.rs:256-309 | The bytes of a converted pixel: RGB with alpha byte 0, grey replicated into red, green and blue with alpha byte 0, premultiplied RGBA copied, and separate RGBA premultiplied by its alpha; laid out as Cairo's 32-bit pixel in native byte order (see `PixelLayout`). |
| CairoContext.WriteRow | piet-cairo/src/lib.rs:255-311 | The loop over one row: the `4 * width` bytes from `start` become the converted source row at `srcOff`; every other byte is kept. |
| CairoContext.WritePixel | piet-cairo/src/lib.rs:255-311 | One step of the loop over a row: pixel `x` is read (the per-format reads, premultiplying separate alpha, are `SourcePixel`), converted and written after the `x` pixels already written, so the converted part of the row grows by that pixel. |
| CairoContext.RowDataStep | piet-cairo/src/lib.rs:257-308 | The converted row grows by one pixel at a time. |
| CairoContext.ImageDataStep | piet-cairo/src/lib.rs:252-312 | The converted surface grows by one row at a time. |
| CairoContext.MakeImageWithStride | piet-cairo/src/lib.rs:215-315 | the size goes through the `i32` cast first: a refused surface, or a negative cast size, is `BackendError`; a cast width or height of 0 is an empty surface of the cast size; otherwise a buffer shorter than the rows need is `InvalidInput`, and a longer one gives a `4 * width` by `height` surface holding every source pixel converted. A size the cast truncates to a smaller positive one, with a buffer long enough, is required away (the row loop indexes past the surface) |
| CairoContext.AsI32 | piet-cairo/src/lib.rs:228-229 | `n as i32`: a value in the `i32` range congruent to n modulo 2^32, equal to n below 2^31 |
| CairoContext.AsI32Wraps | piet-cairo/src/lib.rs:228-229 | 2^32 casts to 0 and 2^32 + 3 to 3; 2^31 casts to -2^31 and 2^32 - 1 to -1 |
| CairoContext.ConvertRows | piet-cairo/src/lib.rs:252-312 | The loop over rows: the surface ends up holding every source row, converted. |
| CairoContext.ConvertRow | piet-cairo/src/lib.rs:252-312 | One step of the loop over rows: source row `y` (at `y * stride`) is converted into surface row `y` (at `y * 4 * width`), so the surface holds one more converted row. |
| CairoGrapheme.HitTestLinePositionSnaps | piet-cairo/src/text.rs:498-522 | An interior position is snapped back to the start of its cluster; the ends are 0 and the full advance. |
| CairoGrapheme.GetGraphemeBoundaries | piet-cairo/src/text/grapheme.rs:9-29 | `get_grapheme_boundaries`: `None` past the last cluster; otherwise the cluster's start and the next start (`text.len()` after the last cluster), each with its line position. |
| CairoGrapheme.BoundariesInOrder | piet-cairo/src/text/grapheme.rs:14-16 | On a segmented line the boundaries of a cluster are two successive offsets inside the line. |
| CairoGrapheme.PointXInGrapheme | piet-cairo/src/text/grapheme.rs:31-56 | `point_x_in_grapheme`: `None` outside `[leading, trailing]`; inside, a hit on the nearer boundary, ties going to the next one. |
| CairoGrapheme.GraphemeBoundariesExample | piet-cairo/src/text/grapheme.rs:72-100 | Position 3 of `"piet"` is the cluster `[3, 4)`, and there is no cluster 4. |
| CairoGrapheme.PointXInGraphemeExample | piet-cairo/src/text/grapheme.rs:31-56 | On the cluster `[2, 4)` drawn from 10 to 14, x 10 and 11 hit 2, and 12 and 13 hit 4. |
| CairoLines.AddLineMetric | piet-cairo/src/text/lines.rs:152-175 | Adds `height` to the running height and appends the line `text[start..end]`; a running height of `n` lines becomes one of `n+1`. |
| CairoLines.AppendRecorded | piet-cairo/src/text/lines.rs:161-174 | Appending a line whose running height is one more line's keeps `Recorded`. |
| CairoLines.CalculateLineMetrics | piet-cairo/src/text/lines.rs:6-150 | The break loop. `advance` is the font's `text_extents(..).x_advance`, `height` and `baseline` its extents' height and ascent, and `breaks` the opportunities `LineBreakIterator` yields for `text`. |
| CairoLines.CountTrailingWhitespaceExamples | piet-cairo/src/text/lines.rs:449-453 | `count_trailing_whitespace` on the source's examples: it counts characters. |
| CairoLines.TrailingRun | piet-cairo/src/text/lines.rs:179-181 | A run of `n` whitespace characters preceded by a non-whitespace one is what is counted. |
| CairoLines.HardSoftBreakStart | piet-cairo/src/text/lines.rs:243-270 | `"piet\ntext"` has mandatory breaks after the newline and at the end; it becomes exactly two lines whatever the width, with no empty line before the first. |
| CairoLines.BasicLargeWidth | piet-cairo/src/text/lines.rs:284-394 | When the whole text fits, it is one line `0..19`. |
| CairoLines.BasicSmallWidth | piet-cairo/src/text/lines.rs:284-394 | When each word fits but no two do, each word is its own line. |
| CairoLines.AsciiTrailingWhitespace | piet-cairo/src/text/lines.rs:163-164 | On ASCII text, the trailing whitespace of a byte range is that of the same character range. |
| CairoLines.BasicTrailingWhitespace | piet-cairo/src/text/lines.rs:284-394 | The trailing whitespace of the lines above: one space after each word but the last. |
| CairoOldGrapheme.GetGraphemeBoundaries | piet-cairo/src/grapheme.rs:12-34 | `get_grapheme_boundaries`: the start fields stay 0 at position 0 and are otherwise position - 1 with its x; the end is the position itself with its x. The lookups the source `expect`s to succeed are required to. |
| CairoOldGrapheme.PointXInGrapheme | piet-cairo/src/grapheme.rs:37-56 | `point_x_in_grapheme`: a hit inside `[start_x, end_x]`, `None` outside. A hit is inside and on text, is a trailing hit when the point is strictly nearer the start, and reports the end index for a trailing hit and the start index otherwise. |
| CairoOldGrapheme.TrailingHitPicksFartherEnd | piet-cairo/src/grapheme.rs:44-50 | The reported position is the boundary the point is FARTHER from: a point just right of the start reports the end, one just left of the end reports the start, and the midpoint reports the start. |
| CairoOldGrapheme.BoundariesOfPosition | piet-cairo/src/grapheme.rs:12-56 | Combined: for a position whose x and the previous position's x are known, a point strictly between them and nearer the previous one reports the position itself. |
| CairoTarget.SourceLength | piet-common/src/cairo_back.rs:132 | for a surface with rows, the source length reaches the start of the last row plus 4 * width bytes |
| CairoTarget.RgbaPixel | piet-common/src/cairo_back.rs:158-165 | every swizzled pixel is four bytes |
| CairoTarget.RgbaRow | piet-common/src/cairo_back.rs:151-166 | a converted row of n pixels is 4n bytes |
| CairoTarget.RgbaImage | piet-common/src/cairo_back.rs:148-167 | the converted image is height rows of 4 * width bytes, without padding |
| CairoTarget.RgbaRowStep | piet-common/src/cairo_back.rs:151-166 | The row grows by one pixel at a time. |
| CairoTarget.RgbaImageStep | piet-common/src/cairo_back.rs:148-167 | The image grows by one row at a time. |
| CairoTarget.RgbaRowPrefix | piet-common/src/cairo_back.rs:151-166 | The first `m` pixels of a converted row are the row of `m` pixels. |
| CairoTarget.RgbaImagePrefix | piet-common/src/cairo_back.rs:148-167 | The first `k` rows of the converted image are the image of `k` rows. |
| CairoTarget.ImageRowAt | piet-common/src/cairo_back.rs:148-167 | Row `y` of the converted image lies at `RowOffset(y, 4 * width)`. |
| CairoTarget.RowPixelAt | piet-common/src/cairo_back.rs:151-166 | Pixel `x` of a converted row lies at `4 * x`. |
| CairoTarget.ImagePixelHolds | piet-common/src/cairo_back.rs:148-167 | Pixel `(x, y)` of the converted image lies at `RowOffset(y, 4 * width) + 4 * x`. |
| CairoTarget.ImagePixelAt | piet-common/src/cairo_back.rs:148-167 | The swizzle of `copy_raw_pixels`: for pixel `(x, y)`, the four bytes at `y * width * 4 + x * 4` of the result are the surface bytes 2, 1, 0 and 3 at `y * stride + x * 4`, all of which lie inside the surface data. |
| CairoTarget.CopyPixel | piet-common/src/cairo_back.rs:158-165 | One step of the loop over `x`: pixel `x` of the surface row at `srcOff` is written in RGBA order after the `x` pixels already written from `start`. |
| CairoTarget.CopyRow | piet-common/src/cairo_back.rs:151-166 | The loop over `x`: the `4 * width` bytes from `start` become the surface row at `srcOff`, in RGBA order. |
| CairoTarget.CopyRowAt | piet-common/src/cairo_back.rs:149-166 | One step of the loop over `y`: surface row `y` (at `y * stride`) is written at `y * width * 4`, after the rows already written. |
| CairoTarget.CopyRows | piet-common/src/cairo_back.rs:148-167 | The loop over `y`: the first `width * height * 4` bytes become the converted image, the rest are kept. |
| CairoTarget.CopyRawPixels | piet-common/src/cairo_back.rs:112-173 | `BitmapTarget::copy_raw_pixels`. Any format but premultiplied RGBA is `NotSupported`; a buffer shorter than `width * height * 4` is `InvalidInput`; a surface whose data cannot be borrowed (`dataOk`) is a `BackendError`; in all three cases `buf` is untouched. Otherwise the first `width * height * 4` bytes of `buf` become the surface in RGBA order (see `ImagePixelAt`), the rest of `buf` is kept, and that length is returned. `src` is the surface data, which Cairo makes at least `SourceLength` bytes long. |
| CairoTarget.ToImageBuf | piet-common/src/cairo_back.rs:181-187 | `BitmapTarget::to_image_buf`: a zeroed buffer of exactly `width * height * 4` bytes is filled by `copy_raw_pixels` and becomes an `ImageBuf` of the surface's size, or the copy's error is returned. |
| CairoText.NewTextLayout | piet-cairo/src/text.rs:97-109 | `new_text_layout`: no width constraint, no range attributes, the default attributes. |
| CairoText.MaxWidth | piet-cairo/src/text.rs:147-150 | `max_width`: sets the width constraint and nothing else. |
| CairoText.DefaultAttribute | piet-cairo/src/text.rs:157-160 | the builder is returned unchanged except that its defaults take the attribute as `LayoutDefaults::set` does: only the named field changes, a non-positive size becomes 12, and a positive size stays positive |
| CairoText.Alignment | piet-cairo/src/text.rs:152-155 | `alignment`: Cairo's toy text has no alignment, so the builder is returned unchanged. |
| CairoText.RangeAttribute | piet-cairo/src/text.rs:162-180 | `range_attribute`: appends the attribute with its range clamped to the text and records the range's start. |
| CairoText.RangeAttributeInOrder | piet-cairo/src/text.rs:162-180 | Adding attributes in the order the debug assertion asks for keeps them in order. |
| CairoText.CairoWeight | piet-cairo/src/text.rs:182-254 | `build`'s weight: `Bold` exactly for weights heavier than `MEDIUM`. |
| CairoText.CairoSlant | piet-cairo/src/text.rs:182-254 | `build`'s slant: `Italic` for italic text, `Normal` otherwise; `Oblique` is never chosen. |
| CairoText.SpanLines | piet-cairo/src/text.rs:375-396 | one line metric per span |
| CairoText.SpanLinesShape | piet-cairo/src/text.rs:375-396 | The lines of `spans` cover exactly those ranges, are stacked and count their trailing whitespace. |
| CairoText.TopAligned | piet-cairo/src/text.rs:375 | one top-aligned metric per recorded line |
| CairoText.TopAlignedLines | piet-cairo/src/text.rs:375 | The metrics the break loop records are, top-aligned, the stacked metrics of its spans. |
| CairoText.ExtraLineShape | piet-cairo/src/text.rs:376-396 | The extra line keeps the lines stacked and contiguous, and when the lines before it ended at the end of the text the layout still does. |
| CairoText.ExtraLineRanges | piet-cairo/src/text.rs:376-396 | The extra line is the empty range at the end of the text, present exactly when the text is empty or ends with a newline; the ranges stay contiguous and the layout is never empty. |
| CairoText.ExtraLineStacked | piet-cairo/src/text.rs:376-396 | The extra line sits one line height below the others and counts no trailing whitespace, so the lines stay stacked. |
| CairoText.LayoutLinesShape | piet-cairo/src/text.rs:375-396 | The layout has at least one line: the lines of the break loop, then for the empty text or a text ending in a newline one empty line at the end of the text. They are stacked, count their trailing whitespace, start at 0, each starts where the previous ended, and the last ends at the end of the text. |
| CairoText.LayoutSizeBounds | piet-cairo/src/text.rs:398-419 | Stacked lines are as high as all of them; the layout is as wide as its widest line without trailing whitespace, and `trailing_ws_width` is the widest with it, both at least 0. |
| CairoText.EmptyLayout | piet-cairo/src/text.rs:376-381 | The empty text is laid out as one empty line. |
| CairoText.SingleHardBreak | piet-cairo/src/text.rs:375 | A single mandatory break at `n` makes the one line `[0, n)`. |
| CairoText.SingleLineLayout | piet-cairo/src/text.rs:375-396 | `"A"` is one line. |
| CairoText.NewlineEofLayout | piet-cairo/src/text.rs:382-396 | `"\n"` is two lines, `"\n"` and then the empty line at its end, the second one line below the first. |
| CairoText.BoundsAreEdges | piet-cairo/src/text/grapheme.rs:18-26 | The boundaries of cluster `p` lie at edges `p` and `p + 1`. |
| CairoText.HitTestLinePoint | piet-cairo/src/text.rs:431-494 | the hit is the default for an empty line, the line's end (outside) right of the last edge, the default at or left of the first edge, and otherwise the hit within a cluster whose edges enclose x; the search keeps x strictly between the leading edges of its bounds, so it always ends with such a hit, whatever the order of the measured edges |
| CairoText.FindLine | piet-cairo/src/text.rs:317-321 | `line_metrics.iter().find(..)`: the first line whose band holds `y`. |
| CairoText.BandCovering | piet-cairo/src/text.rs:303-322 | Stacked bands cover every height from 0 to the bottom of the last line. |
| CairoText.HitTestLines | piet-cairo/src/text.rs:294-335 | The body of `hit_test_point` for a non-empty text laid out as `lines`. |
| CairoText.TextPosition | piet-cairo/src/text.rs:337-358 | for the empty text, (0, ascent) on line 0; otherwise the line is one starting at or before the position with no later line starting before it (any of several starting exactly there), y is that line's baseline, and x is the caret offset `hit_test_line_position` gives for the position within the line's text |
| CairoText.ContiguousStarts | piet-cairo/src/text.rs:337-358 | lines laid end to end from offset 0 have non-decreasing start offsets, which is what the `binary_search` of `line_number_for_position` needs |
| CairoText.CairoTextLayout.constructor | piet-cairo/src/text.rs:182-254 | The layout `build` creates, invalid until its first `update_width`. |
| CairoText.CairoTextLayout.UpdateWidth | piet-cairo/src/text.rs:362-420 | `update_width`: breaks the text at the new width (none means infinite), adds the extra empty line, and recomputes the size. |
| CairoText.CairoTextLayout.LineText | piet-cairo/src/text.rs:280-284 | `line_text`: the whole line `n`, trailing whitespace included, or `None` past the last line. |
| CairoText.CairoTextLayout.HitTestPoint | piet-cairo/src/text.rs:294-335 | `hit_test_point`: the default for the empty text; otherwise the hit on the line chosen for `y`, never inside for a `y` outside the layout. |
| CairoText.CairoTextLayout.HitTestTextPosition | piet-cairo/src/text.rs:337-358 | for any valid layout and a position that clamps to a character boundary: the empty text gives (0, ascent) on line 0; otherwise the line starts at or before the clamped position with no later line starting before it, y is its baseline, and x is the caret offset of the position within that line's text |
| CairoText.Build | piet-cairo/src/text.rs:182-254 | `build`: resolves the font (an input here), creates the layout and runs `update_width` with the builder's width constraint; it always succeeds. |
| CairoText.CharCountMisplacesNonWsEnd | piet-cairo/src/text.rs:403-405 | As written, the width without trailing whitespace slices up to `end_offset - trailing_whitespace`, a byte offset less a character count: for the line `"a\u{3000}"` that offset, 3, falls inside the three-byte U+3000. |
| CairoText.NonWsEndIsBoundary | piet-cairo/src/text.rs:403-405 | Counted in bytes, as `NonWsWidth` does, the end of the non-whitespace part is always a character boundary of the line: where its trailing whitespace starts. |
| CgContext.FromCgImageAndYdir | piet-coregraphics/src/lib.rs:134-139 | `from_cgimage_and_ydir`: the image tagged with the context's y direction. |
| CgContext.AsCgImage | piet-coregraphics/src/lib.rs:140-145 | `as_cgimage`: the wrapped image, `None` for `Empty`. |
| CgContext.AsCgImageOfWrapped | piet-coregraphics/src/lib.rs:134-145 | Wrapping an image and unwrapping it gives it back. |
| CgContext.ImageSize | piet-coregraphics/src/lib.rs:536-546 | `Image::size`: `0 x 0` for `Empty`, otherwise the image's pixel size. |
| CgContext.ConvertLineJoin | piet-coregraphics/src/lib.rs:549-555 | `convert_line_join`: the limit of a miter join is not part of the join. |
| CgContext.ConvertLineCap | piet-coregraphics/src/lib.rs:557-563 | butt, round and square caps each map to exactly the CoreGraphics cap of the same name |
| CgContext.ConversionsOneToOne | piet-coregraphics/src/lib.rs:549-563 | Both conversions are onto, the cap conversion is one-to-one, and the join conversion is one-to-one up to the miter limit. |
| CgContext.StrokeCalls | piet-coregraphics/src/lib.rs:577-591 | The calls `set_stroke` makes for a width and an optional style (the default style when absent): width, join, cap, the miter limit only for a miter join, then the visible dash pattern and its offset. |
| CgContext.DefaultStrokeCalls | piet-coregraphics/src/lib.rs:577-591 | Without a style, `set_stroke` strokes with miter joins limited at 10, butt caps and no dashes. |
| CgContext.RoundNonNegative | piet-coregraphics/src/lib.rs:466-467 | Rounding half away from zero, as `f64::round` does on a non-negative value. |
| CgContext.CaptureRect | piet-coregraphics/src/lib.rs:428-505 | The rectangle `capture_image_area` maps through the current matrix: in a y-down context the caller's, in a y-up context the caller's with its y coordinates measured from the bottom edge at `height`. |
| CgContext.CoreGraphicsContext.constructor | piet-coregraphics/src/lib.rs:88-108 | `new_impl`: the CoreGraphics state is saved, a y-up context (one given a height) is flipped, and piet's own stack starts empty. |
| CgContext.CoreGraphicsContext.Save | piet-coregraphics/src/lib.rs:287-292 | `save`: CoreGraphics saves, and a copy of the top (the identity on an empty stack) is pushed. |
| CgContext.CoreGraphicsContext.Restore | piet-coregraphics/src/lib.rs:294-303 | `restore`: pops and only then restores CoreGraphics, which asserts on an unbalanced restore; on an empty stack it is `StackUnbalance` and CoreGraphics is not called. |
| CgContext.CoreGraphicsContext.Transform | piet-coregraphics/src/lib.rs:309-316 | `transform`: the top is multiplied by the transform in place; on an empty stack the transform itself is pushed. CoreGraphics is always told. |
| CgContext.CoreGraphicsContext.CurrentTransform | piet-coregraphics/src/lib.rs:516-518 | `current_transform`: the top of the stack, or the identity. |
| CgContext.CoreGraphicsContext.SetStroke | piet-coregraphics/src/lib.rs:577-591 | `set_stroke`: the stroke parameters are handed to CoreGraphics. |
| CgContext.CoreGraphicsContext.DrawImage | piet-coregraphics/src/lib.rs:365-408 | `draw_image`: nothing at all for `Empty`; otherwise CoreGraphics is saved, given the interpolation quality, asked to draw (flipped unless a y-up image goes to a y-down context) and restored. |
| CgContext.CoreGraphicsContext.MakeImageWithStride | piet-coregraphics/src/lib.rs:318-363 | `make_image_with_stride`: a surface without pixels is `Empty`; otherwise the rows are packed tightly (a buffer too short for them is `InvalidInput`) and wrapped with the context's y direction. The source asserts that a non-empty image comes with a non-empty buffer no longer than the tight size. |
| CgContext.CoreGraphicsContext.CaptureImageArea | piet-coregraphics/src/lib.rs:428-505 | `capture_image_area`. `deviceSize` is the size of a rectangle mapped through CoreGraphics' current matrix; `contextWidth` and `contextHeight` the context's pixel size; `fullImage` what CoreGraphics' `create_image` gives; `cropped` the image cropped to the area and redrawn at its size, `None` when cropping fails. A mapped area under one pixel in either dimension, or larger than the context, is `InvalidInput`; an area of the context's size (after rounding) is the full image. |
| CgContext.Quality | piet-coregraphics/src/lib.rs:386-391 | nearest-neighbour interpolation exactly is CoreGraphics' quality None |
| CgContext.NestedTransforms | piet-coregraphics/src/lib.rs:715-745 | The nested save/transform/restore sequence of the y-up context: the current transform after each step, and the final restore leaving the stack empty. |
| CgContext.CaptureChecks | piet-coregraphics/src/lib.rs:749-765 | The size checks of the capture test on a 400 x 400 y-down context whose matrix keeps sizes: an empty area and an area 500 wide are refused. |
| CgTarget.CopiedRowAt | piet-common/src/cg_back.rs:150-156 | Row `y` of the padding-free copy, at `y * width * 4`, is the `width * 4` bytes of the context's data from `y * stride`. |
| CgTarget.CopyRowAt | piet-common/src/cg_back.rs:150-156 | One step of the loop over rows: row `y` of the data (`width * 4` bytes from `y * stride`) is copied to `y * width * 4`, after the rows already copied. |
| CgTarget.CopyRows | piet-common/src/cg_back.rs:148-156 | The loop over rows: the first `width * height * 4` bytes of `buf` become the rows without padding and the rest are kept. |
| CgTarget.CopyRawPixels | piet-common/src/cg_back.rs:130-161 | `BitmapTarget::copy_raw_pixels`. Any format but premultiplied RGBA is `NotSupported` and a buffer shorter than `width * height * 4` is `InvalidInput`, with `buf` untouched. When the context's stride is not `width * 4`, the first `width * height * 4` bytes of `buf` become its rows without padding (see `CopiedRowAt`) and the rest of `buf` is kept; when it is, the whole of `data` is copied over `buf`, which `copy_from_slice` only allows when the two have the same length. Either way `width * height * 4` is returned. |
| CgTarget.TightPacked | piet-common/src/cg_back.rs:157-159 | Rows `rowSize` bytes apart, taken without padding, are the bytes they span: a tightly packed context's data is its own padding-free copy, so both branches of `copy_raw_pixels` give the same pixels. |
| CgTarget.ToImageBuf | piet-common/src/cg_back.rs:117-123 | `BitmapTarget::to_image_buf`: a zeroed buffer of exactly `width * height * 4` bytes is filled by `copy_raw_pixels` and becomes an `ImageBuf` of the context's size holding its rows without padding, or the copy's error is returned. |
| CgTarget.CopiedWholeBuffer | piet-common/src/cg_back.rs:130-161 | A buffer of exactly `width * height * 4` bytes that `copy_raw_pixels` filled holds the rows without padding, whichever branch copied them. |
| Colors.AsRgba32 | piet/src/color.rs:48-52 | as_rgba32 inverts rgba32: the colour rebuilt from the value returned is the colour |
| Colors.Pack | piet/src/color.rs:33 | packing puts red in the top byte, then green, then blue, and alpha in the low byte |
| Colors.Rgb24 | piet/src/color.rs:20-22 | `Color::rgb24`: `rgb << 8` on `u32`, or-ed with `0xff`; the shift drops the top byte of `rgb` and leaves the low byte zero, so the or adds `0xff` as the alpha. |
| Colors.ShiftLeft8 | piet/src/color.rs:21 | a left shift by 8 on u32 drops the top byte of the value |
| Colors.ChannelByte | piet/src/color.rs:29-32 | a channel at or below 0.0 becomes byte 0 and one at or above 1.0 byte 255 |
| Colors.Rgba | piet/src/color.rs:28-34 | `Color::rgba`. |
| Colors.Rgb | piet/src/color.rs:40-45 | `Color::rgb`: like `Rgba` with alpha fixed at `0xff`. |
| Colors.NamedColors | piet/src/color.rs:54-58 | Both named colours are opaque; white has every channel at full intensity, black none. |
| Colors.NamedColorsAreRgb | piet/src/color.rs:40-58 | They are the opaque colours with all channels at 1.0 and at 0.0. |
| D2DContext.SinkCallsStep | piet-direct2d/src/lib.rs:103-126 | The calls for the elements from `i` on are those of element `i`, then those for the rest. |
| D2DContext.PathFromShape | piet-direct2d/src/lib.rs:93-132 | `path_from_shape`: the path geometry and its sink are created and opened, the sink gets the fill mode and the figures, and is closed; the first of these to fail gives the error. |
| D2DContext.WriteFigures | piet-direct2d/src/lib.rs:93-132 | The loop of `path_from_shape`: one pass over the elements with a `need_close` flag, writing into the sink as it goes, and the `end_figure(false)` for a figure still open at the end. |
| D2DContext.EmittedStep | piet-direct2d/src/lib.rs:103-126 | one element written into the sink extends what the loop has written by that element's calls and updates the need_close flag |
| D2DContext.EmittedAll | piet-direct2d/src/lib.rs:127-129 | after the last element, the closing end_figure(false) for a figure left open completes the sink's calls |
| D2DContext.FiguresNest | piet-direct2d/src/lib.rs:93-132 | The figures `path_from_shape` writes nest exactly when no `ClosePath` comes outside a figure: a `ClosePath` with no figure open makes an `end_figure` that no `begin_figure` opened. |
| D2DContext.ClosedFiguresAreClosePaths | piet-direct2d/src/lib.rs:103-129 | Exactly the `ClosePath` elements end a figure closed: a new `MoveTo` and the end of the path end figures open. |
| D2DContext.SegmentsPassThrough | piet-direct2d/src/lib.rs:103-129 | Every segment reaches the sink once, in the order of the path. |
| D2DContext.DrawnElement | piet-direct2d/src/lib.rs:104-125 | What one element makes, less its figure starts and ends, is its segment. |
| D2DContext.AlphaModeFor | piet-direct2d/src/lib.rs:335-339 | grayscale, exactly, has no alpha mode and is `NotSupported`; RGB, exactly, gets the ignore mode and the RGBA formats the premultiplied one |
| D2DContext.ConvertedPixel | piet-direct2d/src/lib.rs:340-366 | every converted pixel is four bytes |
| D2DContext.ConvertedPixels | piet-direct2d/src/lib.rs:340-366 | n converted pixels are 4n bytes |
| D2DContext.ConvertedPixelsPrefix | piet-direct2d/src/lib.rs:340-366 | The first `m` converted pixels begin the first `n`. |
| D2DContext.ConvertedPixelAt | piet-direct2d/src/lib.rs:340-366 | Pixel `i` of the converted buffer is the converted pixel `i`. |
| D2DContext.ConvertedPixelIs | piet-direct2d/src/lib.rs:341-365 | An RGB pixel of the converted buffer copies the three colour bytes and is opaque; a separate-alpha pixel is premultiplied and keeps its alpha. |
| D2DContext.OpaqueSeparateUnchanged | piet-direct2d/src/lib.rs:353-362 | An opaque separate-alpha pixel passes through the premultiplication unchanged. |
| D2DContext.Opaque | piet-direct2d/src/lib.rs:342 | A fresh buffer of `4 * n` bytes set to 255: `vec![255; width * height * 4]`. |
| D2DContext.ExpandRgb | piet-direct2d/src/lib.rs:341-348 | The `Rgb` loop: copies each pixel's three colour bytes, leaving the 255 after them. |
| D2DContext.CopyRgb | piet-direct2d/src/lib.rs:343-347 | One pixel of the `Rgb` loop. |
| D2DContext.PremultiplySeparate | piet-direct2d/src/lib.rs:350-365 | The `RgbaSeparate` loop: premultiplies each pixel's colour bytes and copies its alpha. |
| D2DContext.PremultiplyPixel | piet-direct2d/src/lib.rs:357-363 | One pixel of the `RgbaSeparate` loop. |
| D2DContext.PopLayers | piet-direct2d/src/lib.rs:81-83 | n pop_layer calls, nothing else |
| D2DContext.D2DRenderContext.constructor | piet-direct2d/src/lib.rs:63-76 | `D2DRenderContext::new`: one default state and no pending error. |
| D2DContext.D2DRenderContext.PopState | piet-direct2d/src/lib.rs:78-84 | `pop_state`: drops the top state and pops the layers its clips pushed. |
| D2DContext.D2DRenderContext.Status | piet-direct2d/src/lib.rs:143-145 | `status`: the pending error, which is reset. |
| D2DContext.D2DRenderContext.CurrentTransform | piet-direct2d/src/lib.rs:322-325 | `current_transform`: the top state's transform. |
| D2DContext.D2DRenderContext.Save | piet-direct2d/src/lib.rs:285-292 | `save`: pushes a state with the current transform and no layers. |
| D2DContext.D2DRenderContext.Restore | piet-direct2d/src/lib.rs:294-303 | `restore`: `StackUnbalance` with one state or none, leaving everything as it was; otherwise the top state goes, with its layers, and the device gets the transform now current. |
| D2DContext.D2DRenderContext.Finish | piet-direct2d/src/lib.rs:308-314 | `finish`: `StackUnbalance` unless exactly one state is left; otherwise it goes, with its layers, and the pending error is returned and reset. |
| D2DContext.D2DRenderContext.Transform | piet-direct2d/src/lib.rs:316-320 | `transform`: the top transform is multiplied by `t`, and the device told. |
| D2DContext.D2DRenderContext.Clip | piet-direct2d/src/lib.rs:238-256 | `clip`: a failure to create the layer or the path is stored in `err` and changes nothing else; otherwise the path's layer is pushed and the top state counts one more layer to pop. |
| D2DContext.D2DRenderContext.Fill | piet-direct2d/src/lib.rs:184-191 | `fill`: the path under the non-zero rule, or its error stored in `err`. |
| D2DContext.D2DRenderContext.FillEvenOdd | piet-direct2d/src/lib.rs:193-200 | `fill_even_odd`: the path under the even-odd rule, or its error stored in `err`. |
| D2DContext.D2DRenderContext.Stroke | piet-direct2d/src/lib.rs:202-214 | `stroke`: the unfilled path drawn at `width`, or its error stored in `err`. |
| D2DContext.D2DRenderContext.MakeImage | piet-direct2d/src/lib.rs:327-372 | `make_image`: the alpha mode is chosen first (`NotSupported` for grayscale), then the buffer converted, then the bitmap created. |
| D2DContext.D2DRenderContext.DrawImage | piet-direct2d/src/lib.rs:374-386 | `draw_image`: the bitmap drawn at full opacity with the matching interpolation. |
| D2DContext.D2DRenderContext.ClipWithinSave | piet-direct2d/src/lib.rs:285-292 | A clip inside a `save`/`restore` pair is undone by the `restore`: the states are as before, and the one layer the clip pushed is popped. |
| D2DContext.Interpolation | piet-direct2d/src/lib.rs:374-386 | The interpolation mode `draw_image` hands to `draw_bitmap`. |
| D2DLines.Scan | piet-direct2d/src/text/lines.rs:8-32 | the scan yields one metric per raw line |
| D2DLines.ScanAt | piet-direct2d/src/text/lines.rs:10-31 | Line `k` of the scan starts after the lengths of the lines before it, ends `length` bytes later, has as running height the heights up to and including its own, and copies its other fields from raw line `k`. |
| D2DLines.FetchLineMetricsAt | piet-direct2d/src/text/lines.rs:4-35 | One metric per raw metric, in order, with offsets and heights accumulated from the start. |
| D2DLines.FetchLineMetricsContiguous | piet-direct2d/src/text/lines.rs:4-35 | The metrics tile the text: line 0 starts at 0, each line starts where the previous one ended, and each is `length` bytes long. |
| D2DLines.SmallWidthExample | piet-direct2d/src/text/lines.rs:73-109 | `"piet text most best"` at width 30: DirectWrite reports four lines of lengths 5, 5, 5, 4 with one trailing space on all but the last, each 15.9609375 high; the metrics are `[0,5)`, `[5,10)`, `[10,15)`, `[15,19)` with the running heights of one to four lines. |
| D2DText.HitFromDWrite | piet-direct2d/src/text.rs:140-175 | The hit `hit_test_point` reports for DirectWrite's answer: the UTF-8 offset of the byte at which the UTF-16 count passes the (rounded) position, or `text.len()` when the text ends first. |
| D2DText.LineTextOf | piet-direct2d/src/text.rs:126-130 | `line_text`: line `n` without its trailing whitespace, `None` past the last line. |
| D2DText.SmallWidthLineText | piet-direct2d/src/text.rs:126-130 | On a 19-byte ASCII text such as `"piet text most best"` laid out at width 30, line `k` reads the four bytes from `5 * k`, without the space after them, and there is no fifth line. |
| D2DText.D2DTextLayout.constructor | piet-direct2d/src/text.rs:102-108 | the layout holds the text and the line metrics DirectWrite reports at the given width |
| D2DText.D2DTextLayout.UpdateWidth | piet-direct2d/src/text.rs:119-124 | if DirectWrite takes the new maximum width the metrics are those it reports at that width; if it fails, the result is `BackendError` and neither the width nor the metrics change; validity is kept either way |
| D2DText.Build | piet-direct2d/src/text.rs:99-109 | if DirectWrite cannot create the layout the result is `BackendError`; otherwise a fresh valid layout holding the text and the metrics DirectWrite reports at the builder's width |
| D2DText.D2DTextLayout.LineText | piet-direct2d/src/text.rs:126-130 | `line_text`. |
| D2DText.D2DTextLayout.LineCount | piet-direct2d/src/text.rs:136-138 | `line_count`: one line per line DirectWrite reported. |
| D2DText.D2DTextLayout.HitTestPoint | piet-direct2d/src/text.rs:140-175 | `hit_test_point`: DirectWrite is asked at `y` moved down by the first line's baseline (0 without lines), and its UTF-16 answer is turned into a UTF-8 offset. |
| D2DText.D2DTextLayout.HitTestTextPosition | piet-direct2d/src/text.rs:178-208 | `hit_test_text_position`: the UTF-16 length of the text before `textPosition` is handed to DirectWrite, `None` when it does not fit in a `u32`; the point is DirectWrite's and the position the caller's. The source panics off a character boundary, which is required here. |
| Flatten.Advance | cpu-sparse/src/flatten.rs:29-49 | a move sets both the subpath start and the current point, a line moves only the current point, a close leaves both |
| Flatten.LinesFor | cpu-sparse/src/flatten.rs:29-49 | The segments the callback appends for one element: a line goes from the current point to its end; a close goes back to the subpath start, unless the scaled current point already is the scaled start. |
| Flatten.FillLines | cpu-sparse/src/flatten.rs:24-51 | The segments `fill` appends for the flattened path `els`: at most one per element, every one tagged `pathIx`. |
| Flatten.StrokeLines | cpu-sparse/src/flatten.rs:53-64 | The segments `stroke` appends for the stroke outline `outline`: one per line, in order, scaled. |
| Flatten.PathIndex | cpu-sparse/src/flatten.rs:26 | the index is a u32, and equals the colour count whenever that fits in a u32 |
| Flatten.FillLinesSnoc | cpu-sparse/src/flatten.rs:29-49 | One more element: its segments come after the earlier ones, from the point they left. |
| Flatten.ClosedTriangle | cpu-sparse/src/flatten.rs:42-48 | A closed triangle whose last corner is not its first yields its three sides in order, the closing side last. |
| Flatten.ReturningPath | cpu-sparse/src/flatten.rs:42-48 | A subpath drawn back to its first point before the close yields only the sides drawn: the close adds nothing. |
| Flatten.SoupBowl.constructor | cpu-sparse/src/flatten.rs:12-16 | `SoupBowl::default()`: an empty bowl. |
| Flatten.SoupBowl.Fill | cpu-sparse/src/flatten.rs:24-51 | `fill`: the path's index is the colour count on entry; the segments of `els` (see `FillLines`) are appended to the ones already there and the path's colour, already premultiplied, after the colours already there. A bowl holding fewer than 2^32 colours stays valid. |
| Flatten.SoupBowl.Stroke | cpu-sparse/src/flatten.rs:53-64 | `stroke`: the path's index is the colour count on entry; the lines of the stroke outline are appended, scaled and tagged, after the segments already there, and the colour after the colours. |
| Flatten.FillTwice | cpu-sparse/src/flatten.rs:24-51 | Two paths filled one after the other into an empty bowl get indices 0 and 1: the first path's segments come first and the colours are in order. |
| Font.NewUnchecked | piet/src/font.rs:64-66 | `FontFamily::new_unchecked`: a named family, whatever the string says. |
| Font.GenericNamesDistinct | piet/src/font.rs:68-76 | The four generic families have four different names, so `name` identifies a generic family. |
| Font.New | piet/src/font.rs:117-120 | `FontWeight::new`: `raw.min(1000).max(1)`. |
| Font.NewIdempotent | piet/src/font.rs:117-120 | Clamping is idempotent: a weight built by `new` survives a round trip through `to_raw`. |
| Font.WeightsOrdered | piet/src/font.rs:91-112 | The named weights strictly increase and every alias equals its target. |
| GenericRecord.CallFor | piet-next/src/generic_record.rs:35-42 | The call `play` makes for one command. |
| GenericRecord.Replayed | piet-next/src/generic_record.rs:35-42 | The calls `play` makes for a list of commands: one per command, in order. |
| GenericRecord.ReplayedConcat | piet-next/src/generic_record.rs:35-42 | Replaying two recordings one after the other makes the calls of replaying them joined, so recording and then playing draws what drawing directly would have. |
| GenericRecord.Target.constructor | piet-next/src/generic_record.rs:35 | a context to play onto starts with no calls made on it |
| GenericRecord.Target.Fill | piet-next/src/generic_record.rs:38 | a fill on the context is one more fill call, after the earlier ones |
| GenericRecord.Target.DrawImage | piet-next/src/generic_record.rs:39 | an image draw on the context is one more image call, after the earlier ones |
| GenericRecord.GenericRecorder.constructor | piet-next/src/generic_record.rs:30-33 | `GenericRecorder::new`, and `GenericResources::record`: a recorder with no commands. |
| GenericRecord.GenericRecorder.Fill | piet-next/src/generic_record.rs:52-54 | `fill`: one `Fill` command is appended; the earlier ones stay as they were. |
| GenericRecord.GenericRecorder.DrawImage | piet-next/src/generic_record.rs:60-68 | `draw_image`: one `Image` command is appended; the earlier ones stay as they were. |
| GenericRecord.GenericRecorder.Finish | piet-next/src/generic_record.rs:136-139 | `finish`: the commands are taken out of the recorder (which is left empty) and returned, in order, as a new recording. |
| GenericRecord.GenericRecorder.Play | piet-next/src/generic_record.rs:35-42 | `play`: each command becomes its call on `ctx`, in recorded order. |
| GenericRecord.RecordAndPlay | piet-next/src/generic_record.rs:30-139 | A fill and an image draw recorded, finished and played onto a context reach it as the same two calls, in the same order. |
| Graphemes.LastStartOfContaining | piet-cairo/src/text.rs:515-521 | On increasing starts, the last start not after `pos` is the start of the cluster holding it. |
| Graphemes.ContainingCluster | piet-cairo/src/text/grapheme.rs:14-16 | Every offset inside a segmented text lies in exactly one cluster. |
| Hex.HexDigits | piet-svg/src/lib.rs:677 | n lowest hex digits are n hex-digit characters |
| Hex.HexRoundTrip | piet-svg/src/lib.rs:677 | round trip: a value below 16^n is read back from its n hex digits |
| Hex.HexColor | piet-svg/src/lib.rs:677 | the colour is # and six hex digits, which read back as the colour without its alpha byte |
| LineBreaking.StepSoftFits | piet-cairo/src/text/lines.rs:100-103 | A soft break at which the pending line still fits only moves `prev_break`. |
| LineBreaking.StepSoftWide | piet-cairo/src/text/lines.rs:48-99 | A soft break that makes the pending line too wide closes it at `pb`, and when the run from `pb` on is too wide as well, closes that run too. |
| LineBreaking.StepHard | piet-cairo/src/text/lines.rs:104-146 | A hard break closes the pending line at the break, first splitting it at `prev_break` if it is too wide. |
| LineBreaking.SoftWideFirst | piet-cairo/src/text/lines.rs:58-71 | A soft break that makes the pending line too wide: the line up to `prev_break` (or to the break). |
| LineBreaking.SoftWideSecond | piet-cairo/src/text/lines.rs:79-94 | The run from `prev_break` to a soft break, emitted when it alone is too wide. |
| LineBreaking.SoftWideEmitted | piet-cairo/src/text/lines.rs:48-99 | The lines emitted for a soft break that makes the pending line too wide. |
| LineBreaking.HardSplitFirst | piet-cairo/src/text/lines.rs:112-131 | A hard break ending a line that is too wide: the part up to `prev_break`. |
| LineBreaking.HardLast | piet-cairo/src/text/lines.rs:134-143 | The line a hard break closes, from `start` (`line_start`, or `prev_break` after a split). |
| LineBreaking.HardEmitted | piet-cairo/src/text/lines.rs:104-146 | The lines emitted for a hard break: the last of them ends at the break. |
| LineBreaking.StepInv | piet-cairo/src/text/lines.rs:42-147 | each turn of the break loop keeps the loop invariant: the lines so far are contiguous, end at reported breaks, fit or are a single word, and every hard break seen ends a line |
| LineBreaking.RunInv | piet-cairo/src/text/lines.rs:42-147 | The invariant holds after every prefix of the break sequence. |
| LineBreaking.SpansProperties | piet-cairo/src/text/lines.rs:6-150 | The lines of `calculate_line_metrics`: contiguous from offset 0, each ending at a reported break; every hard break ends a line; every line either fits the width or is a single unbreakable word; and a line ends at a soft break only when it is too wide or extending it to the next break would make it too wide. |
| LineBreaking.FinalLineStart | piet-cairo/src/text/lines.rs:144-149 | After the loop, `line_start` is where the last line ended, and when the final opportunity is a hard break the last line ends exactly there. |
| LineBreaking.CountTrailingWhitespace | piet-cairo/src/text/lines.rs:179-181 | the number of whitespace characters that end the line, counted from its last character backwards up to the first non-whitespace one. |
| LineBreaking.TrailingBytesOfSuffix | piet-web/src/text/lines.rs:210-215 | It is the UTF-8 length of the whitespace suffix that the character count delimits. |
| LineBreaking.TrailingBytesAtLeastChars | piet-web/src/text/lines.rs:210-215 | Counted in bytes, the trailing whitespace is at least as long as in characters, and equal on ASCII text. |
| Mondrian.SplitCountFor | piet-common/examples/mondrian.rs:26 | the split count of `main` is the floor of `(width + height) * 0.01` |
| Mondrian.IntersectX | piet-common/examples/mondrian.rs:156-184 | two pieces exactly when `x0 + min_gap < x < x1 - min_gap` and the draw is at most `1 - skip_prob`, cut at `x`, both wider than `min_gap`; otherwise the rectangle itself; pieces keep the colour and the y-range |
| Mondrian.IntersectY | piet-common/examples/mondrian.rs:187-215 | the same rule on the y axis, keeping the x-range |
| Mondrian.Intersect | piet-common/examples/mondrian.rs:150-153 | 1 to 4 pieces, all of the rectangle's colour |
| Mondrian.SplitAll | piet-common/examples/mondrian.rs:98-101 | a round never lowers the rectangle count and at most quadruples it |
| Mondrian.SplitAllKeepsColour | piet-common/examples/mondrian.rs:98-101 | a round of rectangles sharing one colour gives rectangles of that colour |
| Mondrian.IntersectXTiles | piet-common/examples/mondrian.rs:156-184 | for `min_gap >= 0`, every point of the rectangle lies in exactly one piece and no other point in any |
| Mondrian.IntersectYTiles | piet-common/examples/mondrian.rs:187-215 | the same tiling for the y split |
| Mondrian.IntersectTiles | piet-common/examples/mondrian.rs:150-153 | the pieces of `intersect` tile the rectangle |
| Mondrian.SplitAllTiles | piet-common/examples/mondrian.rs:98-101 | a round covers every point exactly as many times as the rectangles before it |
| Mondrian.HitsConcat | piet-common/examples/mondrian.rs:98-101 | covering counts add up over concatenated lists, as `flat_map(..).collect()` concatenates |
| Mondrian.Inset | piet-common/examples/mondrian.rs:87 | the starting rectangle's sides are the picture's sides grown by the (negative) inset on each end |
| Mondrian.Start | piet-common/examples/mondrian.rs:85-88 | the starting rectangle is white |
| Mondrian.NextRound | piet-common/examples/mondrian.rs:92-102 | a round of `generate` never lowers the rectangle count |
| Mondrian.SplitRounds | piet-common/examples/mondrian.rs:85-102 | after any number of rounds there is at least one rectangle (so the colouring loop may index 0) |
| Mondrian.SplitRoundsTile | piet-common/examples/mondrian.rs:85-102 | after the rounds, every point of the starting rectangle lies in exactly one rectangle and no other point in any |
| Mondrian.NextRoundTiles | piet-common/examples/mondrian.rs:92-102 | one round keeps how often each point is covered |
| Mondrian.SplitRoundsWhite | piet-common/examples/mondrian.rs:85-102 | every rectangle is still white when the colouring begins |
| Mondrian.RoundsNeverShrink | piet-common/examples/mondrian.rs:92-102 | the rectangle count after `j + 1` rounds is at least the count after `j` |
| Mondrian.Expand | piet-common/examples/mondrian.rs:120-129 | the colours handed out number the sum of the counts, and each is a palette colour |
| Mondrian.ExpandPrefix | piet-common/examples/mondrian.rs:120-129 | the colours of the first `j` palette entries are handed out before the rest |
| Mondrian.ExpandStep | piet-common/examples/mondrian.rs:120-121 | palette entry `j` hands out `counts[j]` copies of its colour after those of the entries before it |
| Mondrian.Recolour | piet-common/examples/mondrian.rs:122 | colouring keeps the number of rectangles |
| Mondrian.ColouringUsesPalette | piet-common/examples/mondrian.rs:120-129 | colouring changes no rectangle's geometry, gives every changed rectangle a palette colour, and leaves every rectangle past the sum of the counts as it was |
| Mondrian.RecolourPrefix | piet-common/examples/mondrian.rs:124-127 | stopping once every rectangle has a colour gives the same result as handing out the rest, so the early `break 'a` loses nothing |
| Mondrian.RecolourStep | piet-common/examples/mondrian.rs:122-123 | handing out one more colour recolours exactly the next rectangle |
| Mondrian.ColourIn | piet-common/examples/mondrian.rs:110-129 | the colouring loop, which never indexes past the rectangles, gives the rectangles recoloured from the front in hand-out order |
| Mondrian.FillsBeforeStrokes | piet-common/examples/mondrian.rs:131-137 | every rectangle is filled with its colour before any is stroked, and every stroke is black at the stroke width |
| Mondrian.SplitLoop | piet-common/examples/mondrian.rs:85-102 | the splitting loop gives the rectangles of the rounds |
| Mondrian.PaintAll | piet-common/examples/mondrian.rs:131-137 | the two passes make the fill calls, then the stroke calls |
| Mondrian.Generate | piet-common/examples/mondrian.rs:83-138 | the calls of `generate` are the painting of the split rectangles, coloured and then filled and stroked in split order (the source shuffles them first) |
| Pathfinder.Path2D.constructor | piet-pathfinder/src/lib.rs:300 | a new path holds no calls |
| Pathfinder.Path2D.Push | piet-pathfinder/src/lib.rs:322-341 | each call on the path appends exactly one operation |
| Pathfinder.LastMoveTo | piet-pathfinder/src/lib.rs:323-329 | The point of the last `MoveTo` among `els`, or the origin when there is none. |
| Pathfinder.PathOps | piet-pathfinder/src/lib.rs:322-341 | one path call per element |
| Pathfinder.PathOpsAt | piet-pathfinder/src/lib.rs:322-341 | `path_el_iter` element by element: one path call per element, in order; `MoveTo`, `LineTo`, `QuadTo` and `CurveTo` map to the matching call with the same points, and `ClosePath` to a line to the point of the last `MoveTo` before it, or to the origin when there was none. |
| Pathfinder.CloseReturnsToMove | piet-pathfinder/src/lib.rs:338 | A close after a move goes back to that move's point, whatever lies between without a move. |
| Pathfinder.PathElIter | piet-pathfinder/src/lib.rs:322-341 | `path_el_iter`: the loop keeps the point of the last `MoveTo` (the origin at first) and makes one call on `path` per element. |
| Pathfinder.ShapeOps | piet-pathfinder/src/lib.rs:299-320 | The calls `shape_to_path2d` makes on a new path: the first view present among line, rectangle, circle and path slice decides, and only a shape with none of them is flattened. |
| Pathfinder.ShapeToPath2d | piet-pathfinder/src/lib.rs:299-320 | `shape_to_path2d`: a new path holding the calls `ShapeOps` names. |
| Pathfinder.MakeImage | piet-pathfinder/src/lib.rs:129-147 | `make_image`: only separate-alpha RGBA is supported; a width or height that does not fit a `u32` is `NotSupported` as well; a buffer too short for `width * height` pixels of four bytes makes `RgbaImage::from_raw` fail, which is `InvalidInput`; otherwise the image holds the buffer as given. |
| Pathfinder.MapColor | piet-pathfinder/src/lib.rs:294-297 | `map_color`: the colour's bytes red, green, blue and alpha, from `as_rgba_u8`. |
| Pathfinder.MapColorOfPacked | piet-pathfinder/src/lib.rs:294-297 | A colour packed from four bytes maps back to those bytes. |
| Pathfinder.InterpolationCalls | piet-pathfinder/src/lib.rs:396-407 | The calls `set_interpolation` makes: nearest-neighbour turns image smoothing off; bilinear turns it on at `Low` quality. |
| Pathfinder.PfContext.constructor | piet-pathfinder/src/lib.rs:25-27 | `PfContext::new`, over a canvas on which `calls` were already made. |
| Pathfinder.PfContext.Status | piet-pathfinder/src/lib.rs:36-38 | `status` and `finish`: nothing can fail. |
| Pathfinder.PfContext.SolidBrush | piet-pathfinder/src/lib.rs:40-42 | `solid_brush`: a colour fill of the colour's bytes. |
| Pathfinder.PfContext.Clear | piet-pathfinder/src/lib.rs:51-59 | `clear`: a rectangle the size of the canvas (`canvasSize`), filled with the colour. |
| Pathfinder.PfContext.Stroke | piet-pathfinder/src/lib.rs:61-66 | `stroke`: the brush and width are set, then the shape's path is stroked. |
| Pathfinder.PfContext.Fill | piet-pathfinder/src/lib.rs:78-83 | `fill`: the brush is set, then the shape's path is filled with the non-zero winding rule. |
| Pathfinder.PfContext.FillEvenOdd | piet-pathfinder/src/lib.rs:85-90 | `fill_even_odd`: as `fill`, with the even-odd rule. |
| Pathfinder.PfContext.Clip | piet-pathfinder/src/lib.rs:92-95 | `clip`: the canvas clips to the shape's path, non-zero winding. |
| Pathfinder.PfContext.Save | piet-pathfinder/src/lib.rs:110-113 | `save`: the canvas saves its state; it cannot fail. |
| Pathfinder.PfContext.Restore | piet-pathfinder/src/lib.rs:115-118 | `restore`: the canvas restores its state; it cannot fail. |
| Pathfinder.PfContext.SetInterpolation | piet-pathfinder/src/lib.rs:396-407 | `set_interpolation`. |
| Pathfinder.PfContext.DrawImage | piet-pathfinder/src/lib.rs:149-158 | `draw_image`: the interpolation is set first, then the image is drawn into `dstRect`. |
| Pathfinder.PfContext.DrawImageArea | piet-pathfinder/src/lib.rs:160-173 | `draw_image_area`: as `draw_image`, drawing the part `srcRect` of the image. |
| PathfinderText.NewTextLayout | piet-pathfinder/src/text.rs:130-135 | `PfText::new_text_layout`: the text, with every setting unset. |
| PathfinderText.Resolve | piet-pathfinder/src/text.rs:17-24 | `resolve`: an unset font is the default 12-point one, an unset colour black and an unset width `f64::INFINITY`; set ones and the text are kept. |
| PathfinderText.MaxWidth | piet-pathfinder/src/text.rs:31-33 | `max_width`: ignored; the builder comes back as it was. |
| PathfinderText.Alignment | piet-pathfinder/src/text.rs:35-37 | `alignment`: ignored. |
| PathfinderText.RangeAttribute | piet-pathfinder/src/text.rs:48-54 | `range_attribute`: ignored, whatever the range. |
| PathfinderText.Font | piet-pathfinder/src/text.rs:60-62 | `font`: ignored, font and size alike. |
| PathfinderText.DefaultAttribute | piet-pathfinder/src/text.rs:39-46 | `default_attribute`: a size sets the font (a font of that size), a foreground colour sets the colour, and nothing else changes. Every other attribute reaches `todo!()`, which the source leaves to its callers to avoid. |
| PathfinderText.Build | piet-pathfinder/src/text.rs:56-58 | `build`: the resolved layout; building never fails. |
| PathfinderText.FreshLayoutDefaults | piet-pathfinder/src/text.rs:130-135 | A layout built straight from `new_text_layout` has the given text, the default 12-point font, black, and no width constraint; since `max_width` is ignored, the width stays unconstrained whatever is asked. |
| PathfinderText.SettingsReachLayout | piet-pathfinder/src/text.rs:39-58 | Setting a size and a colour reaches the built layout; the last setting of each wins. |
| PathfinderText.NewFontByName | piet-pathfinder/src/text.rs:119-124 | `PfText::new_font_by_name`: the name is ignored and the size kept. |
| PathfinderText.BuildFont | piet-pathfinder/src/text.rs:56-58 | `PfFontBuilder::build`: a font of the builder's size; it never fails. |
| PathfinderText.FontByNameKeepsSize | piet-pathfinder/src/text.rs:119-124 | A font made by name has the size it was asked for, whatever the name. |
| PietTypes.BytesPerPixel | piet/src/util.rs:266-267 | every format has one to four bytes per pixel, four exactly for the two RGBA formats |
| PietTypes.MaxOf | piet-cairo/src/text.rs:411 | The larger of `acc` and every element of `xs`: the `fold(acc, f64::max)` the text layouts apply to their line widths. |
| Pixels.PremulIs | piet-cairo/src/lib.rs:283-286 | the premultiplication never leaves u16: alpha 0 gives 0, alpha 255 keeps the channel, and the result is at most both the channel and the alpha |
| Pixels.RgbPixel | piet-direct2d/src/lib.rs:342-347 | an RGB pixel becomes its three colour bytes followed by an opaque alpha |
| Samples.Get | piet/src/samples/mod.rs:46-67 | samples 0 to 16 exist and carry their number; any other number is the error `NoSample(number)` |
| Samples.FromEnv | piet/src/samples/mod.rs:184-203 | a command line with none of help, all, number and compare is `InvalidSampleArgs`; otherwise the flags are kept, the output directory defaults to `.` and the scale to 2 |
| Samples.SampleRunner.Run | piet/src/samples/mod.rs:213 | running sample `n` records the call and fails with `outcome(n)` when that is set |
| Samples.FailuresFirst | piet/src/samples/mod.rs:211-216 | the collected failures are empty exactly when every sample succeeded; otherwise the first collected is the first sample that failed |
| Samples.RunAll | piet/src/samples/mod.rs:210-226 | every sample 0 to 16 is run in order whatever fails; `Ok` exactly when none failed, otherwise the error of the first that failed |
| Samples.Decimal | piet/src/samples/mod.rs:234 | a decimal numeral is non-empty and all digits |
| Samples.Pad2 | piet/src/samples/mod.rs:234 | `{number:0>2}` is at least two characters, all digits |
| Samples.DecimalValue | piet/src/samples/mod.rs:234 | reading a decimal numeral back gives the number written |
| Samples.Pad2Value | piet/src/samples/mod.rs:234 | reading a zero-padded numeral back gives the number written |
| Samples.ParsePad2 | piet/src/samples/mod.rs:234 | `parse::<usize>` of the padded numeral of a 64-bit number gives the number |
| Samples.GetFilename | piet/src/samples/mod.rs:228-237 | the name is `prefix-NN-S.png`, or `prefix-NN-S-diff.png` for a difference image |
| Samples.LastIndex | piet/src/samples/mod.rs:379-384 | the index found holds the character and none follows it; none found means the character is absent |
| Samples.LastIndexJoin | piet/src/samples/mod.rs:384 | the last separator of `a + c + b`, with no `c` in `b`, is at the length of `a` |
| Samples.FileStem | piet/src/samples/mod.rs:379 | a stem is a prefix of the file name |
| Samples.SecondLastField | piet/src/samples/mod.rs:384 | `split('-').nth_back(1)` yields a field without `-` |
| Samples.ParseUsize | piet/src/samples/mod.rs:385 | a parsed number fits in 64 bits, and the empty string does not parse |
| Samples.ExtractNumber | piet/src/samples/mod.rs:378-386 | a number is only extracted from a name whose stem ends with the suffix |
| Samples.StemBeforeExtension | piet/src/samples/mod.rs:379 | the stem of `stem.ext`, `ext` without a dot, is `stem` |
| Samples.EndsWithAppended | piet/src/samples/mod.rs:381 | a string ends with what was appended to it |
| Samples.FieldBeforeLast | piet/src/samples/mod.rs:384 | the field before the last `-` of `prefix-field-last` is `field` when neither holds a `-` |
| Samples.FieldsHaveNoDash | piet/src/samples/mod.rs:234 | the padded number and the scale text hold no `-`, and the scale text ends in a digit |
| Samples.StemOfSampleName | piet/src/samples/mod.rs:379-381 | the stem of `front-S.png` is `front-S`, which ends with `-S` |
| Samples.ExtractNumberOf | piet/src/samples/mod.rs:378-386 | for a stem ending with the suffix, the result is the parse of the second-to-last field |
| Samples.ExtractOfParts | piet/src/samples/mod.rs:378-386 | `extract_number` of `prefix-field-S.png` with suffix `-S` is the parse of `field` |
| Samples.ExtractFromFilename | piet/src/samples/mod.rs:228-237 | round trip: `extract_number` reads back the number `get_filename` wrote, for the scale it was written at, whatever the prefix |
| Samples.DiffFileIgnored | piet/src/samples/mod.rs:235 | a difference image is never taken for a sample: no number is extracted from its name |
| Samples.IndexBy | piet/src/samples/mod.rs:368-373 | every recorded name is one of the listing and has the number it is recorded under |
| Samples.IndexByComplete | piet/src/samples/mod.rs:368-373 | every listed name with a number has that number recorded |
| Samples.SampleFiles | piet/src/samples/mod.rs:365-375 | every entry of `get_sample_files` is a listed file whose extracted number is its key |
| Samples.SampleFilesComplete | piet/src/samples/mod.rs:365-375 | every listed file with a number has its number among the keys |
| Samples.GetSampleFiles | piet/src/samples/mod.rs:365-375 | the loop over the listing builds exactly the map of `SampleFiles` |
| Samples.MinExists | piet/src/samples/mod.rs:249 | a non-empty set of sample numbers has a least element, so the map can be walked in key order |
| Samples.CompareSnapshots | piet/src/samples/mod.rs:239-266 | on success the keys are those of both directories, a sample only in the base is `MissingRevision`, one only in the revision `MissingBase`, and one in both what `compare_files` gave; an error is the first failing comparison in key order |
| Samples.AddMissingBase | piet/src/samples/mod.rs:262-264 | samples only in the revision are added as `MissingBase`, the entries found before kept |
| Samples.TotalDiff | piet/src/samples/mod.rs:339-343 | the total difference of a pixel is at most 255 per sample, and 0 exactly when the pixels are equal |
| Samples.DiffByte | piet/src/samples/mod.rs:344-351 | the difference byte is 0 exactly when the total is below the sample count; otherwise the integer average, raised to at least 24 |
| Samples.Chunks | piet/src/samples/mod.rs:338 | `chunks(samples)` yields non-empty pieces of at most `samples` bytes |
| Samples.ChunksArePixels | piet/src/samples/mod.rs:320-325 | a buffer whose length is a multiple of `samples` is cut into `len / samples` pieces of exactly `samples` bytes |
| Samples.ChunksConcat | piet/src/samples/mod.rs:338 | the pieces laid end to end are the buffer |
| Samples.ChunkAt | piet/src/samples/mod.rs:338 | piece `k` is bytes `k * samples` to `(k + 1) * samples` |
| Samples.PixelByte | piet/src/samples/mod.rs:339-351 | for equal-sized pixels the byte is 0 exactly when the total difference is below the sample count; equal pixels give 0 |
| Samples.DiffImage | piet/src/samples/mod.rs:335-353 | the image has one byte per pixel of the PNG: the pixel's difference byte for the pixels both buffers have, 0 past them |
| Samples.ZipLength | piet/src/samples/mod.rs:338 | `zip` makes as many pairs as the shorter side has |
| Samples.OverallDiff | piet/src/samples/mod.rs:337-345 | the overall difference is never negative |
| Samples.OverallDiffZero | piet/src/samples/mod.rs:337-345 | the overall difference of equal-sized pixels is 0 exactly when the pixels agree |
| Samples.SmallDifferenceHidden | piet/src/samples/mod.rs:344-351 | two RGBA buffers differing by one step in one sample yield an all-zero difference image |
| Samples.FillDiff | piet/src/samples/mod.rs:335-353 | the loop writes exactly the difference image and sums exactly the overall difference |
| Samples.ComparePngs | piet/src/samples/mod.rs:310-363 | identical buffers are `Ok(None)` with nothing written; otherwise a file error is `IoError`, the bytes written are the difference image of `u32` pixel count `width * height` (wrapping), and success is `DifferentData` at the given path with the average difference over that count as a percentage of 255 |
| Samples.PixelCount | piet/src/samples/mod.rs:335 | the `u32` product of width and height: below 2^32, congruent to the product modulo 2^32, and equal to it when it fits |
| Samples.PixelCountWraps | piet/src/samples/mod.rs:335 | a 65536 by 65536 image counts 0 pixels and a 65536 by 65537 one 65536 |
| Samples.NonEmptyPixels | piet/src/samples/mod.rs:355 | two different buffers of whole pixels hold at least one pixel, so the percentage divides by a non-zero count |
| Samples.CompareFiles | piet/src/samples/mod.rs:269-292 | different sizes are `WrongSize` with both sizes, equal data is `Ok(None)`, and a difference image goes to the `-diff` name of the sample in the directory of the revision's file (`p2.with_file_name`) |
| Samples.WithFileNameSibling | piet/src/samples/mod.rs:290 | `with_file_name` keeps the directory of the path: the new path has the same last `/` and the same part up to it, and ends with the new file name |
| Shapes.Lengths | piet/src/shapes.rs:235-240 | the pattern a backend sees is the owned one once set_dash_pattern has stored one, and the static slice otherwise |
| Shapes.New | piet/src/shapes.rs:146-158 | `StrokeStyle::new`. |
| Shapes.MiterLimit | piet/src/shapes.rs:219-224 | `StrokeStyle::miter_limit`. |
| Shapes.BuildersAndSettersFrame | piet/src/shapes.rs:161-211 | Every builder and setter changes its own field and nothing else, and the builder and setter of the same field agree (the dash pattern aside). |
| Shapes.DashPatternPrecedence | piet/src/shapes.rs:214-216 | Dash precedence: once `set_dash_pattern` has run, the visible pattern is its argument whether the `dash_pattern` builder ran before or after it; without it the builder's slice is visible. |
| Strip.SameStripIsSameRow | cpu-sparse/src/strip.rs:53-59 | Two tiles in the same strip are in the same row. |
| Strip.SameStripForward | cpu-sparse/src/strip.rs:53-55 | From a tile to one at or after it, `same_strip` holds exactly when they are in the same row and at most one column apart. |
| Strip.SameStripBackward | cpu-sparse/src/strip.rs:53-55 | Backwards, the wrapped difference is at least 1, and it is 1 only from the last column to the first: `same_strip` then holds although the tiles are as far apart as a row allows. |
| Strip.High | cpu-sparse/src/strip.rs:95 | the high half of a packed u32 is below 2^16 and is the quotient of the word by 2^16 |
| Strip.Low | cpu-sparse/src/strip.rs:86-87 | the low half is below 2^16 and the word is the high half times 2^16 plus the low half |
| Strip.Delta | cpu-sparse/src/strip.rs:94-96 | the delta is -1, 0 or 1: +1 exactly when only the end point is on the top edge (high half 0), -1 exactly when only the start point is |
| Strip.Pow2 | cpu-sparse/src/strip.rs:91 | 2^n is at least 1 |
| Strip.Pow2Monotone | cpu-sparse/src/strip.rs:89-91 | 2^m is at most 2^n when m <= n, so the footprint mask is never negative |
| Strip.Footprint | cpu-sparse/src/strip.rs:85-92 | the footprint mask of every tile is non-zero and fits in 8 bits: the segment touches at least one column and only the first 8 |
| Strip.BitOrNonzero | cpu-sparse/src/strip.rs:124-125 | Or-ing in a set bit leaves a nonzero mask. |
| Strip.BitOrBelow | cpu-sparse/src/strip.rs:194 | Or-ing two masks of `k` bits gives a mask of `k` bits. |
| Strip.TrailingZeros | cpu-sparse/src/strip.rs:127 | the lowest set bit of a non-zero mask lies below its bit length, so the column range x0..x1 is non-empty |
| Strip.BitLengthBelow | cpu-sparse/src/strip.rs:128 | A mask below 2^k has at most `k` bits, so `32 - leading_zeros()` is its bit length. |
| Strip.Key | cpu-sparse/src/strip.rs:101-105 | the packed position (y << 16) + x fits in a u32 |
| Strip.Cmp | cpu-sparse/src/strip.rs:101-105 | `Tile::cmp`: the pairs `(path_id, key)` compared lexicographically, which is comparing the tiles' ranks. |
| Strip.CmpLexicographic | cpu-sparse/src/strip.rs:101-105 | `cmp` orders by path, then row, then column, and calls two tiles equal exactly when they are at the same location. |
| Strip.Insert | cpu-sparse/src/strip.rs:202 | inserting adds exactly the one tile: the multiset grows by it and the length by one |
| Strip.ConsSorted | cpu-sparse/src/strip.rs:202 | A tile ranked at most every tile of a sorted sequence can go in front of it. |
| Strip.InsertAfterHead | cpu-sparse/src/strip.rs:202 | What is inserted after the head of a sorted sequence ranks no lower than the head. |
| Strip.InsertSorted | cpu-sparse/src/strip.rs:202 | Inserting into a sorted sequence keeps it sorted. |
| Strip.SortTiles | cpu-sparse/src/strip.rs:101-105 | `tiles.sort_by(Tile::cmp)`: the same tiles, each as often as before, sorted by `cmp`. |
| Strip.Sentinel | cpu-sparse/src/strip.rs:204-217 | the sentinel has the given path, sits at column and row 0x3fff and has both end points 0 |
| Strip.StripInput | cpu-sparse/src/strip.rs:202-217 | the input of render_strips is the sorted tiles followed by the sentinels for paths !1 and !0, in that order |
| Strip.SortedKeepsPaths | cpu-sparse/src/strip.rs:202 | Sorting keeps the set of paths: every tile of the result is one of the input tiles. |
| Strip.StripInputSorted | cpu-sparse/src/strip.rs:202-217 | When no tile belongs to the two sentinel paths, the sentinels sort after every tile, so the whole input is sorted; and the two sentinels are in different strips, so the last real run is always closed. |
| Strip.Columns | cpu-sparse/src/strip.rs:133-175 | one word per column x0..x1, word k for column x0 + k, carrying the run and the winding entering it |
| Strip.SumDeltaBound | cpu-sparse/src/strip.rs:129-131 | The winding change over `n` tiles lies between `-n` and `n`. |
| Strip.AddDeltas | cpu-sparse/src/strip.rs:129-131 | the loop adds exactly the sum of the deltas of tiles s..e to the running winding |
| Strip.PushColumns | cpu-sparse/src/strip.rs:133-175 | the loop appends exactly the column words of x0..x1 after the words already pushed |
| Strip.CloseRun | cpu-sparse/src/strip.rs:122-192 | Closing the run `segStart..i`: after the words already pushed, exactly the run's columns `x0..x1` get one word each. When the run starts a strip, exactly one strip is pushed, pointing at the first of those words; otherwise the strips are unchanged. `cols` grows by the number of words pushed, and the bookkeeping (`cols` counts the words, every strip points at the first word of a run, the strips' columns increase) is kept. |
| Strip.RunFootprint | cpu-sparse/src/strip.rs:123-126 | the open run's mask once column 3 is or-ed in when the new tile continues the strip: non-zero and within 9 bits |
| Strip.FootprintsOr | cpu-sparse/src/strip.rs:194 | `fp \|= tile.footprint()` over a non-empty stretch of tiles gives a non-zero mask |
| Strip.CloseMask | cpu-sparse/src/strip.rs:123-128 | the mask a run is closed with is non-zero, so its column range `x0..x1` is not empty |
| Strip.InitialFacts | cpu-sparse/src/strip.rs:109-116 | Before the loop the facts hold: nothing is pushed, the run of tile 0 is open with tile 0's footprint and winding 0, and it starts a strip. |
| Strip.SameLocationKeeps | cpu-sparse/src/strip.rs:121-195 | A tile at the open run's location only joins its footprint to the run; the facts hold one tile further on. |
| Strip.OldWordStays | cpu-sparse/src/strip.rs:133-175 | A word pushed earlier still belongs to its run, with the same column, once later words are pushed. |
| Strip.NewWord | cpu-sparse/src/strip.rs:127-175 | Each word pushed for the run `s..i` belongs to that run and carries the winding entering it; the first is for column `x0`, each next one for the next column, the last for `x1 - 1`. |
| Strip.AppendRunWords | cpu-sparse/src/strip.rs:133-175 | After the run `s..i` is closed, every word belongs to a run that ended by `i`, and the words of each run are its columns in order. |
| Strip.AppendRunCovers | cpu-sparse/src/strip.rs:133-189 | After the run `s..i` is closed, every tile before `i` belongs to a run that has words. |
| Strip.OldStripStays | cpu-sparse/src/strip.rs:176-185 | A strip pushed earlier still points at the same first word once later words are pushed. |
| Strip.NewStrip | cpu-sparse/src/strip.rs:176-185 | The strip pushed for a run that starts one points at the run's first word. It carries that word's incoming winding, the path of the tile that closes the run, and the position of the run's tile and first column. |
| Strip.StripsStay | cpu-sparse/src/strip.rs:176-185 | Once a run is closed, every strip points at the first word of a run that starts a strip. |
| Strip.FirstWordsHaveStrips | cpu-sparse/src/strip.rs:176-188 | Once a run is closed, the first word of every run that starts a strip has a strip pointing at it. |
| Strip.StripsStayOrdered | cpu-sparse/src/strip.rs:181-186 | Once a run is closed, the strips' columns still increase. |
| Strip.AppendStrips | cpu-sparse/src/strip.rs:176-188 | Once a run is closed, the strips are exactly the first words of the runs that start strips, in order. |
| Strip.ClosedRendering | cpu-sparse/src/strip.rs:121-192 | Closing the run before tile `i` keeps the facts about words and strips for the tiles before `i`, with the run from `i` on open. |
| Strip.SumDeltaAppend | cpu-sparse/src/strip.rs:129-131 | The winding change over two consecutive stretches of tiles is the sum of their changes. |
| Strip.RowStartInRun | cpu-sparse/src/strip.rs:121 | The tiles of one run are in one row, so they share where that row begins. |
| Strip.ClosedWinding | cpu-sparse/src/strip.rs:122-192 | The winding carried into the run at `i` is the sum of the deltas of the tiles before `i` in its row. It is reset to 0 at a new row. |
| Strip.LocationChangeKeeps | cpu-sparse/src/strip.rs:121-195 | A tile at another location closes the open run; the facts hold one tile further on, with the run at that tile open. |
| Strip.FactsBookkeeping | cpu-sparse/src/strip.rs:176-189 | The facts include the bookkeeping that closing a run relies on. |
| Strip.StepKeeps | cpu-sparse/src/strip.rs:118-196 | Each turn of the loop keeps the facts. |
| Strip.RenderToFacts | cpu-sparse/src/strip.rs:108-196 | The facts hold before every turn of the loop, for all tiles. |
| Strip.RenderToBookkeeping | cpu-sparse/src/strip.rs:118-196 | The bookkeeping holds before every turn of the loop. |
| Strip.RenderedRuns | cpu-sparse/src/strip.rs:108-198 | What `render_strips` returns, for any non-empty tiles. Every word belongs to a run of tiles at one location that a location change closes, and each such run gets one word per column of its footprint, in order. Every tile up to the still-open last run belongs to a run that has words. The strips are exactly the first words of the runs that do not continue the strip of the run before them, in order, each with that run's winding, path and position. |
| Strip.RenderTile | cpu-sparse/src/strip.rs:118-196 | One turn of the loop of `render_strips` for tile `i` is the turn the rendering fold takes. When the tile's location differs from the previous tile's, the open run is closed: its footprint is widened to column 3 when the new tile continues the strip, and a new run starts at `i`, the winding being reset at a new row. Either way the tile's footprint joins the open run's. |
| Strip.RenderStrips | cpu-sparse/src/strip.rs:108-198 | `render_strips` returns the strips and words of the rendering fold, and so (see `RenderedRuns`) exactly one word per column of each closed run and exactly one strip per run that starts a strip. The tiles must not be empty: `tiles[0]` is read first. |
| Strip.MakeStrips | cpu-sparse/src/strip.rs:200-223 | `make_strips`: the tiles of the bowl's line soup (computed by `make_tiles`, outside this model, and passed in) are sorted and the two sentinels appended. The strips and alpha words of that input are returned with the bowl's colours: the words are the columns of its runs and the strips the first words of the runs that start strips. The second sentinel is at another location than the first, so every sorted tile belongs to a run that has words. |
| Svg.IdDigits | piet-svg/src/lib.rs:704-717 | every id is written as at least one digit |
| Svg.IdDigitsStep | piet-svg/src/lib.rs:704-717 | One digit of `IdDigits`, and the digits of the rest. |
| Svg.IdRoundTrip | piet-svg/src/lib.rs:704-717 | round trip: reading the written digits back in base 52 gives the id |
| Svg.IdDigitsInjective | piet-svg/src/lib.rs:704-717 | Distinct ids give distinct strings, and id 0 is `"a"`. |
| Svg.IdToString | piet-svg/src/lib.rs:704-717 | `Id::to_string`: the loop that emits a digit, divides, and stops at zero. |
| Svg.BrushColor | piet-svg/src/lib.rs:650-655 | `Brush::color`: the colour, or a `url(#id)` reference to the gradient. |
| Svg.BrushOpacity | piet-svg/src/lib.rs:657-662 | `Brush::opacity`: the alpha of a solid colour, and nothing for a gradient. |
| Svg.FillAttrs | piet-svg/src/lib.rs:531-583 | The fill part of `apply_to`. |
| Svg.JoinAttrs | piet-svg/src/lib.rs:555-566 | The join part of a stroke: a miter limit other than the default, or a round or bevel join. |
| Svg.CapAttrs | piet-svg/src/lib.rs:567-575 | The cap part of a stroke: only round and square caps are written. |
| Svg.StrokeAttrs | piet-svg/src/lib.rs:531-583 | The stroke part of `apply_to`. |
| Svg.ApplyTo | piet-svg/src/lib.rs:531-583 | `Attrs::apply_to` on a fresh element: the transform always; a clip path exactly with a clip; `fill` is the brush's colour, or `none` without a fill, with the opacity of a solid colour and the fill rule when given; and the stroke's colour and opacity, then each stroke attribute only where it differs from SVG's default: the width unless 1, the miter limit unless 10, the join for round and bevel, the cap for round and square, the dash array when non-empty and the offset when non-zero. |
| Svg.ElementFor | piet-svg/src/lib.rs:595-629 | `add_shape`'s dispatch: a circle first, then a rounded rectangle with one radius, then a rectangle, else a path. |
| Svg.DefinedIds | piet-svg/src/lib.rs:74-78 | a document defines at most one id per node |
| Svg.AppendDefinition | piet-svg/src/lib.rs:74-78 | Appending a node that defines `next`, the smallest unused id, keeps the ids increasing. |
| Svg.AppendDrawn | piet-svg/src/lib.rs:166-242 | Appending a drawn element defines nothing. |
| Svg.DefineNext | piet-svg/src/lib.rs:74-78 | Defining the next id keeps the context consistent, and the new id was not defined before. |
| Svg.SvgContext.constructor | piet-svg/src/lib.rs:44-53 | `RenderContext::new`: an empty document, no saved states, the default state. |
| Svg.SvgContext.NewId | piet-svg/src/lib.rs:74-78 | `new_id`: the next id; ids handed out by one context strictly increase. |
| Svg.SvgContext.Status | piet-svg/src/lib.rs:89-91 | `status`: the SVG backend never holds an error. |
| Svg.SvgContext.Save | piet-svg/src/lib.rs:328-332 | `save`: pushes a copy of the state, which stays as it was. |
| Svg.SvgContext.Restore | piet-svg/src/lib.rs:334-337 | `restore`: pops the last saved state back; with none saved, `StackUnbalance` and nothing changes. |
| Svg.SvgContext.Transform | piet-svg/src/lib.rs:385-387 | `transform`: right-multiplies the current transform. |
| Svg.SvgContext.Clip | piet-svg/src/lib.rs:194-208 | `clip`: a clip path with a fresh id holding the shape (drawn in the current transform and clip) is appended, and it becomes the clip; nothing else in the state changes. |
| Svg.SvgContext.Gradient | piet-svg/src/lib.rs:120-164 | `gradient`: a gradient with a fresh id is appended, and a brush referring to it returned. |
| Svg.SvgContext.Draw | piet-svg/src/lib.rs:166-242 | Appends a drawn shape with the current transform and clip. |
| Svg.SvgContext.Fill | piet-svg/src/lib.rs:166-178 | `fill`: the shape with the brush as its fill and no stroke. |
| Svg.SvgContext.FillEvenOdd | piet-svg/src/lib.rs:180-192 | `fill_even_odd`: as `fill`, with the `evenodd` fill rule. |
| Svg.SvgContext.Stroke | piet-svg/src/lib.rs:210-222 | `stroke`: the shape stroked with the default style. |
| Svg.SvgContext.StrokeStyled | piet-svg/src/lib.rs:224-242 | `stroke_styled`: the shape stroked with the given style. |
| Svg.SvgContext.SaveTransformRestore | piet-svg/src/lib.rs:328-332 | `save`, `transform`, `restore` leaves the current transform as it was. |
| Svg.SolidBrush | piet-svg/src/lib.rs:114-118 | `solid_brush`. |
| Svg.CaptureImageArea | piet-svg/src/lib.rs:457-459 | `capture_image_area` and `blur_image` are not implemented by the SVG backend. |
| Unicode.Utf8Len | piet/src/util.rs:21-32 | a scalar takes one to four UTF-8 bytes, and one exactly when it is ASCII |
| Unicode.Utf16Len | piet/src/util.rs:21-32 | a scalar takes one or two UTF-16 code units |
| Unicode.EncodeChar | piet/src/util.rs:21-32 | a scalar's UTF-8 bytes: its byte length, a non-continuation lead byte that is 0xF0 or above exactly for four-byte sequences, continuation bytes after it |
| Unicode.EncodeLength | piet/src/util.rs:21-32 | the UTF-8 encoding of a string is as long as its byte length |
| Unicode.EncodeAppend | piet/src/util.rs:21-32 | encoding distributes over concatenation |
| Unicode.EncodeLastByte | piet/src/util.rs:68-74 | the last byte of a non-empty string is ASCII exactly when its last scalar is, and is then that scalar |
| Unicode.Slice | piet/src/util.rs:36-55 | a slice at byte offsets holds no more scalars than the string |
| Unicode.SliceSplit | piet/src/util.rs:36-55 | slicing at byte offsets splits at any offset between the two ends |
| Unicode.AsciiSlice | piet/src/util.rs:36-55 | for ASCII text a byte-offset slice is the plain sequence slice |
| Unicode.AsciiByteLen | piet/src/util.rs:21-32 | for ASCII text the byte length is the number of scalars |
| Util.Utf16Weight | piet/src/util.rs:23-28 | one count per byte that is not a continuation byte, one more per byte at or above 0xF0 |
| Util.Utf16CountAppend | piet/src/util.rs:21-32 | the byte count is additive over concatenation |
| Util.Utf16CountMonotone | piet/src/util.rs:36-55 | the running count never decreases along the bytes |
| Util.Utf16CountChar | piet/src/util.rs:21-32 | the bytes of one scalar count exactly its UTF-16 length |
| Util.Utf16CountEncode | piet/src/util.rs:21-32 | for well-formed UTF-8 the byte count is the UTF-16 length of the text |
| Util.CountUtf16 | piet/src/util.rs:21-32 | the counting loop returns the UTF-16 length of the string |
| Util.CountUntil | piet/src/util.rs:36-55 | None exactly when the whole count is at most pos; otherwise an index where the running count is at most pos before the byte and above it after |
| Util.CountUntilUnique | piet/src/util.rs:36-55 | any byte index where the running count crosses pos is the one returned (uniqueness of the crossing) |
| Util.CountUntilUtf16 | piet/src/util.rs:36-55 | the loop returns the crossing index of the string's bytes, and None exactly when the UTF-16 length is at most the position |
| Util.CountUntilExample | piet/src/util.rs:298-313 | the test's expected results for "é#\u{FE0F}\u{20E3}1" at positions 0 to 5, and None for the empty string |
| Util.TrailingNlf | piet/src/util.rs:68-74 | Some(1) exactly when the last byte is a newline, None otherwise |
| Util.BinarySearch | piet/src/util.rs:80-86 | over sorted keys, repeats allowed: Found gives an index holding the key; NotFound gives the insertion point: keys before it are smaller, keys from it on larger |
| Util.LineNumberForPosition | piet/src/util.rs:80-86 | over lines with non-decreasing start offsets, the first starting at or before the position: a line starting at or before the position whose successor, if any, starts after it or at the position itself |
| Util.LineNumberForStrictStarts | piet/src/util.rs:80-86 | with strictly increasing start offsets the line found is the last one starting at or before the position |
| Util.LineNumberForRepeatedStarts | piet/src/util.rs:80-86 | with starts `[0, 1, 1]` the model's search finds line 1 for position 1, although line 2 also starts there (`slice::binary_search` may return either match), and line 0 for position 0 |
| Util.ResolveRange | piet/src/util.rs:89-103 | both ends clamped to len; unbounded start is 0 and unbounded end is len; included end and excluded start add one |
| Util.ResolveRangeIdempotent | piet/src/util.rs:89-103 | resolving a resolved range as start..end gives it back |
| Util.ResolveRangeMayBeReversed | piet/src/util.rs:89-103 | reversed bounds stay reversed: 5..3 over length 10 resolves to 5..3 |
| Util.ExpectedImageBufferSize | piet/src/util.rs:238-244 | zero for no rows; otherwise the last row's offset plus one row, which covers every row |
| Util.Packed | piet/src/util.rs:254-291 | the packed rows take height times row-size bytes |
| Util.PackedRow | piet/src/util.rs:280-288 | row y of the packed buffer equals row y of the strided source |
| Util.PackedRows | piet/src/util.rs:254-291 | every packed row equals its strided source row and the buffer holds n*rowSize bytes |
| Util.CopyFromSlice | piet/src/util.rs:287 | the destination window becomes the source slice; bytes before and after it are kept |
| Util.CopyRows | piet/src/util.rs:254-291 | the loop leaves the packed rows of the source in the new buffer |
| Util.ImageBufferToTightlyPacked | piet/src/util.rs:254-291 | empty images give an empty buffer; InvalidInput exactly when the buffer is shorter than the expected size; equal stride returns the buffer as is; otherwise the packed rows |
| Util.Unpremul | piet/src/util.rs:201-208 | zero alpha gives 0; otherwise the value times 255 over alpha rounded to nearest, 255 when the value reaches alpha, the value itself at full alpha |
| Util.UnpremultiplyRgba | piet/src/util.rs:211-220 | every byte becomes its unpremultiplied value: colour bytes of pixels with non-zero alpha are rescaled, alpha bytes and transparent pixels kept |
| Util.LayoutDefaults.Default | piet/src/util.rs:186-196 | defaults: default family and weight, size 12, black, regular style, no underline or strikethrough |
| Util.LayoutDefaults.Set | piet/src/util.rs:170-182 | only the field the attribute names changes; a non-positive font size resets to 12, so a positive size stays positive |
| WebContext.ConvertLineCap | piet-web/src/lib.rs:87-93 | each cap maps to its own keyword: butt, round or square, and the keyword names the cap |
| WebContext.ConvertLineJoin | piet-web/src/lib.rs:95-101 | each join maps to its own keyword: miter, round or bevel, and the keyword names the join |
| WebContext.KeywordsOneToOne | piet-web/src/lib.rs:87-101 | distinct caps and distinct joins get distinct keywords |
| WebContext.FormatColor | piet-web/src/lib.rs:374-388 | an opaque colour is written as #rrggbb whose hex parses back to the colour's top three bytes; any other alpha gives rgba(...) |
| WebContext.FormatColorBytes | piet-web/src/lib.rs:374-388 | the four numbers of rgba(...) are bytes that reassemble the packed colour |
| WebContext.UnpremulPixel | piet-web/src/lib.rs:263-276 | a pixel of the premultiplied buffer is four bytes |
| WebContext.WebPixel | piet-web/src/lib.rs:262-291 | the converted pixel is four bytes |
| WebContext.WebPixels | piet-web/src/lib.rs:271-291 | n converted pixels fill 4n bytes |
| WebContext.WebPixelAt | piet-web/src/lib.rs:262-291 | pixel i of the converted buffer is the converted pixel: RGB gets alpha 255, premultiplied keeps its alpha and becomes black at alpha 0 |
| WebContext.Zeroed | piet-web/src/lib.rs:272 | a fresh buffer of 4n bytes |
| WebContext.ConvertPixels | piet-web/src/lib.rs:271-291 | the loops leave exactly the n converted pixels in the new buffer |
| WebContext.ConvertPixel | piet-web/src/lib.rs:272-290 | one loop step extends the converted prefix by pixel i |
| WebContext.StrokeCalls | piet-web/src/lib.rs:427-462 | set_stroke sets six canvas properties, the line width first |
| WebContext.StrokeDefaults | piet-web/src/lib.rs:427-462 | no style and an all-unset style stroke alike: miter, butt, miter limit 10, solid line |
| WebContext.StrokeStyleApplied | piet-web/src/lib.rs:427-462 | every field a style sets reaches the canvas through its keyword |
| WebContext.WebRenderContext.constructor | piet-web/src/lib.rs:37-44 | a new context has no pending error and has made no canvas calls |
| WebContext.WebRenderContext.Status | piet-web/src/lib.rs:112-114 | returns the pending error and clears it; no canvas call |
| WebContext.WebRenderContext.Finish | piet-web/src/lib.rs:229-231 | returns the pending error and clears it; no canvas call |
| WebContext.WebRenderContext.Save | piet-web/src/lib.rs:219-222 | always succeeds and adds one canvas save |
| WebContext.WebRenderContext.Restore | piet-web/src/lib.rs:224-227 | always succeeds and adds one canvas restore |
| WebContext.WebRenderContext.Transform | piet-web/src/lib.rs:233-236 | adds one canvas transform; the pending error is untouched |
| WebContext.WebRenderContext.CurrentTransform | piet-web/src/lib.rs:238-243 | always the identity |
| WebContext.WebRenderContext.SetStroke | piet-web/src/lib.rs:427-462 | appends exactly the StrokeCalls of the width and style |
| WebContext.WebRenderContext.DrawText | piet-web/src/lib.rs:203-217 | sets font and fill colour then fills the text; a fill failure becomes the pending error, otherwise it is kept |
| WebContext.WebRenderContext.DrawImage | piet-web/src/lib.rs:310-317 | save, draw of the source area (whole image when none), restore; a draw failure becomes the pending error |
| WebContext.WebRenderContext.MakeImage | piet-web/src/lib.rs:245-307 | the image is the canvas built from the converted pixels, with its size |
| WebGrapheme.GetGraphemeBoundaries | piet-web/src/text/grapheme.rs:17-37 | None exactly past the last cluster; otherwise the cluster's start and the next start, and the text widths up to each |
| WebGrapheme.AdjacentBoundaries | piet-web/src/text/grapheme.rs:17-37 | clusters tile the text: each ends where the next begins, edges and widths shared, the last ending at the text's length |
| WebGrapheme.PointXInGraphemeMidpoint | piet-web/src/text/grapheme.rs:39-62 | a point outside the cluster misses; the exact midpoint hits the trailing edge |
| WebLines.AppendRecorded | piet-web/src/text/lines.rs:184-206 | appending the next stacked line keeps every recorded line at its slice, trailing-whitespace bytes, baseline, height and stacked top |
| WebLines.AddLineMetric | piet-web/src/text/lines.rs:184-206 | appends exactly one line for the range at the current top and moves the top down one line height, keeping the stacking invariant |
| WebLines.CalculateLineMetrics | piet-web/src/text/lines.rs:19-182 | the lines' ranges are the greedy break spans of the text at the width, and every line is recorded with its stacked top |
| WebLines.WebSpansCover | piet-web/src/text/lines.rs:19-182 | for breaks inside the text the line ranges are contiguous from 0 and the last ends at the text's byte length |
| WebLines.NoTrailingAfterHardEnd | piet-web/src/text/lines.rs:19-182 | a text ending in a hard break gets no extra trailing line |
| WebLines.TrailingWhitespaceBytesExample | piet-web/src/text/lines.rs:210-216 | trailing whitespace is counted in bytes: one ideographic space is three bytes |
| WebText.NewFontByName | piet-web/src/text.rs:65-73 | the named family at the given size, weight 400, normal style |
| WebText.BuildFont | piet-web/src/text.rs:95-97 | always Ok with the font it holds |
| WebText.Decimal | piet-web/src/text.rs:111-114 | a weight is written as a non-empty string of decimal digits |
| WebText.DecimalRoundTrip | piet-web/src/text.rs:111-114 | round trip: reading the written digits gives the number back |
| WebText.FontStringFields | piet-web/src/text.rs:104-115 | the font string starts with the style and a space, then the weight's digits (reading back as the weight) and a space, and ends with the quoted family |
| WebText.NewTextLayout | piet-web/src/text.rs:75-89 | the builder holds the font, text and width as given |
| WebText.TrimmedWidths | piet-web/src/text.rs:127-132 | one width per line, each the measured width of the line without trailing whitespace |
| WebText.WebBoundsAreEdges | piet-web/src/text.rs:176-244 | cluster p's boundaries are edges p and p+1 of the text |
| WebText.TextPositionOf | piet-web/src/text.rs:246-296 | always Some; 0 at the origin; at or past the end at the layout width reporting the text length; inside the text at the cluster's leading edge reporting the position |
| WebText.LastStartOfContainingSome | piet-web/src/text.rs:246-296 | every position inside the text has a cluster start at or before it, the start of the cluster containing it |
| WebText.ComplexTextPositionExample | piet-web/src/text.rs:246-296 | for one two-byte cluster: 0 at the origin, 1 at the cluster's start reported as 1, 2 at the layout width |
| WebText.PastEndExample | piet-web/src/text.rs:246-296 | on a ten-byte text positions 10 and 11 are both reported as 10 at the layout width |
| WebText.HitTestText | piet-web/src/text.rs:176-244 | the returned hit is the one the clusters' edges give for x, whatever the order of the measured edges: the search keeps x strictly between the leading edges of its bounds |
| WebText.WebTextLayout.constructor | piet-web/src/text.rs:121-145 | the layout holds the font, text, lines and width given |
| WebText.WebTextLayout.UpdateWidth | piet-web/src/text.rs:153-158 | always Ok; the new constraint becomes the width and the lines are laid out again, keeping the layout valid |
| WebText.WebTextLayout.LineText | piet-web/src/text.rs:160-164 | Some exactly for an existing line, holding its text without trailing whitespace |
| WebText.WebTextLayout.HitTestPoint | piet-web/src/text.rs:176-244 | the hit the text's clusters give for x; y plays no part |
| WebText.WebTextLayout.HitTestTextPosition | piet-web/src/text.rs:246-296 | always Some; 0 at the origin; at or past the end at the layout width reporting the text length; inside at the position itself on y 0, with x the width of the text before the start of the grapheme that contains the position |
| WebText.Build | piet-web/src/text.rs:121-145 | a valid layout of the builder's text and font whose width is the widest trimmed line or 0 |
| WebText.BuildWidthIsWidestLine | piet-web/src/text.rs:134-135 | the fold gives a width at least 0 that every trimmed line fits in and that is 0 or one line's width |
| WebText.TrimmedLineSplits | piet-web/src/text.rs:160-164 | a trimmed line followed by its cut-off whitespace is the whole line |

## Left out

- Floating point: `f64`/`f32` values are real numbers, so rounding, NaN and infinities other than the unbounded layout width are not modelled.
- Platform libraries (Cairo, CoreGraphics, Direct2D/DirectWrite, the web canvas, Pathfinder, Pango): their calls are recorded as values or their outcomes are inputs. Their internal behaviour is not modelled.
- Affine matrix arithmetic: a transform is a product of factors in a monoid. Laws that need the actual matrix entries are not modelled.
- The Unicode tables are inputs: grapheme segmentation, the UAX #14 break iterator and the bidi lookup of `first_strong_rtl`. `first_strong_rtl` itself is not part of this model.
- Text measurement is an abstract width function on strings.
- The blurred-rectangle and erf code (`size_for_blurred_rect`, `compute_blurred_rect`, `compute_erf7`) is floating-point numerics and is not part of this model.
- CairoContext.MakeImageWithStride: takes the surface's row stride, which Cairo chooses, to be `4 * width` (no row padding).
- CairoContext.MakeImageWithStride: the failure of `image.data()` is not modelled as a separate error path.
- CairoLines.CalculateLineMetrics: `piet-cairo/src/text/lines.rs` still records `cumulative_height` while `piet-cairo/src/text.rs` reads `y_offset`. The layout takes `y_offset` as the cumulative height less one line height.
- CairoGrapheme.GetGraphemeBoundaries: `piet-cairo/src/text/grapheme.rs` calls text APIs that no longer exist; the model follows its visible logic.
- WebGrapheme.GetGraphemeBoundaries: `piet-web/src/text/grapheme.rs` calls text APIs that no longer exist; the model follows its visible logic.
- D2DText: DirectWrite's line breaking and its two hit tests are inputs. Line lengths are DirectWrite's UTF-16 lengths, used as offsets the way `fetch_line_metrics` uses them.
- D2DText: `count_utf16`/`count_until_utf16` in `piet-direct2d/src/text.rs` are the same code as in `piet/src/util.rs`, so they are modelled once, by `Util.CountUtf16` and `Util.CountUntilUtf16`.
- WebText: `width`, `line_metric` and `line_count` only read a field, so the model reads `width` and `lineMetrics` directly.
- WebText: `hit_test_point` treats the text as one line, as the source does. A multi-line hit test is not part of this model.
- Flatten: curve flattening and stroking are done by `kurbo` and the `flatten` crate, so their output points are inputs.
- Flatten: the tolerance `TOL / scale` (`TOL` is 0.25, `cpu-sparse/src/flatten.rs:21`) only steers `kurbo`'s flattening and stroking, whose output points are an input here, so it does not appear in the model.
- Flatten: the `f64` to `f32` casts of the points are not modelled.
- Flatten: `cpu-sparse/src/tiling.rs` and `cpu-sparse/src/fine.rs` are not part of this model.
- Strip: the coverage and alpha computation in `render_strips` is floating point. Each alpha word is a token naming the tiles, column and winding it is computed from.
- Strip: `Tile::new`, which packs a floating-point footprint into `p0`/`p1`, is not modelled; tiles are given.
- Strip.SortTiles: states that the result is sorted by `cmp` and holds the same tiles. It does not state the order `sort_by` keeps among tiles that compare equal.
- Strip: the `u32` column counter `cols` is an unbounded `nat`, so its overflow is not modelled.
- Strip: the input tiles come from `make_tiles`, which is not part of this model.
- Samples: directory reading, PNG decoding and encoding, `make_os_info_string` and `samples_main` are I/O; their results and failures are inputs.
- Samples: the `pico_args` parser's own errors are inputs.
- Samples: the scale is a non-negative number of hundredths, and its decimal formatting in file names is given by that number.
- Samples: paths are joined as strings.
- Samples.WithFileNameSibling: `with_file_name` is modelled for a path whose last component is a file name; a path ending in `/` or `..` is not modelled.
- Samples.OverallDiff: states only that the overall difference is never negative. Its zero case is the separate lemma `Samples.OverallDiffZero`, and its value is not related to an `f64` average.
- Mondrian.Generate: the shuffle of the rectangles (`rects.shuffle`, `piet-common/examples/mondrian.rs:108`) is left out, so rectangles are coloured and painted in split order rather than in shuffled order.
- Mondrian: the random draws (split points, coins, per-colour counts sampled from normal and exponential distributions) are inputs.
- Mondrian: `kurbo`'s `inset` is taken from its documented behaviour.
- Mondrian: rectangle coordinates are real products, without `f64` rounding.
- Unicode.Slice: states only that a slice is no longer than the string. `Unicode.SliceSplit` and `Unicode.AsciiSlice` say what a slice holds.
- WebContext.WebPixel: states only that a converted pixel is four bytes. `WebContext.WebPixelAt` states the bytes.
- Svg: shape geometry, numbers and the serialisation of the document to text are not modelled; the document is a sequence of element values.
- Svg: `piet-svg/src/text.rs` is not part of this model.
- Pathfinder: gradients are not modelled beyond being a gradient fill style.
- `usize` arithmetic: sizes and offsets are unbounded, so products such as `width * bytes_per_pixel` and `y * stride` are taken not to overflow 64 bits.
- Util.BinarySearch: `slice::binary_search` may return any index of a repeated key. The model picks one by its own midpoints, and the contract states only that the index holds the key.
- Util.LineNumberForPosition: the source asserts a non-empty slice and computes `idx - 1` for an insertion point, which underflows when the first line starts after the position; the model requires a non-empty slice whose first start is at or before the position.
- Util.UnpremultiplyRgba: the source reads `data[i + 3]` for every multiple `i` of 4, which panics when the length is not a multiple of 4; the model requires a multiple of 4.
- CairoContext.MakeImageWithStride: a width or height of 2^31 or more whose `i32` cast is still positive, with a buffer long enough, makes the row loop index past the surface and panic; the model requires that case away.
- CgContext.CoreGraphicsContext.MakeImageWithStride: the source asserts a non-empty buffer no longer than `bytes_per_pixel * width * height` (`piet-coregraphics/src/lib.rs:329`); the model requires it.
- D2DContext.D2DRenderContext.PopState: the source unwraps the top of the state stack, which is empty only after `finish`; the model requires a non-empty stack.
- D2DContext.D2DRenderContext.CurrentTransform: unwraps the top of the state stack; the model requires a non-empty stack.
- D2DContext.D2DRenderContext.Save: reads the current transform through that unwrap; the model requires a non-empty stack.
- D2DContext.D2DRenderContext.Transform: unwraps the top of the state stack; the model requires a non-empty stack.
- D2DContext.D2DRenderContext.Clip: unwraps the top of the state stack when the clip succeeds; the model requires a non-empty stack in that case.
- D2DContext.D2DRenderContext.ClipWithinSave: requires a non-empty stack, as `Save` and `Clip` do.
- D2DContext.D2DRenderContext.MakeImage: the conversion loops index `buf` for every pixel and panic on a short buffer; the model requires a buffer long enough for `width * height` pixels.
- WebContext.WebRenderContext.MakeImage: the conversion loops index `buf` for every pixel and panic on a short buffer; the model requires a buffer long enough for `width * height` pixels.
- PathfinderText.DefaultAttribute: attributes other than a size or a text colour reach `todo!()` (`piet-pathfinder/src/text.rs:43`); the model requires one of those two.
- Flatten.SoupBowl.Fill: quadratic and cubic segments reach `todo!()` (`cpu-sparse/src/flatten.rs:40-41`); the model requires a path of lines only.
- Flatten.SoupBowl.Fill: the colour arrives already premultiplied; peniko's `color.premultiply().to_rgba8()` (`cpu-sparse/src/flatten.rs:50`) is outside this model and taken as an input.
- Flatten.SoupBowl.Stroke: the colour arrives already premultiplied; peniko's `color.premultiply().to_rgba8()` (`cpu-sparse/src/flatten.rs:63`) is outside this model and taken as an input.
- Samples.ComparePngs: the source asserts equal buffer lengths and a whole number of pixels, and indexes the difference image by pixel; the model requires all three. The `u32` pixel count wraps as in a release build; a debug build panics on that overflow instead.
- Samples.CompareFiles: the source asserts that the two images have the same colour type; the model requires equal sample counts, together with the requirements of `ComparePngs`.
- CairoOldGrapheme.GetGraphemeBoundaries: the position lookups the source `expect`s to succeed are required to.
- CairoText.CairoTextLayout.HitTestTextPosition: the source asserts that the clamped position is a character boundary (`piet-cairo/src/text.rs:339`) and panics otherwise; the model requires a boundary position.
- D2DText.D2DTextLayout.HitTestTextPosition: the source slices `text[0..text_position]` without clamping (`piet-direct2d/src/text.rs:186`), which panics past the end of the text or off a character boundary; the model requires a boundary position within the text.
- Strip.RenderStrips: the source reads `tiles[0]` (`cpu-sparse/src/strip.rs:113`), which panics on an empty tile list; the model requires at least one tile.
- Compile-time backend selection, the stub and no-op renderers, the drawing scripts, examples other than Mondrian, and the benches are not part of this model.

## Findings

| source | as written | input that shows it|evidently intended|confidence|as-written member|corrected member |
|---|---|---|---|---|---|---|
| piet-cairo/src/text.rs:403-405 | the end of a line without its trailing whitespace is `end_offset - trailing_whitespace`: a byte offset less a character count (the Cairo `count_trailing_whitespace` counts characters) | the line `"a\u{3000}"` (an ideographic space of three bytes): the slice ends at byte 3, inside the space, and slicing there panics|subtract the byte length of the trailing whitespace, as the web backend counts it|not executed|CairoText.CharCountMisplacesNonWsEnd|CairoText.NonWsEndIsBoundary |

=== FILE: affine.dfy ===
/**
 * `kurbo::Affine` as the render contexts use it: only multiplication and the
 * identity matter to their bookkeeping, so an affine map is modelled as the
 * free monoid over its six coefficients. Every law proved here about
 * products of factors holds in any monoid, in particular for the real
 * matrix product.
 */
module Affine {
  /** The six coefficients `[a, b, c, d, e, f]` of one transform. */
  datatype Coeffs = Coeffs(a: real, b: real, c: real, d: real, e: real, f: real)

  /** A transform is the ordered product of the factors that built it. */
  datatype Affine = Product(factors: seq<Coeffs>)

  const IDENTITY: Affine := Product([])

  /** A single transform given by its coefficients. */
  function Of(c: Coeffs): Affine { Product([c]) }

  /** `self * other`: apply `other` first, then `self`. */
  function Mul(x: Affine, y: Affine): Affine
  {
    Product(x.factors + y.factors)
  }

  lemma MulIdentity(x: Affine)
    ensures Mul(IDENTITY, x) == x && Mul(x, IDENTITY) == x
  {
    assert [] + x.factors == x.factors;
    assert x.factors + [] == x.factors;
  }

  lemma MulAssoc(x: Affine, y: Affine, z: Affine)
    ensures Mul(Mul(x, y), z) == Mul(x, Mul(y, z))
  {
    assert (x.factors + y.factors) + z.factors == x.factors + (y.factors + z.factors);
  }
}

=== FILE: cairo_context.dfy ===
/**
 * The Cairo render context as far as piet keeps its own state: the stack
 * of transforms it maintains beside Cairo's (because GTK may have applied
 * a transform piet must not report), and the conversion of caller buffers
 * into the 32-bit pixels of a Cairo image surface. The Cairo context
 * itself is seen only through the calls piet makes on it and their
 * outcomes, which are inputs.
 */
module CairoContext {
  import opened Wrappers
  import opened PietTypes
  import opened Affine
  import opened Pixels
  import Util

  // ---------------------------------------------------------------------
  // The transform stack

  /** A call piet makes on the wrapped Cairo context. */
  datatype CairoCall = CairoSave | CairoRestore | CairoTransform(xf: Affine)

  /** `last().copied().unwrap_or_default()`: the top of the stack, or the identity. */
  function Top(stack: seq<Affine>): Affine
  {
    if stack == [] then IDENTITY else stack[|stack| - 1]
  }

  /** `CairoRenderContext`, with the Cairo context reduced to the calls made on it. */
  class CairoRenderContext {
    var transformStack: seq<Affine>
    var calls: seq<CairoCall>

    /** `CairoRenderContext::new`: no transforms of piet's own. */
    constructor ()
      ensures transformStack == [] && calls == []
    {
      transformStack := [];
      calls := [];
    }

    /**
     * `save`: Cairo saves first; if that fails its error is returned and the
     * stack is left alone, otherwise a copy of the top (the identity on an
     * empty stack) is pushed.
     */
    method Save(cairoResult: Result<(), Error>) returns (r: Result<(), Error>)
      modifies this
      ensures calls == old(calls) + [CairoSave]
      ensures cairoResult.Err? ==> r == cairoResult && transformStack == old(transformStack)
      ensures cairoResult.Ok? ==> r.Ok? && transformStack == old(transformStack) + [Top(old(transformStack))]
    {
      calls := calls + [CairoSave];
      if cairoResult.Err? {
        return cairoResult;
      }
      var state := Top(transformStack);
      transformStack := transformStack + [state];
      r := Ok(());
    }

    /**
     * `restore`: pops, and only then restores Cairo and returns its outcome;
     * on an empty stack it is `StackUnbalance` and Cairo is not called.
     */
    method Restore(cairoResult: Result<(), Error>) returns (r: Result<(), Error>)
      modifies this
      ensures old(transformStack) == [] ==> r == Err(StackUnbalance) && transformStack == [] && calls == old(calls)
      ensures old(transformStack) != [] ==>
        && r == cairoResult
        && transformStack == old(transformStack)[..|old(transformStack)| - 1]
        && calls == old(calls) + [CairoRestore]
    {
      if transformStack == [] {
        return Err(StackUnbalance);
      }
      transformStack := transformStack[..|transformStack| - 1];
      calls := calls + [CairoRestore];
      r := cairoResult;
    }

    /**
     * `transform`: the top is multiplied by the transform in place; on an
     * empty stack the transform itself is pushed. Cairo is always told.
     */
    method Transform(transform: Affine)
      modifies this
      ensures old(transformStack) == [] ==> transformStack == [transform]
      ensures old(transformStack) != [] ==>
        var n := |old(transformStack)|;
        transformStack == old(transformStack)[..n - 1] + [Mul(old(transformStack)[n - 1], transform)]
      ensures calls == old(calls) + [CairoTransform(transform)]
    {
      if |transformStack| > 0 {
        var last := transformStack[|transformStack| - 1];
        transformStack := transformStack[..|transformStack| - 1] + [Mul(last, transform)];
      } else {
        transformStack := [transform];
      }
      calls := calls + [CairoTransform(transform)];
    }

    /** `current_transform`: the top of the stack, or the identity. */
    function CurrentTransform(): (xf: Affine)
      reads this
      ensures transformStack == [] ==> xf == IDENTITY
      ensures transformStack != [] ==> xf == transformStack[|transformStack| - 1]
    {
      Top(transformStack)
    }

    /**
     * A successful `save`, any `transform` and a `restore` give back the
     * transform that was current before, and the stack as it was.
     */
    method SaveTransformRestore(transform: Affine)
      modifies this
      ensures transformStack == old(transformStack) && CurrentTransform() == old(CurrentTransform())
      ensures calls == old(calls) + [CairoSave, CairoTransform(transform), CairoRestore]
    {
      var _ := Save(Ok(()));
      Transform(transform);
      var _ := Restore(Ok(()));
    }
  }

  /**
   * On a fresh context, a `transform` pushes an entry, so a `restore` with
   * no `save` before it succeeds as far as piet is concerned, and Cairo is
   * asked to restore a state it never saved.
   */
  method TransformThenRestore(transform: Affine) returns (r: Result<(), Error>, calls: seq<CairoCall>)
    ensures r.Ok?
    ensures calls == [CairoTransform(transform), CairoRestore]
  {
    var ctx := new CairoRenderContext();
    ctx.Transform(transform);
    r := ctx.Restore(Ok(()));
    calls := ctx.calls;
  }

  // ---------------------------------------------------------------------
  // Pixels

  /** The Cairo surface formats `make_image_with_stride` uses. */
  datatype CairoFormat = Rgb24 | ARgb32

  /** The surface format for a caller's format: 24-bit for RGB and grey, 32-bit with alpha otherwise. */
  function CairoFormatFor(format: ImageFormat): (f: CairoFormat)
    ensures f == Rgb24 <==> format.Rgb? || format.Grayscale?
    ensures f == ARgb32 <==> format.RgbaSeparate? || format.RgbaPremul?
  {
    match format
    case Rgb => Rgb24
    case Grayscale => Rgb24
    case RgbaSeparate => ARgb32
    case RgbaPremul => ARgb32
  }

  /** `a << 24 | r << 16 | g << 8 | b`: the bits do not overlap, so `|` is `+`. */
  function Pixel32(r: Byte, g: Byte, b: Byte, a: Byte): (v: nat)
    ensures v < U32_LIMIT
  {
    a * 0x100_0000 + r * 0x1_0000 + g * 0x100 + b
  }

  /** `u32::to_ne_bytes`: least significant byte first on a little-endian machine. */
  function NeBytes(v: nat, littleEndian: bool): (bs: seq<Byte>)
    requires v < U32_LIMIT
    ensures |bs| == 4
  {
    var le := [v % 0x100, v / 0x100 % 0x100, v / 0x1_0000 % 0x100, v / 0x100_0000];
    if littleEndian then le else [le[3], le[2], le[1], le[0]]
  }

  /**
   * Cairo's 32-bit pixel in memory: blue, green, red, alpha on a
   * little-endian machine and alpha, red, green, blue on a big-endian one.
   */
  lemma PixelLayout(r: Byte, g: Byte, b: Byte, a: Byte, littleEndian: bool)
    ensures NeBytes(Pixel32(r, g, b, a), littleEndian) == if littleEndian then [b, g, r, a] else [a, r, g, b]
  {
    var v := Pixel32(r, g, b, a);
    DivModDigit(a * 0x1_0000 + r * 0x100 + g, b);
    DivModDigit(a * 0x100 + r, g);
    DivModDigit(a, r);
    assert v / 0x1_0000 == (v / 0x100) / 0x100;
    assert v / 0x100_0000 == (v / 0x1_0000) / 0x100;
  }

  /** Splitting off the lowest base-256 digit. */
  lemma DivModDigit(hi: nat, lo: Byte)
    ensures (hi * 0x100 + lo) / 0x100 == hi && (hi * 0x100 + lo) % 0x100 == lo
  {
  }

  /**
   * `write_rgba`: the four bytes of pixel `column` of the row starting at
   * `start` become the native-endian bytes of the pixel; every other byte
   * is kept.
   */
  method WriteRgba(data: array<Byte>, start: nat, column: nat, r: Byte, g: Byte, b: Byte, a: Byte, littleEndian: bool)
    requires start + 4 * column + 4 <= data.Length
    modifies data
    ensures Written(data[..], old(data[..]), start + 4 * column, NeBytes(Pixel32(r, g, b, a), littleEndian))
  {
    var pixel := Pixel32(r, g, b, a);
    var bytes := NeBytes(pixel, littleEndian);
    var i := start + 4 * column;
    data[i], data[i + 1], data[i + 2], data[i + 3] := bytes[0], bytes[1], bytes[2], bytes[3];
    Splice(old(data[..]), data[..], bytes, i);
  }

  /** The bytes `n` pixels take in the caller's format. */
  function RowBytes(format: ImageFormat, n: nat): nat
  {
    match format
    case Grayscale => n
    case Rgb => 3 * n
    case RgbaSeparate => 4 * n
    case RgbaPremul => 4 * n
  }

  /** `RowBytes` is `n * format.bytes_per_pixel()`. */
  lemma RowBytesIs(format: ImageFormat, n: nat)
    ensures RowBytes(format, n) == n * BytesPerPixel(format)
  {
  }

  /** Pixel `x` of a source row at `off` lies within the buffer. */
  predicate PixelFits(buf: seq<Byte>, off: nat, format: ImageFormat, x: nat)
  {
    off + RowBytes(format, x + 1) <= |buf|
  }

  /** The colour and alpha `make_image_with_stride` writes for pixel `x` of a source row at `off`. */
  function SourcePixel(buf: seq<Byte>, off: nat, format: ImageFormat, x: nat): (Byte, Byte, Byte, Byte)
  {
    match format
    case Rgb => (ByteAt(buf, off + x * 3), ByteAt(buf, off + x * 3 + 1), ByteAt(buf, off + x * 3 + 2), 0)
    case RgbaPremul =>
      (ByteAt(buf, off + x * 4), ByteAt(buf, off + x * 4 + 1), ByteAt(buf, off + x * 4 + 2), ByteAt(buf, off + x * 4 + 3))
    case RgbaSeparate =>
      var a := ByteAt(buf, off + x * 4 + 3);
      (Premul(ByteAt(buf, off + x * 4), a), Premul(ByteAt(buf, off + x * 4 + 1), a),
       Premul(ByteAt(buf, off + x * 4 + 2), a), a)
    case Grayscale => (ByteAt(buf, off + x), ByteAt(buf, off + x), ByteAt(buf, off + x), 0)
  }

  /** The bytes of pixel `x` of a source row, as written into the surface. */
  function PixelBytes(buf: seq<Byte>, off: nat, format: ImageFormat, x: nat, littleEndian: bool): (bs: seq<Byte>)
    ensures |bs| == 4
  {
    var (r, g, b, a) := SourcePixel(buf, off, format, x);
    NeBytes(Pixel32(r, g, b, a), littleEndian)
  }

  /** The first `n` pixels of a source row at `off`, converted and laid end to end. */
  function RowData(buf: seq<Byte>, off: nat, format: ImageFormat, n: nat, littleEndian: bool): (row: seq<Byte>)
    ensures |row| == 4 * n
  {
    if n == 0 then [] else RowData(buf, off, format, n - 1, littleEndian) + PixelBytes(buf, off, format, n - 1, littleEndian)
  }

  /** The first `m` converted pixels of a row are the row of `m` pixels. */
  lemma {:induction false} RowDataPrefix(buf: seq<Byte>, off: nat, format: ImageFormat, n: nat, m: nat,
                                         littleEndian: bool)
    requires m <= n
    ensures Filled(RowData(buf, off, format, n, littleEndian), RowData(buf, off, format, m, littleEndian))
  {
    if m < n {
      RowDataPrefix(buf, off, format, n - 1, m, littleEndian);
      FilledConcat(RowData(buf, off, format, n - 1, littleEndian), PixelBytes(buf, off, format, n - 1, littleEndian),
                   RowData(buf, off, format, m, littleEndian));
      RowDataStep(buf, off, format, n - 1, littleEndian);
    } else {
      FilledSelf(RowData(buf, off, format, n, littleEndian));
    }
  }

  /** Pixel `x` of a converted row is its four bytes at `4 * x`. */
  lemma RowPixelAt(buf: seq<Byte>, off: nat, format: ImageFormat, width: nat, x: nat, littleEndian: bool)
    requires x < width
    ensures Holds(RowData(buf, off, format, width, littleEndian), 4 * x, PixelBytes(buf, off, format, x, littleEndian))
  {
    RowDataPrefix(buf, off, format, width, x + 1, littleEndian);
    RowDataStep(buf, off, format, x, littleEndian);
    SliceAfterPrefix(RowData(buf, off, format, width, littleEndian), RowData(buf, off, format, x, littleEndian),
                     PixelBytes(buf, off, format, x, littleEndian));
  }

  /**
   * The surface data: the first `height` source rows, `stride` bytes apart,
   * converted and laid end to end, `4 * width` bytes each.
   */
  function ImageData(buf: seq<Byte>, stride: nat, format: ImageFormat, width: nat, height: nat, littleEndian: bool)
    : (data: seq<Byte>)
    ensures |data| == Util.RowOffset(height, 4 * width)
  {
    if height == 0 then []
    else
      ImageData(buf, stride, format, width, height - 1, littleEndian)
      + RowData(buf, Util.RowOffset(height - 1, stride), format, width, littleEndian)
  }

  /** The first `k` rows of the surface data are the data of `k` rows. */
  lemma {:induction false} ImageDataPrefix(buf: seq<Byte>, stride: nat, format: ImageFormat, width: nat, height: nat,
                                           k: nat, littleEndian: bool)
    requires k <= height
    ensures Filled(ImageData(buf, stride, format, width, height, littleEndian),
                   ImageData(buf, stride, format, width, k, littleEndian))
  {
    if k < height {
      ImageDataPrefix(buf, stride, format, width, height - 1, k, littleEndian);
      FilledConcat(ImageData(buf, stride, format, width, height - 1, littleEndian),
                   RowData(buf, Util.RowOffset(height - 1, stride), format, width, littleEndian),
                   ImageData(buf, stride, format, width, k, littleEndian));
      ImageDataStep(buf, stride, format, width, height - 1, littleEndian);
    } else {
      FilledSelf(ImageData(buf, stride, format, width, height, littleEndian));
    }
  }

  /** Row `y` of the surface data, at `RowOffset(y, 4 * width)`, is source row `y` converted. */
  lemma ImageRowAt(buf: seq<Byte>, stride: nat, format: ImageFormat, width: nat, height: nat, y: nat,
                   littleEndian: bool)
    requires y < height
    ensures Holds(ImageData(buf, stride, format, width, height, littleEndian), Util.RowOffset(y, 4 * width),
                  RowData(buf, Util.RowOffset(y, stride), format, width, littleEndian))
  {
    ImageDataPrefix(buf, stride, format, width, height, y + 1, littleEndian);
    ImageDataStep(buf, stride, format, width, y, littleEndian);
    SliceAfterPrefix(ImageData(buf, stride, format, width, height, littleEndian),
                     ImageData(buf, stride, format, width, y, littleEndian),
                     RowData(buf, Util.RowOffset(y, stride), format, width, littleEndian));
  }

  /**
   * Pixel `(x, y)` of the surface (at `y * 4 * width + 4 * x`, see
   * `RowOffsetIsProduct`) holds the native-endian 32-bit pixel of source
   * pixel `(x, y)` (at `y * stride`).
   */
  lemma ImagePixelAt(buf: seq<Byte>, stride: nat, format: ImageFormat, width: nat, height: nat, x: nat, y: nat,
                     littleEndian: bool)
    requires x < width && y < height
    requires Util.RowOffset(height - 1, stride) + RowBytes(format, width) <= |buf|
    ensures PixelFits(buf, Util.RowOffset(y, stride), format, x)
    ensures Holds(ImageData(buf, stride, format, width, height, littleEndian), Util.RowOffset(y, 4 * width) + 4 * x,
                  PixelBytes(buf, Util.RowOffset(y, stride), format, x, littleEndian))
  {
    Util.RowOffsetMonotone(y, height - 1, stride);
    ImageRowAt(buf, stride, format, width, height, y, littleEndian);
    RowPixelAt(buf, Util.RowOffset(y, stride), format, width, x, littleEndian);
    HoldsWithin(ImageData(buf, stride, format, width, height, littleEndian), Util.RowOffset(y, 4 * width),
                RowData(buf, Util.RowOffset(y, stride), format, width, littleEndian), 4 * x,
                PixelBytes(buf, Util.RowOffset(y, stride), format, x, littleEndian));
  }

  /**
   * The bytes of a converted pixel: RGB with alpha byte 0, grey replicated
   * into red, green and blue with alpha byte 0, premultiplied RGBA copied,
   * and separate RGBA premultiplied by its alpha; laid out as Cairo's
   * 32-bit pixel in native byte order (see `PixelLayout`).
   */
  lemma PixelBytesIs(buf: seq<Byte>, off: nat, format: ImageFormat, x: nat, littleEndian: bool)
    requires PixelFits(buf, off, format, x)
    ensures var (r, g, b, a) := SourcePixel(buf, off, format, x);
      && PixelBytes(buf, off, format, x, littleEndian) == (if littleEndian then [b, g, r, a] else [a, r, g, b])
      && (format.Rgb? ==> (r, g, b, a) == (buf[off + 3 * x], buf[off + 3 * x + 1], buf[off + 3 * x + 2], 0))
      && (format.Grayscale? ==> (r, g, b, a) == (buf[off + x], buf[off + x], buf[off + x], 0))
      && (format.RgbaPremul? ==>
            (r, g, b, a) == (buf[off + 4 * x], buf[off + 4 * x + 1], buf[off + 4 * x + 2], buf[off + 4 * x + 3]))
      && (format.RgbaSeparate? ==>
            a == buf[off + 4 * x + 3]
            && (r, g, b) == (Premul(buf[off + 4 * x], a), Premul(buf[off + 4 * x + 1], a), Premul(buf[off + 4 * x + 2], a)))
  {
    var (r, g, b, a) := SourcePixel(buf, off, format, x);
    PixelLayout(r, g, b, a, littleEndian);
  }

  /**
   * The loop over one row: the `4 * width` bytes from `start` become the
   * converted source row at `srcOff`; every other byte is kept.
   */
  method WriteRow(data: array<Byte>, start: nat, buf: seq<Byte>, srcOff: nat, format: ImageFormat, width: nat,
                  littleEndian: bool)
    requires start + 4 * width <= data.Length
    requires srcOff + RowBytes(format, width) <= |buf|
    modifies data
    ensures Written(data[..], old(data[..]), start, RowData(buf, srcOff, format, width, littleEndian))
  {
    WrittenNothing(data[..], start);
    var x := 0;
    while x < width
      invariant x <= width
      invariant Written(data[..], old(data[..]), start, RowData(buf, srcOff, format, x, littleEndian))
    {
      WritePixel(data, start, buf, srcOff, format, x, littleEndian, old(data[..]));
      x := x + 1;
    }
  }

  /**
   * One step of the loop over a row: pixel `x` is read (the per-format
   * reads, premultiplying separate alpha, are `SourcePixel`), converted
   * and written after the `x` pixels already written, so the converted
   * part of the row grows by that pixel.
   */
  method WritePixel(data: array<Byte>, start: nat, buf: seq<Byte>, srcOff: nat, format: ImageFormat, x: nat,
                    littleEndian: bool, ghost original: seq<Byte>)
    requires start + 4 * x + 4 <= data.Length
    requires PixelFits(buf, srcOff, format, x)
    requires Written(data[..], original, start, RowData(buf, srcOff, format, x, littleEndian))
    modifies data
    ensures Written(data[..], original, start, RowData(buf, srcOff, format, x + 1, littleEndian))
  {
    var (r, g, b, a) := SourcePixel(buf, srcOff, format, x);
    WriteRgba(data, start, x, r, g, b, a, littleEndian);
    RowDataStep(buf, srcOff, format, x, littleEndian);
    Grow(original, old(data[..]), data[..], start, start + 4 * x, RowData(buf, srcOff, format, x, littleEndian),
         PixelBytes(buf, srcOff, format, x, littleEndian), RowData(buf, srcOff, format, x + 1, littleEndian));
  }

  /** The converted row grows by one pixel at a time. */
  lemma RowDataStep(buf: seq<Byte>, off: nat, format: ImageFormat, x: nat, littleEndian: bool)
    ensures RowData(buf, off, format, x + 1, littleEndian)
            == RowData(buf, off, format, x, littleEndian) + PixelBytes(buf, off, format, x, littleEndian)
  {
  }

  /** The converted surface grows by one row at a time. */
  lemma ImageDataStep(buf: seq<Byte>, stride: nat, format: ImageFormat, width: nat, y: nat, littleEndian: bool)
    ensures ImageData(buf, stride, format, width, y + 1, littleEndian)
            == ImageData(buf, stride, format, width, y, littleEndian)
               + RowData(buf, Util.RowOffset(y, stride), format, width, littleEndian)
  {
  }

  /** A Cairo image surface: its format, size and pixel data, rows `4 * width` bytes apart. */
  datatype CairoImage = CairoImage(format: CairoFormat, width: nat, height: nat, data: seq<Byte>)

  const I32_LIMIT: int := 0x8000_0000

  /** `n as i32`: the low 32 bits of `n`, read as two's complement. */
  function AsI32(n: nat): (r: int)
    ensures -I32_LIMIT <= r < I32_LIMIT
    ensures (n - r) % U32_LIMIT == 0
    ensures n < I32_LIMIT ==> r == n
  {
    var low := n % U32_LIMIT;
    if low < I32_LIMIT then low else low - U32_LIMIT
  }

  /** Sizes of 2^31 and more lose their high bits: `2^32` casts to 0, `2^31` to the least `i32`. */
  lemma AsI32Wraps()
    ensures AsI32(U32_LIMIT) == 0 && AsI32(U32_LIMIT + 3) == 3
    ensures AsI32(I32_LIMIT) == -I32_LIMIT && AsI32(U32_LIMIT - 1) == -1
  {
  }

  /**
   * `make_image_with_stride`. The size is cast to `i32` before Cairo sees
   * it; `created` is whether Cairo could create a surface of that size,
   * which it never can for a negative one. A surface whose cast width or
   * height is 0 is returned at once, empty; a buffer shorter than the rows
   * need is `InvalidInput`; otherwise every pixel is converted (see
   * `ImagePixelAt`). A size the cast truncates to a smaller positive one
   * and a buffer long enough would make the row loop index past the
   * surface, a panic the requires rules out.
   */
  method MakeImageWithStride(width: nat, height: nat, stride: nat, buf: seq<Byte>, format: ImageFormat,
                             created: bool, littleEndian: bool)
    returns (r: Result<CairoImage, Error>)
    requires created && AsI32(width) > 0 && AsI32(height) > 0
             && |buf| >= Util.ExpectedImageBufferSize(width * BytesPerPixel(format), height, stride)
             ==> width < I32_LIMIT && height < I32_LIMIT
    ensures !created || AsI32(width) < 0 || AsI32(height) < 0 ==> r == Err(BackendError)
    ensures created && AsI32(width) >= 0 && AsI32(height) >= 0 && (AsI32(width) == 0 || AsI32(height) == 0) ==>
      r == Ok(CairoImage(CairoFormatFor(format), AsI32(width), AsI32(height), []))
    ensures created && AsI32(width) > 0 && AsI32(height) > 0 ==>
      (r.Err? <==> |buf| < Util.ExpectedImageBufferSize(width * BytesPerPixel(format), height, stride))
    ensures r.Err? && created && AsI32(width) >= 0 && AsI32(height) >= 0 ==> r.error == InvalidInput
    ensures r.Ok? && AsI32(width) > 0 && AsI32(height) > 0 ==>
      && Util.RowOffset(height - 1, stride) + RowBytes(format, width) <= |buf|
      && |r.value.data| == height * (4 * width)
      && r.value == CairoImage(CairoFormatFor(format), width, height,
                               ImageData(buf, stride, format, width, height, littleEndian))
  {
    var cairoFormat := CairoFormatFor(format);
    var widthInt := AsI32(width);
    var heightInt := AsI32(height);
    if !created || widthInt < 0 || heightInt < 0 {
      return Err(BackendError);
    }
    if widthInt == 0 || heightInt == 0 {
      return Ok(CairoImage(cairoFormat, widthInt, heightInt, []));
    }
    var imageStride := 4 * width;
    if |buf| < Util.ExpectedImageBufferSize(width * BytesPerPixel(format), height, stride) {
      return Err(InvalidInput);
    }
    RowBytesIs(format, width);
    Util.RowOffsetIsProduct(height, imageStride);
    var data := new Byte[height * imageStride](_ => 0);
    ConvertRows(data, buf, stride, format, width, height, littleEndian);
    r := Ok(CairoImage(cairoFormat, width, height, data[..]));
  }

  /** The loop over rows: the surface ends up holding every source row, converted. */
  method ConvertRows(data: array<Byte>, buf: seq<Byte>, stride: nat, format: ImageFormat, width: nat, height: nat,
                     littleEndian: bool)
    requires height == 0 || Util.RowOffset(height - 1, stride) + RowBytes(format, width) <= |buf|
    requires data.Length == Util.RowOffset(height, 4 * width)
    modifies data
    ensures data[..] == ImageData(buf, stride, format, width, height, littleEndian)
  {
    var y := 0;
    assert Filled(data[..], []);
    while y < height
      invariant y <= height
      invariant Filled(data[..], ImageData(buf, stride, format, width, y, littleEndian))
    {
      ConvertRow(data, y, buf, stride, format, width, height, littleEndian);
      y := y + 1;
    }
    assert data[..] == data[..|ImageData(buf, stride, format, width, height, littleEndian)|];
  }

  /**
   * One step of the loop over rows: source row `y` (at `y * stride`) is
   * converted into surface row `y` (at `y * 4 * width`), so the surface
   * holds one more converted row.
   */
  method ConvertRow(data: array<Byte>, y: nat, buf: seq<Byte>, stride: nat, format: ImageFormat, width: nat,
                    height: nat, littleEndian: bool)
    requires y < height && Util.RowOffset(height - 1, stride) + RowBytes(format, width) <= |buf|
    requires data.Length == Util.RowOffset(height, 4 * width)
    requires Filled(data[..], ImageData(buf, stride, format, width, y, littleEndian))
    modifies data
    ensures Filled(data[..], ImageData(buf, stride, format, width, y + 1, littleEndian))
  {
    Util.RowOffsetMonotone(y, height - 1, stride);
    Util.RowOffsetMonotone(y + 1, height, 4 * width);
    Util.RowOffsetIsProduct(y, stride);
    Util.RowOffsetIsProduct(y, 4 * width);
    Util.RowOffsetIsProduct(y + 1, 4 * width);
    WriteRow(data, y * (4 * width), buf, y * stride, format, width, littleEndian);
    ImageDataStep(buf, stride, format, width, y, littleEndian);
    FillGrows(old(data[..]), data[..], ImageData(buf, stride, format, width, y, littleEndian),
              RowData(buf, Util.RowOffset(y, stride), format, width, littleEndian),
              ImageData(buf, stride, format, width, y + 1, littleEndian));
  }
}

=== FILE: cairo_grapheme.dfy ===
/**
 * The grapheme helpers of the Cairo text layout: the boundaries and edge
 * positions of one grapheme cluster of a line, and which of its two
 * boundaries a horizontal position is nearer to. The cluster starts of a
 * line (`grapheme_indices`) and the advance of a prefix of it
 * (`text_extents(..).x_advance`) are inputs.
 */
module CairoGrapheme {
  import opened Wrappers
  import opened Unicode
  import opened PietTypes
  import opened Graphemes

  /**
   * `hit_test_line_position`: the x offset of byte position `pos` of the
   * line, 0 at its start, the full advance at or past its end, and in
   * between the advance of the prefix that ends at the start of the cluster
   * holding `pos`.
   */
  function HitTestLinePosition(text: string, starts: seq<nat>, advance: string -> real, pos: nat): real
  {
    if pos == 0 then 0.0
    else if pos >= ByteLen(text) then advance(text)
    else
      match LastStartAtMost(starts, pos)
      case Some(idx) => advance(Slice(text, 0, idx))
      case None => advance(text)
  }

  /** An interior position is snapped back to the start of its cluster; the ends are 0 and the full advance. */
  lemma HitTestLinePositionSnaps(text: string, starts: seq<nat>, advance: string -> real, pos: nat, p: nat)
    requires Segments(starts, ByteLen(text))
    ensures pos == 0 ==> HitTestLinePosition(text, starts, advance, pos) == 0.0
    ensures pos >= ByteLen(text) > 0 ==> HitTestLinePosition(text, starts, advance, pos) == advance(text)
    ensures 0 < pos < ByteLen(text) && Contains(starts, ByteLen(text), p, pos) ==>
      HitTestLinePosition(text, starts, advance, pos) == advance(Slice(text, 0, starts[p]))
  {
    if 0 < pos < ByteLen(text) && Contains(starts, ByteLen(text), p, pos) {
      LastStartOfContaining(starts, ByteLen(text), p, pos);
    }
  }

  /**
   * `GraphemeBoundaries`: the byte offsets at which a cluster and the next
   * one start, and their x positions.
   */
  datatype GraphemeBoundaries = GraphemeBoundaries(currIdx: nat, nextIdx: nat, leading: real, trailing: real)

  /**
   * `get_grapheme_boundaries`: `None` past the last cluster; otherwise the
   * cluster's start and the next start (`text.len()` after the last
   * cluster), each with its line position.
   */
  function GetGraphemeBoundaries(text: string, starts: seq<nat>, advance: string -> real, p: nat): (r: Option<GraphemeBoundaries>)
    ensures r.None? <==> p >= |starts|
    ensures r.Some? ==> r.value.currIdx == starts[p] && r.value.nextIdx == NextStart(starts, ByteLen(text), p)
  {
    if p >= |starts| then None
    else
      var curr := starts[p];
      var next := NextStart(starts, ByteLen(text), p);
      Some(GraphemeBoundaries(curr, next,
        HitTestLinePosition(text, starts, advance, curr), HitTestLinePosition(text, starts, advance, next)))
  }

  /** On a segmented line the boundaries of a cluster are two successive offsets inside the line. */
  lemma BoundariesInOrder(text: string, starts: seq<nat>, advance: string -> real, p: nat)
    requires Segments(starts, ByteLen(text)) && p < |starts|
    ensures var b := GetGraphemeBoundaries(text, starts, advance, p).value;
      b.currIdx < b.nextIdx <= ByteLen(text)
      && (p + 1 == |starts| ==> b.nextIdx == ByteLen(text))
  {
  }

  /**
   * `point_x_in_grapheme`: `None` outside `[leading, trailing]`; inside, a
   * hit on the nearer boundary, ties going to the next one.
   */
  function PointXInGrapheme(x: real, b: GraphemeBoundaries): (r: Option<HitTestPoint>)
    ensures r.Some? <==> b.leading <= x <= b.trailing
    ensures r.Some? ==> r.value.isInside
    ensures r.Some? ==> r.value.idx == (if b.trailing - x <= x - b.leading then b.nextIdx else b.currIdx)
  {
    if x >= b.leading && x <= b.trailing then
      var midpoint := b.leading + (b.trailing - b.leading) / 2.0;
      var idx := if x >= midpoint then b.nextIdx else b.currIdx;
      Some(HitTestPoint(idx, true))
    else
      None
  }

  /** Position 3 of `"piet"` is the cluster `[3, 4)`, and there is no cluster 4. */
  lemma GraphemeBoundariesExample(advance: string -> real)
    ensures GetGraphemeBoundaries("piet", [0, 1, 2, 3], advance, 3).Some?
    ensures GetGraphemeBoundaries("piet", [0, 1, 2, 3], advance, 3).value.currIdx == 3
    ensures GetGraphemeBoundaries("piet", [0, 1, 2, 3], advance, 3).value.nextIdx == 4
    ensures GetGraphemeBoundaries("piet", [0, 1, 2, 3], advance, 4).None?
  {
    assert ByteLen("piet") == 4 by {
      assert "piet"[1..] == "iet" && "iet"[1..] == "et" && "et"[1..] == "t" && "t"[1..] == "";
    }
  }

  /** On the cluster `[2, 4)` drawn from 10 to 14, x 10 and 11 hit 2, and 12 and 13 hit 4. */
  lemma PointXInGraphemeExample()
    ensures PointXInGrapheme(10.0, GraphemeBoundaries(2, 4, 10.0, 14.0)) == Some(HitTestPoint(2, true))
    ensures PointXInGrapheme(11.0, GraphemeBoundaries(2, 4, 10.0, 14.0)) == Some(HitTestPoint(2, true))
    ensures PointXInGrapheme(12.0, GraphemeBoundaries(2, 4, 10.0, 14.0)) == Some(HitTestPoint(4, true))
    ensures PointXInGrapheme(13.0, GraphemeBoundaries(2, 4, 10.0, 14.0)) == Some(HitTestPoint(4, true))
  {
  }
}

=== FILE: cairo_lines.dfy ===
/**
 * `calculate_line_metrics` of the Cairo backend: the greedy break loop of
 * `LineBreaking`, with `add_line_metric` recording for each line its
 * trailing-whitespace count in characters and the running height of the
 * layout including that line.
 */
module CairoLines {
  import opened Unicode
  import opened LineBreaking
  import opened PietTypes

  /** The byte ranges of `lines`. */
  function Ranges(lines: seq<CumulativeLineMetric>): (r: seq<Span>)
    ensures |r| == |lines|
  {
    if lines == [] then []
    else Ranges(lines[..|lines| - 1]) + [Span(lines[|lines| - 1].startOffset, lines[|lines| - 1].endOffset)]
  }

  /** Range `k` is the byte range of line `k`. */
  lemma {:induction false} RangesAt(lines: seq<CumulativeLineMetric>, k: nat)
    requires k < |lines|
    ensures Ranges(lines)[k] == Span(lines[k].startOffset, lines[k].endOffset)
  {
    if k < |lines| - 1 {
      RangesAt(lines[..|lines| - 1], k);
    }
  }

  /**
   * Every line carries the font's height and ascent and its own trailing
   * whitespace, and the running height of the `k`-th line (counting from 1)
   * is `k` heights stacked.
   */
  predicate Recorded(text: string, height: real, baseline: real, lines: seq<CumulativeLineMetric>)
  {
    forall k :: 0 <= k < |lines| ==> LineRecorded(text, height, baseline, lines[k], k)
  }

  /** What `add_line_metric` records for the line at index `k`. */
  predicate LineRecorded(text: string, height: real, baseline: real, line: CumulativeLineMetric, k: nat)
  {
    && line.trailingWhitespace == CountTrailingWhitespace(Slice(text, line.startOffset, line.endOffset))
    && line.baseline == baseline
    && line.height == height
    && line.cumulativeHeight == Stacked(k + 1, height)
  }


  /**
   * Adds `height` to the running height and appends the line
   * `text[start..end]`; a running height of `n` lines becomes one of `n+1`.
   */
  method AddLineMetric(
    text: string, startOffset: nat, endOffset: nat, baseline: real, height: real,
    cumulativeHeight: real, lines: seq<CumulativeLineMetric>)
    returns (cumulativeHeight': real, lines': seq<CumulativeLineMetric>)
    ensures cumulativeHeight' == cumulativeHeight + height
    ensures lines' == lines + [CumulativeLineMetric(startOffset, endOffset,
      CountTrailingWhitespace(Slice(text, startOffset, endOffset)), baseline, height, cumulativeHeight')]
    ensures Ranges(lines') == Ranges(lines) + [Span(startOffset, endOffset)]
    ensures Recorded(text, height, baseline, lines) && cumulativeHeight == Stacked(|lines|, height) ==>
      Recorded(text, height, baseline, lines') && cumulativeHeight' == Stacked(|lines'|, height)
  {
    cumulativeHeight' := cumulativeHeight + height;
    var line := Slice(text, startOffset, endOffset);
    var trailingWhitespace := CountTrailingWhitespace(line);
    lines' := lines + [CumulativeLineMetric(startOffset, endOffset, trailingWhitespace, baseline, height, cumulativeHeight')];
    AppendRanges(lines, CumulativeLineMetric(startOffset, endOffset, trailingWhitespace, baseline, height, cumulativeHeight'));
    if Recorded(text, height, baseline, lines) && cumulativeHeight == Stacked(|lines|, height) {
      AppendRecorded(text, height, baseline, lines, startOffset, endOffset, cumulativeHeight');
    }
  }

  /** Appending a line appends its range. */
  lemma AppendRanges(lines: seq<CumulativeLineMetric>, x: CumulativeLineMetric)
    ensures Ranges(lines + [x]) == Ranges(lines) + [Span(x.startOffset, x.endOffset)]
  {
    assert (lines + [x])[..|lines|] == lines;
  }

  /** Appending a line whose running height is one more line's keeps `Recorded`. */
  lemma AppendRecorded(text: string, height: real, baseline: real, lines: seq<CumulativeLineMetric>, start: nat, end: nat, c: real)
    requires Recorded(text, height, baseline, lines)
    requires c == Stacked(|lines| + 1, height)
    ensures Recorded(text, height, baseline, lines + [CumulativeLineMetric(start, end,
      CountTrailingWhitespace(Slice(text, start, end)), baseline, height, c)])
  {
    var lines' := lines + [CumulativeLineMetric(start, end, CountTrailingWhitespace(Slice(text, start, end)), baseline, height, c)];
    forall k | 0 <= k < |lines'|
      ensures LineRecorded(text, height, baseline, lines'[k], k)
    {
      if k < |lines| { assert lines'[k] == lines[k]; }
    }
  }

  /**
   * The break loop. `advance` is the font's `text_extents(..).x_advance`,
   * `height` and `baseline` its extents' height and ascent, and `breaks` the
   * opportunities `LineBreakIterator` yields for `text`.
   */
  method CalculateLineMetrics(
    text: string, advance: string -> real, width: Width, height: real, baseline: real, breaks: seq<Break>)
    returns (lines: seq<CumulativeLineMetric>)
    ensures Ranges(lines) == Spans(Measure(text, advance, width), breaks)
    ensures Recorded(text, height, baseline, lines)
    ensures Increasing(breaks) ==>
      && Contiguous(Ranges(lines))
      && HardBreaksEnd(breaks, |breaks|, Ranges(lines))
      && AllReported(breaks, |breaks|, Ranges(lines))
  {
    ghost var m := Measure(text, advance, width);
    lines := [];
    var lineStart: nat := 0;
    var prevBreak: nat := 0;
    var cumulativeHeight := 0.0;
    var i := 0;
    while i < |breaks|
      invariant i <= |breaks|
      invariant Run(m, breaks[..i]) == State(lineStart, prevBreak, Ranges(lines))
      invariant cumulativeHeight == Stacked(|lines|, height)
      invariant Recorded(text, height, baseline, lines)
    {
      RunSnoc(m, breaks, i);
      ghost var st := State(lineStart, prevBreak, Ranges(lines));
      var lineBreak := breaks[i].offset;
      var isHardBreak := breaks[i].hard;
      if !isHardBreak {
        var currWidth := advance(Slice(text, lineStart, lineBreak));
        if Exceeds(currWidth, width) {
          if prevBreak == lineStart {
            prevBreak := lineBreak;
          }
          StepSoftWide(m, st, breaks[i], prevBreak);
          cumulativeHeight, lines := AddLineMetric(text, lineStart, prevBreak, baseline, height, cumulativeHeight, lines);
          var restWidth := advance(Slice(text, prevBreak, lineBreak));
          if Exceeds(restWidth, width) {
            cumulativeHeight, lines := AddLineMetric(text, prevBreak, lineBreak, baseline, height, cumulativeHeight, lines);
            lineStart := lineBreak;
            prevBreak := lineBreak;
          } else {
            lineStart := prevBreak;
            prevBreak := lineBreak;
          }
        } else {
          StepSoftFits(m, st, breaks[i]);
          prevBreak := lineBreak;
        }
      } else {
        StepHard(m, st, breaks[i]);
        var currWidth := advance(Slice(text, lineStart, lineBreak));
        if Exceeds(currWidth, width) {
          if prevBreak != lineStart {
            cumulativeHeight, lines := AddLineMetric(text, lineStart, prevBreak, baseline, height, cumulativeHeight, lines);
            lineStart := prevBreak;
          }
        }
        cumulativeHeight, lines := AddLineMetric(text, lineStart, lineBreak, baseline, height, cumulativeHeight, lines);
        lineStart := lineBreak;
        prevBreak := lineBreak;
      }
      i := i + 1;
    }
    assert breaks[..|breaks|] == breaks;
    if Increasing(breaks) {
      SpansProperties(m, breaks);
    }
  }

  /** `count_trailing_whitespace` on the source's examples: it counts characters. */
  lemma CountTrailingWhitespaceExamples()
    ensures CountTrailingWhitespace(" 1 ") == 1
    ensures CountTrailingWhitespace(" 2  ") == 2
    ensures CountTrailingWhitespace(" 3  \n") == 3
  {
    TrailingRun(" 1 ", 1);
    TrailingRun(" 2  ", 2);
    TrailingRun(" 3  \n", 3);
  }

  /** A run of `n` whitespace characters preceded by a non-whitespace one is what is counted. */
  lemma TrailingRun(w: string, n: nat)
    requires n < |w| && !IsWhitespace(w[|w| - 1 - n])
    requires forall i :: |w| - n <= i < |w| ==> IsWhitespace(w[i])
    ensures CountTrailingWhitespace(w) == n
  {
  }

  /**
   * `"piet\ntext"` has mandatory breaks after the newline and at the end; it
   * becomes exactly two lines whatever the width, with no empty line before
   * the first.
   */
  lemma HardSoftBreakStart(advance: string -> real, width: Width)
    ensures Spans(Measure("piet\ntext", advance, width), [Break(5, true), Break(9, true)])
      == [Span(0, 5), Span(5, 9)]
  {
    var m := Measure("piet\ntext", advance, width);
    var breaks := [Break(5, true), Break(9, true)];
    assert breaks[..1] == [Break(5, true)] && breaks[..1][..0] == [];
    assert Run(m, breaks[..1]) == State(5, 5, [Span(0, 5)]);
  }

  /** The opportunities of `"piet text most best"`: after each space, and the end of text. */
  const BASIC_BREAKS: seq<Break> := [Break(5, false), Break(10, false), Break(15, false), Break(19, true)]

  const BASIC_TEXT: string := "piet text most best"

  /** When the whole text fits, it is one line `0..19`. */
  lemma BasicLargeWidth(m: Measure)
    requires !Wide(m, 0, 5) && !Wide(m, 0, 10) && !Wide(m, 0, 15) && !Wide(m, 0, 19)
    ensures Spans(m, BASIC_BREAKS) == [Span(0, 19)]
  {
    var b := BASIC_BREAKS;
    assert b[..3][..2] == b[..2] && b[..2][..1] == b[..1] && b[..1][..0] == [];
    assert b[..4] == b;
    assert Run(m, b[..1]) == State(0, 5, []);
    assert Run(m, b[..2]) == State(0, 10, []);
    assert Run(m, b[..3]) == State(0, 15, []);
  }

  /** When each word fits but no two do, each word is its own line. */
  lemma BasicSmallWidth(m: Measure)
    requires && !Wide(m, 0, 5) && Wide(m, 0, 10) && !Wide(m, 5, 10) && Wide(m, 5, 15)
             && !Wide(m, 10, 15) && Wide(m, 10, 19)
    ensures Spans(m, BASIC_BREAKS) == [Span(0, 5), Span(5, 10), Span(10, 15), Span(15, 19)]
  {
    var b := BASIC_BREAKS;
    assert b[..3][..2] == b[..2] && b[..2][..1] == b[..1] && b[..1][..0] == [];
    assert b[..4] == b;
    assert Run(m, b[..1]) == State(0, 5, []);
    assert Run(m, b[..2]) == State(5, 10, [Span(0, 5)]);
    assert Run(m, b[..3]) == State(10, 15, [Span(0, 5), Span(5, 10)]);
  }

  /** On ASCII text, the trailing whitespace of a byte range is that of the same character range. */
  lemma AsciiTrailingWhitespace(text: string, a: nat, b: nat)
    requires IsAscii(text) && a <= b <= |text|
    ensures CountTrailingWhitespace(Slice(text, a, b)) == CountTrailingWhitespace(text[a..b])
  {
    AsciiSlice(text, a, b);
  }

  /** `BASIC_TEXT` is ASCII. */
  lemma BasicAscii()
    ensures IsAscii(BASIC_TEXT) && |BASIC_TEXT| == 19
  {
  }

  /** The trailing whitespace of the lines above: one space after each word but the last. */
  lemma BasicTrailingWhitespace()
    ensures CountTrailingWhitespace(BASIC_TEXT[0..19]) == 0
    ensures CountTrailingWhitespace(BASIC_TEXT[0..5]) == 1
    ensures CountTrailingWhitespace(BASIC_TEXT[5..10]) == 1
    ensures CountTrailingWhitespace(BASIC_TEXT[10..15]) == 1
    ensures CountTrailingWhitespace(BASIC_TEXT[15..19]) == 0
  {
    TrailingRun(BASIC_TEXT[0..5], 1);
    TrailingRun(BASIC_TEXT[5..10], 1);
    TrailingRun(BASIC_TEXT[10..15], 1);
  }
}

=== FILE: cairo_old_grapheme.dfy ===
/**
 * The older grapheme helpers of the Cairo backend, kept in the repository
 * next to the newer ones: boundaries that run from the position before a
 * text position to the position itself, and a hit that reports which end
 * the point was nearer to. The x position of a text position (the layout's
 * own `hit_test_text_position`) is an input, `None` where it would not be
 * on a cluster boundary.
 */
module CairoOldGrapheme {
  import opened Wrappers

  /** The older `GraphemeBoundaries`; `Default` is all zeros. */
  datatype GraphemeBoundaries = GraphemeBoundaries(startIdx: nat, endIdx: nat, startX: real, endX: real)

  const DEFAULT_BOUNDARIES: GraphemeBoundaries := GraphemeBoundaries(0, 0, 0.0, 0.0)

  /** The older `HitTestPoint`, with its `metrics` flattened. */
  datatype HitTestPoint = HitTestPoint(isInside: bool, isTrailingHit: bool, textPosition: nat, isText: bool)

  const DEFAULT_HIT: HitTestPoint := HitTestPoint(false, false, 0, false)

  /**
   * `get_grapheme_boundaries`: the start fields stay 0 at position 0 and
   * are otherwise position - 1 with its x; the end is the position itself
   * with its x. The lookups the source `expect`s to succeed are required
   * to.
   */
  function GetGraphemeBoundaries(positionX: nat -> Option<real>, textPosition: nat): (b: GraphemeBoundaries)
    requires positionX(textPosition).Some?
    requires textPosition != 0 ==> positionX(textPosition - 1).Some?
    ensures textPosition == 0 ==> b.startIdx == 0 && b.startX == 0.0
    ensures textPosition != 0 ==> b.startIdx == textPosition - 1 && Some(b.startX) == positionX(textPosition - 1)
    ensures b.endIdx == textPosition && Some(b.endX) == positionX(textPosition)
  {
    var res := DEFAULT_BOUNDARIES;
    var res := if textPosition != 0 then res.(startIdx := textPosition - 1, startX := positionX(textPosition - 1).value) else res;
    res.(endIdx := textPosition, endX := positionX(textPosition).value)
  }

  /**
   * `point_x_in_grapheme`: a hit inside `[start_x, end_x]`, `None` outside.
   * A hit is inside and on text, is a trailing hit when the point is
   * strictly nearer the start, and reports the end index for a trailing hit
   * and the start index otherwise.
   */
  function PointXInGrapheme(x: real, b: GraphemeBoundaries): (r: Option<HitTestPoint>)
    ensures r.Some? <==> b.startX <= x <= b.endX
    ensures r.Some? ==> r.value.isInside && r.value.isText
    ensures r.Some? ==> (r.value.isTrailingHit <==> b.endX - x > x - b.startX)
    ensures r.Some? ==> r.value.textPosition == (if r.value.isTrailingHit then b.endIdx else b.startIdx)
  {
    if x >= b.startX && x <= b.endX then
      var isTrailingHit := b.endX - x > x - b.startX;
      Some(DEFAULT_HIT.(isInside := true, isTrailingHit := isTrailingHit,
        textPosition := if isTrailingHit then b.endIdx else b.startIdx, isText := true))
    else None
  }

  /**
   * The reported position is the boundary the point is FARTHER from: a
   * point just right of the start reports the end, one just left of the
   * end reports the start, and the midpoint reports the start.
   */
  lemma TrailingHitPicksFartherEnd(b: GraphemeBoundaries)
    requires b.startX < b.endX
    ensures var quarter := b.startX + (b.endX - b.startX) / 4.0;
      PointXInGrapheme(quarter, b) == Some(HitTestPoint(true, true, b.endIdx, true))
    ensures var threeQuarters := b.endX - (b.endX - b.startX) / 4.0;
      PointXInGrapheme(threeQuarters, b) == Some(HitTestPoint(true, false, b.startIdx, true))
    ensures PointXInGrapheme((b.startX + b.endX) / 2.0, b) == Some(HitTestPoint(true, false, b.startIdx, true))
  {
  }

  /**
   * Combined: for a position whose x and the previous position's x are
   * known, a point strictly between them and nearer the previous one
   * reports the position itself.
   */
  lemma BoundariesOfPosition(positionX: nat -> Option<real>, textPosition: nat, x: real)
    requires textPosition != 0 && positionX(textPosition).Some? && positionX(textPosition - 1).Some?
    requires positionX(textPosition - 1).value <= x
    requires x - positionX(textPosition - 1).value < positionX(textPosition).value - x
    ensures PointXInGrapheme(x, GetGraphemeBoundaries(positionX, textPosition)).Some?
    ensures PointXInGrapheme(x, GetGraphemeBoundaries(positionX, textPosition)).value.textPosition == textPosition
  {
  }
}

=== FILE: cairo_target.dfy ===
/**
 * The Cairo bitmap target of `piet-common`: reading back a rendered
 * `ARgb32` image surface as premultiplied RGBA. Cairo keeps each pixel as a
 * native 32-bit ARGB word, which on the little-endian machines this code
 * assumes reads as the bytes B, G, R, A; `copy_raw_pixels` swaps red and
 * blue while it drops the padding between surface rows.
 */
module CairoTarget {
  import opened Wrappers
  import opened PietTypes
  import opened Pixels
  import Util

  /**
   * `src_len`: the bytes the surface data must hold for `height` rows
   * `stride` apart, computed with `height.saturating_sub(1)`.
   */
  function SourceLength(width: nat, height: nat, stride: nat): (n: nat)
    ensures height > 0 ==> n == Util.RowOffset(height - 1, stride) + 4 * width
  {
    Util.RowOffsetIsProduct(if height == 0 then 0 else height - 1, stride);
    (if height == 0 then 0 else height - 1) * stride + width * 4
  }

  /** Pixel `x` of the surface row at `off`, its bytes B, G, R, A turned into R, G, B, A. */
  function RgbaPixel(src: seq<Byte>, off: nat, x: nat): (px: seq<Byte>)
    ensures |px| == 4
  {
    [ByteAt(src, off + x * 4 + 2), ByteAt(src, off + x * 4 + 1), ByteAt(src, off + x * 4), ByteAt(src, off + x * 4 + 3)]
  }

  /** The first `n` pixels of the surface row at `off`, in RGBA order, end to end. */
  function RgbaRow(src: seq<Byte>, off: nat, n: nat): (row: seq<Byte>)
    ensures |row| == 4 * n
  {
    if n == 0 then [] else RgbaRow(src, off, n - 1) + RgbaPixel(src, off, n - 1)
  }

  /** The first `height` surface rows, `stride` bytes apart, in RGBA order and without padding. */
  function RgbaImage(src: seq<Byte>, stride: nat, width: nat, height: nat): (data: seq<Byte>)
    ensures |data| == Util.RowOffset(height, 4 * width)
  {
    if height == 0 then [] else RgbaImage(src, stride, width, height - 1) + RgbaRow(src, Util.RowOffset(height - 1, stride), width)
  }

  /** The row grows by one pixel at a time. */
  lemma RgbaRowStep(src: seq<Byte>, off: nat, x: nat)
    ensures RgbaRow(src, off, x + 1) == RgbaRow(src, off, x) + RgbaPixel(src, off, x)
  {
  }

  /** The image grows by one row at a time. */
  lemma RgbaImageStep(src: seq<Byte>, stride: nat, width: nat, y: nat)
    ensures RgbaImage(src, stride, width, y + 1) == RgbaImage(src, stride, width, y) + RgbaRow(src, Util.RowOffset(y, stride), width)
  {
  }

  /** The first `m` pixels of a converted row are the row of `m` pixels. */
  lemma {:induction false} RgbaRowPrefix(src: seq<Byte>, off: nat, n: nat, m: nat)
    requires m <= n
    ensures Filled(RgbaRow(src, off, n), RgbaRow(src, off, m))
  {
    if m < n {
      RgbaRowPrefix(src, off, n - 1, m);
      FilledConcat(RgbaRow(src, off, n - 1), RgbaPixel(src, off, n - 1), RgbaRow(src, off, m));
      RgbaRowStep(src, off, n - 1);
    } else {
      FilledSelf(RgbaRow(src, off, n));
    }
  }

  /** The first `k` rows of the converted image are the image of `k` rows. */
  lemma {:induction false} RgbaImagePrefix(src: seq<Byte>, stride: nat, width: nat, height: nat, k: nat)
    requires k <= height
    ensures Filled(RgbaImage(src, stride, width, height), RgbaImage(src, stride, width, k))
  {
    if k < height {
      RgbaImagePrefix(src, stride, width, height - 1, k);
      FilledConcat(RgbaImage(src, stride, width, height - 1), RgbaRow(src, Util.RowOffset(height - 1, stride), width),
                   RgbaImage(src, stride, width, k));
      RgbaImageStep(src, stride, width, height - 1);
    } else {
      FilledSelf(RgbaImage(src, stride, width, height));
    }
  }

  /** Row `y` of the converted image lies at `RowOffset(y, 4 * width)`. */
  lemma ImageRowAt(src: seq<Byte>, stride: nat, width: nat, height: nat, y: nat)
    requires y < height
    ensures Holds(RgbaImage(src, stride, width, height), Util.RowOffset(y, 4 * width),
                  RgbaRow(src, Util.RowOffset(y, stride), width))
  {
    RgbaImagePrefix(src, stride, width, height, y + 1);
    RgbaImageStep(src, stride, width, y);
    SliceAfterPrefix(RgbaImage(src, stride, width, height), RgbaImage(src, stride, width, y),
                     RgbaRow(src, Util.RowOffset(y, stride), width));
  }

  /** Pixel `x` of a converted row lies at `4 * x`. */
  lemma RowPixelAt(src: seq<Byte>, off: nat, width: nat, x: nat)
    requires x < width
    ensures Holds(RgbaRow(src, off, width), 4 * x, RgbaPixel(src, off, x))
  {
    RgbaRowPrefix(src, off, width, x + 1);
    RgbaRowStep(src, off, x);
    SliceAfterPrefix(RgbaRow(src, off, width), RgbaRow(src, off, x), RgbaPixel(src, off, x));
  }

  /** Pixel `(x, y)` of the converted image lies at `RowOffset(y, 4 * width) + 4 * x`. */
  lemma ImagePixelHolds(src: seq<Byte>, stride: nat, width: nat, height: nat, x: nat, y: nat)
    requires x < width && y < height && |src| >= SourceLength(width, height, stride)
    ensures Util.RowOffset(y, stride) + x * 4 + 4 <= |src|
    ensures Holds(RgbaImage(src, stride, width, height), Util.RowOffset(y, 4 * width) + 4 * x,
                  RgbaPixel(src, Util.RowOffset(y, stride), x))
  {
    var off := Util.RowOffset(y, stride);
    Util.RowOffsetMonotone(y, height - 1, stride);
    ImageRowAt(src, stride, width, height, y);
    RowPixelAt(src, off, width, x);
    HoldsWithin(RgbaImage(src, stride, width, height), Util.RowOffset(y, 4 * width), RgbaRow(src, off, width), 4 * x,
                RgbaPixel(src, off, x));
  }

  /**
   * The swizzle of `copy_raw_pixels`: for pixel `(x, y)`, the four bytes
   * at `y * width * 4 + x * 4` of the result are the surface bytes 2, 1, 0
   * and 3 at `y * stride + x * 4`, all of which lie inside the surface data.
   */
  lemma ImagePixelAt(src: seq<Byte>, stride: nat, width: nat, height: nat, x: nat, y: nat)
    requires x < width && y < height && |src| >= SourceLength(width, height, stride)
    ensures var d, i, j := RgbaImage(src, stride, width, height), y * width * 4 + x * 4, y * stride + x * 4;
      && j + 3 < |src| && i + 3 < |d|
      && d[i] == src[j + 2] && d[i + 1] == src[j + 1] && d[i + 2] == src[j] && d[i + 3] == src[j + 3]
  {
    ImagePixelHolds(src, stride, width, height, x, y);
    Util.RowOffsetIsProduct(y, stride);
    Util.RowOffsetIsProduct(y, 4 * width);
    assert y * width * 4 == y * (4 * width);
    var d := RgbaImage(src, stride, width, height);
    var i, j := y * width * 4 + x * 4, y * stride + x * 4;
    var px := RgbaPixel(src, Util.RowOffset(y, stride), x);
    assert d[i..i + 4] == px;
    assert px == [src[j + 2], src[j + 1], src[j], src[j + 3]];
    assert d[i] == px[0] && d[i + 1] == px[1] && d[i + 2] == px[2] && d[i + 3] == px[3];
  }

  /**
   * One step of the loop over `x`: pixel `x` of the surface row at
   * `srcOff` is written in RGBA order after the `x` pixels already
   * written from `start`.
   */
  method CopyPixel(buf: array<Byte>, start: nat, src: seq<Byte>, srcOff: nat, x: nat, ghost original: seq<Byte>)
    requires start + 4 * x + 4 <= buf.Length && srcOff + x * 4 + 4 <= |src|
    requires Written(buf[..], original, start, RgbaRow(src, srcOff, x))
    modifies buf
    ensures Written(buf[..], original, start, RgbaRow(src, srcOff, x + 1))
  {
    var d := start + x * 4;
    var s := srcOff + x * 4;
    buf[d], buf[d + 1], buf[d + 2], buf[d + 3] := src[s + 2], src[s + 1], src[s], src[s + 3];
    Splice(old(buf[..]), buf[..], RgbaPixel(src, srcOff, x), d);
    RgbaRowStep(src, srcOff, x);
    Grow(original, old(buf[..]), buf[..], start, d, RgbaRow(src, srcOff, x), RgbaPixel(src, srcOff, x),
         RgbaRow(src, srcOff, x + 1));
  }

  /** The loop over `x`: the `4 * width` bytes from `start` become the surface row at `srcOff`, in RGBA order. */
  method CopyRow(buf: array<Byte>, start: nat, src: seq<Byte>, srcOff: nat, width: nat)
    requires start + 4 * width <= buf.Length && srcOff + 4 * width <= |src|
    modifies buf
    ensures Written(buf[..], old(buf[..]), start, RgbaRow(src, srcOff, width))
  {
    WrittenNothing(buf[..], start);
    for x := 0 to width
      invariant Written(buf[..], old(buf[..]), start, RgbaRow(src, srcOff, x))
    {
      CopyPixel(buf, start, src, srcOff, x, old(buf[..]));
    }
  }

  /**
   * One step of the loop over `y`: surface row `y` (at `y * stride`) is
   * written at `y * width * 4`, after the rows already written.
   */
  method CopyRowAt(buf: array<Byte>, y: nat, src: seq<Byte>, stride: nat, width: nat, height: nat,
                   ghost original: seq<Byte>)
    requires y < height && |src| >= SourceLength(width, height, stride)
    requires Util.RowOffset(height, 4 * width) <= buf.Length
    requires Written(buf[..], original, 0, RgbaImage(src, stride, width, y))
    modifies buf
    ensures Written(buf[..], original, 0, RgbaImage(src, stride, width, y + 1))
  {
    Util.RowOffsetMonotone(y, height - 1, stride);
    Util.RowOffsetMonotone(y + 1, height, 4 * width);
    Util.RowOffsetIsProduct(y, stride);
    Util.RowOffsetIsProduct(y, 4 * width);
    var srcOff := y * stride;
    var dstOff := y * width * 4;
    assert dstOff == Util.RowOffset(y, 4 * width);
    CopyRow(buf, dstOff, src, srcOff, width);
    RgbaImageStep(src, stride, width, y);
    Grow(original, old(buf[..]), buf[..], 0, dstOff, RgbaImage(src, stride, width, y),
         RgbaRow(src, Util.RowOffset(y, stride), width), RgbaImage(src, stride, width, y + 1));
  }

  /** The loop over `y`: the first `width * height * 4` bytes become the converted image, the rest are kept. */
  method CopyRows(buf: array<Byte>, src: seq<Byte>, stride: nat, width: nat, height: nat)
    requires |src| >= SourceLength(width, height, stride)
    requires Util.RowOffset(height, 4 * width) <= buf.Length
    modifies buf
    ensures Written(buf[..], old(buf[..]), 0, RgbaImage(src, stride, width, height))
  {
    WrittenNothing(buf[..], 0);
    for y := 0 to height
      invariant Written(buf[..], old(buf[..]), 0, RgbaImage(src, stride, width, y))
    {
      CopyRowAt(buf, y, src, stride, width, height, old(buf[..]));
    }
  }

  /**
   * `BitmapTarget::copy_raw_pixels`. Any format but premultiplied RGBA is
   * `NotSupported`; a buffer shorter than `width * height * 4` is
   * `InvalidInput`; a surface whose data cannot be borrowed (`dataOk`) is
   * a `BackendError`; in all three cases `buf` is untouched. Otherwise the
   * first `width * height * 4` bytes of `buf` become the surface in RGBA
   * order (see `ImagePixelAt`), the rest of `buf` is kept, and that length
   * is returned. `src` is the surface data, which Cairo makes at least
   * `SourceLength` bytes long.
   */
  method CopyRawPixels(fmt: ImageFormat, buf: array<Byte>, src: seq<Byte>, stride: nat, width: nat, height: nat,
                       dataOk: bool)
    returns (r: Result<nat, Error>)
    requires |src| >= SourceLength(width, height, stride)
    modifies buf
    ensures !fmt.RgbaPremul? ==> r == Err(NotSupported)
    ensures fmt.RgbaPremul? && buf.Length < width * height * 4 ==> r == Err(InvalidInput)
    ensures fmt.RgbaPremul? && buf.Length >= width * height * 4 && !dataOk ==> r == Err(BackendError)
    ensures r.Err? ==> buf[..] == old(buf[..])
    ensures r.Ok? <==> fmt.RgbaPremul? && buf.Length >= width * height * 4 && dataOk
    ensures r.Ok? ==> (r.value == width * height * 4
                       && Written(buf[..], old(buf[..]), 0, RgbaImage(src, stride, width, height)))
  {
    if fmt != RgbaPremul {
      return Err(NotSupported);
    }
    var dstLen := width * height * 4;
    if buf.Length < dstLen {
      return Err(InvalidInput);
    }
    if !dataOk {
      return Err(BackendError);
    }
    Util.RowOffsetIsProduct(height, 4 * width);
    CopyRows(buf, src, stride, width, height);
    return Ok(dstLen);
  }

  /**
   * `BitmapTarget::to_image_buf`: a zeroed buffer of exactly
   * `width * height * 4` bytes is filled by `copy_raw_pixels` and becomes
   * an `ImageBuf` of the surface's size, or the copy's error is returned.
   */
  method ToImageBuf(fmt: ImageFormat, src: seq<Byte>, stride: nat, width: nat, height: nat, dataOk: bool)
    returns (r: Result<ImageBuf, Error>)
    requires |src| >= SourceLength(width, height, stride)
    ensures !fmt.RgbaPremul? ==> r == Err(NotSupported)
    ensures fmt.RgbaPremul? && !dataOk ==> r == Err(BackendError)
    ensures r.Ok? <==> fmt.RgbaPremul? && dataOk
    ensures r.Ok? ==> (r.value == ImageBuf(RgbaImage(src, stride, width, height), fmt, width, height)
                       && |r.value.pixels| == width * height * 4)
  {
    var buf := new Byte[width * height * 4](_ => 0);
    var copied := CopyRawPixels(fmt, buf, src, stride, width, height, dataOk);
    if copied.Err? {
      return Err(copied.error);
    }
    Util.RowOffsetIsProduct(height, 4 * width);
    assert buf[..] == RgbaImage(src, stride, width, height);
    return Ok(ImageBuf(buf[..], fmt, width, height));
  }
}

=== FILE: cairo_text.dfy ===
/**
 * The Cairo text layout: its builder, the line metrics and size that
 * `update_width` derives from the greedy line breaker, and hit testing by
 * line and by grapheme cluster. The scaled font (advance, ascent, height),
 * the break opportunities of the text and the grapheme clusters of a line
 * are inputs; Pango is not modelled.
 */
module CairoText {
  import opened Wrappers
  import opened Unicode
  import opened PietTypes
  import opened Graphemes
  import opened LineBreaking
  import opened CairoGrapheme
  import CairoLines
  import Util
  import Font

  // ---------------------------------------------------------------------
  // Builder

  /** An attribute and the byte range it covers. */
  datatype AttributeWithRange = AttributeWithRange(range: Util.Range, attribute: Util.TextAttribute)

  /** `CairoTextLayoutBuilder`, without its Pango layout. */
  datatype CairoTextLayoutBuilder = CairoTextLayoutBuilder(
    text: string,
    defaults: Util.LayoutDefaults,
    attributes: seq<AttributeWithRange>,
    lastRangeStartPos: nat,
    widthConstraint: Width)

  /** `new_text_layout`: no width constraint, no range attributes, the default attributes. */
  method NewTextLayout(text: string) returns (b: CairoTextLayoutBuilder)
    ensures b.text == text && b.attributes == [] && b.lastRangeStartPos == 0 && b.widthConstraint == Infinity
    ensures fresh(b.defaults) && b.defaults.Valid()
    ensures b.defaults.font == Font.DEFAULT_FAMILY && b.defaults.fontSize == Util.DEFAULT_FONT_SIZE
    ensures b.defaults.weight == Font.DEFAULT_WEIGHT && b.defaults.style == Regular
  {
    var defaults := new Util.LayoutDefaults.Default();
    b := CairoTextLayoutBuilder(text, defaults, [], 0, Infinity);
  }

  /** `max_width`: sets the width constraint and nothing else. */
  function MaxWidth(b: CairoTextLayoutBuilder, width: real): (r: CairoTextLayoutBuilder)
    ensures r.widthConstraint == Finite(width)
    ensures r.(widthConstraint := b.widthConstraint) == b
  {
    b.(widthConstraint := Finite(width))
  }

  /** `alignment`: Cairo's toy text has no alignment, so the builder is returned unchanged. */
  function Alignment(b: CairoTextLayoutBuilder, alignment: TextAlignment): (r: CairoTextLayoutBuilder)
    ensures r == b
  {
    b
  }

  /**
   * `default_attribute`: the attribute is set on the builder's defaults (see
   * `Util.LayoutDefaults.Set`) and the builder is handed back as it was.
   */
  method DefaultAttribute(b: CairoTextLayoutBuilder, attr: Util.TextAttribute) returns (r: CairoTextLayoutBuilder)
    modifies b.defaults
    ensures r == b
    ensures old(b.defaults.Valid()) ==> b.defaults.Valid()
    ensures b.defaults.font == (if attr.FontFamily? then attr.family else old(b.defaults.font))
    ensures b.defaults.fontSize ==
      (if attr.FontSize? then (if attr.size <= 0.0 then Util.DEFAULT_FONT_SIZE else attr.size) else old(b.defaults.fontSize))
    ensures b.defaults.weight == (if attr.Weight? then attr.weight else old(b.defaults.weight))
    ensures b.defaults.style == (if attr.Style? then attr.style else old(b.defaults.style))
    ensures b.defaults.underline == (if attr.Underline? then attr.underline else old(b.defaults.underline))
    ensures b.defaults.fgColor == (if attr.TextColor? then attr.color else old(b.defaults.fgColor))
    ensures b.defaults.strikethrough == (if attr.Strikethrough? then attr.strikethrough else old(b.defaults.strikethrough))
  {
    b.defaults.Set(attr);
    r := b;
  }

  /**
   * `range_attribute`: appends the attribute with its range clamped to the
   * text and records the range's start.
   */
  function RangeAttribute(b: CairoTextLayoutBuilder, range: Util.RangeBounds, attribute: Util.TextAttribute)
    : (r: CairoTextLayoutBuilder)
    ensures |r.attributes| == |b.attributes| + 1 && r.attributes[..|b.attributes|] == b.attributes
    ensures r.attributes[|b.attributes|] == AttributeWithRange(Util.ResolveRange(range, ByteLen(b.text)), attribute)
    ensures r.lastRangeStartPos == r.attributes[|b.attributes|].range.start
    ensures r.text == b.text && r.defaults == b.defaults && r.widthConstraint == b.widthConstraint
  {
    var range := Util.ResolveRange(range, ByteLen(b.text));
    b.(attributes := b.attributes + [AttributeWithRange(range, attribute)], lastRangeStartPos := range.start)
  }

  /**
   * The attributes lie inside the text, in non-decreasing start order, and
   * none starts after the recorded last start.
   */
  predicate AttributesInOrder(b: CairoTextLayoutBuilder)
  {
    && (forall i :: 0 <= i < |b.attributes| ==>
          b.attributes[i].range.start <= ByteLen(b.text) && b.attributes[i].range.end <= ByteLen(b.text))
    && (forall i, j :: 0 <= i < j < |b.attributes| ==> b.attributes[i].range.start <= b.attributes[j].range.start)
    && (forall i :: 0 <= i < |b.attributes| ==> b.attributes[i].range.start <= b.lastRangeStartPos)
  }

  /** Adding attributes in the order the debug assertion asks for keeps them in order. */
  lemma RangeAttributeInOrder(b: CairoTextLayoutBuilder, range: Util.RangeBounds, attribute: Util.TextAttribute)
    requires AttributesInOrder(b)
    requires Util.ResolveRange(range, ByteLen(b.text)).start >= b.lastRangeStartPos
    ensures AttributesInOrder(RangeAttribute(b, range, attribute))
  {
    var r := RangeAttribute(b, range, attribute);
    forall i, j | 0 <= i < j < |r.attributes|
      ensures r.attributes[i].range.start <= r.attributes[j].range.start
    {
      if j < |b.attributes| {
        assert r.attributes[i] == b.attributes[i] && r.attributes[j] == b.attributes[j];
      } else {
        assert r.attributes[i] == b.attributes[i];
      }
    }
  }

  /** `cairo::FontWeight`. */
  datatype CairoFontWeight = Normal | Bold

  /** `cairo::FontSlant`. */
  datatype CairoFontSlant = Normal | Italic | Oblique

  /** `build`'s weight: `Bold` exactly for weights heavier than `MEDIUM`. */
  function CairoWeight(weight: Font.FontWeight): (r: CairoFontWeight)
    ensures r == CairoFontWeight.Bold <==> Font.ToRaw(weight) > Font.ToRaw(Font.MEDIUM)
  {
    if Font.ToRaw(weight) <= Font.ToRaw(Font.MEDIUM) then CairoFontWeight.Normal else CairoFontWeight.Bold
  }

  /** `build`'s slant: `Italic` for italic text, `Normal` otherwise; `Oblique` is never chosen. */
  function CairoSlant(style: FontStyle): (r: CairoFontSlant)
    ensures r == CairoFontSlant.Italic <==> style == FontStyle.Italic
    ensures r != CairoFontSlant.Oblique
  {
    match style
    case Italic => CairoFontSlant.Italic
    case Regular => CairoFontSlant.Normal
  }

  // ---------------------------------------------------------------------
  // Line metrics

  /** The scaled font as the layout uses it: the advance of a string, and the font's ascent and height. */
  datatype ScaledFont = ScaledFont(advance: string -> real, ascent: real, height: real)

  /** Line `k` carries the font's height and ascent and its top lies `k` lines down. */
  predicate TopAt(line: LineMetric, k: nat, height: real, ascent: real)
  {
    line.height == height && line.baseline == ascent && line.yOffset == Stacked(k, height)
  }

  predicate StackedLines(lines: seq<LineMetric>, height: real, ascent: real)
  {
    forall k :: 0 <= k < |lines| ==> TopAt(lines[k], k, height, ascent)
  }

  /** The metrics of the lines `spans`, stacked from the top. */
  function SpanLines(text: string, spans: seq<Span>, height: real, ascent: real): (r: seq<LineMetric>)
    ensures |r| == |spans|
  {
    seq(|spans|, k requires 0 <= k < |spans| =>
      LineMetric(spans[k].start, spans[k].end,
        CountTrailingWhitespace(Slice(text, spans[k].start, spans[k].end)), ascent, height, Stacked(k, height)))
  }

  /** Every line counts its own trailing whitespace in characters. */
  predicate CountsTrailing(text: string, lines: seq<LineMetric>)
  {
    forall k :: 0 <= k < |lines| ==>
      lines[k].trailingWhitespace == CountTrailingWhitespace(Slice(text, lines[k].startOffset, lines[k].endOffset))
  }

  /** The lines of `spans` cover exactly those ranges, are stacked and count their trailing whitespace. */
  lemma SpanLinesShape(text: string, spans: seq<Span>, height: real, ascent: real)
    ensures LineRanges(SpanLines(text, spans, height, ascent)) == spans
    ensures StackedLines(SpanLines(text, spans, height, ascent), height, ascent)
    ensures CountsTrailing(text, SpanLines(text, spans, height, ascent))
  {
    var lines := SpanLines(text, spans, height, ascent);
    forall k | 0 <= k < |spans|
      ensures LineRanges(lines)[k] == spans[k]
    {
      LineRangesAt(lines, k);
    }
  }

  /**
   * The Cairo `lines.rs` records each line's running height including the
   * line; the layout reads the top of the line, which is that height less
   * the line's own.
   */
  function TopAligned(lines: seq<CumulativeLineMetric>): (r: seq<LineMetric>)
    ensures |r| == |lines|
  {
    seq(|lines|, k requires 0 <= k < |lines| =>
      LineMetric(lines[k].startOffset, lines[k].endOffset, lines[k].trailingWhitespace,
        lines[k].baseline, lines[k].height, lines[k].cumulativeHeight - lines[k].height))
  }

  /** The metrics the break loop records are, top-aligned, the stacked metrics of its spans. */
  lemma TopAlignedLines(text: string, height: real, ascent: real, lines: seq<CumulativeLineMetric>, spans: seq<Span>)
    requires CairoLines.Ranges(lines) == spans && CairoLines.Recorded(text, height, ascent, lines)
    ensures TopAligned(lines) == SpanLines(text, spans, height, ascent)
  {
    forall k | 0 <= k < |lines|
      ensures TopAligned(lines)[k] == SpanLines(text, spans, height, ascent)[k]
    {
      CairoLines.RangesAt(lines, k);
      assert CairoLines.LineRecorded(text, height, ascent, lines[k], k);
    }
  }

  /**
   * The line `update_width` adds after the break loop's lines `base`: for
   * the empty text one empty line at the top, for a text ending in `\n` an
   * empty line at its end, one line below the last.
   */
  function ExtraLine(text: string, font: ScaledFont, base: seq<LineMetric>): (r: seq<LineMetric>)
    requires text != [] && Util.TrailingNlf(text).Some? ==> base != []
  {
    if text == [] then
      [LineMetric(0, 0, 0, font.ascent, font.height, 0.0)]
    else if Util.TrailingNlf(text).Some? then
      var last := base[|base| - 1];
      [LineMetric(ByteLen(text), ByteLen(text), 0, last.baseline, last.height, last.yOffset + last.height)]
    else
      []
  }

  /** The line metrics `update_width` leaves: those of the break loop, then the extra line. */
  function LayoutLines(text: string, font: ScaledFont, breaks: seq<Break>, width: Width): seq<LineMetric>
    requires Opportunities(text, breaks)
  {
    var m := Measure(text, font.advance, width);
    FinalLineStart(m, breaks);
    var base := SpanLines(text, Spans(m, breaks), font.height, font.ascent);
    base + ExtraLine(text, font, base)
  }

  /** The text is empty or its last character is a newline: the cases that get an extra line. */
  predicate EndsOpen(text: string)
  {
    text == [] || text[|text| - 1] == '\n'
  }

  /**
   * The extra line keeps the lines stacked and contiguous, and when the
   * lines before it ended at the end of the text the layout still does.
   */
  lemma ExtraLineShape(text: string, font: ScaledFont, base: seq<LineMetric>)
    requires StackedLines(base, font.height, font.ascent) && CountsTrailing(text, base)
    requires Contiguous(LineRanges(base))
    requires text == [] ==> base == []
    requires text != [] ==> base != [] && LastEnd(LineRanges(base)) == ByteLen(text)
    ensures var lines := base + ExtraLine(text, font, base);
      && LineRanges(lines) == LineRanges(base) + (if EndsOpen(text) then [Span(ByteLen(text), ByteLen(text))] else [])
      && |lines| > 0
      && StackedLines(lines, font.height, font.ascent) && CountsTrailing(text, lines)
      && Contiguous(LineRanges(lines)) && LastEnd(LineRanges(lines)) == ByteLen(text)
  {
    ExtraLineRanges(text, font, base);
    ExtraLineStacked(text, font, base);
  }

  /** The ranges part of `ExtraLineShape`: the extra line is the empty span at the end of the text. */
  lemma ExtraLineRanges(text: string, font: ScaledFont, base: seq<LineMetric>)
    requires Contiguous(LineRanges(base))
    requires text == [] ==> base == []
    requires text != [] ==> base != [] && LastEnd(LineRanges(base)) == ByteLen(text)
    ensures var lines := base + ExtraLine(text, font, base);
      && LineRanges(lines) == LineRanges(base) + (if EndsOpen(text) then [Span(ByteLen(text), ByteLen(text))] else [])
      && |lines| > 0
      && Contiguous(LineRanges(lines)) && LastEnd(LineRanges(lines)) == ByteLen(text)
  {
    var e := ExtraLine(text, font, base);
    var lines := base + e;
    var len := ByteLen(text);
    if e == [] {
      assert lines == base;
    } else {
      var x := e[0];
      assert e == [x];
      AppendLineRanges(base, x);
      assert x.startOffset == len && x.endOffset == len;
      AppendContiguous(LineRanges(base), [Span(len, len)]);
    }
  }

  /** The stacking part of `ExtraLineShape`: the extra line sits below the others and has no trailing whitespace. */
  lemma ExtraLineStacked(text: string, font: ScaledFont, base: seq<LineMetric>)
    requires StackedLines(base, font.height, font.ascent) && CountsTrailing(text, base)
    requires text == [] ==> base == []
    requires text != [] ==> base != [] && LastEnd(LineRanges(base)) == ByteLen(text)
    ensures var lines := base + ExtraLine(text, font, base);
      StackedLines(lines, font.height, font.ascent) && CountsTrailing(text, lines)
  {
    var e := ExtraLine(text, font, base);
    var len := ByteLen(text);
    if e != [] {
      var x := e[0];
      assert e == [x];
      assert x.startOffset == len && x.endOffset == len;
      assert Slice(text, len, len) == [] by {
        if Slice(text, len, len) != [] { SliceNonEmpty(text, len, len); }
      }
      if base != [] {
        assert TopAt(base[|base| - 1], |base| - 1, font.height, font.ascent);
      }
      AppendStackedLine(text, font.height, font.ascent, base, x);
    }
  }

  /** A line placed below stacked lines, counting its own trailing whitespace, keeps them stacked and counted. */
  lemma AppendStackedLine(text: string, height: real, ascent: real, base: seq<LineMetric>, x: LineMetric)
    requires StackedLines(base, height, ascent) && CountsTrailing(text, base)
    requires TopAt(x, |base|, height, ascent)
    requires x.trailingWhitespace == CountTrailingWhitespace(Slice(text, x.startOffset, x.endOffset))
    ensures StackedLines(base + [x], height, ascent) && CountsTrailing(text, base + [x])
  {
    var lines := base + [x];
    forall k | 0 <= k < |lines|
      ensures TopAt(lines[k], k, height, ascent)
      ensures lines[k].trailingWhitespace == CountTrailingWhitespace(Slice(text, lines[k].startOffset, lines[k].endOffset))
    {
      if k < |base| {
        assert lines[k] == base[k];
      }
    }
  }

  /**
   * The layout has at least one line: the lines of the break loop, then
   * for the empty text or a text ending in a newline one empty line at the
   * end of the text. They are stacked, count their trailing whitespace,
   * start at 0, each starts where the previous ended, and the last ends at
   * the end of the text.
   */
  lemma LayoutLinesShape(text: string, font: ScaledFont, breaks: seq<Break>, width: Width)
    requires Opportunities(text, breaks)
    ensures var lines := LayoutLines(text, font, breaks, width);
      && LineRanges(lines) == Spans(Measure(text, font.advance, width), breaks)
           + (if EndsOpen(text) then [Span(ByteLen(text), ByteLen(text))] else [])
      && |lines| > 0
      && StackedLines(lines, font.height, font.ascent) && CountsTrailing(text, lines)
      && Contiguous(LineRanges(lines)) && LastEnd(LineRanges(lines)) == ByteLen(text)
  {
    var m := Measure(text, font.advance, width);
    var spans := Spans(m, breaks);
    SpansProperties(m, breaks);
    FinalLineStart(m, breaks);
    SpanLinesShape(text, spans, font.height, font.ascent);
    var base := SpanLines(text, spans, font.height, font.ascent);
    if text != [] && !EndsOpen(text) {
      assert Util.TrailingNlf(text).None?;
    }
    ExtraLineShape(text, font, base);
  }

  /** The advance of the whole line, trailing whitespace included. */
  function FullWidth(text: string, font: ScaledFont, line: LineMetric): real
  {
    font.advance(Slice(text, line.startOffset, line.endOffset))
  }

  /**
   * The advance of the line without its trailing whitespace, which is cut
   * off by its length in bytes.
   */
  function NonWsWidth(text: string, font: ScaledFont, line: LineMetric): real
  {
    if line.trailingWhitespace > 0 then
      var ws := TrailingWhitespaceBytes(Slice(text, line.startOffset, line.endOffset));
      font.advance(Slice(text, line.startOffset, line.endOffset - ws))
    else
      FullWidth(text, font, line)
  }

  /** `size`: the widest line without trailing whitespace, and the bottom of the last line. */
  function LayoutSize(text: string, font: ScaledFont, lines: seq<LineMetric>): Size
  {
    var width := MaxOf(0.0, seq(|lines|, k requires 0 <= k < |lines| => NonWsWidth(text, font, lines[k])));
    var height := if lines == [] then font.height else lines[|lines| - 1].yOffset + lines[|lines| - 1].height;
    Size(width, height)
  }

  /** `trailing_ws_width`: the widest line with its trailing whitespace. */
  function TrailingWsWidth(text: string, font: ScaledFont, lines: seq<LineMetric>): real
  {
    MaxOf(0.0, seq(|lines|, k requires 0 <= k < |lines| => FullWidth(text, font, lines[k])))
  }

  /**
   * Stacked lines are as high as all of them; the layout is as wide as its
   * widest line without trailing whitespace, and `trailing_ws_width` is the
   * widest with it, both at least 0.
   */
  lemma LayoutSizeBounds(text: string, font: ScaledFont, lines: seq<LineMetric>)
    requires lines != [] && StackedLines(lines, font.height, font.ascent)
    ensures var size := LayoutSize(text, font, lines);
      && size.height == Stacked(|lines|, font.height)
      && size.width >= 0.0 && TrailingWsWidth(text, font, lines) >= 0.0
      && (forall k :: 0 <= k < |lines| ==> NonWsWidth(text, font, lines[k]) <= size.width)
      && (forall k :: 0 <= k < |lines| ==> FullWidth(text, font, lines[k]) <= TrailingWsWidth(text, font, lines))
  {
    assert TopAt(lines[|lines| - 1], |lines| - 1, font.height, font.ascent);
    var ns := seq(|lines|, k requires 0 <= k < |lines| => NonWsWidth(text, font, lines[k]));
    var fs := seq(|lines|, k requires 0 <= k < |lines| => FullWidth(text, font, lines[k]));
    forall k | 0 <= k < |lines|
      ensures NonWsWidth(text, font, lines[k]) <= LayoutSize(text, font, lines).width
      ensures FullWidth(text, font, lines[k]) <= TrailingWsWidth(text, font, lines)
    {
      assert ns[k] == NonWsWidth(text, font, lines[k]);
      assert fs[k] == FullWidth(text, font, lines[k]);
    }
  }

  /** The empty text is laid out as one empty line. */
  lemma EmptyLayout(font: ScaledFont, width: Width)
    ensures LayoutLines("", font, [], width) == [LineMetric(0, 0, 0, font.ascent, font.height, 0.0)]
  {
  }

  /** A single mandatory break at `n` makes the one line `[0, n)`. */
  lemma SingleHardBreak(m: Measure, n: nat)
    ensures Spans(m, [Break(n, true)]) == [Span(0, n)]
  {
    var b := Break(n, true);
    assert [b][..0] == [];
    assert Run(m, [b]) == Step(m, State(0, 0, []), b);
    assert Emitted(m, State(0, 0, []), b) == [Span(0, n)];
  }

  /** `"A"` is one line. */
  lemma SingleLineLayout(font: ScaledFont, width: Width)
    ensures Opportunities("A", [Break(1, true)])
    ensures |LayoutLines("A", font, [Break(1, true)], width)| == 1
  {
    assert ByteLen("A") == 1 by { assert "A"[1..] == ""; }
    LayoutLinesShape("A", font, [Break(1, true)], width);
    SingleHardBreak(Measure("A", font.advance, width), 1);
  }

  /**
   * `"\n"` is two lines, `"\n"` and then the empty line at its end, the
   * second one line below the first.
   */
  lemma NewlineEofLayout(font: ScaledFont, width: Width)
    ensures Opportunities("\n", [Break(1, true)])
    ensures var lines := LayoutLines("\n", font, [Break(1, true)], width);
      && |lines| == 2
      && Slice("\n", lines[0].startOffset, lines[0].endOffset) == "\n"
      && Slice("\n", lines[1].startOffset, lines[1].endOffset) == ""
      && lines[1].yOffset == lines[0].yOffset + lines[0].height
  {
    assert ByteLen("\n") == 1 by { assert "\n"[1..] == ""; }
    LayoutLinesShape("\n", font, [Break(1, true)], width);
    SingleHardBreak(Measure("\n", font.advance, width), 1);
    var lines := LayoutLines("\n", font, [Break(1, true)], width);
    LineRangesAt(lines, 0);
    LineRangesAt(lines, 1);
    assert TopAt(lines[0], 0, font.height, font.ascent) && TopAt(lines[1], 1, font.height, font.ascent);
    assert Slice("\n", 0, 1) == "\n" by { assert "\n"[1..] == ""; }
    assert Slice("\n", 1, 1) == "" by { assert "\n"[1..] == ""; }
  }

  // ---------------------------------------------------------------------
  // Hit testing within a line

  /**
   * The x position of cluster boundary `i` of a line: the line position of
   * cluster `i`'s start, or of the line's end for `i == |starts|`.
   */
  function Edge(text: string, starts: seq<nat>, advance: string -> real, i: nat): real
  {
    HitTestLinePosition(text, starts, advance, if i < |starts| then starts[i] else ByteLen(text))
  }

  /** The boundaries of cluster `p` lie at edges `p` and `p + 1`. */
  lemma BoundsAreEdges(text: string, starts: seq<nat>, advance: string -> real, p: nat)
    requires p < |starts|
    ensures GetGraphemeBoundaries(text, starts, advance, p).value.leading == Edge(text, starts, advance, p)
    ensures GetGraphemeBoundaries(text, starts, advance, p).value.trailing == Edge(text, starts, advance, p + 1)
  {
  }

  /** `h` is the hit `point_x_in_grapheme` reports for `x` inside cluster `p`. */
  ghost predicate HitIn(text: string, starts: seq<nat>, advance: string -> real, x: real, p: nat, h: HitTestPoint)
  {
    && p < |starts|
    && Edge(text, starts, advance, p) <= x <= Edge(text, starts, advance, p + 1)
    && PointXInGrapheme(x, GetGraphemeBoundaries(text, starts, advance, p).value) == Some(h)
  }

  /**
   * What `hit_test_line_point` returns: the default for an empty line, the
   * end of the line (outside) right of its last edge, the default at or left
   * of its first edge, and otherwise the hit within a cluster that spans `x`.
   */
  ghost predicate LineHit(text: string, starts: seq<nat>, advance: string -> real, x: real, h: HitTestPoint)
  {
    if text == [] then h == DEFAULT_HIT
    else if x > Edge(text, starts, advance, |starts|) then h == HitTestPoint(ByteLen(text), false)
    else if x <= Edge(text, starts, advance, 0) then h == DEFAULT_HIT
    else exists p :: HitIn(text, starts, advance, x, p, h)
  }

  /**
   * `hit_test_line_point`: the ends first, then a binary search over the
   * clusters. The search keeps `x` strictly between the leading edges of
   * its two bounds, so it ends with a hit, in whatever order the measured
   * edges lie.
   */
  method HitTestLinePoint(text: string, starts: seq<nat>, advance: string -> real, x: real) returns (h: HitTestPoint)
    requires Segments(starts, ByteLen(text))
    ensures LineHit(text, starts, advance, x, h)
  {
    if text == [] {
      return DEFAULT_HIT;
    }
    assert ByteLen(text) >= Utf8Len(text[0]);
    var end := |starts| - 1;
    var endBounds := GetGraphemeBoundaries(text, starts, advance, end).value;
    BoundsAreEdges(text, starts, advance, end);
    var start := 0;
    var startBounds := GetGraphemeBoundaries(text, starts, advance, start).value;
    BoundsAreEdges(text, starts, advance, start);
    if x > endBounds.trailing {
      return HitTestPoint(ByteLen(text), false);
    }
    if x <= startBounds.leading {
      return DEFAULT_HIT;
    }
    var hit := PointXInGrapheme(x, startBounds);
    if hit.Some? {
      assert HitIn(text, starts, advance, x, start, hit.value);
      return hit.value;
    }
    hit := PointXInGrapheme(x, endBounds);
    if hit.Some? {
      assert HitIn(text, starts, advance, x, end, hit.value);
      return hit.value;
    }
    var left: nat, right: nat := start, end;
    while true
      invariant left < right <= end
      invariant Edge(text, starts, advance, left) < x < Edge(text, starts, advance, right)
      decreases right - left
    {
      var middle := left + (right - left) / 2;
      var bounds := GetGraphemeBoundaries(text, starts, advance, middle).value;
      BoundsAreEdges(text, starts, advance, middle);
      hit := PointXInGrapheme(x, bounds);
      if hit.Some? {
        assert HitIn(text, starts, advance, x, middle, hit.value);
        return hit.value;
      }
      if x < bounds.leading {
        right := middle;
      } else {
        assert x > bounds.trailing;
        left := middle + 1;
      }
    }
  }

  // ---------------------------------------------------------------------
  // The layout

  /** The band of heights line `line` occupies. */
  predicate InBand(line: LineMetric, y: real)
  {
    y >= line.yOffset && y < line.yOffset + line.height
  }

  /** `line_metrics.iter().find(..)`: the first line whose band holds `y`. */
  function FindLine(lines: seq<LineMetric>, y: real): (r: Option<nat>)
    ensures r.Some? ==> r.value < |lines| && InBand(lines[r.value], y)
    ensures r.Some? ==> forall j :: 0 <= j < r.value ==> !InBand(lines[j], y)
    ensures r.None? ==> forall j :: 0 <= j < |lines| ==> !InBand(lines[j], y)
  {
    if lines == [] then None
    else if InBand(lines[0], y) then Some(0)
    else
      match FindLine(lines[1..], y)
      case None => None
      case Some(k) => Some(k + 1)
  }

  /** Stacked bands cover every height from 0 to the bottom of the last line. */
  lemma {:induction false} BandCovering(n: nat, height: real, y: real) returns (k: nat)
    requires 0.0 <= y < Stacked(n, height)
    ensures k < n && Stacked(k, height) <= y < Stacked(k, height) + height
  {
    if n - 1 > 0 && y < Stacked(n - 1, height) {
      k := BandCovering(n - 1, height, y);
    } else {
      k := n - 1;
    }
  }

  /**
   * The line hit `hit_test_point` reports: the line-local hit shifted by the
   * line's start, moved before a final newline when it lands on the line's
   * end, and inside only if `y` was.
   */
  function Shifted(text: string, line: LineMetric, lh: HitTestPoint, yInside: bool): HitTestPoint
  {
    var lineText := Slice(text, line.startOffset, line.endOffset);
    var idx := lh.idx + line.startOffset;
    if idx == line.endOffset && Util.TrailingNlf(lineText).Some? then
      SliceNonEmpty(text, line.startOffset, line.endOffset);
      HitTestPoint(idx - 1, lh.isInside && yInside)
    else
      HitTestPoint(idx, lh.isInside && yInside)
  }

  /** The bottom of the last line, or 0 without lines. */
  function LinesHeight(lines: seq<LineMetric>): real
  {
    if lines == [] then 0.0 else lines[|lines| - 1].yOffset + lines[|lines| - 1].height
  }

  /**
   * `hit_test_point` tests line `k` for height `y`: the first line above
   * the layout, the last below it, and otherwise the first whose band holds
   * `y`.
   */
  predicate LineChosen(lines: seq<LineMetric>, k: nat, y: real)
  {
    && k < |lines|
    && (y < 0.0 ==> k == 0)
    && (0.0 <= y && y >= LinesHeight(lines) ==> k == |lines| - 1)
    && (0.0 <= y < LinesHeight(lines) ==> InBand(lines[k], y) && forall j :: 0 <= j < k ==> !InBand(lines[j], y))
  }

  /** `h` is the hit on chosen line `k` for the line-local hit `lh`. */
  ghost predicate HitOnLine(
    text: string, advance: string -> real, graphemes: string -> seq<nat>, lines: seq<LineMetric>,
    k: nat, x: real, y: real, lh: HitTestPoint, h: HitTestPoint)
  {
    && LineChosen(lines, k, y)
    && var line := Slice(text, lines[k].startOffset, lines[k].endOffset);
    && LineHit(line, graphemes(line), advance, x, lh)
    && h == Shifted(text, lines[k], lh, 0.0 <= y < LinesHeight(lines))
  }

  /** The body of `hit_test_point` for a non-empty text laid out as `lines`. */
  method HitTestLines(
    text: string, font: ScaledFont, graphemes: string -> seq<nat>, lines: seq<LineMetric>, x: real, y: real)
    returns (h: HitTestPoint)
    requires lines != [] && StackedLines(lines, font.height, font.ascent)
    requires forall s :: Segments(graphemes(s), ByteLen(s))
    ensures y < 0.0 || y >= LinesHeight(lines) ==> !h.isInside
    ensures exists k: nat, lh :: HitOnLine(text, font.advance, graphemes, lines, k, x, y, lh, h)
  {
    var height := LinesHeight(lines);
    var yInside: bool;
    var k: nat;
    if y < 0.0 {
      yInside, k := false, 0;
    } else if y >= height {
      yInside, k := false, |lines| - 1;
    } else {
      assert TopAt(lines[|lines| - 1], |lines| - 1, font.height, font.ascent);
      var covering := BandCovering(|lines|, font.height, y);
      assert TopAt(lines[covering], covering, font.height, font.ascent);
      assert InBand(lines[covering], y);
      k := FindLine(lines, y).value;
      yInside := true;
    }
    var lm := lines[k];
    var line := Slice(text, lm.startOffset, lm.endOffset);
    var lh := HitTestLinePoint(line, graphemes(line), font.advance, x);
    h := Shifted(text, lm, lh, yInside);
    assert HitOnLine(text, font.advance, graphemes, lines, k, x, y, lh, h);
  }

  /** Lines laid end to end start at non-decreasing offsets, as `binary_search` needs. */
  lemma ContiguousStarts(lines: seq<LineMetric>)
    requires Contiguous(LineRanges(lines))
    ensures Util.NonDecreasing(Util.StartOffsets(lines))
  {
    var keys := Util.StartOffsets(lines);
    forall k | 0 < k < |keys| ensures keys[k - 1] <= keys[k] {
      LineRangesAt(lines, k - 1);
      LineRangesAt(lines, k);
    }
    Util.StepwiseNonDecreasing(keys);
  }

  /** `hit_test_line_position` on the text of line `lm`, at `pos` less the line's start. */
  function LineCaret(text: string, font: ScaledFont, graphemes: string -> seq<nat>, lm: LineMetric, pos: nat): real
    requires lm.startOffset <= pos
  {
    var line := Slice(text, lm.startOffset, lm.endOffset);
    HitTestLinePosition(line, graphemes(line), font.advance, pos - lm.startOffset)
  }

  /**
   * The body of `hit_test_text_position` for a text laid out as `lines`,
   * with `idx` already clamped to the text: the point at `(0, ascent)` for
   * the empty text, otherwise the line `line_number_for_position` finds and
   * the caret offset of `idx` within that line's text.
   */
  function TextPosition(
    text: string, font: ScaledFont, graphemes: string -> seq<nat>, lines: seq<LineMetric>, idx: nat)
    : (r: HitTestPosition)
    requires lines != [] && StackedLines(lines, font.height, font.ascent) && lines[0].startOffset == 0
    requires Util.NonDecreasing(Util.StartOffsets(lines))
    ensures r.line < |lines| && lines[r.line].startOffset <= idx
    ensures r.line == |lines| - 1 || idx < lines[r.line + 1].startOffset || lines[r.line].startOffset == idx
    ensures r.y == Stacked(r.line, font.height) + font.ascent
    ensures idx == 0 && text == [] ==> r == HitTestPosition(0.0, font.ascent, 0)
    ensures !(idx == 0 && text == []) ==> r.x == LineCaret(text, font, graphemes, lines[r.line], idx)
  {
    if idx == 0 && text == [] then
      HitTestPosition(0.0, font.ascent, 0)
    else
      var lineNum := Util.LineNumberForPosition(lines, idx);
      var lm := lines[lineNum];
      assert TopAt(lm, lineNum, font.height, font.ascent);
      HitTestPosition(LineCaret(text, font, graphemes, lm, idx), lm.yOffset + lm.baseline, lineNum)
  }

  /** The font, breaks and segmentation a layout is built from, as their producers guarantee them. */
  ghost predicate LayoutInputs(text: string, font: ScaledFont, breaks: seq<Break>, graphemes: string -> seq<nat>)
  {
    && Opportunities(text, breaks)
    && (forall s :: Segments(graphemes(s), ByteLen(s)))
  }

  /**
   * `CairoTextLayout`. `breaks` are the opportunities `LineBreakIterator`
   * yields for `text`, and `graphemes` the cluster starts of any line.
   */
  class CairoTextLayout {
    const text: string
    const font: ScaledFont
    const breaks: seq<Break>
    const graphemes: string -> seq<nat>
    ghost var width: Width
    var size: Size
    var trailingWsWidth: real
    var lineMetrics: seq<LineMetric>

    /** The metrics, size and trailing width are those of the last `update_width`. */
    ghost predicate Valid()
      reads this
    {
      && LayoutInputs(text, font, breaks, graphemes)
      && lineMetrics == LayoutLines(text, font, breaks, width)
      && size == LayoutSize(text, font, lineMetrics)
      && trailingWsWidth == TrailingWsWidth(text, font, lineMetrics)
    }

    /** The layout `build` creates, invalid until its first `update_width`. */
    constructor(text: string, font: ScaledFont, breaks: seq<Break>, graphemes: string -> seq<nat>)
      ensures this.text == text && this.font == font && this.breaks == breaks && this.graphemes == graphemes
      ensures size == Size(0.0, 0.0) && trailingWsWidth == 0.0 && lineMetrics == []
    {
      this.text := text;
      this.font := font;
      this.breaks := breaks;
      this.graphemes := graphemes;
      width := Infinity;
      size := Size(0.0, 0.0);
      trailingWsWidth := 0.0;
      lineMetrics := [];
    }

    /**
     * `update_width`: breaks the text at the new width (none means
     * infinite), adds the extra empty line, and recomputes the size.
     */
    method UpdateWidth(newWidth: Option<Width>)
      requires LayoutInputs(text, font, breaks, graphemes)
      modifies this
      ensures Valid()
      ensures width == (if newWidth.Some? then newWidth.value else Infinity)
    {
      var w := if newWidth.Some? then newWidth.value else Infinity;
      var lines := CairoLines.CalculateLineMetrics(text, font.advance, w, font.height, font.ascent, breaks);
      ghost var m := Measure(text, font.advance, w);
      TopAlignedLines(text, font.height, font.ascent, lines, Spans(m, breaks));
      FinalLineStart(m, breaks);
      var base := TopAligned(lines);
      var extra := ExtraLine(text, font, base);
      lineMetrics := base + extra;
      size := LayoutSize(text, font, lineMetrics);
      trailingWsWidth := TrailingWsWidth(text, font, lineMetrics);
      width := w;
    }

    /** `line_text`: the whole line `n`, trailing whitespace included, or `None` past the last line. */
    function LineText(n: nat): (r: Option<string>)
      reads this
      ensures r.Some? <==> n < |lineMetrics|
      ensures r.Some? ==> r.value == Slice(text, lineMetrics[n].startOffset, lineMetrics[n].endOffset)
    {
      if n < |lineMetrics| then Some(Slice(text, lineMetrics[n].startOffset, lineMetrics[n].endOffset)) else None
    }

    /**
     * `hit_test_point`: the default for the empty text; otherwise the hit
     * on the line chosen for `y`, never inside for a `y` outside the layout.
     */
    method HitTestPoint(x: real, y: real) returns (h: HitTestPoint)
      requires Valid()
      ensures text == [] ==> h == DEFAULT_HIT
      ensures text != [] && (y < 0.0 || y >= LinesHeight(lineMetrics)) ==> !h.isInside
      ensures text != [] ==> exists k: nat, lh :: HitOnLine(text, font.advance, graphemes, lineMetrics, k, x, y, lh, h)
    {
      if text == [] {
        return DEFAULT_HIT;
      }
      LayoutLinesShape(text, font, breaks, width);
      h := HitTestLines(text, font, graphemes, lineMetrics, x, y);
    }

    /**
     * `hit_test_text_position`: the position is clamped to the text; its
     * line is one starting at or before it with no later line starting
     * before it, the point is on that line's baseline, and its `x` is the
     * caret offset of the position within the line's text.
     */
    function HitTestTextPosition(idx: nat): (r: HitTestPosition)
      reads this
      requires Valid()
      requires IsCharBoundary(text, if idx < ByteLen(text) then idx else ByteLen(text))
      ensures r.line < |lineMetrics|
      ensures var pos := if idx < ByteLen(text) then idx else ByteLen(text);
        && lineMetrics[r.line].startOffset <= pos
        && (r.line == |lineMetrics| - 1 || pos < lineMetrics[r.line + 1].startOffset
            || lineMetrics[r.line].startOffset == pos)
      ensures r.y == Stacked(r.line, font.height) + font.ascent
      ensures text == [] ==> r == HitTestPosition(0.0, font.ascent, 0)
      ensures text != [] ==>
        r.x == LineCaret(text, font, graphemes, lineMetrics[r.line], if idx < ByteLen(text) then idx else ByteLen(text))
    {
      LayoutLinesShape(text, font, breaks, width);
      LineRangesAt(lineMetrics, 0);
      ContiguousStarts(lineMetrics);
      TextPosition(text, font, graphemes, lineMetrics, if idx < ByteLen(text) then idx else ByteLen(text))
    }
  }

  /**
   * `build`: resolves the font (an input here), creates the layout and runs
   * `update_width` with the builder's width constraint; it always succeeds.
   */
  method Build(b: CairoTextLayoutBuilder, font: ScaledFont, breaks: seq<Break>, graphemes: string -> seq<nat>)
    returns (r: Result<CairoTextLayout, Error>)
    requires LayoutInputs(b.text, font, breaks, graphemes)
    ensures r.Ok? && fresh(r.value) && r.value.Valid()
    ensures r.value.text == b.text && r.value.width == b.widthConstraint
  {
    var layout := new CairoTextLayout(b.text, font, breaks, graphemes);
    layout.UpdateWidth(Some(b.widthConstraint));
    r := Ok(layout);
  }

  // ---------------------------------------------------------------------
  // Trailing whitespace as a byte count

  /**
   * As written, the width without trailing whitespace slices up to
   * `end_offset - trailing_whitespace`, a byte offset less a character
   * count: for the line `"a\u{3000}"` that offset, 3, falls inside the
   * three-byte U+3000.
   */
  lemma CharCountMisplacesNonWsEnd()
    ensures CountTrailingWhitespace("a\U{3000}") == 1
    ensures ByteLen("a\U{3000}") == 4
    ensures !IsCharBoundary("a\U{3000}", ByteLen("a\U{3000}") - CountTrailingWhitespace("a\U{3000}"))
  {
    var s := "a\U{3000}";
    assert s[..|s| - 1] == "a";
    assert s[1..] == "\U{3000}" && s[1..][1..] == "";
    assert s[..0] == "" && s[..1] == "a" && s[..2] == s;
    assert "a"[1..] == "";
  }

  /**
   * Counted in bytes, as `NonWsWidth` does, the end of the non-whitespace
   * part is always a character boundary of the line: where its trailing
   * whitespace starts.
   */
  lemma NonWsEndIsBoundary(line: string)
    ensures IsCharBoundary(line, ByteLen(line) - TrailingWhitespaceBytes(line))
  {
    var i := |line| - CountTrailingWhitespace(line);
    TrailingBytesOfSuffix(line);
    assert line == line[..i] + line[i..];
    ByteLenAppend(line[..i], line[i..]);
    assert ByteLen(line[..i]) == ByteLen(line) - TrailingWhitespaceBytes(line);
  }
}

=== FILE: cg_context.dfy ===
/**
 * The CoreGraphics render context as far as piet keeps its own state: the
 * stack of transforms applied by piet (CoreGraphics' own matrix may hold a
 * flip that Cocoa applied), the image wrapper with its `Empty` variant, the
 * line-style conversions and the size checks of `capture_image_area`. The
 * CoreGraphics context is seen only through the calls piet makes on it.
 */
module CgContext {
  import opened Wrappers
  import opened PietTypes
  import opened Affine
  import Shapes
  import Util

  // ---------------------------------------------------------------------
  // The transform stack

  /** How a stroke's joins and caps are handed to CoreGraphics. */
  datatype CgLineJoin = CgLineJoinMiter | CgLineJoinRound | CgLineJoinBevel
  datatype CgLineCap = CgLineCapButt | CgLineCapRound | CgLineCapSquare

  /** A call piet makes on the wrapped CoreGraphics context. */
  datatype CgCall =
    | CgSave
    | CgRestore
    | CgConcatCtm(xf: Affine)
    | CgSetLineWidth(width: real)
    | CgSetLineJoin(join: CgLineJoin)
    | CgSetLineCap(cap: CgLineCap)
    | CgSetMiterLimit(limit: real)
    | CgSetLineDash(offset: real, lengths: seq<real>)
    | CgSetInterpolationQuality(quality: CgInterpolationQuality)
    | CgDrawImage(flipped: bool)

  /** The interpolation qualities `draw_image` picks from. */
  datatype CgInterpolationQuality = CgInterpolationQualityNone | CgInterpolationQualityDefault

  /** `last().copied().unwrap_or_default()`: the top of the stack, or the identity. */
  function Top(stack: seq<Affine>): Affine
  {
    if stack == [] then IDENTITY else stack[|stack| - 1]
  }

  /**
   * The map a y-up context applies once on creation to put piet's origin at
   * the top: `FLIP_Y * translate((0, -height))`, given as the two factors.
   */
  function YUpFlip(flipY: Affine, translate: Affine): Affine
  {
    Mul(flipY, translate)
  }

  /** A CoreGraphics bitmap image: its size and its tightly packed bytes. */
  datatype CgImage = CgImage(width: nat, height: nat, bytesPerPixel: nat, data: seq<Byte>)

  /** `CoreGraphicsImage`: CoreGraphics has no empty image, hence `Empty`. */
  datatype CoreGraphicsImage = Empty | YUp(image: CgImage) | YDown(image: CgImage)

  /** `from_cgimage_and_ydir`: the image tagged with the context's y direction. */
  function FromCgImageAndYdir(image: CgImage, yDown: bool): (r: CoreGraphicsImage)
    ensures r.YDown? <==> yDown
    ensures !r.Empty? && r.image == image
  {
    if yDown then YDown(image) else YUp(image)
  }

  /** `as_cgimage`: the wrapped image, `None` for `Empty`. */
  function AsCgImage(img: CoreGraphicsImage): (r: Option<CgImage>)
    ensures r.None? <==> img.Empty?
    ensures r.Some? ==> r.value == img.image
  {
    match img
    case Empty => None
    case YUp(image) => Some(image)
    case YDown(image) => Some(image)
  }

  /** Wrapping an image and unwrapping it gives it back. */
  lemma AsCgImageOfWrapped(image: CgImage, yDown: bool)
    ensures AsCgImage(FromCgImageAndYdir(image, yDown)) == Some(image)
  {
  }

  /** `Image::size`: `0 x 0` for `Empty`, otherwise the image's pixel size. */
  function ImageSize(img: CoreGraphicsImage): (s: Size)
    ensures img.Empty? ==> s == Size(0.0, 0.0)
    ensures !img.Empty? ==> s == Size(img.image.width as real, img.image.height as real)
  {
    match img
    case Empty => Size(0.0, 0.0)
    case YUp(image) => Size(image.width as real, image.height as real)
    case YDown(image) => Size(image.width as real, image.height as real)
  }

  /** `convert_line_join`: the limit of a miter join is not part of the join. */
  function ConvertLineJoin(j: Shapes.LineJoin): (r: CgLineJoin)
    ensures r == CgLineJoinMiter <==> j.Miter?
    ensures r == CgLineJoinRound <==> j == Shapes.LineJoin.Round
    ensures r == CgLineJoinBevel <==> j == Shapes.LineJoin.Bevel
  {
    match j
    case Miter(_) => CgLineJoinMiter
    case Round => CgLineJoinRound
    case Bevel => CgLineJoinBevel
  }

  /** `convert_line_cap`. */
  function ConvertLineCap(c: Shapes.LineCap): (r: CgLineCap)
    ensures r == CgLineCapButt <==> c == Shapes.LineCap.Butt
    ensures r == CgLineCapRound <==> c == Shapes.LineCap.Round
    ensures r == CgLineCapSquare <==> c == Shapes.LineCap.Square
  {
    match c
    case Butt => CgLineCapButt
    case Round => CgLineCapRound
    case Square => CgLineCapSquare
  }

  /**
   * Both conversions are onto, the cap conversion is one-to-one, and the
   * join conversion is one-to-one up to the miter limit.
   */
  lemma ConversionsOneToOne(j1: Shapes.LineJoin, j2: Shapes.LineJoin, c1: Shapes.LineCap, c2: Shapes.LineCap,
                            cj: CgLineJoin, cc: CgLineCap)
    ensures ConvertLineJoin(j1) == ConvertLineJoin(j2) <==> j1 == j2 || (j1.Miter? && j2.Miter?)
    ensures ConvertLineCap(c1) == ConvertLineCap(c2) <==> c1 == c2
    ensures exists j :: ConvertLineJoin(j) == cj
    ensures exists c :: ConvertLineCap(c) == cc
  {
    match cj {
      case CgLineJoinMiter => assert ConvertLineJoin(Shapes.LineJoin.Miter(Shapes.DEFAULT_MITER_LIMIT)) == cj;
      case CgLineJoinRound => assert ConvertLineJoin(Shapes.LineJoin.Round) == cj;
      case CgLineJoinBevel => assert ConvertLineJoin(Shapes.LineJoin.Bevel) == cj;
    }
    match cc {
      case CgLineCapButt => assert ConvertLineCap(Shapes.LineCap.Butt) == cc;
      case CgLineCapRound => assert ConvertLineCap(Shapes.LineCap.Round) == cc;
      case CgLineCapSquare => assert ConvertLineCap(Shapes.LineCap.Square) == cc;
    }
  }

  /**
   * The calls `set_stroke` makes for a width and an optional style (the
   * default style when absent): width, join, cap, the miter limit only for
   * a miter join, then the visible dash pattern and its offset.
   */
  function StrokeCalls(width: real, style: Option<Shapes.StrokeStyle>): (calls: seq<CgCall>)
    ensures var s := if style.Some? then style.value else Shapes.Default();
      && 4 <= |calls| <= 5
      && calls[..3] == [CgSetLineWidth(width), CgSetLineJoin(ConvertLineJoin(s.lineJoin)),
                        CgSetLineCap(ConvertLineCap(s.lineCap))]
      && (|calls| == 5 <==> s.lineJoin.Miter?)
      && (s.lineJoin.Miter? ==> calls[3] == CgSetMiterLimit(s.lineJoin.limit))
      && calls[|calls| - 1] == CgSetLineDash(s.dashOffset, Shapes.Lengths(s.dashPattern))
  {
    var s := if style.Some? then style.value else Shapes.Default();
    var limit := match Shapes.MiterLimit(s) case Some(l) => [CgSetMiterLimit(l)] case None => [];
    [CgSetLineWidth(width), CgSetLineJoin(ConvertLineJoin(s.lineJoin)), CgSetLineCap(ConvertLineCap(s.lineCap))]
    + limit + [CgSetLineDash(s.dashOffset, Shapes.Lengths(s.dashPattern))]
  }

  /** Without a style, `set_stroke` strokes with miter joins limited at 10, butt caps and no dashes. */
  lemma DefaultStrokeCalls(width: real)
    ensures StrokeCalls(width, None) == [CgSetLineWidth(width), CgSetLineJoin(CgLineJoinMiter),
                                         CgSetLineCap(CgLineCapButt), CgSetMiterLimit(10.0), CgSetLineDash(0.0, [])]
  {
  }

  /** Rounding half away from zero, as `f64::round` does on a non-negative value. */
  function RoundNonNegative(x: real): (n: int)
    requires x >= 0.0
    ensures n >= 0 && n as real - 0.5 <= x < n as real + 0.5
  {
    (x + 0.5).Floor
  }

  /** A mapped area that rounds to the context's pixel size. */
  predicate FullSize(size: Size, contextWidth: nat, contextHeight: nat)
    requires size.width >= 0.0 && size.height >= 0.0
  {
    RoundNonNegative(size.width) == contextWidth && RoundNonNegative(size.height) == contextHeight
  }

  /**
   * The rectangle `capture_image_area` maps through the current matrix: in
   * a y-down context the caller's, in a y-up context the caller's with its
   * y coordinates measured from the bottom edge at `height`.
   */
  function CaptureRect(src: Rect, yDown: bool, height: real): (r: Rect)
    ensures yDown ==> r == src
    ensures !yDown ==> r.x0 == src.x0 && r.x1 == src.x1 && r.y0 == height - src.y0 && r.y1 == height - src.y1
  {
    if yDown then src else Rect(src.x0, height - src.y0, src.x1, height - src.y1)
  }

  /**
   * `CoreGraphicsContext`, with the CoreGraphics context reduced to the
   * calls piet makes on it.
   */
  class CoreGraphicsContext {
    var transformStack: seq<Affine>
    var calls: seq<CgCall>
    const yDown: bool
    const height: real

    /**
     * `new_impl`: the CoreGraphics state is saved, a y-up context (one
     * given a height) is flipped, and piet's own stack starts empty.
     */
    constructor (height: Option<real>, flipY: Affine, translate: Affine, yDown: bool)
      ensures transformStack == [] && this.yDown == yDown
      ensures this.height == (if height.Some? then height.value else 0.0)
      ensures calls == [CgSave] + (if height.Some? then [CgConcatCtm(YUpFlip(flipY, translate))] else [])
    {
      transformStack := [];
      this.yDown := yDown;
      this.height := if height.Some? then height.value else 0.0;
      calls := [CgSave] + (if height.Some? then [CgConcatCtm(YUpFlip(flipY, translate))] else []);
    }

    /** `save`: CoreGraphics saves, and a copy of the top (the identity on an empty stack) is pushed. */
    method Save() returns (r: Result<(), Error>)
      modifies this
      ensures r.Ok?
      ensures transformStack == old(transformStack) + [Top(old(transformStack))]
      ensures calls == old(calls) + [CgSave]
    {
      calls := calls + [CgSave];
      var state := Top(transformStack);
      transformStack := transformStack + [state];
      r := Ok(());
    }

    /**
     * `restore`: pops and only then restores CoreGraphics, which asserts on
     * an unbalanced restore; on an empty stack it is `StackUnbalance` and
     * CoreGraphics is not called.
     */
    method Restore() returns (r: Result<(), Error>)
      modifies this
      ensures old(transformStack) == [] ==> r == Err(StackUnbalance) && transformStack == [] && calls == old(calls)
      ensures old(transformStack) != [] ==>
        && r.Ok?
        && transformStack == old(transformStack)[..|old(transformStack)| - 1]
        && calls == old(calls) + [CgRestore]
    {
      if transformStack == [] {
        return Err(StackUnbalance);
      }
      transformStack := transformStack[..|transformStack| - 1];
      calls := calls + [CgRestore];
      r := Ok(());
    }

    /**
     * `transform`: the top is multiplied by the transform in place; on an
     * empty stack the transform itself is pushed. CoreGraphics is always told.
     */
    method Transform(transform: Affine)
      modifies this
      ensures old(transformStack) == [] ==> transformStack == [transform]
      ensures old(transformStack) != [] ==>
        var n := |old(transformStack)|;
        transformStack == old(transformStack)[..n - 1] + [Mul(old(transformStack)[n - 1], transform)]
      ensures calls == old(calls) + [CgConcatCtm(transform)]
    {
      if |transformStack| > 0 {
        var last := transformStack[|transformStack| - 1];
        transformStack := transformStack[..|transformStack| - 1] + [Mul(last, transform)];
      } else {
        transformStack := [transform];
      }
      calls := calls + [CgConcatCtm(transform)];
    }

    /** `current_transform`: the top of the stack, or the identity. */
    function CurrentTransform(): (xf: Affine)
      reads this
      ensures transformStack == [] ==> xf == IDENTITY
      ensures transformStack != [] ==> xf == transformStack[|transformStack| - 1]
    {
      Top(transformStack)
    }

    /** `set_stroke`: the stroke parameters are handed to CoreGraphics. */
    method SetStroke(width: real, style: Option<Shapes.StrokeStyle>)
      modifies this
      ensures calls == old(calls) + StrokeCalls(width, style)
      ensures transformStack == old(transformStack)
    {
      var s := if style.Some? then style.value else Shapes.Default();
      calls := calls + [CgSetLineWidth(width)];
      calls := calls + [CgSetLineJoin(ConvertLineJoin(s.lineJoin))];
      calls := calls + [CgSetLineCap(ConvertLineCap(s.lineCap))];
      var limit := Shapes.MiterLimit(s);
      if limit.Some? {
        calls := calls + [CgSetMiterLimit(limit.value)];
      }
      calls := calls + [CgSetLineDash(s.dashOffset, Shapes.Lengths(s.dashPattern))];
    }

    /**
     * `draw_image`: nothing at all for `Empty`; otherwise CoreGraphics is
     * saved, given the interpolation quality, asked to draw (flipped unless
     * a y-up image goes to a y-down context) and restored.
     */
    method DrawImage(src: CoreGraphicsImage, interp: InterpolationMode)
      modifies this
      ensures src.Empty? ==> calls == old(calls)
      ensures !src.Empty? ==>
        calls == old(calls) + [CgSave, CgSetInterpolationQuality(Quality(interp)),
                               CgDrawImage(!(yDown && src.YUp?)), CgRestore]
      ensures transformStack == old(transformStack)
    {
      if src.Empty? {
        return;
      }
      var imageYDown := src.YDown?;
      calls := calls + [CgSave];
      var quality := match interp
        case NearestNeighbor => CgInterpolationQualityNone
        case Bilinear => CgInterpolationQualityDefault;
      calls := calls + [CgSetInterpolationQuality(quality)];
      if yDown && !imageYDown {
        calls := calls + [CgDrawImage(false)];
      } else {
        calls := calls + [CgDrawImage(true)];
      }
      calls := calls + [CgRestore];
    }

    /**
     * `make_image_with_stride`: a surface without pixels is `Empty`;
     * otherwise the rows are packed tightly (a buffer too short for them
     * is `InvalidInput`) and wrapped with the context's y direction. The
     * source asserts that a non-empty image comes with a non-empty buffer
     * no longer than the tight size.
     */
    method MakeImageWithStride(width: nat, height: nat, stride: nat, buf: seq<Byte>, format: ImageFormat)
      returns (r: Result<CoreGraphicsImage, Error>)
      requires width > 0 && height > 0 ==> 0 < |buf| <= BytesPerPixel(format) * width * height
      ensures width == 0 || height == 0 ==> r == Ok(Empty)
      ensures width > 0 && height > 0 ==>
        (r.Err? <==> |buf| < Util.ExpectedImageBufferSize(width * BytesPerPixel(format), height, stride))
      ensures r.Err? ==> r.error == InvalidInput
      ensures r.Ok? && width > 0 && height > 0 ==>
        && (r.value.YDown? <==> yDown)
        && !r.value.Empty?
        && r.value.image.width == width && r.value.image.height == height
        && r.value.image.bytesPerPixel == BytesPerPixel(format)
        && r.value.image.data == (if stride == width * BytesPerPixel(format) then buf
                                  else Util.Packed(buf, stride, width * BytesPerPixel(format), height))
    {
      if width == 0 || height == 0 {
        return Ok(Empty);
      }
      var packed := Util.ImageBufferToTightlyPacked(buf, width, height, stride, format);
      if packed.Err? {
        return Err(packed.error);
      }
      var image := CgImage(width, height, BytesPerPixel(format), packed.value);
      r := Ok(FromCgImageAndYdir(image, yDown));
    }

    /**
     * `capture_image_area`. `deviceSize` is the size of a rectangle mapped
     * through CoreGraphics' current matrix; `contextWidth` and
     * `contextHeight` the context's pixel size; `fullImage` what
     * CoreGraphics' `create_image` gives; `cropped` the image cropped to the
     * area and redrawn at its size, `None` when cropping fails. A mapped area
     * under one pixel in either dimension, or larger than the context, is
     * `InvalidInput`; an area of the context's size (after rounding) is the
     * full image.
     */
    method CaptureImageArea(src: Rect, deviceSize: Rect -> Size, contextWidth: nat, contextHeight: nat,
                            fullImage: Option<CgImage>, cropped: Option<CgImage>)
      returns (r: Result<CoreGraphicsImage, Error>)
      ensures var size := deviceSize(CaptureRect(src, yDown, height));
        && (size.width < 1.0 || size.height < 1.0 ==> r == Err(InvalidInput))
        && (size.width > contextWidth as real || size.height > contextHeight as real ==> r == Err(InvalidInput))
        && (fullImage.None? ==> r == Err(InvalidInput))
        && (r.Ok? ==> fullImage.Some? && 1.0 <= size.width <= contextWidth as real
                       && 1.0 <= size.height <= contextHeight as real)
        && (r.Ok? && FullSize(size, contextWidth, contextHeight) ==> r == Ok(FromCgImageAndYdir(fullImage.value, yDown)))
        && (r.Ok? && !FullSize(size, contextWidth, contextHeight) ==>
              cropped.Some? && r == Ok(FromCgImageAndYdir(cropped.value, yDown)))
        && (r.Err? ==> r.error == InvalidInput)
    {
      var size := deviceSize(CaptureRect(src, yDown, height));
      if size.width < 1.0 || size.height < 1.0 {
        return Err(InvalidInput);
      }
      if size.width > contextWidth as real || size.height > contextHeight as real {
        return Err(InvalidInput);
      }
      if fullImage.None? {
        return Err(InvalidInput);
      }
      if RoundNonNegative(size.width) == contextWidth && RoundNonNegative(size.height) == contextHeight {
        assert FullSize(size, contextWidth, contextHeight);
        return Ok(FromCgImageAndYdir(fullImage.value, yDown));
      }
      if cropped.Some? {
        return Ok(FromCgImageAndYdir(cropped.value, yDown));
      }
      r := Err(InvalidInput);
    }
  }

  /** The interpolation quality `draw_image` sets for a mode. */
  function Quality(interp: InterpolationMode): (q: CgInterpolationQuality)
    ensures q == CgInterpolationQualityNone <==> interp == NearestNeighbor
  {
    match interp
    case NearestNeighbor => CgInterpolationQualityNone
    case Bilinear => CgInterpolationQualityDefault
  }

  /**
   * The nested save/transform/restore sequence of the y-up context: the
   * current transform after each step, and the final restore leaving the
   * stack empty.
   */
  method NestedTransforms(one: Affine, two: Affine, three: Affine, four: Affine, flipY: Affine, translate: Affine)
    returns (seen: seq<Affine>)
    ensures seen == [IDENTITY,
                     Mul(Mul(Mul(one, one), two), three),
                     Mul(Mul(Mul(Mul(one, one), two), three), four),
                     Mul(Mul(Mul(Mul(one, one), two), three), four),
                     Mul(Mul(one, one), two),
                     Mul(one, one),
                     IDENTITY]
  {
    var piet := new CoreGraphicsContext(Some(400.0), flipY, translate, false);
    seen := [piet.CurrentTransform()];
    var _ := piet.Save();
    piet.Transform(one);
    MulIdentity(one);
    piet.Transform(one);
    var _ := piet.Save();
    piet.Transform(two);
    var _ := piet.Save();
    piet.Transform(three);
    seen := seen + [piet.CurrentTransform()];
    piet.Transform(four);
    var _ := piet.Save();
    seen := seen + [piet.CurrentTransform()];
    var _ := piet.Restore();
    seen := seen + [piet.CurrentTransform()];
    var _ := piet.Restore();
    seen := seen + [piet.CurrentTransform()];
    var _ := piet.Restore();
    seen := seen + [piet.CurrentTransform()];
    var r := piet.Restore();
    seen := seen + [piet.CurrentTransform()];
  }

  /**
   * The size checks of the capture test on a 400 x 400 y-down context whose
   * matrix keeps sizes: an empty area and an area 500 wide are refused.
   */
  method CaptureChecks(fullImage: CgImage, cropped: Option<CgImage>) returns (empty: Result<CoreGraphicsImage, Error>,
                                                                             tooWide: Result<CoreGraphicsImage, Error>)
    ensures empty == Err(InvalidInput) && tooWide == Err(InvalidInput)
  {
    var piet := new CoreGraphicsContext(None, IDENTITY, IDENTITY, true);
    var size := (rect: Rect) => Size(rect.x1 - rect.x0, rect.y1 - rect.y0);
    empty := piet.CaptureImageArea(Rect(0.0, 0.0, 0.0, 0.0), size, 400, 400, Some(fullImage), cropped);
    tooWide := piet.CaptureImageArea(Rect(0.0, 0.0, 500.0, 400.0), size, 400, 400, Some(fullImage), cropped);
  }
}

=== FILE: cg_target.dfy ===
/**
 * The CoreGraphics bitmap target of `piet-common`: reading back a rendered
 * bitmap context, whose pixels are already premultiplied RGBA, by copying
 * its rows without the padding CoreGraphics may put after each of them.
 */
module CgTarget {
  import opened Wrappers
  import opened PietTypes
  import opened Pixels
  import Util

  /**
   * The context's data covers its rows: row `height - 1` starts at
   * `(height - 1) * stride` and holds `width * 4` bytes. CoreGraphics
   * allocates `stride * height` bytes with `stride >= width * 4`.
   */
  predicate CoversRows(data: seq<Byte>, stride: nat, width: nat, height: nat)
  {
    height == 0 || Util.RowOffset(height - 1, stride) + width * 4 <= |data|
  }

  /**
   * Row `y` of the padding-free copy, at `y * width * 4`, is the `width * 4`
   * bytes of the context's data from `y * stride`.
   */
  lemma CopiedRowAt(data: seq<Byte>, stride: nat, width: nat, height: nat, y: nat)
    requires y < height && CoversRows(data, stride, width, height)
    ensures |Util.Packed(data, stride, width * 4, height)| == width * height * 4
    ensures y * stride + width * 4 <= |data|
    ensures y * (width * 4) + width * 4 <= width * height * 4
    ensures Util.Packed(data, stride, width * 4, height)[y * (width * 4)..y * (width * 4) + width * 4]
            == data[y * stride..y * stride + width * 4]
  {
    Util.PackedRow(data, stride, width * 4, height, y);
    Util.RowOffsetIsProduct(y, stride);
    Util.RowOffsetIsProduct(y, width * 4);
    Util.RowOffsetIsProduct(height, width * 4);
  }

  /**
   * One step of the loop over rows: row `y` of the data (`width * 4` bytes
   * from `y * stride`) is copied to `y * width * 4`, after the rows already
   * copied.
   */
  method CopyRowAt(buf: array<Byte>, y: nat, data: seq<Byte>, stride: nat, width: nat, ghost original: seq<Byte>)
    requires CoversRows(data, stride, width, y + 1) && Util.RowOffset(y + 1, width * 4) <= buf.Length
    requires Written(buf[..], original, 0, Util.Packed(data, stride, width * 4, y))
    modifies buf
    ensures Written(buf[..], original, 0, Util.Packed(data, stride, width * 4, y + 1))
  {
    var usedStride := width * 4;
    Util.RowOffsetIsProduct(y, stride);
    Util.RowOffsetIsProduct(y, usedStride);
    var srcStart := y * stride;
    var dstStart := y * usedStride;
    var row := data[srcStart..srcStart + usedStride];
    Util.CopyFromSlice(buf, dstStart, row);
    SlicesWritten(old(buf[..]), buf[..], dstStart, row);
    Grow(original, old(buf[..]), buf[..], 0, dstStart, Util.Packed(data, stride, usedStride, y), row,
         Util.Packed(data, stride, usedStride, y + 1));
  }

  /**
   * The loop over rows: the first `width * height * 4` bytes of `buf`
   * become the rows without padding and the rest are kept.
   */
  method CopyRows(buf: array<Byte>, data: seq<Byte>, stride: nat, width: nat, height: nat)
    requires CoversRows(data, stride, width, height)
    requires Util.RowOffset(height, width * 4) <= buf.Length
    modifies buf
    ensures Written(buf[..], old(buf[..]), 0, Util.Packed(data, stride, width * 4, height))
  {
    WrittenNothing(buf[..], 0);
    for y := 0 to height
      invariant CoversRows(data, stride, width, y)
      invariant Written(buf[..], old(buf[..]), 0, Util.Packed(data, stride, width * 4, y))
    {
      Util.RowOffsetMonotone(y, height - 1, stride);
      Util.RowOffsetMonotone(y + 1, height, width * 4);
      CopyRowAt(buf, y, data, stride, width, old(buf[..]));
    }
  }

  /**
   * `BitmapTarget::copy_raw_pixels`. Any format but premultiplied RGBA is
   * `NotSupported` and a buffer shorter than `width * height * 4` is
   * `InvalidInput`, with `buf` untouched. When the context's stride is not
   * `width * 4`, the first `width * height * 4` bytes of `buf` become its
   * rows without padding (see `CopiedRowAt`) and the rest of `buf` is kept;
   * when it is, the whole of `data` is copied over `buf`, which
   * `copy_from_slice` only allows when the two have the same length. Either
   * way `width * height * 4` is returned.
   */
  method CopyRawPixels(fmt: ImageFormat, buf: array<Byte>, data: seq<Byte>, stride: nat, width: nat, height: nat)
    returns (r: Result<nat, Error>)
    requires CoversRows(data, stride, width, height)
    requires fmt.RgbaPremul? && buf.Length >= width * height * 4 && stride == width * 4 ==> buf.Length == |data|
    modifies buf
    ensures !fmt.RgbaPremul? ==> r == Err(NotSupported)
    ensures fmt.RgbaPremul? && buf.Length < width * height * 4 ==> r == Err(InvalidInput)
    ensures r.Err? ==> buf[..] == old(buf[..])
    ensures r.Ok? <==> fmt.RgbaPremul? && buf.Length >= width * height * 4
    ensures r.Ok? ==> r.value == width * height * 4
    ensures r.Ok? && stride != width * 4 ==>
              Written(buf[..], old(buf[..]), 0, Util.Packed(data, stride, width * 4, height))
    ensures r.Ok? && stride == width * 4 ==> buf[..] == data
  {
    if fmt != RgbaPremul {
      return Err(NotSupported);
    }
    var size := width * height * 4;
    if buf.Length < size {
      return Err(InvalidInput);
    }
    var usedStride := width * 4;
    if stride != usedStride {
      Util.RowOffsetIsProduct(height, usedStride);
      CopyRows(buf, data, stride, width, height);
    } else {
      Util.CopyFromSlice(buf, 0, data);
      assert buf[..] == buf[..|data|];
    }
    return Ok(size);
  }

  /**
   * Rows `rowSize` bytes apart, taken without padding, are the bytes they
   * span: a tightly packed context's data is its own padding-free copy, so
   * both branches of `copy_raw_pixels` give the same pixels.
   */
  lemma {:induction false} TightPacked(data: seq<Byte>, rowSize: nat, n: nat)
    requires Util.RowOffset(n, rowSize) <= |data|
    ensures Util.Packed(data, rowSize, rowSize, n) == data[..Util.RowOffset(n, rowSize)]
  {
    if n > 0 {
      var start := Util.RowOffset(n - 1, rowSize);
      TightPacked(data, rowSize, n - 1);
      assert data[..start + rowSize] == data[..start] + data[start..start + rowSize];
    }
  }

  /**
   * `BitmapTarget::to_image_buf`: a zeroed buffer of exactly
   * `width * height * 4` bytes is filled by `copy_raw_pixels` and becomes
   * an `ImageBuf` of the context's size holding its rows without padding,
   * or the copy's error is returned.
   */
  method ToImageBuf(fmt: ImageFormat, data: seq<Byte>, stride: nat, width: nat, height: nat)
    returns (r: Result<ImageBuf, Error>)
    requires CoversRows(data, stride, width, height)
    requires fmt.RgbaPremul? && stride == width * 4 ==> |data| == width * height * 4
    ensures r.Err? <==> !fmt.RgbaPremul?
    ensures r.Err? ==> r.error == NotSupported
    ensures r.Ok? ==> (r.value == ImageBuf(Util.Packed(data, stride, width * 4, height), fmt, width, height)
                       && |r.value.pixels| == width * height * 4)
  {
    var buf := new Byte[width * height * 4](_ => 0);
    ghost var zeroed := buf[..];
    var copied := CopyRawPixels(fmt, buf, data, stride, width, height);
    if copied.Err? {
      return Err(copied.error);
    }
    CopiedWholeBuffer(zeroed, buf[..], data, stride, width, height);
    return Ok(ImageBuf(buf[..], fmt, width, height));
  }

  /**
   * A buffer of exactly `width * height * 4` bytes that `copy_raw_pixels`
   * filled holds the rows without padding, whichever branch copied them.
   */
  lemma CopiedWholeBuffer(before: seq<Byte>, copied: seq<Byte>, data: seq<Byte>, stride: nat, width: nat, height: nat)
    requires CoversRows(data, stride, width, height) && |copied| == width * height * 4
    requires stride != width * 4 ==> Written(copied, before, 0, Util.Packed(data, stride, width * 4, height))
    requires stride == width * 4 ==> copied == data
    ensures copied == Util.Packed(data, stride, width * 4, height)
  {
    Util.RowOffsetIsProduct(height, width * 4);
    if stride == width * 4 {
      TightPacked(data, width * 4, height);
      assert data[..Util.RowOffset(height, width * 4)] == data;
    }
  }
}

=== FILE: color.dfy ===
/**
 * `piet::Color` (piet/src/color.rs): a colour is one packed 32-bit RGBA
 * value, red in the most significant byte and alpha in the least.
 */
module Colors {
  import opened PietTypes

  type U32 = x: int | 0 <= x < U32_LIMIT

  datatype Color = Rgba32(rgba: U32)

  /** `Color::rgba32`. */
  function FromRgba32(rgba: U32): Color { Rgba32(rgba) }

  /** `Color::as_rgba32`. */
  function AsRgba32(c: Color): (r: U32)
    ensures FromRgba32(r) == c
  {
    c.rgba
  }

  /** Byte `k` of a packed value, counting from the least significant byte. */
  function ByteOf(x: U32, k: nat): (b: Byte)
    requires k < 4
  {
    if k == 0 then x % 0x100 else ByteOf(x / 0x100, k - 1)
  }

  /** Packs four bytes, red most significant. */
  function Pack(r: Byte, g: Byte, b: Byte, a: Byte): (x: U32)
    ensures ByteOf(x, 3) == r && ByteOf(x, 2) == g && ByteOf(x, 1) == b && ByteOf(x, 0) == a
  {
    var rgb := (r * 0x100 + g) * 0x100 + b;
    DivMod(rgb * 0x100 + a, rgb, a);
    DivMod(rgb, r * 0x100 + g, b);
    DivMod(r * 0x100 + g, r, g);
    var x := rgb * 0x100 + a;
    assert ByteOf(x, 1) == ByteOf(rgb, 0);
    assert ByteOf(x, 2) == ByteOf(rgb, 1) == ByteOf(r * 0x100 + g, 0);
    assert ByteOf(x, 3) == ByteOf(rgb, 2) == ByteOf(r * 0x100 + g, 1) == ByteOf(r, 0);
    x
  }

  /** Splitting off the low byte. */
  lemma DivMod(x: int, q: nat, r: Byte)
    requires x == q * 0x100 + r
    ensures x / 0x100 == q && x % 0x100 == r
  {
  }

  /** `Color::rgb24`: `(rgb << 8) | 0xff` on `u32`; the shift drops the top byte of `rgb`
   * and leaves the low byte zero, so the `|` adds `0xff`. */
  function Rgb24(rgb: U32): (c: Color)
    ensures ByteOf(AsRgba32(c), 0) == 0xff
    ensures AsRgba32(c) / 0x100 == rgb % 0x100_0000
  {
    var shifted := (rgb * 0x100) % U32_LIMIT;
    ShiftLeft8(rgb);
    Rgba32(shifted + 0xff)
  }

  /** A left shift by 8 on `u32` drops the top byte. */
  lemma ShiftLeft8(x: U32)
    ensures (x * 0x100) % U32_LIMIT == (x % 0x100_0000) * 0x100
  {
    var q, r := x / 0x100_0000, x % 0x100_0000;
    assert x * 0x100 == q * U32_LIMIT + r * 0x100;
    assert 0 <= r * 0x100 < U32_LIMIT;
  }

  /**
   * One floating-point channel to a byte: clamp to `[0, 1]`, scale by 255 and
   * round half away from zero (`f64::round` on a non-negative value).
   */
  function ChannelByte(v: real): (b: Byte)
    ensures v <= 0.0 ==> b == 0
    ensures v >= 1.0 ==> b == 255
  {
    var clamped := if v < 0.0 then 0.0 else if v > 1.0 then 1.0 else v;
    var scaled := clamped * 255.0;
    assert 0.0 <= scaled <= 255.0;
    var rounded := (scaled + 0.5).Floor;
    assert 0 <= rounded <= 255;
    rounded
  }

  /** `Color::rgba`. */
  function Rgba(r: real, g: real, b: real, a: real): (c: Color)
    ensures ByteOf(AsRgba32(c), 3) == ChannelByte(r)
    ensures ByteOf(AsRgba32(c), 2) == ChannelByte(g)
    ensures ByteOf(AsRgba32(c), 1) == ChannelByte(b)
    ensures ByteOf(AsRgba32(c), 0) == ChannelByte(a)
  {
    Rgba32(Pack(ChannelByte(r), ChannelByte(g), ChannelByte(b), ChannelByte(a)))
  }

  /** `Color::rgb`: like `Rgba` with alpha fixed at `0xff`. */
  function Rgb(r: real, g: real, b: real): (c: Color)
    ensures ByteOf(AsRgba32(c), 0) == 0xff
    ensures c == Rgba(r, g, b, 1.0)
  {
    Rgba32(Pack(ChannelByte(r), ChannelByte(g), ChannelByte(b), 0xff))
  }

  const WHITE: Color := FromRgba32(0xff_ff_ff_ff)
  const BLACK: Color := FromRgba32(0x00_00_00_ff)

  /** Both named colours are opaque; white has every channel at full intensity, black none. */
  lemma NamedColors()
    ensures ByteOf(WHITE.rgba, 3) == 0xff && ByteOf(WHITE.rgba, 2) == 0xff
    ensures ByteOf(WHITE.rgba, 1) == 0xff && ByteOf(WHITE.rgba, 0) == 0xff
    ensures ByteOf(BLACK.rgba, 3) == 0 && ByteOf(BLACK.rgba, 2) == 0
    ensures ByteOf(BLACK.rgba, 1) == 0 && ByteOf(BLACK.rgba, 0) == 0xff
  {
  }

  /** They are the opaque colours with all channels at 1.0 and at 0.0. */
  lemma NamedColorsAreRgb()
    ensures WHITE == Rgb(1.0, 1.0, 1.0) && BLACK == Rgb(0.0, 0.0, 0.0)
  {
    var one, zero := ChannelByte(1.0), ChannelByte(0.0);
    assert one == 0xff && zero == 0;
    assert Pack(0xff, 0xff, 0xff, 0xff) == 0xff_ff_ff_ff;
    assert Pack(0, 0, 0, 0xff) == 0xff;
  }
}

=== FILE: d2d_context.dfy ===
/**
 * The Direct2D render context as far as piet keeps its own state: a stack
 * of save levels, each with its transform and the number of clip layers it
 * pushed, and a pending error that drawing operations store instead of
 * returning. Also the translation of a path into the calls of a Direct2D
 * geometry sink (`path_from_shape`) and the pixel conversion of
 * `make_image`. The device context and the sink are seen only through the
 * calls piet makes on them; the outcomes of the calls that can fail are
 * inputs.
 */
module D2DContext {
  import opened Wrappers
  import opened PietTypes
  import opened Affine
  import opened Pixels

  // ---------------------------------------------------------------------
  // path_from_shape

  /** The fill rule a geometry sink is given. */
  datatype FillRule = NonZero | EvenOdd

  /** A call `path_from_shape` makes on the geometry sink, after `set_fill_mode`. */
  datatype SinkCall =
    | BeginFigure(start: Point, filled: bool)
    | AddLine(p: Point)
    | AddQuadraticBezier(p1: Point, p2: Point)
    | AddBezier(p1: Point, p2: Point, p3: Point)
    | EndFigure(closed: bool)

  /** A closed path geometry: its fill mode and the figures written into its sink. */
  datatype PathGeometry = PathGeometry(fillRule: FillRule, sink: seq<SinkCall>)

  /** The outcomes of `create_path_geometry`, `open` and the sink's `close`. */
  datatype PathFfi = PathFfi(create: Result<(), Error>, open: Result<(), Error>, close: Result<(), Error>)

  /** The sink calls one path element makes, given whether a figure is open. */
  function ElementCalls(el: PathEl, isFilled: bool, open: bool): seq<SinkCall>
  {
    match el
    case MoveTo(p) => (if open then [EndFigure(false)] else []) + [BeginFigure(p, isFilled)]
    case LineTo(p) => [AddLine(p)]
    case QuadTo(p1, p2) => [AddQuadraticBezier(p1, p2)]
    case CurveTo(p1, p2, p3) => [AddBezier(p1, p2, p3)]
    case ClosePath => [EndFigure(true)]
  }

  /** Whether a figure is open after the element (`need_close`). */
  function OpenAfter(el: PathEl, open: bool): bool
  {
    match el
    case MoveTo(_) => true
    case ClosePath => false
    case _ => open
  }

  /**
   * The sink calls for the elements, starting with a figure open or not,
   * including the `end_figure(false)` for a figure still open at the end.
   */
  function SinkCalls(els: seq<PathEl>, isFilled: bool, open: bool): seq<SinkCall>
    decreases |els|
  {
    if els == [] then (if open then [EndFigure(false)] else [])
    else ElementCalls(els[0], isFilled, open) + SinkCalls(els[1..], isFilled, OpenAfter(els[0], open))
  }

  /** What `path_from_shape` returns: the first failing call's error, or the geometry. */
  function PathResult(isFilled: bool, els: seq<PathEl>, rule: FillRule, ffi: PathFfi): Result<PathGeometry, Error>
  {
    if ffi.create.Err? then Err(ffi.create.error)
    else if ffi.open.Err? then Err(ffi.open.error)
    else if ffi.close.Err? then Err(ffi.close.error)
    else Ok(PathGeometry(rule, SinkCalls(els, isFilled, false)))
  }

  /** The calls for the elements from `i` on are those of element `i`, then those for the rest. */
  lemma SinkCallsStep(els: seq<PathEl>, i: nat, isFilled: bool, open: bool)
    requires i < |els|
    ensures SinkCalls(els[i..], isFilled, open)
            == ElementCalls(els[i], isFilled, open) + SinkCalls(els[i + 1..], isFilled, OpenAfter(els[i], open))
  {
    assert els[i..][1..] == els[i + 1..];
  }

  /**
   * `path_from_shape`: the path geometry and its sink are created and
   * opened, the sink gets the fill mode and the figures, and is closed;
   * the first of these to fail gives the error.
   */
  method PathFromShape(isFilled: bool, els: seq<PathEl>, rule: FillRule, ffi: PathFfi)
    returns (r: Result<PathGeometry, Error>)
    ensures r == PathResult(isFilled, els, rule, ffi)
  {
    if ffi.create.Err? {
      return Err(ffi.create.error);
    }
    if ffi.open.Err? {
      return Err(ffi.open.error);
    }
    var sink := WriteFigures(isFilled, els);
    if ffi.close.Err? {
      return Err(ffi.close.error);
    }
    r := Ok(PathGeometry(rule, sink));
  }

  /**
   * The loop of `path_from_shape`: one pass over the elements with a
   * `need_close` flag, writing into the sink as it goes, and the
   * `end_figure(false)` for a figure still open at the end.
   */
  method WriteFigures(isFilled: bool, els: seq<PathEl>) returns (sink: seq<SinkCall>)
    ensures sink == SinkCalls(els, isFilled, false)
  {
    sink := [];
    var needClose := false;
    var i := 0;
    assert els[0..] == els;
    while i < |els|
      invariant i <= |els|
      invariant Emitted(sink, els, i, isFilled, needClose)
    {
      EmittedStep(sink, els, i, isFilled, needClose);
      sink := sink + ElementCalls(els[i], isFilled, needClose);
      needClose := OpenAfter(els[i], needClose);
      i := i + 1;
    }
    EmittedAll(sink, els, isFilled, needClose);
    if needClose {
      sink := sink + [EndFigure(false)];
    }
  }

  /**
   * After `sink` was written for the elements before `i`, with `open`
   * saying whether a figure is open, the calls for the remaining elements
   * complete it.
   */
  ghost predicate Emitted(sink: seq<SinkCall>, els: seq<PathEl>, i: nat, isFilled: bool, open: bool)
  {
    i <= |els| && sink + SinkCalls(els[i..], isFilled, open) == SinkCalls(els, isFilled, false)
  }

  lemma EmittedStep(sink: seq<SinkCall>, els: seq<PathEl>, i: nat, isFilled: bool, open: bool)
    requires i < |els| && Emitted(sink, els, i, isFilled, open)
    ensures Emitted(sink + ElementCalls(els[i], isFilled, open), els, i + 1, isFilled, OpenAfter(els[i], open))
  {
    SinkCallsStep(els, i, isFilled, open);
    var head := ElementCalls(els[i], isFilled, open);
    var rest := SinkCalls(els[i + 1..], isFilled, OpenAfter(els[i], open));
    assert sink + (head + rest) == (sink + head) + rest;
  }

  lemma EmittedAll(sink: seq<SinkCall>, els: seq<PathEl>, isFilled: bool, open: bool)
    requires Emitted(sink, els, |els|, isFilled, open)
    ensures (if open then sink + [EndFigure(false)] else sink) == SinkCalls(els, isFilled, false)
  {
    assert els[|els|..] == [];
    assert sink + [] == sink;
  }

  /**
   * The figures of `calls` nest, given whether one is open: each
   * `BeginFigure` comes while none is open and is followed by exactly one
   * `EndFigure` before the next `BeginFigure` or the end.
   */
  predicate Nested(calls: seq<SinkCall>, open: bool)
    decreases |calls|
  {
    if calls == [] then !open
    else
      match calls[0]
      case BeginFigure(_, _) => !open && Nested(calls[1..], true)
      case EndFigure(_) => open && Nested(calls[1..], false)
      case _ => Nested(calls[1..], open)
  }

  /** Every `ClosePath` of the elements comes while a figure is open. */
  predicate ClosesOnlyOpen(els: seq<PathEl>, open: bool)
    decreases |els|
  {
    if els == [] then true
    else (els[0].ClosePath? ==> open) && ClosesOnlyOpen(els[1..], OpenAfter(els[0], open))
  }

  /**
   * The figures `path_from_shape` writes nest exactly when no `ClosePath`
   * comes outside a figure: a `ClosePath` with no figure open makes an
   * `end_figure` that no `begin_figure` opened.
   */
  lemma {:induction false} FiguresNest(els: seq<PathEl>, isFilled: bool, open: bool)
    ensures Nested(SinkCalls(els, isFilled, open), open) <==> ClosesOnlyOpen(els, open)
    decreases |els|
  {
    if els == [] {
      if open {
        assert Nested([EndFigure(false)], true) by {
          assert [EndFigure(false)][1..] == [];
        }
      }
    } else {
      var rest := SinkCalls(els[1..], isFilled, OpenAfter(els[0], open));
      FiguresNest(els[1..], isFilled, OpenAfter(els[0], open));
      var calls := SinkCalls(els, isFilled, open);
      match els[0] {
        case MoveTo(p) =>
          if open {
            assert calls == [EndFigure(false)] + ([BeginFigure(p, isFilled)] + rest);
            assert calls[1..] == [BeginFigure(p, isFilled)] + rest;
            assert calls[1..][1..] == rest;
          } else {
            assert calls == [BeginFigure(p, isFilled)] + rest;
            assert calls[1..] == rest;
          }
        case LineTo(_) =>
          assert calls[1..] == rest;
        case QuadTo(_, _) =>
          assert calls[1..] == rest;
        case CurveTo(_, _, _) =>
          assert calls[1..] == rest;
        case ClosePath =>
          assert calls[1..] == rest;
      }
    }
  }

  /** The number of closed figure ends among the calls. */
  function ClosedEnds(calls: seq<SinkCall>): nat
  {
    if calls == [] then 0 else (if calls[0] == EndFigure(true) then 1 else 0) + ClosedEnds(calls[1..])
  }

  /** The number of `ClosePath` elements. */
  function ClosePaths(els: seq<PathEl>): nat
  {
    if els == [] then 0 else (if els[0].ClosePath? then 1 else 0) + ClosePaths(els[1..])
  }

  lemma {:induction false} ClosedEndsConcat(a: seq<SinkCall>, b: seq<SinkCall>)
    ensures ClosedEnds(a + b) == ClosedEnds(a) + ClosedEnds(b)
  {
    if a != [] {
      ClosedEndsConcat(a[1..], b);
      assert (a + b)[1..] == a[1..] + b;
    } else {
      assert a + b == b;
    }
  }

  /**
   * Exactly the `ClosePath` elements end a figure closed: a new `MoveTo`
   * and the end of the path end figures open.
   */
  lemma {:induction false} ClosedFiguresAreClosePaths(els: seq<PathEl>, isFilled: bool, open: bool)
    ensures ClosedEnds(SinkCalls(els, isFilled, open)) == ClosePaths(els)
    decreases |els|
  {
    if els != [] {
      ClosedFiguresAreClosePaths(els[1..], isFilled, OpenAfter(els[0], open));
      var head := ElementCalls(els[0], isFilled, open);
      ClosedEndsConcat(head, SinkCalls(els[1..], isFilled, OpenAfter(els[0], open)));
      if els[0].MoveTo? && open {
        ClosedEndsConcat([EndFigure(false)], [BeginFigure(els[0].p, isFilled)]);
      }
    }
  }

  /** The segments of the path, as the sink calls that draw them. */
  function Segments(els: seq<PathEl>): seq<SinkCall>
  {
    if els == [] then [] else Segment(els[0]) + Segments(els[1..])
  }

  /** The sink call that draws a segment element; nothing for a move or a close. */
  function Segment(el: PathEl): seq<SinkCall>
  {
    match el
    case LineTo(p) => [AddLine(p)]
    case QuadTo(p1, p2) => [AddQuadraticBezier(p1, p2)]
    case CurveTo(p1, p2, p3) => [AddBezier(p1, p2, p3)]
    case _ => []
  }

  /** The sink calls other than figure starts and ends. */
  function Drawn(calls: seq<SinkCall>): seq<SinkCall>
  {
    if calls == [] then []
    else (if calls[0].BeginFigure? || calls[0].EndFigure? then [] else [calls[0]]) + Drawn(calls[1..])
  }

  lemma {:induction false} DrawnConcat(a: seq<SinkCall>, b: seq<SinkCall>)
    ensures Drawn(a + b) == Drawn(a) + Drawn(b)
  {
    if a != [] {
      DrawnConcat(a[1..], b);
      assert (a + b)[1..] == a[1..] + b;
    } else {
      assert a + b == b;
    }
  }

  /** Every segment reaches the sink once, in the order of the path. */
  lemma {:induction false} SegmentsPassThrough(els: seq<PathEl>, isFilled: bool, open: bool)
    ensures Drawn(SinkCalls(els, isFilled, open)) == Segments(els)
    decreases |els|
  {
    if els == [] {
      if open {
        assert [EndFigure(false)][1..] == [];
      }
    } else {
      SegmentsPassThrough(els[1..], isFilled, OpenAfter(els[0], open));
      DrawnConcat(ElementCalls(els[0], isFilled, open), SinkCalls(els[1..], isFilled, OpenAfter(els[0], open)));
      DrawnElement(els[0], isFilled, open);
    }
  }

  /** What one element makes, less its figure starts and ends, is its segment. */
  lemma DrawnElement(el: PathEl, isFilled: bool, open: bool)
    ensures Drawn(ElementCalls(el, isFilled, open)) == Segment(el)
  {
    var calls := ElementCalls(el, isFilled, open);
    if el.MoveTo? {
      if open {
        DrawnConcat([EndFigure(false)], [BeginFigure(el.p, isFilled)]);
        assert [EndFigure(false)][1..] == [];
      }
      assert [BeginFigure(el.p, isFilled)][1..] == [];
    } else {
      assert calls[1..] == [];
    }
  }

  // ---------------------------------------------------------------------
  // make_image

  /** The alpha mode a bitmap is created with. */
  datatype AlphaMode = AlphaIgnore | AlphaPremultiplied

  /** A bitmap as handed to `create_bitmap`. */
  datatype Bitmap = Bitmap(width: nat, height: nat, data: seq<Byte>, alphaMode: AlphaMode)

  /** The alpha mode `make_image` picks, or `None` for a format it does not support. */
  function AlphaModeFor(format: ImageFormat): (m: Option<AlphaMode>)
    ensures m.None? <==> format.Grayscale?
    ensures m == Some(AlphaIgnore) <==> format.Rgb?
  {
    match format
    case Rgb => Some(AlphaIgnore)
    case RgbaPremul => Some(AlphaPremultiplied)
    case RgbaSeparate => Some(AlphaPremultiplied)
    case Grayscale => None
  }

  /** The four bytes `make_image` produces for pixel `i` of an RGB or separate-alpha buffer. */
  function ConvertedPixel(buf: seq<Byte>, format: ImageFormat, i: nat): (px: seq<Byte>)
    ensures |px| == 4
  {
    if format.Rgb? then RgbPixel(buf, i)
    else
      var a := ByteAt(buf, 4 * i + 3);
      [Premul(ByteAt(buf, 4 * i), a), Premul(ByteAt(buf, 4 * i + 1), a), Premul(ByteAt(buf, 4 * i + 2), a), a]
  }

  /** The first `n` converted pixels, laid end to end. */
  function ConvertedPixels(buf: seq<Byte>, format: ImageFormat, n: nat): (data: seq<Byte>)
    ensures |data| == 4 * n
  {
    if n == 0 then [] else ConvertedPixels(buf, format, n - 1) + ConvertedPixel(buf, format, n - 1)
  }

  /** Every byte of `d` from `from` on is 255, as `vec![255; n]` made it. */
  ghost predicate Opaque255(d: seq<Byte>, from: nat)
  {
    forall k :: from <= k < |d| ==> d[k] == 255
  }

  /** The first `m` converted pixels begin the first `n`. */
  lemma {:induction false} ConvertedPixelsPrefix(buf: seq<Byte>, format: ImageFormat, n: nat, m: nat)
    requires m <= n
    ensures Filled(ConvertedPixels(buf, format, n), ConvertedPixels(buf, format, m))
  {
    if m < n {
      ConvertedPixelsPrefix(buf, format, n - 1, m);
      FilledConcat(ConvertedPixels(buf, format, n - 1), ConvertedPixel(buf, format, n - 1),
                   ConvertedPixels(buf, format, m));
    } else {
      FilledSelf(ConvertedPixels(buf, format, n));
    }
  }

  /** Pixel `i` of the converted buffer is the converted pixel `i`. */
  lemma ConvertedPixelAt(buf: seq<Byte>, format: ImageFormat, n: nat, i: nat)
    requires i < n
    ensures Holds(ConvertedPixels(buf, format, n), 4 * i, ConvertedPixel(buf, format, i))
  {
    ConvertedPixelsPrefix(buf, format, n, i + 1);
    SliceAfterPrefix(ConvertedPixels(buf, format, n), ConvertedPixels(buf, format, i),
                     ConvertedPixel(buf, format, i));
  }

  /**
   * An RGB pixel of the converted buffer copies the three colour bytes and
   * is opaque; a separate-alpha pixel is premultiplied and keeps its alpha.
   */
  lemma ConvertedPixelIs(buf: seq<Byte>, format: ImageFormat, i: nat)
    ensures format.Rgb? && 3 * i + 3 <= |buf| ==>
      ConvertedPixel(buf, format, i) == [buf[3 * i], buf[3 * i + 1], buf[3 * i + 2], 255]
    ensures !format.Rgb? && 4 * i + 4 <= |buf| ==>
      var a := buf[4 * i + 3];
      ConvertedPixel(buf, format, i) == [Premul(buf[4 * i], a), Premul(buf[4 * i + 1], a), Premul(buf[4 * i + 2], a), a]
  {
  }

  /** An opaque separate-alpha pixel passes through the premultiplication unchanged. */
  lemma OpaqueSeparateUnchanged(buf: seq<Byte>, i: nat)
    requires 4 * i + 4 <= |buf| && buf[4 * i + 3] == 255
    ensures ConvertedPixel(buf, RgbaSeparate, i) == buf[4 * i..4 * i + 4]
  {
    PremulIs(buf[4 * i], 255);
    PremulIs(buf[4 * i + 1], 255);
    PremulIs(buf[4 * i + 2], 255);
  }

  /** A fresh buffer of `4 * n` bytes set to 255: `vec![255; width * height * 4]`. */
  method Opaque(n: nat) returns (d: array<Byte>)
    ensures fresh(d) && d.Length == 4 * n && Opaque255(d[..], 0)
  {
    d := new Byte[4 * n]((_) => 255);
  }

  /** The `Rgb` loop: copies each pixel's three colour bytes, leaving the 255 after them. */
  method ExpandRgb(buf: seq<Byte>, n: nat) returns (d: array<Byte>)
    requires 3 * n <= |buf|
    ensures fresh(d) && d[..] == ConvertedPixels(buf, Rgb, n)
  {
    d := Opaque(n);
    assert Filled(d[..], []);
    for i := 0 to n
      invariant Filled(d[..], ConvertedPixels(buf, Rgb, i)) && Opaque255(d[..], 4 * i)
    {
      CopyRgb(d, buf, i);
    }
    assert d[..] == d[..4 * n];
  }

  /** One pixel of the `Rgb` loop. */
  method CopyRgb(d: array<Byte>, buf: seq<Byte>, i: nat)
    requires 3 * i + 3 <= |buf| && 4 * i + 4 <= d.Length
    requires Filled(d[..], ConvertedPixels(buf, Rgb, i)) && Opaque255(d[..], 4 * i)
    modifies d
    ensures Filled(d[..], ConvertedPixels(buf, Rgb, i + 1)) && Opaque255(d[..], 4 * i + 4)
  {
    ghost var before := d[..];
    d[4 * i], d[4 * i + 1], d[4 * i + 2] := buf[3 * i], buf[3 * i + 1], buf[3 * i + 2];
    var px := [buf[3 * i], buf[3 * i + 1], buf[3 * i + 2], 255];
    Splice(before, d[..], px, 4 * i);
    FillGrows(before, d[..], ConvertedPixels(buf, Rgb, i), px, ConvertedPixels(buf, Rgb, i + 1));
  }

  /** The `RgbaSeparate` loop: premultiplies each pixel's colour bytes and copies its alpha. */
  method PremultiplySeparate(buf: seq<Byte>, n: nat) returns (d: array<Byte>)
    requires 4 * n <= |buf|
    ensures fresh(d) && d[..] == ConvertedPixels(buf, RgbaSeparate, n)
  {
    d := Opaque(n);
    assert Filled(d[..], []);
    for i := 0 to n
      invariant Filled(d[..], ConvertedPixels(buf, RgbaSeparate, i))
    {
      PremultiplyPixel(d, buf, i);
    }
    assert d[..] == d[..4 * n];
  }

  /** One pixel of the `RgbaSeparate` loop. */
  method PremultiplyPixel(d: array<Byte>, buf: seq<Byte>, i: nat)
    requires 4 * i + 4 <= |buf| && 4 * i + 4 <= d.Length
    requires Filled(d[..], ConvertedPixels(buf, RgbaSeparate, i))
    modifies d
    ensures Filled(d[..], ConvertedPixels(buf, RgbaSeparate, i + 1))
  {
    ghost var before := d[..];
    var a := buf[4 * i + 3];
    var px := [Premul(buf[4 * i], a), Premul(buf[4 * i + 1], a), Premul(buf[4 * i + 2], a), a];
    d[4 * i], d[4 * i + 1], d[4 * i + 2], d[4 * i + 3] := px[0], px[1], px[2], px[3];
    Splice(before, d[..], px, 4 * i);
    FillGrows(before, d[..], ConvertedPixels(buf, RgbaSeparate, i), px, ConvertedPixels(buf, RgbaSeparate, i + 1));
  }

  /** The bitmap `make_image` asks for, or the error it returns. */
  function MadeImage(width: nat, height: nat, buf: seq<Byte>, format: ImageFormat, created: Result<(), Error>)
    : Result<Bitmap, Error>
  {
    match AlphaModeFor(format)
    case None => Err(NotSupported)
    case Some(mode) =>
      if created.Err? then Err(created.error)
      else if format.RgbaPremul? then Ok(Bitmap(width, height, buf, mode))
      else Ok(Bitmap(width, height, ConvertedPixels(buf, format, width * height), mode))
  }

  // ---------------------------------------------------------------------
  // The render context

  /** `CtxState`: a save level's transform and how many layers its clips pushed. */
  datatype CtxState = CtxState(transform: Affine, nLayersPop: nat)

  /** `CtxState::default()`. */
  const DEFAULT_STATE: CtxState := CtxState(IDENTITY, 0)

  /** A call piet makes on the Direct2D device context. */
  datatype D2DCall =
    | PopLayer
    | PushLayerMask(geometry: PathGeometry)
    | SetTransform(xf: Affine)
    | FillGeometry(geometry: PathGeometry)
    | DrawGeometry(geometry: PathGeometry, width: real)
    | DrawBitmap(image: Bitmap, rect: Rect, opacity: real, interp: BitmapInterpolation)

  /** The interpolation modes of `draw_bitmap`. */
  datatype BitmapInterpolation = BitmapNearestNeighbor | BitmapLinear

  /** `n` calls to `pop_layer`. */
  function PopLayers(n: nat): (s: seq<D2DCall>)
    ensures |s| == n && forall k :: 0 <= k < n ==> s[k] == PopLayer
  {
    if n == 0 then [] else PopLayers(n - 1) + [PopLayer]
  }

  class D2DRenderContext {
    var ctxStack: seq<CtxState>
    var err: Result<(), Error>
    var calls: seq<D2DCall>

    /** `D2DRenderContext::new`: one default state and no pending error. */
    constructor ()
      ensures ctxStack == [DEFAULT_STATE] && err == Ok(()) && calls == []
    {
      ctxStack := [DEFAULT_STATE];
      err := Ok(());
      calls := [];
    }

    /** `pop_state`: drops the top state and pops the layers its clips pushed. */
    method PopState()
      requires |ctxStack| >= 1
      modifies this
      ensures ctxStack == old(ctxStack)[..|old(ctxStack)| - 1] && err == old(err)
      ensures calls == old(calls) + PopLayers(old(ctxStack)[|old(ctxStack)| - 1].nLayersPop)
    {
      var oldState := ctxStack[|ctxStack| - 1];
      ctxStack := ctxStack[..|ctxStack| - 1];
      for i := 0 to oldState.nLayersPop
        invariant ctxStack == old(ctxStack)[..|old(ctxStack)| - 1] && err == old(err)
        invariant calls == old(calls) + PopLayers(i)
      {
        calls := calls + [PopLayer];
      }
    }

    /** `status`: the pending error, which is reset. */
    method Status() returns (r: Result<(), Error>)
      modifies this
      ensures r == old(err) && err == Ok(())
      ensures ctxStack == old(ctxStack) && calls == old(calls)
    {
      r := err;
      err := Ok(());
    }

    /** `current_transform`: the top state's transform. */
    function CurrentTransform(): (xf: Affine)
      reads this
      requires |ctxStack| >= 1
      ensures xf == ctxStack[|ctxStack| - 1].transform
    {
      ctxStack[|ctxStack| - 1].transform
    }

    /** `save`: pushes a state with the current transform and no layers. */
    method Save() returns (r: Result<(), Error>)
      requires |ctxStack| >= 1
      modifies this
      ensures r.Ok? && ctxStack == old(ctxStack) + [CtxState(old(CurrentTransform()), 0)]
      ensures err == old(err) && calls == old(calls)
    {
      var newState := CtxState(CurrentTransform(), 0);
      ctxStack := ctxStack + [newState];
      r := Ok(());
    }

    /**
     * `restore`: `StackUnbalance` with one state or none, leaving
     * everything as it was; otherwise the top state goes, with its layers,
     * and the device gets the transform now current.
     */
    method Restore() returns (r: Result<(), Error>)
      modifies this
      ensures err == old(err)
      ensures |old(ctxStack)| <= 1 ==>
        r == Err(StackUnbalance) && ctxStack == old(ctxStack) && calls == old(calls)
      ensures |old(ctxStack)| > 1 ==>
        && r.Ok?
        && ctxStack == old(ctxStack)[..|old(ctxStack)| - 1]
        && calls == old(calls) + PopLayers(old(ctxStack)[|old(ctxStack)| - 1].nLayersPop)
                    + [SetTransform(old(ctxStack)[|old(ctxStack)| - 2].transform)]
    {
      if |ctxStack| <= 1 {
        return Err(StackUnbalance);
      }
      PopState();
      calls := calls + [SetTransform(CurrentTransform())];
      r := Ok(());
    }

    /**
     * `finish`: `StackUnbalance` unless exactly one state is left;
     * otherwise it goes, with its layers, and the pending error is returned
     * and reset.
     */
    method Finish() returns (r: Result<(), Error>)
      modifies this
      ensures |old(ctxStack)| != 1 ==>
        r == Err(StackUnbalance) && ctxStack == old(ctxStack) && calls == old(calls) && err == old(err)
      ensures |old(ctxStack)| == 1 ==>
        && r == old(err) && err == Ok(()) && ctxStack == []
        && calls == old(calls) + PopLayers(old(ctxStack)[0].nLayersPop)
    {
      if |ctxStack| != 1 {
        return Err(StackUnbalance);
      }
      PopState();
      r := Status();
    }

    /** `transform`: the top transform is multiplied by `t`, and the device told. */
    method Transform(t: Affine)
      requires |ctxStack| >= 1
      modifies this
      ensures var n := |old(ctxStack)|;
        ctxStack == old(ctxStack)[..n - 1] + [old(ctxStack)[n - 1].(transform := Mul(old(CurrentTransform()), t))]
      ensures calls == old(calls) + [SetTransform(Mul(old(CurrentTransform()), t))] && err == old(err)
    {
      var top := ctxStack[|ctxStack| - 1];
      ctxStack := ctxStack[..|ctxStack| - 1] + [top.(transform := Mul(top.transform, t))];
      calls := calls + [SetTransform(CurrentTransform())];
    }

    /**
     * `clip`: a failure to create the layer or the path is stored in `err`
     * and changes nothing else; otherwise the path's layer is pushed and
     * the top state counts one more layer to pop.
     */
    method Clip(layer: Result<(), Error>, els: seq<PathEl>, ffi: PathFfi)
      requires |ctxStack| >= 1 || layer.Err? || PathResult(true, els, NonZero, ffi).Err?
      modifies this
      ensures var path := PathResult(true, els, NonZero, ffi);
        if layer.Err? then err == Err(layer.error) && ctxStack == old(ctxStack) && calls == old(calls)
        else if path.Err? then err == Err(path.error) && ctxStack == old(ctxStack) && calls == old(calls)
        else
          var n := |old(ctxStack)|;
          && err == old(err)
          && calls == old(calls) + [PushLayerMask(path.value)]
          && ctxStack == old(ctxStack)[..n - 1] + [old(ctxStack)[n - 1].(nLayersPop := old(ctxStack)[n - 1].nLayersPop + 1)]
    {
      if layer.Err? {
        err := Err(layer.error);
        return;
      }
      var path := PathFromShape(true, els, NonZero, ffi);
      if path.Err? {
        err := Err(path.error);
        return;
      }
      calls := calls + [PushLayerMask(path.value)];
      var top := ctxStack[|ctxStack| - 1];
      ctxStack := ctxStack[..|ctxStack| - 1] + [top.(nLayersPop := top.nLayersPop + 1)];
    }

    /** `fill`: the path under the non-zero rule, or its error stored in `err`. */
    method Fill(els: seq<PathEl>, ffi: PathFfi)
      modifies this
      ensures ctxStack == old(ctxStack)
      ensures var path := PathResult(true, els, NonZero, ffi);
        if path.Err? then err == Err(path.error) && calls == old(calls)
        else err == old(err) && calls == old(calls) + [FillGeometry(path.value)]
    {
      var path := PathFromShape(true, els, NonZero, ffi);
      if path.Ok? {
        calls := calls + [FillGeometry(path.value)];
      } else {
        err := Err(path.error);
      }
    }

    /** `fill_even_odd`: the path under the even-odd rule, or its error stored in `err`. */
    method FillEvenOdd(els: seq<PathEl>, ffi: PathFfi)
      modifies this
      ensures ctxStack == old(ctxStack)
      ensures var path := PathResult(true, els, EvenOdd, ffi);
        if path.Err? then err == Err(path.error) && calls == old(calls)
        else err == old(err) && calls == old(calls) + [FillGeometry(path.value)]
    {
      var path := PathFromShape(true, els, EvenOdd, ffi);
      if path.Ok? {
        calls := calls + [FillGeometry(path.value)];
      } else {
        err := Err(path.error);
      }
    }

    /** `stroke`: the unfilled path drawn at `width`, or its error stored in `err`. */
    method Stroke(els: seq<PathEl>, ffi: PathFfi, width: real)
      modifies this
      ensures ctxStack == old(ctxStack)
      ensures var path := PathResult(false, els, EvenOdd, ffi);
        if path.Err? then err == Err(path.error) && calls == old(calls)
        else err == old(err) && calls == old(calls) + [DrawGeometry(path.value, width)]
    {
      var path := PathFromShape(false, els, EvenOdd, ffi);
      if path.Err? {
        err := Err(path.error);
        return;
      }
      calls := calls + [DrawGeometry(path.value, width)];
    }

    /**
     * `make_image`: the alpha mode is chosen first (`NotSupported` for
     * grayscale), then the buffer converted, then the bitmap created.
     */
    method MakeImage(width: nat, height: nat, buf: seq<Byte>, format: ImageFormat, created: Result<(), Error>)
      returns (r: Result<Bitmap, Error>)
      requires format.Rgb? ==> 3 * (width * height) <= |buf|
      requires format.RgbaSeparate? ==> 4 * (width * height) <= |buf|
      ensures r == MadeImage(width, height, buf, format, created)
    {
      var mode := AlphaModeFor(format);
      if mode.None? {
        return Err(NotSupported);
      }
      var data := buf;
      if format.Rgb? {
        var d := ExpandRgb(buf, width * height);
        data := d[..];
      } else if format.RgbaSeparate? {
        var d := PremultiplySeparate(buf, width * height);
        data := d[..];
      }
      if created.Err? {
        return Err(created.error);
      }
      r := Ok(Bitmap(width, height, data, mode.value));
    }

    /** `draw_image`: the bitmap drawn at full opacity with the matching interpolation. */
    method DrawImage(image: Bitmap, rect: Rect, interp: InterpolationMode)
      modifies this
      ensures ctxStack == old(ctxStack) && err == old(err)
      ensures calls == old(calls) + [DrawBitmap(image, rect, 1.0, Interpolation(interp))]
    {
      calls := calls + [DrawBitmap(image, rect, 1.0, Interpolation(interp))];
    }

    /**
     * A clip inside a `save`/`restore` pair is undone by the `restore`: the
     * states are as before, and the one layer the clip pushed is popped.
     */
    method ClipWithinSave(els: seq<PathEl>, ffi: PathFfi)
      requires |ctxStack| >= 1 && PathResult(true, els, NonZero, ffi).Ok?
      modifies this
      ensures ctxStack == old(ctxStack) && err == old(err)
      ensures calls == old(calls) + [PushLayerMask(PathResult(true, els, NonZero, ffi).value), PopLayer,
                                     SetTransform(old(CurrentTransform()))]
    {
      var _ := Save();
      Clip(Ok(()), els, ffi);
      var _ := Restore();
    }
  }

  /** The interpolation mode `draw_image` hands to `draw_bitmap`. */
  function Interpolation(interp: InterpolationMode): (m: BitmapInterpolation)
    ensures m.BitmapNearestNeighbor? <==> interp.NearestNeighbor?
  {
    match interp
    case NearestNeighbor => BitmapNearestNeighbor
    case Bilinear => BitmapLinear
  }
}

=== FILE: d2d_lines.dfy ===
/**
 * `fetch_line_metrics` of the Direct2D backend: DirectWrite reports each
 * line by its length, trailing-whitespace length, height and baseline, and
 * a `scan` over those turns lengths into offsets and heights into running
 * heights.
 */
module D2DLines {
  import opened PietTypes

  /**
   * `DWRITE_LINE_METRICS` as far as it is read: `length` and
   * `trailingWhitespaceLength` (`u32`, widened to `usize`), `height` and
   * `baseline` (`f32`, widened to `f64`).
   */
  datatype RawLineMetric = RawLineMetric(length: nat, trailingWhitespaceLength: nat, height: real, baseline: real)

  /** The total length of `raws`. */
  function TotalLength(raws: seq<RawLineMetric>): nat
  {
    if raws == [] then 0 else raws[0].length + TotalLength(raws[1..])
  }

  /** The total height of `raws`. */
  function TotalHeight(raws: seq<RawLineMetric>): real
  {
    if raws == [] then 0.0 else raws[0].height + TotalHeight(raws[1..])
  }

  /**
   * The `scan` with its accumulator `(start_offset_agg, height_agg)` at
   * `(startAgg, heightAgg)`: each raw line starts where the previous ended
   * and adds its height to the running height.
   */
  function Scan(raws: seq<RawLineMetric>, startAgg: nat, heightAgg: real): (r: seq<CumulativeLineMetric>)
    ensures |r| == |raws|
  {
    if raws == [] then []
    else
      var raw := raws[0];
      var endOffset := startAgg + raw.length;
      var cumulativeHeight := heightAgg + raw.height;
      [CumulativeLineMetric(startAgg, endOffset, raw.trailingWhitespaceLength, raw.baseline, raw.height, cumulativeHeight)]
        + Scan(raws[1..], endOffset, cumulativeHeight)
  }

  /** `fetch_line_metrics` on the raw metrics DirectWrite returned for the layout. */
  function FetchLineMetrics(raws: seq<RawLineMetric>): seq<CumulativeLineMetric>
  {
    Scan(raws, 0, 0.0)
  }

  /**
   * Line `k` of the scan starts after the lengths of the lines before it,
   * ends `length` bytes later, has as running height the heights up to and
   * including its own, and copies its other fields from raw line `k`.
   */
  lemma {:induction false} ScanAt(raws: seq<RawLineMetric>, startAgg: nat, heightAgg: real, k: nat)
    requires k < |raws|
    ensures Scan(raws, startAgg, heightAgg)[k] == CumulativeLineMetric(
      startAgg + TotalLength(raws[..k]),
      startAgg + TotalLength(raws[..k]) + raws[k].length,
      raws[k].trailingWhitespaceLength,
      raws[k].baseline,
      raws[k].height,
      heightAgg + TotalHeight(raws[..k + 1]))
  {
    var raw := raws[0];
    if k == 0 {
      assert raws[..1] == [raw] && raws[..1][1..] == [];
    } else {
      ScanAt(raws[1..], startAgg + raw.length, heightAgg + raw.height, k - 1);
      assert raws[..k][0] == raw && raws[..k][1..] == raws[1..][..k - 1];
      assert raws[..k + 1][0] == raw && raws[..k + 1][1..] == raws[1..][..k];
    }
  }

  /** One metric per raw metric, in order, with offsets and heights accumulated from the start. */
  lemma FetchLineMetricsAt(raws: seq<RawLineMetric>, k: nat)
    requires k < |raws|
    ensures |FetchLineMetrics(raws)| == |raws|
    ensures FetchLineMetrics(raws)[k] == CumulativeLineMetric(
      TotalLength(raws[..k]),
      TotalLength(raws[..k]) + raws[k].length,
      raws[k].trailingWhitespaceLength,
      raws[k].baseline,
      raws[k].height,
      TotalHeight(raws[..k + 1]))
  {
    ScanAt(raws, 0, 0.0, k);
  }

  /** The length of one more line adds to the total. */
  lemma {:induction false} TotalLengthSnoc(raws: seq<RawLineMetric>, k: nat)
    requires k < |raws|
    ensures TotalLength(raws[..k + 1]) == TotalLength(raws[..k]) + raws[k].length
  {
    if k > 0 {
      TotalLengthSnoc(raws[1..], k - 1);
      assert raws[..k][1..] == raws[1..][..k - 1];
      assert raws[..k + 1][1..] == raws[1..][..k];
    } else {
      assert raws[..1][1..] == [];
    }
  }

  /**
   * The metrics tile the text: line 0 starts at 0, each line starts where
   * the previous one ended, and each is `length` bytes long.
   */
  lemma FetchLineMetricsContiguous(raws: seq<RawLineMetric>)
    ensures var r := FetchLineMetrics(raws);
      && (|r| > 0 ==> r[0].startOffset == 0)
      && (forall k :: 0 <= k < |r| ==> r[k].endOffset == r[k].startOffset + raws[k].length)
      && (forall k :: 0 < k < |r| ==> r[k].startOffset == r[k - 1].endOffset)
  {
    var r := FetchLineMetrics(raws);
    if |r| > 0 {
      FetchLineMetricsAt(raws, 0);
    }
    forall k | 0 <= k < |r|
      ensures r[k].endOffset == r[k].startOffset + raws[k].length
    {
      FetchLineMetricsAt(raws, k);
    }
    forall k | 0 < k < |r|
      ensures r[k].startOffset == r[k - 1].endOffset
    {
      FetchLineMetricsAt(raws, k);
      FetchLineMetricsAt(raws, k - 1);
      TotalLengthSnoc(raws, k - 1);
    }
  }

  /**
   * `"piet text most best"` at width 30: DirectWrite reports four lines of
   * lengths 5, 5, 5, 4 with one trailing space on all but the last, each
   * 15.9609375 high; the metrics are `[0,5)`, `[5,10)`, `[10,15)`,
   * `[15,19)` with the running heights of one to four lines.
   */
  lemma SmallWidthExample()
    ensures FetchLineMetrics([
      RawLineMetric(5, 1, 15.9609375, 12.94921875),
      RawLineMetric(5, 1, 15.9609375, 12.94921875),
      RawLineMetric(5, 1, 15.9609375, 12.94921875),
      RawLineMetric(4, 0, 15.9609375, 12.94921875)]) == [
      CumulativeLineMetric(0, 5, 1, 12.94921875, 15.9609375, 15.9609375),
      CumulativeLineMetric(5, 10, 1, 12.94921875, 15.9609375, 31.921875),
      CumulativeLineMetric(10, 15, 1, 12.94921875, 15.9609375, 47.8828125),
      CumulativeLineMetric(15, 19, 0, 12.94921875, 15.9609375, 63.84375)]
  {
  }
}

=== FILE: d2d_text.dfy ===
/**
 * The Direct2D text layout as far as it is piet's own logic: the line
 * metrics fetched from DirectWrite, `line_text`, `update_width` and the
 * offset conversions around DirectWrite's hit tests. DirectWrite itself
 * (its line breaking at a maximum width and its two hit tests, which speak
 * UTF-16 code units) is an input.
 */
module D2DText {
  import opened Wrappers
  import opened Unicode
  import opened PietTypes
  import opened D2DLines
  import Util

  /** What DirectWrite's `hit_test_point` reports, in UTF-16 code units. */
  datatype DWriteHit = DWriteHit(isTrailingHit: bool, textPosition: nat, length: nat, isInside: bool)

  /** The UTF-16 position of a DirectWrite hit: a trailing hit is rounded up past its cluster. */
  function Position16(htp: DWriteHit): nat
  {
    if htp.isTrailingHit then htp.textPosition + htp.length else htp.textPosition
  }

  /**
   * The hit `hit_test_point` reports for DirectWrite's answer: the UTF-8
   * offset of the byte at which the UTF-16 count passes the (rounded)
   * position, or `text.len()` when the text ends first.
   */
  function HitFromDWrite(text: string, htp: DWriteHit): (h: HitTestPoint)
    ensures |Encode(text)| == ByteLen(text)
    ensures h.isInside == htp.isInside
    ensures h.idx <= ByteLen(text)
    ensures h.idx == ByteLen(text) <==> Position16(htp) >= Utf16Length(text)
    ensures h.idx < ByteLen(text) ==>
      Util.Utf16Count(Encode(text)[..h.idx]) <= Position16(htp) < Util.Utf16Count(Encode(text)[..h.idx + 1])
  {
    EncodeLength(text);
    Util.Utf16CountEncode(text);
    match Util.CountUntil(Encode(text), Position16(htp))
    case Some(k) => HitTestPoint(k, htp.isInside)
    case None => HitTestPoint(ByteLen(text), htp.isInside)
  }

  /** `line_text`: line `n` without its trailing whitespace, `None` past the last line. */
  function LineTextOf(text: string, lines: seq<CumulativeLineMetric>, n: nat): (r: Option<string>)
    ensures r.Some? <==> n < |lines|
    ensures r.Some? ==>
      r.value == Slice(text, lines[n].startOffset, lines[n].endOffset - lines[n].trailingWhitespace)
  {
    if n < |lines| then
      Some(Slice(text, lines[n].startOffset, lines[n].endOffset - lines[n].trailingWhitespace))
    else None
  }

  /** `"piet text most best"` as DirectWrite lays it out at width 30. */
  function SmallWidthLines(): seq<RawLineMetric>
  {
    [RawLineMetric(5, 1, 15.9609375, 12.94921875),
     RawLineMetric(5, 1, 15.9609375, 12.94921875),
     RawLineMetric(5, 1, 15.9609375, 12.94921875),
     RawLineMetric(4, 0, 15.9609375, 12.94921875)]
  }

  /**
   * On a 19-byte ASCII text such as `"piet text most best"` laid out at
   * width 30, line `k` reads the four bytes from `5 * k`, without the space
   * after them, and there is no fifth line.
   */
  lemma SmallWidthLineText(text: string)
    requires IsAscii(text) && |text| == 19
    ensures forall k :: 0 <= k < 4 ==> LineTextOf(text, FetchLineMetrics(SmallWidthLines()), k) == Some(text[5 * k..5 * k + 4])
    ensures LineTextOf(text, FetchLineMetrics(SmallWidthLines()), 4) == None
  {
    var lines := FetchLineMetrics(SmallWidthLines());
    SmallWidthExample();
    forall k | 0 <= k < 4
      ensures LineTextOf(text, lines, k) == Some(text[5 * k..5 * k + 4])
    {
      AsciiSlice(text, 5 * k, 5 * k + 4);
    }
  }

  /**
   * `D2DTextLayout`. `rawLinesAt` stands for the DirectWrite layout of
   * `text`: the line metrics it reports at a maximum width.
   */
  class D2DTextLayout {
    const text: string
    const rawLinesAt: real -> seq<RawLineMetric>
    ghost var maxWidth: real
    var lineMetrics: seq<CumulativeLineMetric>

    /** The line metrics are those DirectWrite reports at the current maximum width. */
    ghost predicate Valid()
      reads this
    {
      lineMetrics == FetchLineMetrics(rawLinesAt(maxWidth))
    }

    /** The layout `build` assembles once DirectWrite has made one: its metrics at the builder's width. */
    constructor(text: string, rawLinesAt: real -> seq<RawLineMetric>, width: real)
      ensures this.text == text && this.rawLinesAt == rawLinesAt && maxWidth == width && Valid()
    {
      this.text := text;
      this.rawLinesAt := rawLinesAt;
      maxWidth := width;
      lineMetrics := FetchLineMetrics(rawLinesAt(width));
    }

    /**
     * `update_width`: `accepted` is whether DirectWrite took the new
     * maximum width. If it did, the metrics are fetched again at that
     * width; if not, its error is a `BackendError` and nothing changes.
     */
    method UpdateWidth(newWidth: real, accepted: bool) returns (r: Result<(), Error>)
      modifies this
      ensures accepted ==> r.Ok? && maxWidth == newWidth && lineMetrics == FetchLineMetrics(rawLinesAt(newWidth))
      ensures !accepted ==> r == Err(BackendError) && maxWidth == old(maxWidth) && lineMetrics == old(lineMetrics)
      ensures old(Valid()) ==> Valid()
    {
      if !accepted {
        return Err(BackendError);
      }
      maxWidth := newWidth;
      lineMetrics := FetchLineMetrics(rawLinesAt(newWidth));
      r := Ok(());
    }

    /** `line_text`. */
    function LineText(n: nat): (r: Option<string>)
      reads this
      ensures r == LineTextOf(text, lineMetrics, n)
    {
      LineTextOf(text, lineMetrics, n)
    }

    /** `line_count`: one line per line DirectWrite reported. */
    function LineCount(): (n: nat)
      reads this
      requires Valid()
      ensures n == |rawLinesAt(maxWidth)|
    {
      |lineMetrics|
    }

    /**
     * `hit_test_point`: DirectWrite is asked at `y` moved down by the first
     * line's baseline (0 without lines), and its UTF-16 answer is turned
     * into a UTF-8 offset.
     */
    method HitTestPoint(x: real, y: real, dwriteHitTest: (real, real) -> DWriteHit) returns (h: PietTypes.HitTestPoint)
      ensures h == HitFromDWrite(text, dwriteHitTest(x, y + (if lineMetrics == [] then 0.0 else lineMetrics[0].baseline)))
    {
      var firstBaseline := if |lineMetrics| > 0 then lineMetrics[0].baseline else 0.0;
      var htp := dwriteHitTest(x, y + firstBaseline);
      var textPosition16 := if htp.isTrailingHit then htp.textPosition + htp.length else htp.textPosition;
      assert textPosition16 == Position16(htp);
      var found := Util.CountUntilUtf16(text, textPosition16);
      var textPosition := if found.Some? then found.value else ByteLen(text);
      h := PietTypes.HitTestPoint.HitTestPoint(textPosition, htp.isInside);
      assert h == HitFromDWrite(text, htp);
    }

    /**
     * `hit_test_text_position`: the UTF-16 length of the text before
     * `textPosition` is handed to DirectWrite, `None` when it does not fit
     * in a `u32`; the point is DirectWrite's and the position the caller's.
     * The source panics off a character boundary, which is required here.
     */
    method HitTestTextPosition(textPosition: nat, dwritePosition: nat -> Option<(real, real)>)
      returns (r: Option<TextPositionHit>)
      requires textPosition <= ByteLen(text) && IsCharBoundary(text, textPosition)
      ensures var idx16 := Utf16Length(Slice(text, 0, textPosition));
        && (idx16 >= U32_LIMIT ==> r.None?)
        && (idx16 < U32_LIMIT ==> r.Some? == dwritePosition(idx16).Some?)
        && (r.Some? ==> r == Some(TextPositionHit(dwritePosition(idx16).value.0, dwritePosition(idx16).value.1, textPosition)))
    {
      var idx16 := Util.CountUtf16(Slice(text, 0, textPosition));
      if idx16 >= U32_LIMIT {
        return None;
      }
      var point := dwritePosition(idx16);
      if point.None? {
        return None;
      }
      r := Some(TextPositionHit(point.value.0, point.value.1, textPosition));
    }
  }

  /**
   * `build`: `built` is whether DirectWrite could create the layout. If
   * not, its error is a `BackendError`; otherwise the layout holds the text
   * and the metrics DirectWrite reports at the builder's width.
   */
  method Build(text: string, rawLinesAt: real -> seq<RawLineMetric>, width: real, built: bool)
    returns (r: Result<D2DTextLayout, Error>)
    ensures !built ==> r == Err(BackendError)
    ensures built ==> r.Ok? && fresh(r.value) && r.value.Valid()
    ensures built ==> r.value.text == text && r.value.rawLinesAt == rawLinesAt && r.value.maxWidth == width
    ensures built ==> r.value.lineMetrics == FetchLineMetrics(rawLinesAt(width))
  {
    if !built {
      return Err(BackendError);
    }
    var layout := new D2DTextLayout(text, rawLinesAt, width);
    r := Ok(layout);
  }
}

=== FILE: flatten.dfy ===
/**
 * The line soup of `cpu-sparse` (cpu-sparse/src/flatten.rs): a bowl of
 * line segments, each tagged with the index of the path it came from, and
 * one premultiplied colour per path. Filling a path appends the segments of
 * its flattened outline, closing each subpath that does not already end
 * where it started; stroking appends the segments of the stroke outline.
 * Flattening curves and stroking are done by `kurbo` and the `flatten`
 * crate, so their outputs are inputs here.
 */
module Flatten {
  import opened PietTypes

  /** `peniko::color::PremulRgba8`. */
  datatype PremulRgba8 = PremulRgba8(r: Byte, g: Byte, b: Byte, a: Byte)

  /** `LineSoup`: a segment of path `pathIx`, from `p0` to `p1`. */
  datatype LineSoup = LineSoup(pathIx: nat, p0: Point, p1: Point)

  /** `kurbo::Line`. */
  datatype Line = Line(p0: Point, p1: Point)

  /** A point scaled into device space, `[(p.x * scale) as f32, (p.y * scale) as f32]`. */
  function Scaled(p: Point, scale: real): Point
  {
    Point(p.x * scale, p.y * scale)
  }

  /**
   * A flattened path: `kurbo::flatten` hands its callback only moves, lines
   * and closes; the curve arms are `todo!()`.
   */
  predicate Flat(els: seq<PathEl>)
  {
    forall i :: 0 <= i < |els| ==> !els[i].QuadTo? && !els[i].CurveTo?
  }

  /** The two points the fill callback keeps: the subpath start and the current point. */
  datatype Cursor = Cursor(start: Point, p0: Point)

  const ORIGIN: Point := Point(0.0, 0.0)

  /** What the callback does to the two points for one element. */
  function Advance(c: Cursor, el: PathEl): (c': Cursor)
    ensures el.MoveTo? ==> c' == Cursor(el.p, el.p)
    ensures el.LineTo? ==> c' == Cursor(c.start, el.p)
    ensures !el.MoveTo? && !el.LineTo? ==> c' == c
  {
    match el
    case MoveTo(p) => Cursor(p, p)
    case LineTo(p) => Cursor(c.start, p)
    case _ => c
  }

  /**
   * The segments the callback appends for one element: a line goes from
   * the current point to its end; a close goes back to the subpath start,
   * unless the scaled current point already is the scaled start.
   */
  function LinesFor(c: Cursor, el: PathEl, pathIx: nat, scale: real): (ls: seq<LineSoup>)
    ensures |ls| <= 1
    ensures forall i :: 0 <= i < |ls| ==> ls[i].pathIx == pathIx
    ensures el.LineTo? ==> ls == [LineSoup(pathIx, Scaled(c.p0, scale), Scaled(el.p, scale))]
    ensures el.ClosePath? ==> (|ls| == 1 <==> Scaled(c.p0, scale) != Scaled(c.start, scale))
    ensures el.ClosePath? && |ls| == 1 ==> ls[0] == LineSoup(pathIx, Scaled(c.p0, scale), Scaled(c.start, scale))
    ensures el.MoveTo? ==> ls == []
  {
    match el
    case LineTo(p) => [LineSoup(pathIx, Scaled(c.p0, scale), Scaled(p, scale))]
    case ClosePath =>
      var pt0 := Scaled(c.p0, scale);
      var pt1 := Scaled(c.start, scale);
      if pt0 != pt1 then [LineSoup(pathIx, pt0, pt1)] else []
    case _ => []
  }

  /** The two points after the callback has seen `els`, both starting at the origin. */
  function CursorAfter(els: seq<PathEl>): Cursor
  {
    if els == [] then Cursor(ORIGIN, ORIGIN)
    else Advance(CursorAfter(els[..|els| - 1]), els[|els| - 1])
  }

  /**
   * The segments `fill` appends for the flattened path `els`: at most one
   * per element, every one tagged `pathIx`.
   */
  function FillLines(els: seq<PathEl>, pathIx: nat, scale: real): (ls: seq<LineSoup>)
    ensures |ls| <= |els|
    ensures forall i :: 0 <= i < |ls| ==> ls[i].pathIx == pathIx
  {
    if els == [] then []
    else
      var n := |els| - 1;
      FillLines(els[..n], pathIx, scale) + LinesFor(CursorAfter(els[..n]), els[n], pathIx, scale)
  }

  /** The segments `stroke` appends for the stroke outline `outline`: one per line, in order, scaled. */
  function StrokeLines(outline: seq<Line>, pathIx: nat, scale: real): (ls: seq<LineSoup>)
    ensures |ls| == |outline|
    ensures forall i :: 0 <= i < |ls| ==> ls[i].pathIx == pathIx
    ensures forall i :: 0 <= i < |ls| ==> ls[i].p0 == Scaled(outline[i].p0, scale) && ls[i].p1 == Scaled(outline[i].p1, scale)
  {
    if outline == [] then []
    else
      var n := |outline| - 1;
      StrokeLines(outline[..n], pathIx, scale) + [LineSoup(pathIx, Scaled(outline[n].p0, scale), Scaled(outline[n].p1, scale))]
  }

  /** `colors.len() as u32`. */
  function PathIndex(colorCount: nat): (ix: nat)
    ensures ix < U32_LIMIT
    ensures colorCount < U32_LIMIT ==> ix == colorCount
  {
    colorCount % U32_LIMIT
  }

  /** One more element: its segments come after the earlier ones, from the point they left. */
  lemma FillLinesSnoc(els: seq<PathEl>, el: PathEl, pathIx: nat, scale: real)
    ensures FillLines(els + [el], pathIx, scale) == FillLines(els, pathIx, scale) + LinesFor(CursorAfter(els), el, pathIx, scale)
    ensures CursorAfter(els + [el]) == Advance(CursorAfter(els), el)
  {
    assert (els + [el])[..|els|] == els;
  }

  /**
   * A closed triangle whose last corner is not its first yields its three
   * sides in order, the closing side last.
   */
  lemma ClosedTriangle(a: Point, b: Point, c: Point, pathIx: nat, scale: real)
    requires Scaled(c, scale) != Scaled(a, scale)
    ensures FillLines([MoveTo(a), LineTo(b), LineTo(c), ClosePath], pathIx, scale)
            == [LineSoup(pathIx, Scaled(a, scale), Scaled(b, scale)),
                LineSoup(pathIx, Scaled(b, scale), Scaled(c, scale)),
                LineSoup(pathIx, Scaled(c, scale), Scaled(a, scale))]
  {
    var e1, e2, e3 := [MoveTo(a)], [MoveTo(a), LineTo(b)], [MoveTo(a), LineTo(b), LineTo(c)];
    assert e1 == [] + [MoveTo(a)] && e2 == e1 + [LineTo(b)] && e3 == e2 + [LineTo(c)];
    assert e3 + [ClosePath] == [MoveTo(a), LineTo(b), LineTo(c), ClosePath];
    FillLinesSnoc([], MoveTo(a), pathIx, scale);
    FillLinesSnoc(e1, LineTo(b), pathIx, scale);
    FillLinesSnoc(e2, LineTo(c), pathIx, scale);
    FillLinesSnoc(e3, ClosePath, pathIx, scale);
  }

  /**
   * A subpath drawn back to its first point before the close yields only
   * the sides drawn: the close adds nothing.
   */
  lemma ReturningPath(a: Point, b: Point, pathIx: nat, scale: real)
    ensures FillLines([MoveTo(a), LineTo(b), LineTo(a), ClosePath], pathIx, scale)
            == [LineSoup(pathIx, Scaled(a, scale), Scaled(b, scale)),
                LineSoup(pathIx, Scaled(b, scale), Scaled(a, scale))]
  {
    var e1, e2, e3 := [MoveTo(a)], [MoveTo(a), LineTo(b)], [MoveTo(a), LineTo(b), LineTo(a)];
    assert e1 == [] + [MoveTo(a)] && e2 == e1 + [LineTo(b)] && e3 == e2 + [LineTo(a)];
    assert e3 + [ClosePath] == [MoveTo(a), LineTo(b), LineTo(a), ClosePath];
    FillLinesSnoc([], MoveTo(a), pathIx, scale);
    FillLinesSnoc(e1, LineTo(b), pathIx, scale);
    FillLinesSnoc(e2, LineTo(a), pathIx, scale);
    FillLinesSnoc(e3, ClosePath, pathIx, scale);
  }

  /**
   * `SoupBowl`: the segments of every path added so far and one colour per
   * path; a path's index is the number of colours before it.
   */
  class SoupBowl {
    var lines: seq<LineSoup>
    var colors: seq<PremulRgba8>

    /** Every segment belongs to a path whose colour is in the bowl. */
    predicate Valid()
      reads this
    {
      forall i :: 0 <= i < |lines| ==> lines[i].pathIx < |colors|
    }

    /** `SoupBowl::default()`: an empty bowl. */
    constructor ()
      ensures lines == [] && colors == []
      ensures Valid()
    {
      lines := [];
      colors := [];
    }

    /**
     * `fill`: the path's index is the colour count on entry; the segments
     * of `els` (see `FillLines`) are appended to the ones already there and
     * the path's colour, already premultiplied, after the colours already
     * there. A bowl holding fewer than 2^32 colours stays valid.
     */
    method Fill(els: seq<PathEl>, scale: real, color: PremulRgba8)
      requires Flat(els)
      modifies this
      ensures lines == old(lines) + FillLines(els, PathIndex(old(|colors|)), scale)
      ensures colors == old(colors) + [color]
      ensures old(Valid()) && old(|colors|) < U32_LIMIT ==> Valid()
    {
      var pathIx := PathIndex(|colors|);
      var start := ORIGIN;
      var p0 := ORIGIN;
      for i := 0 to |els|
        invariant Cursor(start, p0) == CursorAfter(els[..i])
        invariant lines == old(lines) + FillLines(els[..i], pathIx, scale)
        invariant colors == old(colors)
      {
        assert els[..i + 1][..i] == els[..i];
        ghost var before := lines;
        match els[i]
        case MoveTo(p) =>
          start := p;
          p0 := p;
        case LineTo(p) =>
          lines := lines + [LineSoup(pathIx, Scaled(p0, scale), Scaled(p, scale))];
          p0 := p;
        case ClosePath =>
          var pt0 := Scaled(p0, scale);
          var pt1 := Scaled(start, scale);
          if pt0 != pt1 {
            lines := lines + [LineSoup(pathIx, pt0, pt1)];
          }
          assert lines == before + LinesFor(CursorAfter(els[..i]), els[i], pathIx, scale);
      }
      assert els[..|els|] == els;
      colors := colors + [color];
    }

    /**
     * `stroke`: the path's index is the colour count on entry; the lines of
     * the stroke outline are appended, scaled and tagged, after the
     * segments already there, and the colour after the colours.
     */
    method Stroke(outline: seq<Line>, scale: real, color: PremulRgba8)
      modifies this
      ensures lines == old(lines) + StrokeLines(outline, PathIndex(old(|colors|)), scale)
      ensures colors == old(colors) + [color]
      ensures old(Valid()) && old(|colors|) < U32_LIMIT ==> Valid()
    {
      var pathIx := PathIndex(|colors|);
      for i := 0 to |outline|
        invariant lines == old(lines) + StrokeLines(outline[..i], pathIx, scale)
        invariant colors == old(colors)
      {
        assert outline[..i + 1][..i] == outline[..i];
        var line := outline[i];
        lines := lines + [LineSoup(pathIx, Scaled(line.p0, scale), Scaled(line.p1, scale))];
      }
      assert outline[..|outline|] == outline;
      colors := colors + [color];
    }
  }

  /**
   * Two paths filled one after the other into an empty bowl get indices 0
   * and 1: the first path's segments come first and the colours are in
   * order.
   */
  method FillTwice(first: seq<PathEl>, second: seq<PathEl>, scale: real, c1: PremulRgba8, c2: PremulRgba8)
    returns (lines: seq<LineSoup>, colors: seq<PremulRgba8>)
    requires Flat(first) && Flat(second)
    ensures lines == FillLines(first, 0, scale) + FillLines(second, 1, scale)
    ensures colors == [c1, c2]
    ensures forall i :: 0 <= i < |lines| ==> lines[i].pathIx < |colors|
  {
    var bowl := new SoupBowl();
    assert PathIndex(0) == 0 && PathIndex(1) == 1;
    bowl.Fill(first, scale, c1);
    bowl.Fill(second, scale, c2);
    assert bowl.Valid();
    lines, colors := bowl.lines, bowl.colors;
  }
}

=== FILE: font.dfy ===
/** Font families and weights (piet/src/font.rs). */
module Font {
  import opened PietTypes

  /** `FontFamily`, flattened with its private `FontFamilyInner`. */
  datatype FontFamily = Serif | SansSerif | Monospace | SystemUi | Named(family: string)

  const SANS_SERIF: FontFamily := SansSerif
  const SERIF: FontFamily := Serif
  const SYSTEM_UI: FontFamily := SystemUi
  const MONOSPACE: FontFamily := Monospace

  /** `FontFamily::new_unchecked`: a named family, whatever the string says. */
  function NewUnchecked(s: string): (f: FontFamily)
    ensures !IsGeneric(f) && Name(f) == s
  {
    Named(s)
  }

  /** `FontFamily::name`: the CSS generic-family keyword, or the stored name. */
  function Name(f: FontFamily): string
  {
    match f
    case Serif => "serif"
    case SansSerif => "sans-serif"
    case SystemUi => "system-ui"
    case Monospace => "monospace"
    case Named(s) => s
  }

  /** `FontFamily::is_generic`. */
  predicate IsGeneric(f: FontFamily)
  {
    !f.Named?
  }

  /** The four generic families have four different names, so `name` identifies a generic family. */
  lemma GenericNamesDistinct(f: FontFamily, g: FontFamily)
    requires IsGeneric(f) && IsGeneric(g) && Name(f) == Name(g)
    ensures f == g
  {
    match f
    case Serif => assert Name(f)[0] == 's' && |Name(f)| == 5;
    case SansSerif => assert |Name(f)| == 10;
    case SystemUi => assert Name(f)[1] == 'y';
    case Monospace => assert Name(f)[0] == 'm';
  }

  /** `FontWeight`: a `u16` that `new` keeps in `[1, 1000]`. */
  datatype FontWeight = FontWeight(raw: int)

  const THIN: FontWeight := FontWeight(100)
  const HAIRLINE: FontWeight := THIN
  const EXTRA_LIGHT: FontWeight := FontWeight(200)
  const LIGHT: FontWeight := FontWeight(300)
  const REGULAR: FontWeight := FontWeight(400)
  const NORMAL: FontWeight := REGULAR
  const MEDIUM: FontWeight := FontWeight(500)
  const SEMI_BOLD: FontWeight := FontWeight(600)
  const BOLD: FontWeight := FontWeight(700)
  const EXTRA_BOLD: FontWeight := FontWeight(800)
  const BLACK: FontWeight := FontWeight(900)
  const HEAVY: FontWeight := BLACK
  const EXTRA_BLACK: FontWeight := FontWeight(950)

  /** `FontWeight::new`: `raw.min(1000).max(1)`. */
  function New(raw: int): (w: FontWeight)
    requires 0 <= raw < U16_LIMIT
    ensures 1 <= ToRaw(w) <= 1000
    ensures 1 <= raw <= 1000 ==> ToRaw(w) == raw
    ensures raw > 1000 ==> ToRaw(w) == 1000
    ensures raw == 0 ==> ToRaw(w) == 1
  {
    var upper := if raw < 1000 then raw else 1000;
    FontWeight(if upper > 1 then upper else 1)
  }

  /** `FontWeight::to_raw`. */
  function ToRaw(w: FontWeight): int { w.raw }

  /** Clamping is idempotent: a weight built by `new` survives a round trip through `to_raw`. */
  lemma NewIdempotent(raw: int)
    requires 0 <= raw < U16_LIMIT
    ensures New(ToRaw(New(raw))) == New(raw)
  {
  }

  /** The named weights strictly increase and every alias equals its target. */
  lemma WeightsOrdered()
    ensures var ws := [THIN, EXTRA_LIGHT, LIGHT, REGULAR, MEDIUM, SEMI_BOLD, BOLD, EXTRA_BOLD, BLACK, EXTRA_BLACK];
      forall i, j :: 0 <= i < j < |ws| ==> ToRaw(ws[i]) < ToRaw(ws[j])
    ensures ToRaw(THIN) == 100 && ToRaw(EXTRA_BLACK) == 950
    ensures HAIRLINE == THIN && NORMAL == REGULAR && HEAVY == BLACK
    ensures forall w :: w in [THIN, EXTRA_LIGHT, LIGHT, REGULAR, MEDIUM, SEMI_BOLD, BOLD, EXTRA_BOLD, BLACK, EXTRA_BLACK] ==> New(ToRaw(w)) == w
  {
  }

  /** `impl Default for FontFamily`. */
  const DEFAULT_FAMILY: FontFamily := SYSTEM_UI
  /** `impl Default for FontWeight`. */
  const DEFAULT_WEIGHT: FontWeight := REGULAR
}

=== FILE: generic_record.dfy ===
/**
 * The generic recorder of `piet-next`: a render context that draws nothing
 * but keeps every fill and image draw as a command, hands the commands out
 * as a recording, and replays a recording onto another render context in
 * the order the commands were recorded. Paths are their element lists;
 * images and brushes are whatever the underlying context uses.
 */
module GenericRecord {
  import opened PietTypes

  /** `Cmd`: a recorded fill, or a recorded image draw with its destination and interpolation. */
  datatype Cmd<Image, Brush> =
    | Fill(path: seq<PathEl>, brush: Brush)
    | DrawImage(image: Image, rect: Rect, interp: InterpolationMode)

  /** A call made on the render context a recording is played onto. */
  datatype RenderCall<Image, Brush> =
    | FillCall(path: seq<PathEl>, brush: Brush)
    | DrawImageCall(image: Image, rect: Rect, interp: InterpolationMode)

  /** The call `play` makes for one command. */
  function CallFor<Image, Brush>(cmd: Cmd<Image, Brush>): (c: RenderCall<Image, Brush>)
    ensures c.FillCall? <==> cmd.Fill?
    ensures cmd.Fill? ==> c == FillCall(cmd.path, cmd.brush)
    ensures cmd.DrawImage? ==> c == DrawImageCall(cmd.image, cmd.rect, cmd.interp)
  {
    match cmd
    case Fill(path, brush) => FillCall(path, brush)
    case DrawImage(image, rect, interp) => DrawImageCall(image, rect, interp)
  }

  /** The calls `play` makes for a list of commands: one per command, in order. */
  function Replayed<Image, Brush>(cmds: seq<Cmd<Image, Brush>>): (calls: seq<RenderCall<Image, Brush>>)
    ensures |calls| == |cmds|
    ensures forall i :: 0 <= i < |cmds| ==> calls[i] == CallFor(cmds[i])
  {
    if cmds == [] then [] else Replayed(cmds[..|cmds| - 1]) + [CallFor(cmds[|cmds| - 1])]
  }

  /**
   * Replaying two recordings one after the other makes the calls of
   * replaying them joined, so recording and then playing draws what drawing
   * directly would have.
   */
  lemma {:induction false} ReplayedConcat<Image, Brush>(a: seq<Cmd<Image, Brush>>, b: seq<Cmd<Image, Brush>>)
    ensures Replayed(a + b) == Replayed(a) + Replayed(b)
  {
    if b != [] {
      assert (a + b)[..|a + b| - 1] == a + b[..|b| - 1];
      ReplayedConcat(a, b[..|b| - 1]);
    } else {
      assert a + b == a;
    }
  }

  /**
   * A render context a recording can be played onto; it keeps the calls
   * made on it.
   */
  class Target<Image, Brush> {
    var calls: seq<RenderCall<Image, Brush>>

    constructor ()
      ensures calls == []
    {
      calls := [];
    }

    method Fill(path: seq<PathEl>, brush: Brush)
      modifies this
      ensures calls == old(calls) + [FillCall(path, brush)]
    {
      calls := calls + [FillCall(path, brush)];
    }

    method DrawImage(image: Image, rect: Rect, interp: InterpolationMode)
      modifies this
      ensures calls == old(calls) + [DrawImageCall(image, rect, interp)]
    {
      calls := calls + [DrawImageCall(image, rect, interp)];
    }
  }

  /** `GenericRecorder`: the commands recorded so far. */
  class GenericRecorder<Image, Brush> {
    var cmds: seq<Cmd<Image, Brush>>

    /** `GenericRecorder::new`, and `GenericResources::record`: a recorder with no commands. */
    constructor ()
      ensures cmds == []
    {
      cmds := [];
    }

    /** `fill`: one `Fill` command is appended; the earlier ones stay as they were. */
    method Fill(path: seq<PathEl>, brush: Brush)
      modifies this
      ensures cmds == old(cmds) + [Cmd.Fill(path, brush)]
    {
      cmds := cmds + [Cmd.Fill(path, brush)];
    }

    /** `draw_image`: one `Image` command is appended; the earlier ones stay as they were. */
    method DrawImage(image: Image, dstRect: Rect, interp: InterpolationMode)
      modifies this
      ensures cmds == old(cmds) + [Cmd.DrawImage(image, dstRect, interp)]
    {
      cmds := cmds + [Cmd.DrawImage(image, dstRect, interp)];
    }

    /**
     * `finish`: the commands are taken out of the recorder (which is left
     * empty) and returned, in order, as a new recording.
     */
    method Finish() returns (recording: GenericRecorder<Image, Brush>)
      modifies this
      ensures fresh(recording)
      ensures recording.cmds == old(cmds) && cmds == []
    {
      var taken := cmds;
      cmds := [];
      recording := new GenericRecorder();
      recording.cmds := taken;
    }

    /** `play`: each command becomes its call on `ctx`, in recorded order. */
    method Play(ctx: Target<Image, Brush>)
      modifies ctx
      ensures ctx.calls == old(ctx.calls) + Replayed(cmds)
    {
      for i := 0 to |cmds|
        invariant ctx.calls == old(ctx.calls) + Replayed(cmds[..i])
      {
        assert cmds[..i + 1][..i] == cmds[..i];
        match cmds[i]
        case Fill(path, brush) => ctx.Fill(path, brush);
        case DrawImage(image, rect, interp) => ctx.DrawImage(image, rect, interp);
      }
      assert cmds[..|cmds|] == cmds;
    }
  }

  /**
   * A fill and an image draw recorded, finished and played onto a context
   * reach it as the same two calls, in the same order.
   */
  method RecordAndPlay<Image, Brush>(path: seq<PathEl>, brush: Brush, image: Image, rect: Rect,
                                     interp: InterpolationMode)
    returns (calls: seq<RenderCall<Image, Brush>>)
    ensures calls == [FillCall(path, brush), DrawImageCall(image, rect, interp)]
  {
    var recorder := new GenericRecorder<Image, Brush>();
    recorder.Fill(path, brush);
    recorder.DrawImage(image, rect, interp);
    var recording := recorder.Finish();
    var ctx := new Target<Image, Brush>();
    recording.Play(ctx);
    calls := ctx.calls;
  }
}

=== FILE: graphemes.dfy ===
/**
 * Extended grapheme clusters (section 3 of Unicode Standard Annex #29) as
 * the hit-testing code consumes them: the byte offsets at which
 * `grapheme_indices` reports a cluster starting. The segmentation itself is
 * an input.
 */
module Graphemes {
  import opened Wrappers

  /** Offsets strictly increase. */
  predicate Increasing(starts: seq<nat>)
  {
    forall i, j :: 0 <= i < j < |starts| ==> starts[i] < starts[j]
  }

  /**
   * The cluster starts of a text of `len` bytes: none for the empty text,
   * otherwise the first at 0, increasing, and all inside the text.
   */
  predicate Segments(starts: seq<nat>, len: nat)
  {
    && (len == 0 <==> starts == [])
    && (starts != [] ==> starts[0] == 0)
    && Increasing(starts)
    && (forall i :: 0 <= i < |starts| ==> starts[i] < len)
  }

  /** Where cluster `p` ends: the next cluster's start, or `len` after the last one. */
  function NextStart(starts: seq<nat>, len: nat, p: nat): nat
    requires p < |starts|
  {
    if p + 1 < |starts| then starts[p + 1] else len
  }

  /** Cluster `p` holds the byte offset `pos`. */
  predicate Contains(starts: seq<nat>, len: nat, p: nat, pos: nat)
  {
    p < |starts| && starts[p] <= pos < NextStart(starts, len, p)
  }

  /** `grapheme_indices(..).take_while(|(i, _)| pos >= *i).last()`: the last start not after `pos`. */
  function LastStartAtMost(starts: seq<nat>, pos: nat): Option<nat>
  {
    if starts == [] || starts[0] > pos then None
    else
      match LastStartAtMost(starts[1..], pos)
      case None => Some(starts[0])
      case Some(idx) => Some(idx)
  }

  /** On increasing starts, the last start not after `pos` is the start of the cluster holding it. */
  lemma {:induction false} LastStartOfContaining(starts: seq<nat>, len: nat, p: nat, pos: nat)
    requires Increasing(starts) && Contains(starts, len, p, pos)
    ensures LastStartAtMost(starts, pos) == Some(starts[p])
  {
    if p == 0 {
      assert starts[1..] == [] || starts[1..][0] > pos;
    } else {
      LastStartOfContaining(starts[1..], len, p - 1, pos);
    }
  }

  /** Every offset inside a segmented text lies in exactly one cluster. */
  lemma {:induction false} ContainingCluster(starts: seq<nat>, len: nat, pos: nat) returns (p: nat)
    requires Segments(starts, len) && pos < len
    ensures Contains(starts, len, p, pos)
    ensures forall q: nat :: Contains(starts, len, q, pos) ==> q == p
  {
    p := 0;
    while p + 1 < |starts| && starts[p + 1] <= pos
      invariant p < |starts| && starts[p] <= pos
      decreases |starts| - p
    {
      p := p + 1;
    }
  }
}

=== FILE: hex.dfy ===
/**
 * Lower-case hexadecimal formatting as `format!("{:0Nx}", v)` writes it
 * for a value of at most `N` digits, and its inverse.
 */
module Hex {
  /** `16^n`. */
  function Pow16(n: nat): (p: nat)
    ensures p >= 1
  {
    if n == 0 then 1 else 16 * Pow16(n - 1)
  }

  /** The lower-case hex digit for `d`. */
  function HexDigit(d: nat): (c: char)
    requires d < 16
  {
    if d < 10 then ('0' as int + d) as char else ('a' as int + d - 10) as char
  }

  /** The value of a lower-case hex digit. */
  function HexValue(c: char): nat
  {
    if '0' <= c <= '9' then c as nat - '0' as nat
    else if 'a' <= c <= 'f' then c as nat - 'a' as nat + 10
    else 0
  }

  /** A lower-case hex digit. */
  predicate IsHexDigit(c: char)
  {
    '0' <= c <= '9' || 'a' <= c <= 'f'
  }

  /** The `n` lowest hex digits of `v`, most significant first, zero-padded. */
  function HexDigits(v: nat, n: nat): (s: string)
    ensures |s| == n
    ensures forall i :: 0 <= i < |s| ==> IsHexDigit(s[i])
  {
    if n == 0 then [] else HexDigits(v / 16, n - 1) + [HexDigit(v % 16)]
  }

  /** The number a string of hex digits denotes. */
  function ParseHex(s: string): nat
  {
    if s == [] then 0 else ParseHex(s[..|s| - 1]) * 16 + HexValue(s[|s| - 1])
  }

  /** A value below `16^n` is read back from its `n` digits. */
  lemma {:induction false} HexRoundTrip(v: nat, n: nat)
    requires v < Pow16(n)
    ensures ParseHex(HexDigits(v, n)) == v
  {
    if n > 0 {
      HexRoundTrip(v / 16, n - 1);
      var s := HexDigits(v, n);
      assert s[..|s| - 1] == HexDigits(v / 16, n - 1);
    }
  }

  /** `format!("#{:06x}", rgba >> 8)`: the colour without its alpha byte, as six hex digits. */
  function HexColor(rgba: nat): (s: string)
    requires rgba < 0x1_0000_0000
    ensures |s| == 7 && s[0] == '#'
    ensures forall i :: 1 <= i < 7 ==> IsHexDigit(s[i])
    ensures ParseHex(s[1..]) == rgba / 0x100
  {
    var s := "#" + HexDigits(rgba / 0x100, 6);
    assert Pow16(6) == 0x100_0000;
    HexRoundTrip(rgba / 0x100, 6);
    assert s[1..] == HexDigits(rgba / 0x100, 6);
    s
  }
}

=== FILE: line_breaking.dfy ===
/**
 * The greedy line-breaking state machine shared by the Cairo and web
 * backends' `calculate_line_metrics`.
 *
 * The break opportunities of the Unicode line breaking algorithm (UAX #14)
 * and the advance width of a piece of text are inputs: `breaks` is the
 * sequence of `(offset, is_hard)` pairs the break iterator yields, and
 * `advance` measures a string. What is modelled is the bookkeeping of
 * `line_start` and `prev_break` and the spans of the lines it emits.
 */
module LineBreaking {
  import opened Unicode
  import opened PietTypes

  /** One break opportunity: a byte offset and whether the break is mandatory. */
  datatype Break = Break(offset: nat, hard: bool)

  /** The byte range `[start, end)` of one emitted line. */
  datatype Span = Span(start: nat, end: nat)

  /** The text being broken, how it is measured, and the width constraint. */
  datatype Measure = Measure(text: string, advance: string -> real, width: Width)

  /** The loop's variables: `line_start`, `prev_break` and the lines emitted so far. */
  datatype State = State(lineStart: nat, prevBreak: nat, spans: seq<Span>)

  /** `curr_width > width` for the text `text[a..b]`. */
  predicate Wide(m: Measure, a: nat, b: nat)
  {
    Exceeds(m.advance(Slice(m.text, a, b)), m.width)
  }

  /** Break offsets strictly increase, as the break iterator yields them. */
  predicate Increasing(breaks: seq<Break>)
  {
    forall j, k :: 0 <= j < k < |breaks| ==> breaks[j].offset < breaks[k].offset
  }

  /**
   * What the break iterator guarantees for `text`: increasing offsets
   * inside the text, none for the empty text, and for any other text a
   * mandatory break at its end (rule LB3 of UAX #14).
   */
  predicate Opportunities(text: string, breaks: seq<Break>)
  {
    && Increasing(breaks)
    && (forall j :: 0 <= j < |breaks| ==> breaks[j].offset <= ByteLen(text))
    && (text == [] ==> breaks == [])
    && (text != [] ==> |breaks| > 0 && breaks[|breaks| - 1] == Break(ByteLen(text), true))
  }

  /**
   * The lines one iteration emits for break `b`. A soft break that fits
   * emits nothing; one that makes the pending line too wide emits the line up
   * to `prev_break` (or, if there is none, up to `b` itself) and then the run
   * from there to `b` when that run alone is too wide. A hard break emits the
   * pending line, first split at `prev_break` when it is too wide.
   */
  function Emitted(m: Measure, st: State, b: Break): seq<Span>
  {
    if !b.hard then
      if Wide(m, st.lineStart, b.offset) then
        var pb := if st.prevBreak == st.lineStart then b.offset else st.prevBreak;
        [Span(st.lineStart, pb)] + (if Wide(m, pb, b.offset) then [Span(pb, b.offset)] else [])
      else []
    else if Wide(m, st.lineStart, b.offset) && st.prevBreak != st.lineStart then
      [Span(st.lineStart, st.prevBreak), Span(st.prevBreak, b.offset)]
    else
      [Span(st.lineStart, b.offset)]
  }

  /** `line_start` after the iteration for break `b`. */
  function NextLineStart(m: Measure, st: State, b: Break): nat
  {
    if !b.hard then
      if Wide(m, st.lineStart, b.offset) then
        var pb := if st.prevBreak == st.lineStart then b.offset else st.prevBreak;
        if Wide(m, pb, b.offset) then b.offset else pb
      else st.lineStart
    else b.offset
  }

  /** One iteration of the loop over break opportunities; `prev_break` always becomes `b`. */
  function Step(m: Measure, st: State, b: Break): State
  {
    State(NextLineStart(m, st, b), b.offset, st.spans + Emitted(m, st, b))
  }

  /** The state after the loop has consumed `breaks`, starting from `line_start = prev_break = 0`. */
  function Run(m: Measure, breaks: seq<Break>): State
  {
    if breaks == [] then State(0, 0, [])
    else Step(m, Run(m, breaks[..|breaks| - 1]), breaks[|breaks| - 1])
  }

  /** A soft break at which the pending line still fits only moves `prev_break`. */
  lemma StepSoftFits(m: Measure, st: State, b: Break)
    requires !b.hard && !Wide(m, st.lineStart, b.offset)
    ensures Step(m, st, b) == State(st.lineStart, b.offset, st.spans)
  {
    assert st.spans + [] == st.spans;
  }

  /**
   * A soft break that makes the pending line too wide closes it at `pb`, and
   * when the run from `pb` on is too wide as well, closes that run too.
   */
  lemma StepSoftWide(m: Measure, st: State, b: Break, pb: nat)
    requires !b.hard && Wide(m, st.lineStart, b.offset)
    requires pb == if st.prevBreak == st.lineStart then b.offset else st.prevBreak
    ensures Wide(m, pb, b.offset) ==>
      Step(m, st, b) == State(b.offset, b.offset, st.spans + [Span(st.lineStart, pb)] + [Span(pb, b.offset)])
    ensures !Wide(m, pb, b.offset) ==>
      Step(m, st, b) == State(pb, b.offset, st.spans + [Span(st.lineStart, pb)])
  {
    if Wide(m, pb, b.offset) {
      assert Emitted(m, st, b) == [Span(st.lineStart, pb), Span(pb, b.offset)];
      assert st.spans + [Span(st.lineStart, pb)] + [Span(pb, b.offset)] == st.spans + Emitted(m, st, b);
    } else {
      assert Emitted(m, st, b) == [Span(st.lineStart, pb)];
    }
  }

  /** A hard break closes the pending line at the break, first splitting it at `prev_break` if it is too wide. */
  lemma StepHard(m: Measure, st: State, b: Break)
    requires b.hard
    ensures Wide(m, st.lineStart, b.offset) && st.prevBreak != st.lineStart ==>
      Step(m, st, b) == State(b.offset, b.offset,
        st.spans + [Span(st.lineStart, st.prevBreak)] + [Span(st.prevBreak, b.offset)])
    ensures !(Wide(m, st.lineStart, b.offset) && st.prevBreak != st.lineStart) ==>
      Step(m, st, b) == State(b.offset, b.offset, st.spans + [Span(st.lineStart, b.offset)])
  {
    if Wide(m, st.lineStart, b.offset) && st.prevBreak != st.lineStart {
      assert st.spans + [Span(st.lineStart, st.prevBreak)] + [Span(st.prevBreak, b.offset)]
        == st.spans + Emitted(m, st, b);
    }
  }

  /** Consuming one more break is one more `Step`. */
  lemma RunSnoc(m: Measure, breaks: seq<Break>, i: nat)
    requires i < |breaks|
    ensures Run(m, breaks[..i + 1]) == Step(m, Run(m, breaks[..i]), breaks[i])
  {
    assert breaks[..i + 1][..i] == breaks[..i];
  }

  /** The lines `calculate_line_metrics` emits while consuming `breaks`. */
  function Spans(m: Measure, breaks: seq<Break>): seq<Span>
  {
    Run(m, breaks).spans
  }

  /** The end offset of the last span, or 0 when there is none. */
  function LastEnd(spans: seq<Span>): nat
  {
    if spans == [] then 0 else spans[|spans| - 1].end
  }

  /** The first line starts at 0, each line starts where the previous ended, and none is reversed. */
  predicate Contiguous(spans: seq<Span>)
  {
    && (|spans| > 0 ==> spans[0].start == 0)
    && (forall k :: 0 <= k < |spans| ==> spans[k].start <= spans[k].end)
    && (forall k :: 0 < k < |spans| ==> spans[k].start == spans[k - 1].end)
  }

  /** `o` is the offset of one of the first `n` break opportunities. */
  predicate ReportedBefore(breaks: seq<Break>, n: nat, o: nat)
  {
    exists j :: 0 <= j < n && j < |breaks| && breaks[j].offset == o
  }

  /** Some line ends exactly at `o`. */
  predicate EndsLine(spans: seq<Span>, o: nat)
  {
    exists k :: 0 <= k < |spans| && spans[k].end == o
  }

  /** No break opportunity lies strictly inside `(a, b)`: the text between is one unbreakable word. */
  predicate NoBreakWithin(breaks: seq<Break>, a: nat, b: nat)
  {
    forall j :: 0 <= j < |breaks| ==> !(a < breaks[j].offset < b)
  }

  /** A line closed at soft break `j` could not have been extended to the next break. */
  predicate ClosedWhenWide(m: Measure, breaks: seq<Break>, s: Span)
  {
    forall j :: 0 <= j < |breaks| && breaks[j].offset == s.end && !breaks[j].hard ==>
      Wide(m, s.start, s.end) || (j + 1 < |breaks| && Wide(m, s.start, breaks[j + 1].offset))
  }

  /** Every line ends at one of the first `n` break opportunities. */
  predicate AllReported(breaks: seq<Break>, n: nat, spans: seq<Span>)
  {
    forall k :: 0 <= k < |spans| ==> ReportedBefore(breaks, n, spans[k].end)
  }

  /** Every line fits the width or is a single unbreakable word. */
  predicate AllFitOrWord(m: Measure, breaks: seq<Break>, spans: seq<Span>)
  {
    forall k :: 0 <= k < |spans| ==>
      !Wide(m, spans[k].start, spans[k].end) || NoBreakWithin(breaks, spans[k].start, spans[k].end)
  }

  /** Every line that ends at a soft break was closed because it could not grow. */
  predicate AllClosedWhenWide(m: Measure, breaks: seq<Break>, spans: seq<Span>)
  {
    forall k :: 0 <= k < |spans| ==> ClosedWhenWide(m, breaks, spans[k])
  }

  /** Each of the first `n` opportunities that is a hard break ends a line. */
  predicate HardBreaksEnd(breaks: seq<Break>, n: nat, spans: seq<Span>)
  {
    forall j :: 0 <= j < n && j < |breaks| && breaks[j].hard ==> EndsLine(spans, breaks[j].offset)
  }

  /** `prev_break` after the first `i` iterations. */
  function PrevOffset(breaks: seq<Break>, i: nat): nat
  {
    if i == 0 || i > |breaks| then 0 else breaks[i - 1].offset
  }

  /**
   * The loop variables after the first `i` iterations: `line_start` is where
   * the last line ended, `prev_break` is the last opportunity seen, and the
   * pending text between them fits unless it is empty.
   */
  predicate Core(m: Measure, breaks: seq<Break>, i: nat, st: State)
  {
    && i <= |breaks|
    && st.lineStart <= st.prevBreak
    && st.prevBreak == PrevOffset(breaks, i)
    && Contiguous(st.spans)
    && st.lineStart == LastEnd(st.spans)
    && (st.lineStart == st.prevBreak || !Wide(m, st.lineStart, st.prevBreak))
  }

  /** What holds of the state after the first `i` iterations. */
  predicate Inv(m: Measure, breaks: seq<Break>, i: nat, st: State)
  {
    && Core(m, breaks, i, st)
    && AllReported(breaks, i, st.spans)
    && AllFitOrWord(m, breaks, st.spans)
    && AllClosedWhenWide(m, breaks, st.spans)
    && HardBreaksEnd(breaks, i, st.spans)
  }

  /** Earlier opportunities lie at or below `prev_break`, which lies below the current one. */
  lemma PrefixBelow(breaks: seq<Break>, i: nat, j: nat)
    requires Increasing(breaks)
    requires j < i < |breaks|
    ensures breaks[j].offset <= breaks[i - 1].offset < breaks[i].offset
  {
  }

  /** Between `prev_break` and the current break there is no other opportunity. */
  lemma Adjacent(breaks: seq<Break>, i: nat)
    requires Increasing(breaks)
    requires i < |breaks|
    ensures PrevOffset(breaks, i) <= breaks[i].offset
    ensures NoBreakWithin(breaks, PrevOffset(breaks, i), breaks[i].offset)
  {
    if i > 0 { PrefixBelow(breaks, i, i - 1); }
    forall j | 0 <= j < |breaks|
      ensures !(PrevOffset(breaks, i) < breaks[j].offset < breaks[i].offset)
    {
      if j < i { PrefixBelow(breaks, i, j); }
    }
  }

  /** Only break `i` lies at offset `breaks[i].offset`. */
  lemma OnlyAt(breaks: seq<Break>, i: nat, j: nat)
    requires Increasing(breaks)
    requires i < |breaks| && j < |breaks| && breaks[j].offset == breaks[i].offset
    ensures j == i
  {
  }

  lemma AppendContiguous(spans: seq<Span>, e: seq<Span>)
    requires Contiguous(spans) && ContiguousFrom(e, LastEnd(spans))
    ensures Contiguous(spans + e)
    ensures LastEnd(spans + e) == (if e == [] then LastEnd(spans) else e[|e| - 1].end)
  {
  }

  /** `e` is contiguous and starts at `from`. */
  predicate ContiguousFrom(e: seq<Span>, from: nat)
  {
    && (|e| > 0 ==> e[0].start == from)
    && (forall k :: 0 <= k < |e| ==> e[k].start <= e[k].end)
    && (forall k :: 0 < k < |e| ==> e[k].start == e[k - 1].end)
  }

  lemma AppendReported(breaks: seq<Break>, n: nat, spans: seq<Span>, e: seq<Span>)
    requires AllReported(breaks, n, spans) && AllReported(breaks, n + 1, e)
    ensures AllReported(breaks, n + 1, spans + e)
  {
    forall k | 0 <= k < |spans + e|
      ensures ReportedBefore(breaks, n + 1, (spans + e)[k].end)
    {
      if k < |spans| {
        var j :| 0 <= j < n && j < |breaks| && breaks[j].offset == spans[k].end;
        assert (spans + e)[k] == spans[k];
      } else {
        assert (spans + e)[k] == e[k - |spans|];
      }
    }
  }

  lemma AppendFitOrWord(m: Measure, breaks: seq<Break>, spans: seq<Span>, e: seq<Span>)
    requires AllFitOrWord(m, breaks, spans) && AllFitOrWord(m, breaks, e)
    ensures AllFitOrWord(m, breaks, spans + e)
  {
    forall k | 0 <= k < |spans + e|
      ensures !Wide(m, (spans + e)[k].start, (spans + e)[k].end)
        || NoBreakWithin(breaks, (spans + e)[k].start, (spans + e)[k].end)
    {
      if k >= |spans| { assert (spans + e)[k] == e[k - |spans|]; }
    }
  }

  lemma AppendClosed(m: Measure, breaks: seq<Break>, spans: seq<Span>, e: seq<Span>)
    requires AllClosedWhenWide(m, breaks, spans) && AllClosedWhenWide(m, breaks, e)
    ensures AllClosedWhenWide(m, breaks, spans + e)
  {
    forall k | 0 <= k < |spans + e|
      ensures ClosedWhenWide(m, breaks, (spans + e)[k])
    {
      if k >= |spans| { assert (spans + e)[k] == e[k - |spans|]; }
    }
  }

  lemma AppendHard(breaks: seq<Break>, i: nat, spans: seq<Span>, e: seq<Span>)
    requires Increasing(breaks) && i < |breaks|
    requires HardBreaksEnd(breaks, i, spans)
    requires breaks[i].hard ==> |e| > 0 && e[|e| - 1].end == breaks[i].offset
    ensures HardBreaksEnd(breaks, i + 1, spans + e)
  {
    forall j | 0 <= j < i + 1 && j < |breaks| && breaks[j].hard
      ensures EndsLine(spans + e, breaks[j].offset)
    {
      if j < i {
        var k :| 0 <= k < |spans| && spans[k].end == breaks[j].offset;
        assert (spans + e)[k] == spans[k];
      } else {
        assert (spans + e)[|spans| + |e| - 1] == e[|e| - 1];
      }
    }
  }

  /** What each emitted line satisfies on its own, once the first `n` opportunities are consumed. */
  predicate SpanOk(m: Measure, breaks: seq<Break>, n: nat, s: Span)
  {
    && s.start <= s.end
    && ReportedBefore(breaks, n, s.end)
    && (!Wide(m, s.start, s.end) || NoBreakWithin(breaks, s.start, s.end))
    && ClosedWhenWide(m, breaks, s)
  }

  /** One good line starting at `from`. */
  lemma SingleOk(m: Measure, breaks: seq<Break>, n: nat, s: Span, from: nat)
    requires SpanOk(m, breaks, n, s) && s.start == from
    ensures var e := [s];
      && ContiguousFrom(e, from) && AllReported(breaks, n, e)
      && AllFitOrWord(m, breaks, e) && AllClosedWhenWide(m, breaks, e)
  {
  }

  /** Two good lines, the second starting where the first ends. */
  lemma PairOk(m: Measure, breaks: seq<Break>, n: nat, s: Span, t: Span, from: nat)
    requires SpanOk(m, breaks, n, s) && SpanOk(m, breaks, n, t) && s.start == from && t.start == s.end
    ensures var e := [s, t];
      && ContiguousFrom(e, from) && AllReported(breaks, n, e)
      && AllFitOrWord(m, breaks, e) && AllClosedWhenWide(m, breaks, e)
  {
  }

  /** A soft break that makes the pending line too wide: the line up to `prev_break` (or to the break). */
  lemma SoftWideFirst(m: Measure, breaks: seq<Break>, i: nat, st: State, pb: nat)
    requires Increasing(breaks) && i < |breaks| && Core(m, breaks, i, st)
    requires !breaks[i].hard && Wide(m, st.lineStart, breaks[i].offset)
    requires pb == if st.prevBreak == st.lineStart then breaks[i].offset else st.prevBreak
    ensures SpanOk(m, breaks, i + 1, Span(st.lineStart, pb))
  {
    Adjacent(breaks, i);
    var first := Span(st.lineStart, pb);
    assert ReportedBefore(breaks, i + 1, pb) by {
      if st.prevBreak != st.lineStart {
        assert breaks[i - 1].offset == pb;
      } else {
        assert breaks[i].offset == pb;
      }
    }
    assert ClosedWhenWide(m, breaks, first) by {
      forall j | 0 <= j < |breaks| && breaks[j].offset == first.end && !breaks[j].hard
        ensures Wide(m, first.start, first.end) || (j + 1 < |breaks| && Wide(m, first.start, breaks[j + 1].offset))
      {
        if st.prevBreak != st.lineStart {
          OnlyAt(breaks, i - 1, j);
        }
      }
    }
  }

  /** The run from `prev_break` to a soft break, emitted when it alone is too wide. */
  lemma SoftWideSecond(m: Measure, breaks: seq<Break>, i: nat, st: State, pb: nat)
    requires Increasing(breaks) && i < |breaks| && Core(m, breaks, i, st)
    requires pb == if st.prevBreak == st.lineStart then breaks[i].offset else st.prevBreak
    requires Wide(m, pb, breaks[i].offset)
    ensures SpanOk(m, breaks, i + 1, Span(pb, breaks[i].offset))
  {
    Adjacent(breaks, i);
    assert ReportedBefore(breaks, i + 1, breaks[i].offset);
  }

  /** The lines emitted for a soft break that makes the pending line too wide. */
  lemma SoftWideEmitted(m: Measure, breaks: seq<Break>, i: nat, st: State)
    requires Increasing(breaks) && i < |breaks| && Core(m, breaks, i, st)
    requires !breaks[i].hard && Wide(m, st.lineStart, breaks[i].offset)
    ensures var e := Emitted(m, st, breaks[i]);
      && ContiguousFrom(e, st.lineStart)
      && |e| > 0 && NextLineStart(m, st, breaks[i]) == e[|e| - 1].end
      && AllReported(breaks, i + 1, e)
      && AllFitOrWord(m, breaks, e)
      && AllClosedWhenWide(m, breaks, e)
  {
    var b := breaks[i];
    var pb := if st.prevBreak == st.lineStart then b.offset else st.prevBreak;
    SoftWideFirst(m, breaks, i, st, pb);
    if Wide(m, pb, b.offset) {
      SoftWideSecond(m, breaks, i, st, pb);
      PairOk(m, breaks, i + 1, Span(st.lineStart, pb), Span(pb, b.offset), st.lineStart);
      assert Emitted(m, st, b) == [Span(st.lineStart, pb), Span(pb, b.offset)];
    } else {
      SingleOk(m, breaks, i + 1, Span(st.lineStart, pb), st.lineStart);
      assert Emitted(m, st, b) == [Span(st.lineStart, pb)];
    }
  }

  /** A hard break ending a line that is too wide: the part up to `prev_break`. */
  lemma HardSplitFirst(m: Measure, breaks: seq<Break>, i: nat, st: State)
    requires Increasing(breaks) && i < |breaks| && Core(m, breaks, i, st)
    requires breaks[i].hard && Wide(m, st.lineStart, breaks[i].offset) && st.prevBreak != st.lineStart
    ensures SpanOk(m, breaks, i + 1, Span(st.lineStart, st.prevBreak))
  {
    Adjacent(breaks, i);
    var first := Span(st.lineStart, st.prevBreak);
    assert ReportedBefore(breaks, i + 1, first.end) by { assert breaks[i - 1].offset == first.end; }
    assert ClosedWhenWide(m, breaks, first) by {
      forall j | 0 <= j < |breaks| && breaks[j].offset == first.end && !breaks[j].hard
        ensures j + 1 < |breaks| && Wide(m, first.start, breaks[j + 1].offset)
      {
        OnlyAt(breaks, i - 1, j);
      }
    }
  }

  /** The line a hard break closes, from `start` (`line_start`, or `prev_break` after a split). */
  lemma HardLast(m: Measure, breaks: seq<Break>, i: nat, st: State, start: nat)
    requires Increasing(breaks) && i < |breaks| && Core(m, breaks, i, st)
    requires breaks[i].hard
    requires start == if Wide(m, st.lineStart, breaks[i].offset) && st.prevBreak != st.lineStart
      then st.prevBreak else st.lineStart
    ensures SpanOk(m, breaks, i + 1, Span(start, breaks[i].offset))
  {
    Adjacent(breaks, i);
    var last := Span(start, breaks[i].offset);
    assert ReportedBefore(breaks, i + 1, last.end) by { assert breaks[i].offset == last.end; }
    assert ClosedWhenWide(m, breaks, last) by {
      forall j | 0 <= j < |breaks| && breaks[j].offset == last.end
        ensures j == i
      {
        OnlyAt(breaks, i, j);
      }
    }
  }

  /** The lines emitted for a hard break: the last of them ends at the break. */
  lemma HardEmitted(m: Measure, breaks: seq<Break>, i: nat, st: State)
    requires Increasing(breaks) && i < |breaks| && Core(m, breaks, i, st)
    requires breaks[i].hard
    ensures var e := Emitted(m, st, breaks[i]);
      && ContiguousFrom(e, st.lineStart)
      && |e| > 0 && e[|e| - 1].end == breaks[i].offset
      && AllReported(breaks, i + 1, e)
      && AllFitOrWord(m, breaks, e)
      && AllClosedWhenWide(m, breaks, e)
  {
    var b := breaks[i];
    if Wide(m, st.lineStart, b.offset) && st.prevBreak != st.lineStart {
      HardSplitFirst(m, breaks, i, st);
      HardLast(m, breaks, i, st, st.prevBreak);
      PairOk(m, breaks, i + 1, Span(st.lineStart, st.prevBreak), Span(st.prevBreak, b.offset), st.lineStart);
    } else {
      HardLast(m, breaks, i, st, st.lineStart);
      SingleOk(m, breaks, i + 1, Span(st.lineStart, b.offset), st.lineStart);
    }
  }

  lemma {:induction false} StepInv(m: Measure, breaks: seq<Break>, i: nat, st: State)
    requires Increasing(breaks)
    requires i < |breaks|
    requires Inv(m, breaks, i, st)
    ensures Inv(m, breaks, i + 1, Step(m, st, breaks[i]))
  {
    var b := breaks[i];
    var e := Emitted(m, st, b);
    Adjacent(breaks, i);
    if !b.hard && !Wide(m, st.lineStart, b.offset) {
      assert e == [];
      assert st.spans + e == st.spans;
    } else if !b.hard {
      SoftWideEmitted(m, breaks, i, st);
    } else {
      HardEmitted(m, breaks, i, st);
    }
    AppendContiguous(st.spans, e);
    AppendReported(breaks, i, st.spans, e);
    AppendFitOrWord(m, breaks, st.spans, e);
    AppendClosed(m, breaks, st.spans, e);
    AppendHard(breaks, i, st.spans, e);
  }

  /** The invariant holds after every prefix of the break sequence. */
  lemma {:induction false} RunInv(m: Measure, breaks: seq<Break>, i: nat)
    requires Increasing(breaks)
    requires i <= |breaks|
    ensures Inv(m, breaks, i, Run(m, breaks[..i]))
  {
    if i == 0 {
      assert breaks[..0] == [];
    } else {
      RunInv(m, breaks, i - 1);
      assert breaks[..i][..i - 1] == breaks[..i - 1];
      StepInv(m, breaks, i - 1, Run(m, breaks[..i - 1]));
    }
  }

  /**
   * The lines of `calculate_line_metrics`: contiguous from offset 0, each
   * ending at a reported break; every hard break ends a line; every line
   * either fits the width or is a single unbreakable word; and a line ends at
   * a soft break only when it is too wide or extending it to the next break
   * would make it too wide.
   */
  lemma SpansProperties(m: Measure, breaks: seq<Break>)
    requires Increasing(breaks)
    ensures var spans := Spans(m, breaks);
      && Contiguous(spans)
      && (forall k :: 0 <= k < |spans| ==> ReportedBefore(breaks, |breaks|, spans[k].end))
      && (forall j :: 0 <= j < |breaks| && breaks[j].hard ==> EndsLine(spans, breaks[j].offset))
      && (forall k :: 0 <= k < |spans| ==>
            !Wide(m, spans[k].start, spans[k].end) || NoBreakWithin(breaks, spans[k].start, spans[k].end))
      && (forall k :: 0 <= k < |spans| ==> ClosedWhenWide(m, breaks, spans[k]))
  {
    RunInv(m, breaks, |breaks|);
    assert breaks[..|breaks|] == breaks;
  }

  /**
   * After the loop, `line_start` is where the last line ended, and when the
   * final opportunity is a hard break the last line ends exactly there.
   */
  lemma FinalLineStart(m: Measure, breaks: seq<Break>)
    requires Increasing(breaks)
    ensures Run(m, breaks).lineStart == LastEnd(Spans(m, breaks))
    ensures |breaks| > 0 && breaks[|breaks| - 1].hard ==>
      |Spans(m, breaks)| > 0 && LastEnd(Spans(m, breaks)) == breaks[|breaks| - 1].offset
  {
    RunInv(m, breaks, |breaks|);
    assert breaks[..|breaks|] == breaks;
  }

  /** The byte ranges of laid-out lines. */
  function LineRanges(lines: seq<LineMetric>): (r: seq<Span>)
    ensures |r| == |lines|
  {
    if lines == [] then []
    else LineRanges(lines[..|lines| - 1]) + [Span(lines[|lines| - 1].startOffset, lines[|lines| - 1].endOffset)]
  }

  /** Range `k` is the byte range of line `k`. */
  lemma {:induction false} LineRangesAt(lines: seq<LineMetric>, k: nat)
    requires k < |lines|
    ensures LineRanges(lines)[k] == Span(lines[k].startOffset, lines[k].endOffset)
  {
    if k < |lines| - 1 {
      LineRangesAt(lines[..|lines| - 1], k);
    }
  }

  /** Appending a line appends its range. */
  lemma AppendLineRanges(lines: seq<LineMetric>, x: LineMetric)
    ensures LineRanges(lines + [x]) == LineRanges(lines) + [Span(x.startOffset, x.endOffset)]
  {
    assert (lines + [x])[..|lines|] == lines;
  }

  /** `line.chars().rev().take_while(|c| c.is_whitespace()).count()`. */
  function CountTrailingWhitespace(line: string): (n: nat)
    ensures n <= |line|
    ensures forall i :: |line| - n <= i < |line| ==> IsWhitespace(line[i])
    ensures n < |line| ==> !IsWhitespace(line[|line| - 1 - n])
  {
    if line == [] || !IsWhitespace(line[|line| - 1]) then 0
    else 1 + CountTrailingWhitespace(line[..|line| - 1])
  }

  /**
   * `count_trailing_whitespace` of the web backend: the UTF-8 lengths of the
   * trailing whitespace characters, summed.
   */
  function TrailingWhitespaceBytes(line: string): nat
  {
    if line == [] || !IsWhitespace(line[|line| - 1]) then 0
    else TrailingWhitespaceBytes(line[..|line| - 1]) + Utf8Len(line[|line| - 1])
  }

  /** It is the UTF-8 length of the whitespace suffix that the character count delimits. */
  lemma {:induction false} TrailingBytesOfSuffix(line: string)
    ensures TrailingWhitespaceBytes(line) == ByteLen(line[|line| - CountTrailingWhitespace(line)..])
  {
    if line == [] || !IsWhitespace(line[|line| - 1]) {
      assert line[|line|..] == [];
    } else {
      var init, c := line[..|line| - 1], line[|line| - 1];
      var k := CountTrailingWhitespace(init);
      var run := init[|init| - k..];
      assert CountTrailingWhitespace(line) == k + 1;
      assert line[|line| - (k + 1)..] == run + [c];
      TrailingBytesOfSuffix(init);
      ByteLenAppend(run, [c]);
      assert ByteLen([c]) == Utf8Len(c);
    }
  }

  /** Counted in bytes, the trailing whitespace is at least as long as in characters, and equal on ASCII text. */
  lemma {:induction false} TrailingBytesAtLeastChars(line: string)
    ensures TrailingWhitespaceBytes(line) >= CountTrailingWhitespace(line)
    ensures IsAscii(line) ==> TrailingWhitespaceBytes(line) == CountTrailingWhitespace(line)
  {
    if line != [] && IsWhitespace(line[|line| - 1]) {
      TrailingBytesAtLeastChars(line[..|line| - 1]);
    }
  }
}

=== FILE: mondrian.dfy ===
/**
 * The Mondrian example of piet-common (piet-common/examples/mondrian.rs):
 * a picture made by splitting a rectangle about random points, colouring
 * a few of the pieces and painting them. The random numbers are inputs:
 * `gens` are the point draws of the splitting rounds, `draw(round, k)`
 * the coin draws for the `k`-th rectangle of a round, and `counts` the
 * sampled number of rectangles of each colour.
 */
module Mondrian {
  import opened PietTypes
  import Colors

  /** Canvas size and pixel density of `main`. */
  const WIDTH: nat := 1920
  const HEIGHT: nat := 1080
  const DPI: real := 96.0

  /** The settings of the generator (`struct Mondrian`). */
  datatype Config = Config(
    splitCount: nat,
    border: real,
    minGap: real,
    skipProb: real,
    colorProportion: real,
    strokeWidth: real,
    colors: seq<Colors.Color>,
    white: Colors.Color)

  /** `((width + height) as f64 * 0.5 * 0.02) as usize`. */
  function SplitCountFor(width: nat, height: nat): (n: nat)
    ensures n as real <= (width + height) as real * 0.01 < n as real + 1.0
  {
    ((width + height) as real * 0.5 * 0.02).Floor
  }

  /** `Color::rgb8`. */
  function Rgb8(r: Byte, g: Byte, b: Byte): Colors.Color {
    Colors.FromRgba32(Colors.Pack(r, g, b, 0xff))
  }

  /** The settings `main` uses. */
  const MAIN_CONFIG: Config := Config(
    SplitCountFor(WIDTH, HEIGHT), 0.5, 0.3, 0.6, 0.2, 0.1,
    [Colors.BLACK, Rgb8(19, 86, 162), Rgb8(247, 216, 66), Rgb8(212, 9, 32)],
    Rgb8(242, 245, 241))

  /** `ColorRect`. */
  datatype ColorRect = ColorRect(color: Colors.Color, rect: Rect)

  /** The coin draws one rectangle may use in a round: one for the x split, one for each y split. */
  datatype Draws = Draws(x: real, y0: real, y1: real)

  /** A draw lets a split through when it is at most `1 - skip_prob`. */
  predicate Allows(draw: real, skipProb: real) {
    draw <= 1.0 - skipProb
  }

  // ---------------------------------------------------------------------
  // Splitting

  /**
   * `intersect_x`: two pieces, cut at `x`, when `x` is more than `min_gap`
   * inside both vertical edges and the draw allows it; the rectangle
   * itself otherwise. Pieces keep the colour and the y-range.
   */
  function IntersectX(cr: ColorRect, x: real, minGap: real, draw: real, skipProb: real): (parts: seq<ColorRect>)
    ensures |parts| == 1 || |parts| == 2
    ensures |parts| == 2 <==> cr.rect.x0 + minGap < x < cr.rect.x1 - minGap && Allows(draw, skipProb)
    ensures |parts| == 1 ==> parts[0] == cr
    ensures forall k :: 0 <= k < |parts| ==>
              parts[k].color == cr.color && parts[k].rect.y0 == cr.rect.y0 && parts[k].rect.y1 == cr.rect.y1
    ensures |parts| == 2 ==> (&& parts[0].rect.x0 == cr.rect.x0 && parts[0].rect.x1 == x
                              && parts[1].rect.x0 == x && parts[1].rect.x1 == cr.rect.x1
                              && parts[0].rect.x1 - parts[0].rect.x0 > minGap
                              && parts[1].rect.x1 - parts[1].rect.x0 > minGap)
  {
    var r := cr.rect;
    if r.x0 + minGap < x && x < r.x1 - minGap && Allows(draw, skipProb) then
      [ColorRect(cr.color, Rect(r.x0, r.y0, x, r.y1)), ColorRect(cr.color, Rect(x, r.y0, r.x1, r.y1))]
    else
      [cr]
  }

  /** `intersect_y`: the same rule about the horizontal line at `y`. */
  function IntersectY(cr: ColorRect, y: real, minGap: real, draw: real, skipProb: real): (parts: seq<ColorRect>)
    ensures |parts| == 1 || |parts| == 2
    ensures |parts| == 2 <==> cr.rect.y0 + minGap < y < cr.rect.y1 - minGap && Allows(draw, skipProb)
    ensures |parts| == 1 ==> parts[0] == cr
    ensures forall k :: 0 <= k < |parts| ==>
              parts[k].color == cr.color && parts[k].rect.x0 == cr.rect.x0 && parts[k].rect.x1 == cr.rect.x1
    ensures |parts| == 2 ==> (&& parts[0].rect.y0 == cr.rect.y0 && parts[0].rect.y1 == y
                              && parts[1].rect.y0 == y && parts[1].rect.y1 == cr.rect.y1
                              && parts[0].rect.y1 - parts[0].rect.y0 > minGap
                              && parts[1].rect.y1 - parts[1].rect.y0 > minGap)
  {
    var r := cr.rect;
    if r.y0 + minGap < y && y < r.y1 - minGap && Allows(draw, skipProb) then
      [ColorRect(cr.color, Rect(r.x0, r.y0, r.x1, y)), ColorRect(cr.color, Rect(r.x0, y, r.x1, r.y1))]
    else
      [cr]
  }

  /** `intersect`: the pieces of `intersect_x`, each split by `intersect_y`. */
  function Intersect(cr: ColorRect, p: Point, minGap: real, d: Draws, skipProb: real): (parts: seq<ColorRect>)
    ensures 1 <= |parts| <= 4
    ensures forall k :: 0 <= k < |parts| ==> parts[k].color == cr.color
  {
    var xs := IntersectX(cr, p.x, minGap, d.x, skipProb);
    IntersectY(xs[0], p.y, minGap, d.y0, skipProb)
      + (if |xs| == 2 then IntersectY(xs[1], p.y, minGap, d.y1, skipProb) else [])
  }

  /** One round of `generate`: every rectangle replaced by its `intersect` pieces, in order. */
  function SplitAll(rects: seq<ColorRect>, p: Point, minGap: real, skipProb: real, draws: seq<Draws>)
    : (out: seq<ColorRect>)
    requires |draws| == |rects|
    ensures |rects| <= |out| <= 4 * |rects|
  {
    if rects == [] then []
    else
      var n := |rects| - 1;
      SplitAll(rects[..n], p, minGap, skipProb, draws[..n]) + Intersect(rects[n], p, minGap, draws[n], skipProb)
  }

  /** Every rectangle of the list has colour `c`. */
  predicate AllColoured(rects: seq<ColorRect>, c: Colors.Color) {
    forall k :: 0 <= k < |rects| ==> rects[k].color == c
  }

  /** A round keeps a single colour shared by all rectangles. */
  lemma {:induction false} SplitAllKeepsColour(rects: seq<ColorRect>, p: Point, minGap: real, skipProb: real,
                                               draws: seq<Draws>, c: Colors.Color)
    requires |draws| == |rects| && AllColoured(rects, c)
    ensures AllColoured(SplitAll(rects, p, minGap, skipProb, draws), c)
  {
    if rects != [] {
      var n := |rects| - 1;
      var front := SplitAll(rects[..n], p, minGap, skipProb, draws[..n]);
      var last := Intersect(rects[n], p, minGap, draws[n], skipProb);
      SplitAllKeepsColour(rects[..n], p, minGap, skipProb, draws[..n], c);
      var out := front + last;
      forall k | 0 <= k < |out|
        ensures out[k].color == c
      {
        if k < |front| {
          assert out[k] == front[k];
        } else {
          assert out[k] == last[k - |front|];
        }
      }
    }
  }

  // ---------------------------------------------------------------------
  // Tiling: every point of a rectangle lies in exactly one of its pieces

  /** Half-open containment of a point in a rectangle. */
  predicate Contains(r: Rect, q: Point) {
    r.x0 <= q.x < r.x1 && r.y0 <= q.y < r.y1
  }

  /** 1 when `q` is in `r`, 0 otherwise. */
  function Indicator(r: Rect, q: Point): nat {
    if Contains(r, q) then 1 else 0
  }

  /** How many rectangles of the list hold `q`. */
  function Hits(rects: seq<ColorRect>, q: Point): (n: nat)
    ensures n <= |rects|
  {
    if rects == [] then 0
    else Hits(rects[..|rects| - 1], q) + Indicator(rects[|rects| - 1].rect, q)
  }

  /** Counting over two lists laid end to end adds up. */
  lemma {:induction false} HitsConcat(a: seq<ColorRect>, b: seq<ColorRect>, q: Point)
    ensures Hits(a + b, q) == Hits(a, q) + Hits(b, q)
  {
    if b != [] {
      var n := |b| - 1;
      assert (a + b)[..|a + b| - 1] == a + b[..n];
      HitsConcat(a, b[..n], q);
    } else {
      assert a + b == a;
    }
  }

  /** Hits of a one- and a two-element list. */
  lemma HitsSmall(a: ColorRect, b: ColorRect, q: Point)
    ensures Hits([a], q) == Indicator(a.rect, q)
    ensures Hits([a, b], q) == Indicator(a.rect, q) + Indicator(b.rect, q)
  {
    assert [a, b][..1] == [a];
    assert [a][..0] == [];
  }

  /** The pieces of `intersect_x` tile the rectangle. */
  lemma IntersectXTiles(cr: ColorRect, x: real, minGap: real, draw: real, skipProb: real, q: Point)
    requires 0.0 <= minGap
    ensures Hits(IntersectX(cr, x, minGap, draw, skipProb), q) == Indicator(cr.rect, q)
  {
    var parts := IntersectX(cr, x, minGap, draw, skipProb);
    if |parts| == 2 {
      HitsSmall(parts[0], parts[1], q);
      assert parts == [parts[0], parts[1]];
    } else {
      HitsSmall(cr, cr, q);
      assert parts == [cr];
    }
  }

  /** The pieces of `intersect_y` tile the rectangle. */
  lemma IntersectYTiles(cr: ColorRect, y: real, minGap: real, draw: real, skipProb: real, q: Point)
    requires 0.0 <= minGap
    ensures Hits(IntersectY(cr, y, minGap, draw, skipProb), q) == Indicator(cr.rect, q)
  {
    var parts := IntersectY(cr, y, minGap, draw, skipProb);
    if |parts| == 2 {
      HitsSmall(parts[0], parts[1], q);
      assert parts == [parts[0], parts[1]];
    } else {
      HitsSmall(cr, cr, q);
      assert parts == [cr];
    }
  }

  /** The 1 to 4 pieces of `intersect` tile the rectangle. */
  lemma IntersectTiles(cr: ColorRect, p: Point, minGap: real, d: Draws, skipProb: real, q: Point)
    requires 0.0 <= minGap
    ensures Hits(Intersect(cr, p, minGap, d, skipProb), q) == Indicator(cr.rect, q)
  {
    var xs := IntersectX(cr, p.x, minGap, d.x, skipProb);
    IntersectXTiles(cr, p.x, minGap, d.x, skipProb, q);
    var first := IntersectY(xs[0], p.y, minGap, d.y0, skipProb);
    var rest := if |xs| == 2 then IntersectY(xs[1], p.y, minGap, d.y1, skipProb) else [];
    HitsConcat(first, rest, q);
    IntersectYTiles(xs[0], p.y, minGap, d.y0, skipProb, q);
    if |xs| == 2 {
      IntersectYTiles(xs[1], p.y, minGap, d.y1, skipProb, q);
      HitsSmall(xs[0], xs[1], q);
      assert xs == [xs[0], xs[1]];
    } else {
      HitsSmall(xs[0], xs[0], q);
      assert xs == [xs[0]];
    }
  }

  /** A round covers every point exactly as often as the rectangles before it. */
  lemma {:induction false} SplitAllTiles(rects: seq<ColorRect>, p: Point, minGap: real, skipProb: real,
                                         draws: seq<Draws>, q: Point)
    requires 0.0 <= minGap && |draws| == |rects|
    ensures Hits(SplitAll(rects, p, minGap, skipProb, draws), q) == Hits(rects, q)
  {
    if rects != [] {
      var n := |rects| - 1;
      var front := SplitAll(rects[..n], p, minGap, skipProb, draws[..n]);
      SplitAllTiles(rects[..n], p, minGap, skipProb, draws[..n], q);
      HitsConcat(front, Intersect(rects[n], p, minGap, draws[n], skipProb), q);
      IntersectTiles(rects[n], p, minGap, draws[n], skipProb, q);
    }
  }

  // ---------------------------------------------------------------------
  // The rounds of `generate`

  /** kurbo's `Rect::inset`: the rectangle, made non-negative, grown by `d` on every side. */
  function Inset(r: Rect, d: real): (out: Rect)
    ensures out.x1 - out.x0 == (if r.x0 <= r.x1 then r.x1 - r.x0 else r.x0 - r.x1) + 2.0 * d
    ensures out.y1 - out.y0 == (if r.y0 <= r.y1 then r.y1 - r.y0 else r.y0 - r.y1) + 2.0 * d
  {
    var x0, x1 := if r.x0 <= r.x1 then r.x0 else r.x1, if r.x0 <= r.x1 then r.x1 else r.x0;
    var y0, y1 := if r.y0 <= r.y1 then r.y0 else r.y1, if r.y0 <= r.y1 then r.y1 else r.y0;
    Rect(x0 - d, y0 - d, x1 + d, y1 + d)
  }

  /** The starting rectangle: the picture shrunk by the border, in white. */
  function Start(cfg: Config, size: Size): (cr: ColorRect)
    ensures cr.color == cfg.white
  {
    ColorRect(cfg.white, Inset(Rect(0.0, 0.0, size.width, size.height), -(cfg.border * DPI)))
  }

  /** The point of a round, from its two draws in `[0, 1)`. */
  function Coord(size: Size, g: (real, real)): Point {
    Point(g.0 * size.width, g.1 * size.height)
  }

  /** The coin draws of round `round` for `n` rectangles. */
  function RoundDraws(round: nat, n: nat, draw: (nat, nat) -> Draws): (ds: seq<Draws>)
    ensures |ds| == n
  {
    seq(n, k requires 0 <= k => draw(round, k))
  }

  /** The round `round` of `generate`, about the point drawn as `g`, on the rectangles `prev`. */
  function NextRound(cfg: Config, size: Size, g: (real, real), round: nat, prev: seq<ColorRect>,
                     draw: (nat, nat) -> Draws): (rects: seq<ColorRect>)
    ensures |prev| <= |rects|
  {
    SplitAll(prev, Coord(size, g), cfg.minGap * DPI, cfg.skipProb, RoundDraws(round, |prev|, draw))
  }

  /** The rectangles after the rounds of `gens`, starting from the one rectangle. */
  function SplitRounds(cfg: Config, size: Size, gens: seq<(real, real)>, draw: (nat, nat) -> Draws)
    : (rects: seq<ColorRect>)
    ensures |rects| >= 1
  {
    if gens == [] then [Start(cfg, size)]
    else
      var n := |gens| - 1;
      NextRound(cfg, size, gens[n], n, SplitRounds(cfg, size, gens[..n], draw), draw)
  }

  /**
   * However the rounds go, the rectangles tile the starting one: each of
   * its points lies in exactly one of them and no other point in any.
   */
  lemma {:induction false} SplitRoundsTile(cfg: Config, size: Size, gens: seq<(real, real)>,
                                           draw: (nat, nat) -> Draws, q: Point)
    requires 0.0 <= cfg.minGap
    ensures Hits(SplitRounds(cfg, size, gens, draw), q) == Indicator(Start(cfg, size).rect, q)
  {
    if gens == [] {
      HitsSmall(Start(cfg, size), Start(cfg, size), q);
    } else {
      var n := |gens| - 1;
      var prev := SplitRounds(cfg, size, gens[..n], draw);
      SplitRoundsTile(cfg, size, gens[..n], draw, q);
      NextRoundTiles(cfg, size, gens[n], n, prev, draw, q);
    }
  }

  /** A round covers every point exactly as often as the rectangles before it. */
  lemma NextRoundTiles(cfg: Config, size: Size, g: (real, real), round: nat, prev: seq<ColorRect>,
                       draw: (nat, nat) -> Draws, q: Point)
    requires 0.0 <= cfg.minGap
    ensures Hits(NextRound(cfg, size, g, round, prev, draw), q) == Hits(prev, q)
  {
    SplitAllTiles(prev, Coord(size, g), cfg.minGap * DPI, cfg.skipProb, RoundDraws(round, |prev|, draw), q);
  }

  /** Splitting colours nothing: after the rounds every rectangle is still white. */
  lemma {:induction false} SplitRoundsWhite(cfg: Config, size: Size, gens: seq<(real, real)>,
                                            draw: (nat, nat) -> Draws)
    ensures AllColoured(SplitRounds(cfg, size, gens, draw), cfg.white)
  {
    if gens != [] {
      var n := |gens| - 1;
      var prev := SplitRounds(cfg, size, gens[..n], draw);
      SplitRoundsWhite(cfg, size, gens[..n], draw);
      SplitAllKeepsColour(prev, Coord(size, gens[n]), cfg.minGap * DPI, cfg.skipProb,
                          RoundDraws(n, |prev|, draw), cfg.white);
    }
  }

  /** The rounds never lose a rectangle: each round ends with at least as many as it began with. */
  lemma RoundsNeverShrink(cfg: Config, size: Size, gens: seq<(real, real)>, draw: (nat, nat) -> Draws, j: nat)
    requires j < |gens|
    ensures |SplitRounds(cfg, size, gens[..j], draw)| <= |SplitRounds(cfg, size, gens[..j + 1], draw)|
  {
    assert gens[..j + 1][..j] == gens[..j];
  }

  // ---------------------------------------------------------------------
  // Colouring

  /** `n` copies of `c`. */
  function Repeat(c: Colors.Color, n: nat): (r: seq<Colors.Color>)
    ensures |r| == n && forall k :: 0 <= k < n ==> r[k] == c
  {
    seq(n, _ => c)
  }

  /** The sum of the counts. */
  function Sum(ns: seq<nat>): nat {
    if ns == [] then 0 else Sum(ns[..|ns| - 1]) + ns[|ns| - 1]
  }

  /** The colours in the order the colouring loop hands them out: `counts[j]` copies of `colors[j]`, in turn. */
  function Expand(colors: seq<Colors.Color>, counts: seq<nat>): (cs: seq<Colors.Color>)
    requires |counts| == |colors|
    ensures |cs| == Sum(counts)
    ensures forall k :: 0 <= k < |cs| ==> cs[k] in colors
  {
    if colors == [] then []
    else
      var n := |colors| - 1;
      var front := Expand(colors[..n], counts[..n]);
      assert forall k :: 0 <= k < |front| ==> front[k] in colors by {
        assert forall c :: c in colors[..n] ==> c in colors;
      }
      front + Repeat(colors[n], counts[n])
  }

  /** `p` is a prefix of `e`. */
  predicate Prefix(p: seq<Colors.Color>, e: seq<Colors.Color>) {
    |p| <= |e| && forall k :: 0 <= k < |p| ==> p[k] == e[k]
  }

  /** The colours of the first `j` palette entries come first among all of them. */
  lemma {:induction false} ExpandPrefix(colors: seq<Colors.Color>, counts: seq<nat>, j: nat)
    requires |counts| == |colors| && j <= |colors|
    ensures Prefix(Expand(colors[..j], counts[..j]), Expand(colors, counts))
    decreases |colors| - j
  {
    if j < |colors| {
      ExpandPrefix(colors, counts, j + 1);
      ExpandStep(colors, counts, j);
    } else {
      assert colors[..j] == colors && counts[..j] == counts;
    }
  }

  /** The colours of the first `j + 1` entries are those of the first `j`, then `counts[j]` of entry `j`. */
  lemma ExpandStep(colors: seq<Colors.Color>, counts: seq<nat>, j: nat)
    requires |counts| == |colors| && j < |colors|
    ensures Expand(colors[..j + 1], counts[..j + 1])
         == Expand(colors[..j], counts[..j]) + Repeat(colors[j], counts[j])
  {
    assert colors[..j + 1][..j] == colors[..j] && counts[..j + 1][..j] == counts[..j];
  }

  /** The rectangles with the first colours handed out, one per rectangle, from the front. */
  function Recolour(rects: seq<ColorRect>, cs: seq<Colors.Color>): (out: seq<ColorRect>)
    ensures |out| == |rects|
  {
    seq(|rects|, k requires 0 <= k < |rects| => if k < |cs| then rects[k].(color := cs[k]) else rects[k])
  }

  /** Colouring changes no rectangle's geometry and paints only palette colours; the rest keep theirs. */
  lemma ColouringUsesPalette(rects: seq<ColorRect>, colors: seq<Colors.Color>, counts: seq<nat>)
    requires |counts| == |colors|
    ensures var out := Recolour(rects, Expand(colors, counts));
      && (forall k :: 0 <= k < |rects| ==> out[k].rect == rects[k].rect)
      && (forall k :: 0 <= k < |rects| ==> out[k].color in colors || out[k] == rects[k])
      && (forall k :: Sum(counts) <= k < |rects| ==> out[k] == rects[k])
  {
  }

  /** Only the first `|rects|` colours matter. */
  lemma RecolourPrefix(rects: seq<ColorRect>, p: seq<Colors.Color>, e: seq<Colors.Color>)
    requires Prefix(p, e) && |rects| <= |p|
    ensures Recolour(rects, p) == Recolour(rects, e)
  {
  }

  /** Handing out one more colour recolours the next rectangle. */
  lemma RecolourStep(rects: seq<ColorRect>, p: seq<Colors.Color>, c: Colors.Color, out: seq<ColorRect>)
    requires |p| < |rects| && out == Recolour(rects, p)
    ensures Recolour(rects, p + [c]) == out[|p| := out[|p|].(color := c)]
  {
  }

  /**
   * The colouring loop of `generate`: palette entry by palette entry, the
   * next `counts[j]` rectangles get colour `j`, stopping (rather than
   * indexing past the end) once every rectangle has been handed one.
   */
  method ColourIn(rects: seq<ColorRect>, colors: seq<Colors.Color>, counts: seq<nat>) returns (out: seq<ColorRect>)
    requires |rects| >= 1 && |counts| == |colors|
    ensures out == Recolour(rects, Expand(colors, counts))
  {
    out := rects;
    var i := 0;
    label done:
    for j := 0 to |colors|
      invariant i == |Expand(colors[..j], counts[..j])| < |out| == |rects|
      invariant out == Recolour(rects, Expand(colors[..j], counts[..j]))
    {
      ghost var front := Expand(colors[..j], counts[..j]);
      for t := 0 to counts[j]
        invariant i == |front| + t < |out| == |rects|
        invariant out == Recolour(rects, front + Repeat(colors[j], t))
      {
        RecolourStep(rects, front + Repeat(colors[j], t), colors[j], out);
        assert front + Repeat(colors[j], t) + [colors[j]] == front + Repeat(colors[j], t + 1);
        out := out[i := out[i].(color := colors[j])];
        i := i + 1;
        if i >= |out| {
          ExpandStep(colors, counts, j);
          ExpandPrefix(colors, counts, j + 1);
          RecolourPrefix(rects, front + Repeat(colors[j], t + 1), Expand(colors, counts));
          break done;
        }
      }
      ExpandStep(colors, counts, j);
    }
    if i < |out| {
      assert colors[..|colors|] == colors && counts[..|counts|] == counts;
    }
  }

  // ---------------------------------------------------------------------
  // Painting

  /** The render-context calls `generate` makes. */
  datatype Call =
    | FillRect(rect: Rect, color: Colors.Color)
    | StrokeRect(rect: Rect, color: Colors.Color, width: real)

  /** Every rectangle filled with its colour, then every one stroked in black, in list order. */
  function Paint(rects: seq<ColorRect>, width: real): (calls: seq<Call>)
  {
    seq(|rects|, k requires 0 <= k < |rects| => FillRect(rects[k].rect, rects[k].color))
      + seq(|rects|, k requires 0 <= k < |rects| => StrokeRect(rects[k].rect, Colors.BLACK, width))
  }

  /** Two passes: all the fills come before all the strokes, so no fill covers a stroke. */
  lemma FillsBeforeStrokes(rects: seq<ColorRect>, width: real)
    ensures var calls := Paint(rects, width);
      && |calls| == 2 * |rects|
      && (forall k :: 0 <= k < |rects| ==> calls[k] == FillRect(rects[k].rect, rects[k].color))
      && (forall k :: |rects| <= k < |calls| ==>
            (calls[k].StrokeRect? && calls[k].color == Colors.BLACK && calls[k].width == width))
  {
  }

  /** The splitting loop of `generate`: one `SplitAll` round per point. */
  method SplitLoop(cfg: Config, size: Size, gens: seq<(real, real)>, draw: (nat, nat) -> Draws)
    returns (rects: seq<ColorRect>)
    ensures rects == SplitRounds(cfg, size, gens, draw)
  {
    rects := [Start(cfg, size)];
    for j := 0 to |gens|
      invariant rects == SplitRounds(cfg, size, gens[..j], draw)
    {
      assert gens[..j + 1][..j] == gens[..j];
      rects := NextRound(cfg, size, gens[j], j, rects, draw);
    }
    assert gens[..|gens|] == gens;
  }

  /** The two painting passes of `generate`. */
  method PaintAll(rects: seq<ColorRect>, width: real) returns (calls: seq<Call>)
    ensures calls == Paint(rects, width)
  {
    calls := [];
    for k := 0 to |rects|
      invariant |calls| == k
      invariant forall m :: 0 <= m < k ==> calls[m] == FillRect(rects[m].rect, rects[m].color)
    {
      calls := calls + [FillRect(rects[k].rect, rects[k].color)];
    }
    for k := 0 to |rects|
      invariant |calls| == |rects| + k
      invariant forall m :: 0 <= m < |rects| ==> calls[m] == FillRect(rects[m].rect, rects[m].color)
      invariant forall m :: 0 <= m < k ==> calls[|rects| + m] == StrokeRect(rects[m].rect, Colors.BLACK, width)
    {
      calls := calls + [StrokeRect(rects[k].rect, Colors.BLACK, width)];
    }
  }

  /**
   * `generate`: split the starting rectangle once per point, colour some
   * of the pieces, and paint them. The rectangles are coloured, filled
   * and stroked in split order (the source shuffles them first).
   */
  method Generate(cfg: Config, size: Size, gens: seq<(real, real)>, draw: (nat, nat) -> Draws, counts: seq<nat>)
    returns (calls: seq<Call>)
    requires |gens| == cfg.splitCount && |counts| == |cfg.colors|
    ensures calls == Paint(Recolour(SplitRounds(cfg, size, gens, draw), Expand(cfg.colors, counts)),
                           cfg.strokeWidth * DPI)
  {
    var rects := SplitLoop(cfg, size, gens, draw);
    rects := ColourIn(rects, cfg.colors, counts);
    calls := PaintAll(rects, cfg.strokeWidth * DPI);
  }
}

=== FILE: pathfinder.dfy ===
/**
 * The Pathfinder backend's render context (piet-pathfinder/src/lib.rs):
 * piet shapes become Pathfinder `Path2D`s, drawing becomes calls on a
 * Pathfinder canvas, and images are `RgbaImage`s of separate-alpha RGBA.
 * The canvas and the paths are modelled by the calls made on them.
 */
module Pathfinder {
  import opened Wrappers
  import opened PietTypes
  import Colors

  /** `f32::consts::PI`, as the `f32` value nearest to π. */
  const PI: real := 3.1415927410125732

  /** A call on a Pathfinder `Path2D`. */
  datatype Path2DOp =
    | MoveToOp(to: Point)
    | LineToOp(to: Point)
    | QuadraticCurveToOp(ctrl: Point, to: Point)
    | BezierCurveToOp(ctrl0: Point, ctrl1: Point, to: Point)
    | RectOp(rect: Rect)
    | EllipseOp(center: Point, axes: Point, rotation: real, startAngle: real, endAngle: real)

  /** A Pathfinder `Path2D`, as the calls that built it. */
  class Path2D {
    var ops: seq<Path2DOp>

    /** `Path2D::new`. */
    constructor ()
      ensures ops == []
    {
      ops := [];
    }

    /** One call on the path: `op` is appended. */
    method Push(op: Path2DOp)
      modifies this
      ensures ops == old(ops) + [op]
    {
      ops := ops + [op];
    }
  }

  /** The point of the last `MoveTo` among `els`, or the origin when there is none. */
  function LastMoveTo(els: seq<PathEl>): (p: Point)
    ensures (forall i :: 0 <= i < |els| ==> !els[i].MoveTo?) ==> p == Point(0.0, 0.0)
    ensures (exists i :: 0 <= i < |els| && els[i].MoveTo?) ==>
              exists i :: 0 <= i < |els| && els[i].MoveTo? && p == els[i].p
                          && forall j :: i < j < |els| ==> !els[j].MoveTo?
  {
    if els == [] then Point(0.0, 0.0)
    else if els[|els| - 1].MoveTo? then els[|els| - 1].p
    else
      var init := els[..|els| - 1];
      var p := LastMoveTo(init);
      assert forall i :: 0 <= i < |init| ==> init[i] == els[i];
      p
  }

  /**
   * The path call for one element: curves and lines one-to-one, and a
   * `ClosePath` as a line back to `lastMoveTo`.
   */
  function OpFor(el: PathEl, lastMoveTo: Point): Path2DOp
  {
    match el
    case MoveTo(p) => MoveToOp(p)
    case LineTo(p) => LineToOp(p)
    case QuadTo(p0, p1) => QuadraticCurveToOp(p0, p1)
    case CurveTo(p0, p1, p2) => BezierCurveToOp(p0, p1, p2)
    case ClosePath => LineToOp(lastMoveTo)
  }

  /** The path calls for a sequence of elements, each closing back to the last `MoveTo` before it. */
  function PathOps(els: seq<PathEl>): (ops: seq<Path2DOp>)
    ensures |ops| == |els|
  {
    if els == [] then [] else PathOps(els[..|els| - 1]) + [OpFor(els[|els| - 1], LastMoveTo(els[..|els| - 1]))]
  }

  /**
   * `path_el_iter` element by element: one path call per element, in
   * order; `MoveTo`, `LineTo`, `QuadTo` and `CurveTo` map to the matching
   * call with the same points, and `ClosePath` to a line to the point of
   * the last `MoveTo` before it, or to the origin when there was none.
   */
  lemma {:induction false} PathOpsAt(els: seq<PathEl>, i: nat)
    requires i < |els|
    ensures PathOps(els)[i] == OpFor(els[i], LastMoveTo(els[..i]))
    ensures els[i].MoveTo? ==> PathOps(els)[i] == MoveToOp(els[i].p)
    ensures els[i].LineTo? ==> PathOps(els)[i] == LineToOp(els[i].p)
    ensures els[i].QuadTo? ==> PathOps(els)[i] == QuadraticCurveToOp(els[i].p1, els[i].p2)
    ensures els[i].CurveTo? ==> PathOps(els)[i] == BezierCurveToOp(els[i].p1, els[i].p2, els[i].p3)
    ensures els[i].ClosePath? ==> PathOps(els)[i] == LineToOp(LastMoveTo(els[..i]))
  {
    if i < |els| - 1 {
      var init := els[..|els| - 1];
      PathOpsAt(init, i);
      assert init[..i] == els[..i];
    } else {
      assert els[..|els| - 1] == els[..i];
    }
  }

  /** A close after a move goes back to that move's point, whatever lies between without a move. */
  lemma CloseReturnsToMove(before: seq<PathEl>, p: Point, between: seq<PathEl>)
    requires forall j :: 0 <= j < |between| ==> !between[j].MoveTo?
    ensures var els := before + [MoveTo(p)] + between + [ClosePath];
      PathOps(els)[|els| - 1] == LineToOp(p)
  {
    var els := before + [MoveTo(p)] + between + [ClosePath];
    var prefix := els[..|els| - 1];
    assert prefix == before + [MoveTo(p)] + between;
    var i := |before|;
    assert prefix[i] == MoveTo(p);
    assert forall j :: i < j < |prefix| ==> prefix[j] == between[j - i - 1];
    PathOpsAt(els, |els| - 1);
  }

  /**
   * `path_el_iter`: the loop keeps the point of the last `MoveTo` (the
   * origin at first) and makes one call on `path` per element.
   */
  method PathElIter(path: Path2D, els: seq<PathEl>)
    modifies path
    ensures path.ops == old(path.ops) + PathOps(els)
  {
    var lastMoveTo := Point(0.0, 0.0);
    for i := 0 to |els|
      invariant lastMoveTo == LastMoveTo(els[..i])
      invariant path.ops == old(path.ops) + PathOps(els[..i])
    {
      assert els[..i + 1][..i] == els[..i];
      match els[i]
      case MoveTo(p) =>
        lastMoveTo := p;
        path.Push(MoveToOp(p));
      case LineTo(p) => path.Push(LineToOp(p));
      case QuadTo(p0, p1) => path.Push(QuadraticCurveToOp(p0, p1));
      case CurveTo(p0, p1, p2) => path.Push(BezierCurveToOp(p0, p1, p2));
      case ClosePath => path.Push(LineToOp(lastMoveTo));
    }
    assert els[..|els|] == els;
  }

  /**
   * What `shape_to_path2d` can learn of a `kurbo` shape: its `as_line`,
   * `as_rect`, `as_circle` and `as_path_slice` views (each present or not)
   * and the elements of `to_bez_path(0.1)`, which the flattening
   * computes and which are given here.
   */
  datatype ShapeViews = ShapeViews(
    line: Option<(Point, Point)>,
    rect: Option<Rect>,
    circle: Option<(Point, real)>,
    pathSlice: Option<seq<PathEl>>,
    bezPath: seq<PathEl>)

  /**
   * The calls `shape_to_path2d` makes on a new path: the first view
   * present among line, rectangle, circle and path slice decides, and only
   * a shape with none of them is flattened.
   */
  function ShapeOps(shape: ShapeViews): (ops: seq<Path2DOp>)
    ensures shape.line.Some? ==> ops == [MoveToOp(shape.line.value.0), LineToOp(shape.line.value.1)]
    ensures shape.line.None? && shape.rect.Some? ==> ops == [RectOp(shape.rect.value)]
    ensures shape.line.None? && shape.rect.None? && shape.circle.Some? ==>
              var (center, radius) := shape.circle.value;
              ops == [EllipseOp(center, Point(radius, radius), 0.0, 0.0, 2.0 * PI)]
    ensures shape.line.None? && shape.rect.None? && shape.circle.None? ==>
              ops == PathOps(if shape.pathSlice.Some? then shape.pathSlice.value else shape.bezPath)
  {
    if shape.line.Some? then
      [MoveToOp(shape.line.value.0), LineToOp(shape.line.value.1)]
    else if shape.rect.Some? then
      [RectOp(shape.rect.value)]
    else if shape.circle.Some? then
      var (center, radius) := shape.circle.value;
      [EllipseOp(center, Point(radius, radius), 0.0, 0.0, 2.0 * PI)]
    else if shape.pathSlice.Some? then
      PathOps(shape.pathSlice.value)
    else
      PathOps(shape.bezPath)
  }

  /** `shape_to_path2d`: a new path holding the calls `ShapeOps` names. */
  method ShapeToPath2d(shape: ShapeViews) returns (path: Path2D)
    ensures fresh(path) && path.ops == ShapeOps(shape)
  {
    path := new Path2D();
    if shape.line.Some? {
      var (p0, p1) := shape.line.value;
      path.Push(MoveToOp(p0));
      path.Push(LineToOp(p1));
    } else if shape.rect.Some? {
      path.Push(RectOp(shape.rect.value));
    } else if shape.circle.Some? {
      var (center, radius) := shape.circle.value;
      path.Push(EllipseOp(center, Point(radius, radius), 0.0, 0.0, 2.0 * PI));
    } else if shape.pathSlice.Some? {
      PathElIter(path, shape.pathSlice.value);
    } else {
      PathElIter(path, shape.bezPath);
    }
  }

  /** `image::RgbaImage`: its size and its separate-alpha RGBA bytes. */
  datatype PfImage = PfImage(width: nat, height: nat, data: seq<Byte>)

  /**
   * `make_image`: only separate-alpha RGBA is supported; a width or height
   * that does not fit a `u32` is `NotSupported` as well; a buffer too
   * short for `width * height` pixels of four bytes makes
   * `RgbaImage::from_raw` fail, which is `InvalidInput`; otherwise the
   * image holds the buffer as given.
   */
  function MakeImage(width: nat, height: nat, buf: seq<Byte>, format: ImageFormat): (r: Result<PfImage, Error>)
    ensures !format.RgbaSeparate? ==> r == Err(NotSupported)
    ensures r.Err? <==> !format.RgbaSeparate? || width >= U32_LIMIT || height >= U32_LIMIT
                        || |buf| < width * height * 4
    ensures r.Err? ==> r.error == NotSupported || (r.error == InvalidInput && |buf| < width * height * 4)
    ensures r.Ok? ==> r.value == PfImage(width, height, buf)
  {
    match format
    case RgbaSeparate =>
      if width >= U32_LIMIT || height >= U32_LIMIT then Err(NotSupported)
      else if |buf| < width * height * 4 then Err(InvalidInput)
      else Ok(PfImage(width, height, buf))
    case _ => Err(NotSupported)
  }

  /** Pathfinder's `ColorU`. */
  datatype ColorU = ColorU(r: Byte, g: Byte, b: Byte, a: Byte)

  /** A Pathfinder `FillStyle`: a colour, or a gradient (not modelled further). */
  datatype FillStyle = ColorFill(color: ColorU) | GradientFill(id: nat)

  /** `map_color`: the colour's bytes red, green, blue and alpha, from `as_rgba_u8`. */
  function MapColor(c: Colors.Color): (u: ColorU)
    ensures Colors.Pack(u.r, u.g, u.b, u.a) == Colors.AsRgba32(c)
  {
    var x := Colors.AsRgba32(c);
    var u := ColorU(Colors.ByteOf(x, 3), Colors.ByteOf(x, 2), Colors.ByteOf(x, 1), Colors.ByteOf(x, 0));
    PackBytes(x);
    u
  }

  /** A packed value is the packing of its own four bytes. */
  lemma PackBytes(x: Colors.U32)
    ensures Colors.Pack(Colors.ByteOf(x, 3), Colors.ByteOf(x, 2), Colors.ByteOf(x, 1), Colors.ByteOf(x, 0)) == x
  {
    var q1 := x / 0x100;
    var q2 := q1 / 0x100;
    var q3 := q2 / 0x100;
    assert x == q1 * 0x100 + x % 0x100;
    assert q1 == q2 * 0x100 + q1 % 0x100;
    assert q2 == q3 * 0x100 + q2 % 0x100;
    assert q3 < 0x100;
    assert Colors.ByteOf(x, 1) == q1 % 0x100;
    assert Colors.ByteOf(x, 2) == Colors.ByteOf(q1, 1) == q2 % 0x100;
    assert Colors.ByteOf(x, 3) == Colors.ByteOf(q1, 2) == Colors.ByteOf(q2, 1) == q3 % 0x100 == q3;
  }

  /** A colour packed from four bytes maps back to those bytes. */
  lemma MapColorOfPacked(r: Byte, g: Byte, b: Byte, a: Byte)
    ensures MapColor(Colors.FromRgba32(Colors.Pack(r, g, b, a))) == ColorU(r, g, b, a)
  {
    var x := Colors.Pack(r, g, b, a);
    assert Colors.AsRgba32(Colors.FromRgba32(x)) == x;
  }

  /** `FillRule`. */
  datatype FillRule = Winding | EvenOdd

  /** `ImageSmoothingQuality`. */
  datatype ImageSmoothingQuality = Low | Medium | High

  /** A call on the Pathfinder canvas. */
  datatype CanvasCall =
    | SetFillStyle(style: FillStyle)
    | SetStrokeStyle(style: FillStyle)
    | SetLineWidth(width: real)
    | FillPath(path: seq<Path2DOp>, rule: FillRule)
    | StrokePath(path: seq<Path2DOp>)
    | ClipPath(path: seq<Path2DOp>, rule: FillRule)
    | FillRect(rect: Rect)
    | CanvasSave
    | CanvasRestore
    | SetImageSmoothingEnabled(enabled: bool)
    | SetImageSmoothingQuality(quality: ImageSmoothingQuality)
    | DrawCanvasImage(image: PfImage, dst: Rect)
    | DrawSubimage(image: PfImage, src: Rect, dst: Rect)

  /**
   * The calls `set_interpolation` makes: nearest-neighbour turns image
   * smoothing off; bilinear turns it on at `Low` quality.
   */
  function InterpolationCalls(interp: InterpolationMode): (calls: seq<CanvasCall>)
    ensures 1 <= |calls| && calls[0] == SetImageSmoothingEnabled(interp.Bilinear?)
    ensures interp.NearestNeighbor? <==> |calls| == 1
    ensures interp.Bilinear? ==> calls == [SetImageSmoothingEnabled(true), SetImageSmoothingQuality(Low)]
  {
    match interp
    case NearestNeighbor => [SetImageSmoothingEnabled(false)]
    case Bilinear => [SetImageSmoothingEnabled(true), SetImageSmoothingQuality(Low)]
  }

  /** `PfContext`: the canvas it draws on, as the calls made on it. */
  class PfContext {
    var calls: seq<CanvasCall>

    /** `PfContext::new`, over a canvas on which `calls` were already made. */
    constructor (calls: seq<CanvasCall>)
      ensures this.calls == calls
    {
      this.calls := calls;
    }

    /** `status` and `finish`: nothing can fail. */
    function Status(): (r: Result<(), Error>)
      ensures r.Ok?
    {
      Ok(())
    }

    /** `solid_brush`: a colour fill of the colour's bytes. */
    function SolidBrush(color: Colors.Color): (brush: FillStyle)
      ensures brush == ColorFill(MapColor(color))
    {
      ColorFill(MapColor(color))
    }

    /** `clear`: a rectangle the size of the canvas (`canvasSize`), filled with the colour. */
    method Clear(color: Colors.Color, canvasSize: Point)
      modifies this
      ensures calls == old(calls) + [SetFillStyle(ColorFill(MapColor(color))),
                                     FillRect(Rect(0.0, 0.0, canvasSize.x, canvasSize.y))]
    {
      var brush := SolidBrush(color);
      calls := calls + [SetFillStyle(brush), FillRect(Rect(0.0, 0.0, canvasSize.x, canvasSize.y))];
    }

    /** `stroke`: the brush and width are set, then the shape's path is stroked. */
    method Stroke(shape: ShapeViews, brush: FillStyle, width: real)
      modifies this
      ensures calls == old(calls) + [SetStrokeStyle(brush), SetLineWidth(width), StrokePath(ShapeOps(shape))]
    {
      var path := ShapeToPath2d(shape);
      calls := calls + [SetStrokeStyle(brush), SetLineWidth(width), StrokePath(path.ops)];
    }

    /** `fill`: the brush is set, then the shape's path is filled with the non-zero winding rule. */
    method Fill(shape: ShapeViews, brush: FillStyle)
      modifies this
      ensures calls == old(calls) + [SetFillStyle(brush), FillPath(ShapeOps(shape), Winding)]
    {
      var path := ShapeToPath2d(shape);
      calls := calls + [SetFillStyle(brush), FillPath(path.ops, Winding)];
    }

    /** `fill_even_odd`: as `fill`, with the even-odd rule. */
    method FillEvenOdd(shape: ShapeViews, brush: FillStyle)
      modifies this
      ensures calls == old(calls) + [SetFillStyle(brush), FillPath(ShapeOps(shape), EvenOdd)]
    {
      var path := ShapeToPath2d(shape);
      calls := calls + [SetFillStyle(brush), FillPath(path.ops, EvenOdd)];
    }

    /** `clip`: the canvas clips to the shape's path, non-zero winding. */
    method Clip(shape: ShapeViews)
      modifies this
      ensures calls == old(calls) + [ClipPath(ShapeOps(shape), Winding)]
    {
      var path := ShapeToPath2d(shape);
      calls := calls + [ClipPath(path.ops, Winding)];
    }

    /** `save`: the canvas saves its state; it cannot fail. */
    method Save() returns (r: Result<(), Error>)
      modifies this
      ensures r.Ok? && calls == old(calls) + [CanvasSave]
    {
      calls := calls + [CanvasSave];
      r := Ok(());
    }

    /** `restore`: the canvas restores its state; it cannot fail. */
    method Restore() returns (r: Result<(), Error>)
      modifies this
      ensures r.Ok? && calls == old(calls) + [CanvasRestore]
    {
      calls := calls + [CanvasRestore];
      r := Ok(());
    }

    /** `set_interpolation`. */
    method SetInterpolation(interp: InterpolationMode)
      modifies this
      ensures calls == old(calls) + InterpolationCalls(interp)
    {
      match interp
      case NearestNeighbor =>
        calls := calls + [SetImageSmoothingEnabled(false)];
      case Bilinear =>
        calls := calls + [SetImageSmoothingEnabled(true)];
        calls := calls + [SetImageSmoothingQuality(Low)];
    }

    /** `draw_image`: the interpolation is set first, then the image is drawn into `dstRect`. */
    method DrawImage(image: PfImage, dstRect: Rect, interp: InterpolationMode)
      modifies this
      ensures calls == old(calls) + InterpolationCalls(interp) + [DrawCanvasImage(image, dstRect)]
    {
      SetInterpolation(interp);
      calls := calls + [DrawCanvasImage(image, dstRect)];
    }

    /** `draw_image_area`: as `draw_image`, drawing the part `srcRect` of the image. */
    method DrawImageArea(image: PfImage, srcRect: Rect, dstRect: Rect, interp: InterpolationMode)
      modifies this
      ensures calls == old(calls) + InterpolationCalls(interp) + [DrawSubimage(image, srcRect, dstRect)]
    {
      SetInterpolation(interp);
      calls := calls + [DrawSubimage(image, srcRect, dstRect)];
    }
  }
}

=== FILE: pathfinder_text.dfy ===
/**
 * The text builders of the Pathfinder backend (piet-pathfinder/src/text.rs).
 * Layout itself is not implemented there; what exists is the builder that
 * collects a text, a font size and a colour, and resolves the unset ones
 * to defaults when the layout is built.
 */
module PathfinderText {
  import opened Wrappers
  import opened PietTypes
  import Colors
  import Util

  /** `PfFont`: only its size. */
  datatype PfFont = PfFont(size: real)

  /** `PfFont::default()`. */
  const DEFAULT_FONT: PfFont := PfFont(12.0)

  /** `PfTextLayoutBuilder`: the text and the settings given so far. */
  datatype PfTextLayoutBuilder = PfTextLayoutBuilder(
    text: string,
    color: Option<Colors.Color>,
    font: Option<PfFont>,
    width: Option<real>)

  /** `PfTextLayout`: every setting resolved. */
  datatype PfTextLayout = PfTextLayout(font: PfFont, color: Colors.Color, text: string, width: Width)

  /** `PfText::new_text_layout`: the text, with every setting unset. */
  function NewTextLayout(text: string): (b: PfTextLayoutBuilder)
    ensures b.text == text && b.color.None? && b.font.None? && b.width.None?
  {
    PfTextLayoutBuilder(text, None, None, None)
  }

  /**
   * `resolve`: an unset font is the default 12-point one, an unset colour
   * black and an unset width `f64::INFINITY`; set ones and the text are kept.
   */
  function Resolve(b: PfTextLayoutBuilder): (l: PfTextLayout)
    ensures l.text == b.text
    ensures b.font.None? ==> l.font.size == 12.0
    ensures b.font.Some? ==> l.font == b.font.value
    ensures b.color.None? ==> l.color == Colors.BLACK
    ensures b.color.Some? ==> l.color == b.color.value
    ensures b.width.None? <==> l.width.Infinity?
    ensures b.width.Some? ==> l.width == Finite(b.width.value)
  {
    PfTextLayout(
      if b.font.Some? then b.font.value else DEFAULT_FONT,
      if b.color.Some? then b.color.value else Colors.BLACK,
      b.text,
      if b.width.Some? then Finite(b.width.value) else Infinity)
  }

  /** `max_width`: ignored; the builder comes back as it was. */
  function MaxWidth(b: PfTextLayoutBuilder, width: real): (b': PfTextLayoutBuilder)
    ensures b' == b
  {
    b
  }

  /** `alignment`: ignored. */
  function Alignment(b: PfTextLayoutBuilder, alignment: TextAlignment): (b': PfTextLayoutBuilder)
    ensures b' == b
  {
    b
  }

  /** `range_attribute`: ignored, whatever the range. */
  function RangeAttribute(b: PfTextLayoutBuilder, start: nat, end: nat, attribute: Util.TextAttribute)
    : (b': PfTextLayoutBuilder)
    ensures b' == b
  {
    b
  }

  /** `font`: ignored, font and size alike. */
  function Font(b: PfTextLayoutBuilder, font: PfFont, fontSize: real): (b': PfTextLayoutBuilder)
    ensures b' == b
  {
    b
  }

  /**
   * `default_attribute`: a size sets the font (a font of that size), a
   * foreground colour sets the colour, and nothing else changes. Every
   * other attribute reaches `todo!()`, which the source leaves to its
   * callers to avoid.
   */
  function DefaultAttribute(b: PfTextLayoutBuilder, attribute: Util.TextAttribute): (b': PfTextLayoutBuilder)
    requires attribute.FontSize? || attribute.TextColor?
    ensures b'.text == b.text && b'.width == b.width
    ensures attribute.FontSize? ==> b'.font == Some(PfFont(attribute.size)) && b'.color == b.color
    ensures attribute.TextColor? ==> b'.color == Some(attribute.color) && b'.font == b.font
  {
    match attribute
    case FontSize(size) => b.(font := Some(PfFont(size)))
    case TextColor(color) => b.(color := Some(color))
  }

  /** `build`: the resolved layout; building never fails. */
  function Build(b: PfTextLayoutBuilder): (r: Result<PfTextLayout, Error>)
    ensures r.Ok? && r.value == Resolve(b)
  {
    Ok(Resolve(b))
  }

  /**
   * A layout built straight from `new_text_layout` has the given text, the
   * default 12-point font, black, and no width constraint; since
   * `max_width` is ignored, the width stays unconstrained whatever is asked.
   */
  lemma FreshLayoutDefaults(text: string, width: real)
    ensures Build(MaxWidth(NewTextLayout(text), width)) == Ok(PfTextLayout(PfFont(12.0), Colors.BLACK, text, Infinity))
  {
  }

  /** Setting a size and a colour reaches the built layout; the last setting of each wins. */
  lemma SettingsReachLayout(text: string, size: real, color: Colors.Color, size2: real)
    ensures var b := DefaultAttribute(DefaultAttribute(NewTextLayout(text), Util.FontSize(size)), Util.TextColor(color));
      && Build(b) == Ok(PfTextLayout(PfFont(size), color, text, Infinity))
      && Build(DefaultAttribute(b, Util.FontSize(size2))) == Ok(PfTextLayout(PfFont(size2), color, text, Infinity))
  {
  }

  /** `PfFontBuilder`: only the size; the name is dropped. */
  datatype PfFontBuilder = PfFontBuilder(size: real)

  /** `PfText::new_font_by_name`: the name is ignored and the size kept. */
  function NewFontByName(name: string, size: real): (fb: PfFontBuilder)
    ensures fb.size == size
  {
    PfFontBuilder(size)
  }

  /** `PfFontBuilder::build`: a font of the builder's size; it never fails. */
  function BuildFont(fb: PfFontBuilder): (r: Result<PfFont, Error>)
    ensures r == Ok(PfFont(fb.size))
  {
    Ok(PfFont(fb.size))
  }

  /** A font made by name has the size it was asked for, whatever the name. */
  lemma FontByNameKeepsSize(name: string, otherName: string, size: real)
    ensures BuildFont(NewFontByName(name, size)) == BuildFont(NewFontByName(otherName, size)) == Ok(PfFont(size))
  {
  }
}

=== FILE: piet_types.dfy ===
/**
 * Types shared by every backend: bytes, fixed-width integer limits,
 * the crate-wide `Error` enum and the pixel formats of image buffers.
 */
module PietTypes {
  /** An unsigned 8-bit integer (`u8`). */
  type Byte = b: int | 0 <= b < 256

  const U16_LIMIT: int := 0x1_0000
  const U32_LIMIT: int := 0x1_0000_0000
  const U64_LIMIT: int := 0x1_0000_0000_0000_0000

  /** `piet::Error`; the boxed backend error and the feature name carry no data here. */
  datatype Error =
    | InvalidInput
    | NotSupported
    | Unimplemented
    | MissingFeature
    | StackUnbalance
    | BackendError
    | MissingFont
    | FontLoadingFailed

  /** `piet::ImageFormat`: the layouts a caller may hand to `make_image`. */
  datatype ImageFormat = Grayscale | Rgb | RgbaSeparate | RgbaPremul

  /** `ImageFormat::bytes_per_pixel`. */
  function BytesPerPixel(f: ImageFormat): (n: nat)
    ensures 1 <= n <= 4
    ensures n == 4 <==> f.RgbaSeparate? || f.RgbaPremul?
  {
    match f
    case Grayscale => 1
    case Rgb => 3
    case RgbaSeparate => 4
    case RgbaPremul => 4
  }

  /**
   * A width constraint as an `f64` that may be `f64::INFINITY`, which the
   * layouts use for "no constraint".
   */
  datatype Width = Finite(value: real) | Infinity

  /** `x > w` on `f64`: nothing finite exceeds infinity. */
  predicate Exceeds(x: real, w: Width)
  {
    w.Finite? && x > w.value
  }

  /** `piet::HitTestPoint`: the text position nearest a point, and whether the point lay on the text. */
  datatype HitTestPoint = HitTestPoint(idx: nat, isInside: bool)

  /** `HitTestPoint::default()`. */
  const DEFAULT_HIT: HitTestPoint := HitTestPoint(0, false)

  /** `piet::HitTestPosition`: the point of a text position and the line it is on. */
  datatype HitTestPosition = HitTestPosition(x: real, y: real, line: nat)

  /**
   * The older `HitTestTextPosition` the web and Direct2D layouts still
   * return: a point and the text position reported with it.
   */
  datatype TextPositionHit = TextPositionHit(x: real, y: real, textPosition: nat)

  /** `kurbo::Size`. */
  datatype Size = Size(width: real, height: real)

  /** `kurbo::Point`. */
  datatype Point = Point(x: real, y: real)

  /** `kurbo::PathEl`. */
  datatype PathEl =
    | MoveTo(p: Point)
    | LineTo(p: Point)
    | QuadTo(p1: Point, p2: Point)
    | CurveTo(p1: Point, p2: Point, p3: Point)
    | ClosePath

  /** `kurbo::Rect`, by its corners. */
  datatype Rect = Rect(x0: real, y0: real, x1: real, y1: real)

  /** `piet::ImageBuf`: pixel bytes in a format, `width` by `height` pixels. */
  datatype ImageBuf = ImageBuf(pixels: seq<Byte>, format: ImageFormat, width: nat, height: nat)

  /** `piet::InterpolationMode`. */
  datatype InterpolationMode = NearestNeighbor | Bilinear

  /** `piet::TextAlignment`. */
  datatype TextAlignment = Start | End | Center | Justified

  /** `piet::FontStyle`. */
  datatype FontStyle = Regular | Italic

  /**
   * `piet::LineMetric`: one laid-out line, its byte range `[startOffset,
   * endOffset)`, the byte length of its trailing whitespace and its vertical
   * placement.
   */
  datatype LineMetric = LineMetric(
    startOffset: nat,
    endOffset: nat,
    trailingWhitespace: nat,
    baseline: real,
    height: real,
    yOffset: real)

  /**
   * The older shape of `LineMetric` that the Cairo and Direct2D
   * `lines.rs` still fill: instead of the line's top it records the height
   * of all lines up to and including this one.
   */
  datatype CumulativeLineMetric = CumulativeLineMetric(
    startOffset: nat,
    endOffset: nat,
    trailingWhitespace: nat,
    baseline: real,
    height: real,
    cumulativeHeight: real)

  /** The height of `n` lines of height `height`, added one line at a time. */
  function Stacked(n: nat, height: real): real
  {
    if n == 0 then 0.0 else Stacked(n - 1, height) + height
  }

  /**
   * The larger of `acc` and every element of `xs`: the
   * `fold(acc, f64::max)` the text layouts apply to their line widths.
   */
  function MaxOf(acc: real, xs: seq<real>): (m: real)
    ensures acc <= m
    ensures forall i :: 0 <= i < |xs| ==> xs[i] <= m
    ensures m == acc || exists i :: 0 <= i < |xs| && m == xs[i]
    decreases |xs|
  {
    if xs == [] then acc
    else
      var m := MaxOf(if xs[0] > acc then xs[0] else acc, xs[1..]);
      assert m != acc && m != xs[0] ==> exists i :: 0 <= i < |xs[1..]| && m == xs[1..][i];
      m
  }
}

=== FILE: pixels.dfy ===
/**
 * What the pixel conversions of the backends share: premultiplication by
 * alpha in 16-bit arithmetic, and the facts about a byte buffer written a
 * piece at a time that their loops are proved with.
 */
module Pixels {
  import opened PietTypes

  /**
   * `premul`: the colour scaled by alpha/255, computed in `u16` as
   * `(y + (y >> 8) + 0x80) >> 8` with `y = x * a`. Nothing overflows the
   * `u16`, alpha 0 gives 0, alpha 255 keeps the colour, and the result never
   * exceeds the colour or the alpha.
   */
  function Premul(x: Byte, a: Byte): Byte
  {
    var y := Times(x, a);
    TimesIs(x, a);
    PremulBound(x, a);
    (y + y / 256 + 0x80) / 256
  }

  /**
   * `x * a` as repeated addition, so that a converted pixel brings no
   * product of two unknowns into the proofs about rows and surfaces.
   */
  function Times(x: nat, a: nat): nat
  {
    if a == 0 then 0 else Times(x, a - 1) + x
  }

  lemma {:induction false} TimesIs(x: nat, a: nat)
    ensures Times(x, a) == x * a
  {
    if a > 0 {
      TimesIs(x, a - 1);
    }
  }

  lemma PremulIs(x: Byte, a: Byte)
    ensures x * a + x * a / 256 + 0x80 < U16_LIMIT
    ensures a == 0 ==> Premul(x, a) == 0
    ensures a == 255 ==> Premul(x, a) == x
    ensures Premul(x, a) <= a && Premul(x, a) <= x
  {
    MulMono(x, 255, a, 255);
    TimesIs(x, a);
    PremulBound(x, a);
  }

  lemma MulMono(x: nat, xm: nat, a: nat, am: nat)
    requires x <= xm && a <= am
    ensures x * a <= xm * am
  {
    assert x * a <= xm * a;
  }

  lemma PremulBound(x: Byte, a: Byte)
    ensures 0 <= x * a
    ensures (x * a + x * a / 256 + 0x80) / 256 <= a
    ensures (x * a + x * a / 256 + 0x80) / 256 <= x
    ensures a == 255 ==> (x * a + x * a / 256 + 0x80) / 256 == x
  {
    var y := x * a;
    assert y <= 255 * a by { MulMono(x, 255, a, a); }
    assert y <= 255 * x by { MulMono(x, x, a, 255); }
    assert y / 256 <= (255 * a) / 256;
    assert y / 256 <= (255 * x) / 256;
    assert (255 * a + (255 * a) / 256 + 0x80) / 256 == a;
    assert (255 * x + (255 * x) / 256 + 0x80) / 256 == x;
  }

  /**
   * `buf[i]`. The conversions only read inside the buffer (their methods
   * require it); 0 stands for a byte past the end so that the functions
   * describing whole converted images need no precondition.
   */
  function ByteAt(buf: seq<Byte>, i: nat): Byte
  {
    if i < |buf| then buf[i] else 0
  }

  /** Pixel `i` of an RGB buffer as four RGBA bytes, opaque. */
  function RgbPixel(buf: seq<Byte>, i: nat): (px: seq<Byte>)
    ensures |px| == 4 && px[3] == 255
    ensures 3 * i + 3 <= |buf| ==> px[..3] == buf[3 * i..3 * i + 3]
  {
    [ByteAt(buf, 3 * i), ByteAt(buf, 3 * i + 1), ByteAt(buf, 3 * i + 2), 255]
  }

  // ---------------------------------------------------------------------
  // Buffers written a piece at a time

  /**
   * `d` is `original` with `row` written from `start`: the bytes before
   * `start` and after the row are those of `original`.
   */
  ghost predicate Written(d: seq<Byte>, original: seq<Byte>, start: nat, row: seq<Byte>)
  {
    start + |row| <= |original| == |d| && d == original[..start] + row + original[start + |row|..]
  }

  /** `d` begins with `prefix`. */
  ghost predicate Filled(d: seq<Byte>, prefix: seq<Byte>)
  {
    |prefix| <= |d| && d[..|prefix|] == prefix
  }

  /** Writing nothing leaves the array as it was. */
  lemma WrittenNothing(d: seq<Byte>, start: nat)
    requires start <= |d|
    ensures Written(d, d, start, [])
  {
    assert d == d[..start] + [] + d[start..];
  }

  /**
   * A copy into a slice, described by what precedes the end of the copy
   * and what follows it, writes the copied row.
   */
  lemma SlicesWritten(before: seq<Byte>, after: seq<Byte>, start: nat, row: seq<Byte>)
    requires |after| == |before| && start + |row| <= |before|
    requires after[..start + |row|] == before[..start] + row
    requires after[start + |row|..] == before[start + |row|..]
    ensures Written(after, before, start, row)
  {
    assert after == after[..start + |row|] + after[start + |row|..];
  }

  /** An array that matches `row` from `start` and is otherwise unchanged has `row` written there. */
  lemma Splice(before: seq<Byte>, after: seq<Byte>, row: seq<Byte>, start: nat)
    requires |after| == |before| && start + |row| <= |before|
    requires forall k :: 0 <= k < |row| ==> after[start + k] == row[k]
    requires forall k :: 0 <= k < |after| && !(start <= k < start + |row|) ==> after[k] == before[k]
    ensures Written(after, before, start, row)
  {
    var spliced := before[..start] + row + before[start + |row|..];
    forall k | 0 <= k < |after|
      ensures after[k] == spliced[k]
    {
      if start <= k < start + |row| {
        assert after[start + (k - start)] == row[k - start];
      }
    }
  }

  /**
   * Writing `p` at `i`, just after the `row` already written at `s`,
   * leaves `row + p` written at `s`.
   */
  lemma Grow(a: seq<Byte>, before: seq<Byte>, after: seq<Byte>, s: nat, i: nat, row: seq<Byte>, p: seq<Byte>,
             grown: seq<Byte>)
    requires i == s + |row|
    requires Written(before, a, s, row)
    requires Written(after, before, i, p)
    requires grown == row + p
    ensures Written(after, a, s, grown)
  {
    assert before[..i] == a[..s] + row;
    assert before[i + |p|..] == a[i + |p|..];
  }

  /** A row written just after a filled prefix extends the prefix by that row. */
  lemma FillGrows(before: seq<Byte>, after: seq<Byte>, prefix: seq<Byte>, row: seq<Byte>, grown: seq<Byte>)
    requires Filled(before, prefix)
    requires Written(after, before, |prefix|, row)
    requires grown == prefix + row
    ensures Filled(after, grown)
  {
    assert after[..|grown|] == before[..|prefix|] + row;
  }

  /** A sequence begins with itself. */
  lemma FilledSelf(d: seq<Byte>)
    ensures Filled(d, d)
  {
  }

  /** What `p` begins with, `p + q` begins with too. */
  lemma FilledConcat(p: seq<Byte>, q: seq<Byte>, prefix: seq<Byte>)
    requires Filled(p, prefix)
    ensures Filled(p + q, prefix)
  {
    assert (p + q)[..|prefix|] == p[..|prefix|];
  }

  /** `d` holds `part` from index `start` on. */
  ghost predicate Holds(d: seq<Byte>, start: nat, part: seq<Byte>)
  {
    start + |part| <= |d| && d[start..start + |part|] == part
  }

  /** Where `d` begins with `p + q`, it holds `q` right after `p`. */
  lemma SliceAfterPrefix(d: seq<Byte>, p: seq<Byte>, q: seq<Byte>)
    requires Filled(d, p + q)
    ensures Holds(d, |p|, q)
  {
    assert d[|p|..|p| + |q|] == d[..|p| + |q|][|p|..];
  }

  /** What `row` holds at `t`, a `d` holding `row` at `start` holds at `start + t`. */
  lemma HoldsWithin(d: seq<Byte>, start: nat, row: seq<Byte>, t: nat, part: seq<Byte>)
    requires Holds(d, start, row) && Holds(row, t, part)
    ensures Holds(d, start + t, part)
  {
    var outer := d[start + t..start + t + |part|];
    forall k | 0 <= k < |outer|
      ensures outer[k] == part[k]
    {
      assert outer[k] == d[start..start + |row|][t + k];
      assert part[k] == row[t..t + |part|][k];
    }
  }
}

=== FILE: samples.dfy ===
/**
 * The sample-picture harness shared by the backends (piet/src/samples/mod.rs):
 * looking up a sample by number, validating the command line, running
 * every sample, naming the PNG files, finding the samples in a directory
 * by their file names, and comparing two directories of snapshots pixel by
 * pixel. Reading directories and decoding or encoding PNG files are I/O:
 * their results and failures are inputs here.
 */
module Samples {
  import opened Wrappers
  import opened PietTypes
  import Util

  /** `SAMPLE_COUNT`. */
  const SAMPLE_COUNT: nat := 17

  /** `DEFAULT_SCALE`. */
  const DEFAULT_SCALE: real := 2.0

  /** The errors the harness reports, boxed in the source. */
  datatype SampleError =
    | NoSample(number: nat)
    | InvalidSampleArgs
    | IoError

  /** `SamplePicture`: the numbered drawing; its size and drawing function live in its own file. */
  datatype SamplePicture = SamplePicture(number: nat)

  /** `get`: the pictures 0 to 16, and the error "No sample #n exists" for any other number. */
  function Get(number: nat): (r: Result<SamplePicture, SampleError>)
    ensures r.Err? <==> number >= SAMPLE_COUNT
    ensures r.Err? ==> r.error == NoSample(number)
    ensures r.Ok? ==> r.value.number == number
  {
    if number < SAMPLE_COUNT then Ok(SamplePicture(number)) else Err(NoSample(number))
  }

  // ---------------------------------------------------------------------
  // Command line

  /** `Args`. */
  datatype Args = Args(help: bool, all: bool, outDir: string, number: Option<nat>,
                       compareDir: Option<string>, scale: real)

  /**
   * `Args::from_env` once `pico_args` has found the options: the output
   * directory defaults to `.` and the scale to 2, and a command line that
   * asks for no help, no sample, not all of them and no comparison is
   * `InvalidSampleArgs`.
   */
  function FromEnv(help: bool, all: bool, out: Option<string>, scale: Option<real>,
                   compare: Option<string>, number: Option<nat>): (r: Result<Args, SampleError>)
    ensures r.Err? <==> !help && !all && number.None? && compare.None?
    ensures r.Err? ==> r.error == InvalidSampleArgs
    ensures r.Ok? ==> (&& r.value.help == help && r.value.all == all && r.value.number == number
                       && r.value.compareDir == compare
                       && r.value.outDir == (if out.Some? then out.value else ".")
                       && r.value.scale == (if scale.Some? then scale.value else DEFAULT_SCALE))
  {
    var args := Args(help, all, if out.Some? then out.value else ".", number, compare,
                     if scale.Some? then scale.value else DEFAULT_SCALE);
    if !(args.help || args.all || args.number.Some? || args.compareDir.Some?) then Err(InvalidSampleArgs)
    else Ok(args)
  }

  // ---------------------------------------------------------------------
  // Running every sample

  /**
   * The function `run_all` is given: running sample `n` fails with
   * `outcome(n)` when that is set. It keeps the numbers it was called with.
   */
  class SampleRunner<E> {
    const outcome: nat -> Option<E>
    var called: seq<nat>

    constructor (outcome: nat -> Option<E>)
      ensures this.outcome == outcome && called == []
    {
      this.outcome := outcome;
      called := [];
    }

    method Run(n: nat) returns (r: Result<(), E>)
      modifies this
      ensures called == old(called) + [n]
      ensures r == (if outcome(n).Some? then Err(outcome(n).value) else Ok(()))
    {
      called := called + [n];
      r := if outcome(n).Some? then Err(outcome(n).value) else Ok(());
    }
  }

  /** The failures among the samples below `n`, in order, as `run_all` collects them in `errs`. */
  function Failures<E>(outcome: nat -> Option<E>, n: nat): seq<(nat, E)>
  {
    if n == 0 then []
    else Failures(outcome, n - 1) + (if outcome(n - 1).Some? then [(n - 1, outcome(n - 1).value)] else [])
  }

  /**
   * The failures below `n` are none exactly when every sample below `n`
   * succeeds; otherwise the first one collected is a failing sample before
   * which every sample succeeded.
   */
  lemma {:induction false} FailuresFirst<E>(outcome: nat -> Option<E>, n: nat)
    ensures Failures(outcome, n) == [] <==> forall m :: 0 <= m < n ==> outcome(m).None?
    ensures Failures(outcome, n) != [] ==>
              var (first, e) := Failures(outcome, n)[0];
              first < n && outcome(first) == Some(e) && forall m :: 0 <= m < first ==> outcome(m).None?
  {
    if n > 0 {
      FailuresFirst(outcome, n - 1);
      if Failures(outcome, n - 1) != [] {
        assert Failures(outcome, n)[0] == Failures(outcome, n - 1)[0];
      }
    }
  }

  /**
   * `run_all`: every sample from 0 to 16 is run, in order, failures or not;
   * the result is `Ok` when none failed and otherwise the error of the
   * first that did.
   */
  method RunAll<E>(f: SampleRunner<E>) returns (r: Result<(), E>)
    modifies f
    ensures f.called == old(f.called) + seq(SAMPLE_COUNT, i => i)
    ensures r.Ok? <==> forall n :: 0 <= n < SAMPLE_COUNT ==> f.outcome(n).None?
    ensures r.Err? ==> exists n :: (0 <= n < SAMPLE_COUNT && f.outcome(n) == Some(r.error)
                                     && forall m :: 0 <= m < n ==> f.outcome(m).None?)
  {
    var errs: seq<(nat, E)> := [];
    for sample := 0 to SAMPLE_COUNT
      invariant f.called == old(f.called) + seq(sample, i => i)
      invariant errs == Failures(f.outcome, sample)
    {
      var result := f.Run(sample);
      if result.Err? {
        errs := errs + [(sample, result.error)];
      }
      assert seq(sample + 1, i => i) == seq(sample, i => i) + [sample];
    }
    FailuresFirst(f.outcome, SAMPLE_COUNT);
    if errs == [] {
      r := Ok(());
    } else {
      r := Err(errs[0].1);
    }
  }

  // ---------------------------------------------------------------------
  // File names

  function DigitChar(d: nat): (c: char)
    requires d < 10
    ensures '0' <= c <= '9'
  {
    ('0' as int + d) as char
  }

  /** `n` in decimal, with no leading zeros. */
  function Decimal(n: nat): (s: string)
    ensures |s| >= 1
    ensures forall i :: 0 <= i < |s| ==> '0' <= s[i] <= '9'
  {
    if n < 10 then [DigitChar(n)] else Decimal(n / 10) + [DigitChar(n % 10)]
  }

  /** `{:0>2}`: decimal, padded on the left with zeros to two places. */
  function Pad2(n: nat): (s: string)
    ensures |s| >= 2
    ensures forall i :: 0 <= i < |s| ==> '0' <= s[i] <= '9'
  {
    if n < 10 then "0" + Decimal(n) else Decimal(n)
  }

  /** `{scale:.2}` for a non-negative scale of `centi` hundredths. */
  function ScaleText(centi: nat): string
  {
    Decimal(centi / 100) + "." + Pad2(centi % 100)
  }

  /**
   * `get_filename`: `prefix-NN-S.png`, with `-diff` before `.png` for a
   * difference image, where `NN` is the number padded to two places and `S`
   * the scale with two decimals.
   */
  function GetFilename(prefix: string, centi: nat, number: nat, diff: bool): (name: string)
    ensures diff ==> name == prefix + "-" + Pad2(number) + "-" + ScaleText(centi) + "-diff.png"
    ensures !diff ==> name == prefix + "-" + Pad2(number) + "-" + ScaleText(centi) + ".png"
  {
    var stem := prefix + "-" + Pad2(number) + "-" + ScaleText(centi);
    if diff then stem + "-diff.png" else stem + ".png"
  }

  /** The stem suffix `get_sample_files` looks for, `-S`. */
  function ScaleSuffix(centi: nat): string
  {
    "-" + ScaleText(centi)
  }

  /** The index of the last `c` in `s`. */
  function LastIndex(s: string, c: char): (r: Option<nat>)
    ensures r.Some? ==> r.value < |s| && s[r.value] == c && c !in s[r.value + 1..]
    ensures r.None? ==> c !in s
  {
    if s == [] then None
    else if s[|s| - 1] == c then Some(|s| - 1)
    else LastIndex(s[..|s| - 1], c)
  }

  /** Before a last `c`, the index is that of the `c` itself. */
  lemma {:induction false} LastIndexJoin(a: string, c: char, b: string)
    requires c !in b
    ensures LastIndex(a + [c] + b, c) == Some(|a|)
  {
    if b != [] {
      var s := a + [c] + b;
      assert s[..|s| - 1] == a + [c] + b[..|b| - 1];
      assert b[|b| - 1] in b;
      LastIndexJoin(a, c, b[..|b| - 1]);
    }
  }

  /**
   * `Path::with_file_name` on a path written as a string: the part up to
   * and including the last `/` is kept and what follows it is replaced by
   * `name`; a path without `/` is replaced by `name` as a whole.
   */
  function WithFileName(path: string, name: string): string
  {
    match LastIndex(path, '/')
    case None => name
    case Some(k) => path[..k + 1] + name
  }

  /** The new path is in the directory of the old one, and `name` is its last component. */
  lemma WithFileNameSibling(path: string, name: string)
    requires '/' !in name
    ensures var r := WithFileName(path, name);
      && LastIndex(r, '/') == LastIndex(path, '/')
      && (LastIndex(path, '/').Some? ==> r[..LastIndex(path, '/').value + 1] == path[..LastIndex(path, '/').value + 1])
      && |name| <= |r| && r[|r| - |name|..] == name
  {
    match LastIndex(path, '/')
    case None =>
    case Some(k) =>
      assert path[..k + 1] == path[..k] + ['/'];
      LastIndexJoin(path[..k], '/', name);
  }

  /**
   * `Path::file_stem` of a file name (one path component): the name up to
   * its last `.`, or the whole name when it has no `.` but a leading one;
   * `.` and `..` have no file name and so no stem.
   */
  function FileStem(name: string): (r: Option<string>)
    ensures r.Some? ==> |r.value| <= |name| && r.value == name[..|r.value|]
  {
    if name == "" || name == "." || name == ".." then None
    else
      match LastIndex(name, '.')
      case None => Some(name)
      case Some(k) => if k == 0 then Some(name) else Some(name[..k])
  }

  /** `s.split('-').nth_back(1)`: the field before the last `-`, if there is a `-`. */
  function SecondLastField(s: string): (r: Option<string>)
    ensures r.Some? ==> '-' !in r.value
  {
    match LastIndex(s, '-')
    case None => None
    case Some(i) =>
      var t := s[..i];
      match LastIndex(t, '-')
      case None => Some(t)
      case Some(j) => Some(t[j + 1..])
  }

  /** The value of a string of decimal digits. */
  function DigitsValue(s: string): nat
  {
    if s == [] then 0
    else
      var d := s[|s| - 1] as int - '0' as int;
      DigitsValue(s[..|s| - 1]) * 10 + (if 0 <= d then d else 0)
  }

  predicate AllDigits(s: string)
  {
    forall i :: 0 <= i < |s| ==> '0' <= s[i] <= '9'
  }

  /**
   * `str::parse::<usize>` on a 64-bit target: an optional `+` and then at
   * least one decimal digit and nothing else, whose value fits in 64 bits.
   */
  function ParseUsize(s: string): (r: Option<nat>)
    ensures r.Some? ==> r.value < U64_LIMIT
    ensures s == [] ==> r.None?
  {
    var digits := if |s| > 0 && s[0] == '+' then s[1..] else s;
    if digits == [] || !AllDigits(digits) then None
    else if DigitsValue(digits) < U64_LIMIT then Some(DigitsValue(digits))
    else None
  }

  /** Reading back a decimal gives the number written. */
  lemma {:induction false} DecimalValue(n: nat)
    ensures DigitsValue(Decimal(n)) == n
  {
    if n >= 10 {
      DecimalValue(n / 10);
      var s := Decimal(n);
      assert s[..|s| - 1] == Decimal(n / 10);
    }
  }

  /** Reading back a padded number gives the number written. */
  lemma Pad2Value(n: nat)
    ensures DigitsValue(Pad2(n)) == n
  {
    DecimalValue(n);
    if n < 10 {
      var s := Pad2(n);
      assert s[..|s| - 1] == "0";
      assert "0"[..0] == "";
    }
  }

  /** A padded number parses back to itself. */
  lemma ParsePad2(number: nat)
    requires number < U64_LIMIT
    ensures ParseUsize(Pad2(number)) == Some(number)
  {
    Pad2Value(number);
    var s := Pad2(number);
    assert s[0] != '+';
    assert AllDigits(s);
  }

  /**
   * `extract_number`: for a file name whose stem ends with the suffix, the
   * number in the stem's second-to-last `-`-separated field; nothing for
   * any other name, or when that field is not a number.
   */
  function ExtractNumber(name: string, stemSuffix: string): (r: Option<nat>)
    ensures r.Some? ==> (&& FileStem(name).Some?
                         && |stemSuffix| <= |FileStem(name).value|
                         && FileStem(name).value[|FileStem(name).value| - |stemSuffix|..] == stemSuffix)
  {
    match FileStem(name)
    case None => None
    case Some(stem) =>
      if |stem| < |stemSuffix| || stem[|stem| - |stemSuffix|..] != stemSuffix then None
      else
        match SecondLastField(stem)
        case None => None
        case Some(field) => ParseUsize(field)
  }

  /** The stem of a name ending in an extension without a dot is the name without it. */
  lemma StemBeforeExtension(stem: string, ext: string)
    requires |stem| >= 1 && |ext| >= 1 && '.' !in ext
    ensures FileStem(stem + ['.'] + ext) == Some(stem)
  {
    var name := stem + ['.'] + ext;
    LastIndexJoin(stem, '.', ext);
    assert name[..|stem|] == stem;
    assert |name| >= 3;
  }

  /** A string ends with what was appended to it. */
  lemma EndsWithAppended(front: string, suffix: string)
    ensures (front + suffix)[|front + suffix| - |suffix|..] == suffix
  {
  }

  /** The field before the last `-` of `prefix-field-last`, when neither field holds a `-`. */
  lemma FieldBeforeLast(prefix: string, field: string, last: string)
    requires '-' !in field && '-' !in last
    ensures SecondLastField(prefix + ['-'] + field + ['-'] + last) == Some(field)
  {
    var front := prefix + ['-'] + field;
    LastIndexJoin(front, '-', last);
    assert (front + ['-'] + last)[..|front|] == front;
    LastIndexJoin(prefix, '-', field);
    assert front[|prefix| + 1..] == field;
  }

  /** Neither the number nor the scale of a file name holds a `-`, and the scale's last character is a digit. */
  lemma FieldsHaveNoDash(centi: nat, number: nat)
    ensures '-' !in Pad2(number) && '-' !in ScaleText(centi)
    ensures '0' <= ScaleText(centi)[|ScaleText(centi)| - 1] <= '9'
  {
    var a, b := Decimal(centi / 100), Pad2(centi % 100);
    assert ScaleText(centi) == a + ['.'] + b;
    assert ScaleText(centi)[|ScaleText(centi)| - 1] == b[|b| - 1];
  }

  /** The stem of `stem.png` is `stem`, and it ends with `-S` when it is `front-S`. */
  lemma StemOfSampleName(front: string, scale: string)
    ensures FileStem(front + ['-'] + scale + ['.'] + "png") == Some(front + ['-'] + scale)
    ensures var stem := front + ['-'] + scale; var suffix := ['-'] + scale;
      |suffix| <= |stem| && stem[|stem| - |suffix|..] == suffix
  {
    StemBeforeExtension(front + ['-'] + scale, "png");
    EndsWithAppended(front, ['-'] + scale);
    assert front + ['-'] + scale == front + (['-'] + scale);
  }

  /** `extract_number` reads the field of a stem that ends with the suffix. */
  lemma ExtractNumberOf(name: string, stemSuffix: string, stem: string, field: string)
    requires FileStem(name) == Some(stem) && SecondLastField(stem) == Some(field)
    requires |stemSuffix| <= |stem| && stem[|stem| - |stemSuffix|..] == stemSuffix
    ensures ExtractNumber(name, stemSuffix) == ParseUsize(field)
  {
  }

  /** `extract_number` on `prefix-field-S.png` with suffix `-S` parses `field`. */
  lemma ExtractOfParts(prefix: string, field: string, scale: string)
    requires '-' !in field && '-' !in scale
    ensures ExtractNumber(prefix + "-" + field + "-" + scale + ".png", "-" + scale) == ParseUsize(field)
  {
    var front := prefix + ['-'] + field;
    var name := front + ['-'] + scale + ['.'] + "png";
    assert prefix + "-" + field + "-" + scale + ".png" == name;
    StemOfSampleName(front, scale);
    FieldBeforeLast(prefix, field, scale);
    ExtractNumberOf(name, ['-'] + scale, front + ['-'] + scale, field);
    assert "-" + scale == ['-'] + scale;
  }

  /**
   * Round trip: the number of a sample is read back from the file name
   * `get_filename` gives it, for the scale it was saved at, whatever the
   * prefix.
   */
  lemma ExtractFromFilename(prefix: string, centi: nat, number: nat)
    requires number < U64_LIMIT
    ensures ExtractNumber(GetFilename(prefix, centi, number, false), ScaleSuffix(centi)) == Some(number)
  {
    FieldsHaveNoDash(centi, number);
    ExtractOfParts(prefix, Pad2(number), ScaleText(centi));
    ParsePad2(number);
  }

  /**
   * A difference image is never taken for a sample: its stem ends in
   * `-diff`, not in the scale.
   */
  lemma DiffFileIgnored(prefix: string, centi: nat, number: nat)
    ensures ExtractNumber(GetFilename(prefix, centi, number, true), ScaleSuffix(centi)) == None
  {
    var stem := prefix + ['-'] + Pad2(number) + ['-'] + ScaleText(centi) + "-diff";
    assert GetFilename(prefix, centi, number, true) == stem + ['.'] + "png";
    StemBeforeExtension(stem, "png");
    FieldsHaveNoDash(centi, number);
    var suffix := ScaleSuffix(centi);
    assert suffix[|suffix| - 1] == ScaleText(centi)[|ScaleText(centi)| - 1];
    assert stem[|stem| - 1] == 'f';
  }

  /** Each name of the listing to which `num` gives a number, recorded under it; later names win. */
  function IndexBy(names: seq<string>, num: string -> Option<nat>): (files: map<nat, string>)
    ensures forall k :: k in files ==> files[k] in names && num(files[k]) == Some(k)
  {
    if names == [] then map[]
    else
      var n := |names| - 1;
      var earlier := IndexBy(names[..n], num);
      assert forall k :: k in earlier ==> earlier[k] in names by {
        assert names == names[..n] + [names[n]];
      }
      match num(names[n])
      case None => earlier
      case Some(k) => earlier[k := names[n]]
  }

  /** Every name of the listing that has a number gets its number recorded. */
  lemma {:induction false} IndexByComplete(names: seq<string>, num: string -> Option<nat>, i: nat)
    requires i < |names| && num(names[i]).Some?
    ensures num(names[i]).value in IndexBy(names, num)
  {
    var n := |names| - 1;
    if i < n && num(names[n]) != num(names[i]) {
      assert names[..n][i] == names[i];
      IndexByComplete(names[..n], num, i);
    }
  }

  /** `get_sample_files` over a listing: each name with a number is recorded under it, later names winning. */
  function SampleFiles(names: seq<string>, stemSuffix: string): (files: map<nat, string>)
    ensures forall k :: k in files ==> files[k] in names && ExtractNumber(files[k], stemSuffix) == Some(k)
  {
    IndexBy(names, name => ExtractNumber(name, stemSuffix))
  }

  /** Every name of the listing that has a number gets its number recorded. */
  lemma SampleFilesComplete(names: seq<string>, stemSuffix: string, i: nat)
    requires i < |names| && ExtractNumber(names[i], stemSuffix).Some?
    ensures ExtractNumber(names[i], stemSuffix).value in SampleFiles(names, stemSuffix)
  {
    IndexByComplete(names, name => ExtractNumber(name, stemSuffix), i);
  }

  /**
   * `get_sample_files`, given the names `read_dir` lists: the loop records
   * each name that has a number under that number.
   */
  method GetSampleFiles(names: seq<string>, centi: nat) returns (out: map<nat, string>)
    ensures out == SampleFiles(names, ScaleSuffix(centi))
  {
    out := map[];
    var stemSuffix := ScaleSuffix(centi);
    for i := 0 to |names|
      invariant out == SampleFiles(names[..i], stemSuffix)
    {
      assert names[..i + 1][..i] == names[..i];
      var number := ExtractNumber(names[i], stemSuffix);
      if number.Some? {
        out := out[number.value := names[i]];
      }
    }
    assert names[..|names|] == names;
  }

  // ---------------------------------------------------------------------
  // Comparing snapshots

  /** `FailureReason`. */
  datatype FailureReason =
    | MissingBase
    | MissingRevision
    | WrongSize(base: Size, rev: Size)
    | DifferentData(avgDiffPct: real, diffPath: string)

  /** A set of numbers holding `x` has a smallest element, at most `x`. */
  lemma {:induction false} MinExists(s: set<nat>, x: nat)
    requires x in s
    ensures exists k :: k in s && forall j :: j in s ==> k <= j
    decreases x
  {
    if y :| y in s && y < x {
      MinExists(s, y);
    }
  }

  /**
   * `compare_snapshots` over the maps `get_sample_files` found in the two
   * directories, `compare(n, base, rev)` being what `compare_files` gives
   * for the two files of sample `n`. The base samples are visited in
   * increasing order: one that the revision lacks is `MissingRevision`,
   * one both have gets its comparison, and the first comparison to fail
   * ends everything with its error. Samples only the revision has are
   * `MissingBase`. So the result covers exactly the samples of either
   * directory.
   */
  method CompareSnapshots(base: map<nat, string>, rev: map<nat, string>,
                          compare: (nat, string, string) -> Result<Option<FailureReason>, SampleError>)
    returns (r: Result<map<nat, Option<FailureReason>>, SampleError>)
    ensures r.Ok? ==> r.value.Keys == base.Keys + rev.Keys
    ensures r.Ok? ==> forall k :: k in base && k !in rev ==> r.value[k] == Some(MissingRevision)
    ensures r.Ok? ==> forall k :: k in rev && k !in base ==> r.value[k] == Some(MissingBase)
    ensures r.Ok? ==> forall k :: k in base && k in rev ==> compare(k, base[k], rev[k]) == Ok(r.value[k])
    ensures r.Err? ==> exists k :: (&& k in base && k in rev && compare(k, base[k], rev[k]) == Err(r.error)
                                    && forall j :: j in base && j in rev && j < k ==> compare(j, base[j], rev[j]).Ok?)
  {
    var failures: map<nat, Option<FailureReason>> := map[];
    var remaining := base.Keys;
    while remaining != {}
      invariant remaining <= base.Keys
      invariant failures.Keys == base.Keys - remaining
      invariant forall k :: k in failures && k !in rev ==> failures[k] == Some(MissingRevision)
      invariant forall k :: k in failures && k in rev ==> compare(k, base[k], rev[k]) == Ok(failures[k])
      decreases remaining
    {
      var some :| some in remaining;
      MinExists(remaining, some);
      var number :| number in remaining && forall j :: j in remaining ==> number <= j;
      if number !in rev {
        failures := failures[number := Some(MissingRevision)];
      } else {
        var result := compare(number, base[number], rev[number]);
        if result.Err? {
          return Err(result.error);
        }
        failures := failures[number := result.value];
      }
      remaining := remaining - {number};
    }
    failures := AddMissingBase(base, rev, failures);
    return Ok(failures);
  }

  /**
   * The second loop of `compare_snapshots`: every sample only the revision
   * has is added as `MissingBase`, the entries already there kept.
   */
  method AddMissingBase(base: map<nat, string>, rev: map<nat, string>, found: map<nat, Option<FailureReason>>)
    returns (failures: map<nat, Option<FailureReason>>)
    requires found.Keys == base.Keys
    ensures failures.Keys == base.Keys + rev.Keys
    ensures forall k :: k in found ==> failures[k] == found[k]
    ensures forall k :: k in rev && k !in base ==> failures[k] == Some(MissingBase)
  {
    failures := found;
    var onlyRev := rev.Keys - base.Keys;
    while onlyRev != {}
      invariant onlyRev <= rev.Keys - base.Keys
      invariant failures.Keys == base.Keys + (rev.Keys - base.Keys - onlyRev)
      invariant forall k :: k in found ==> failures[k] == found[k]
      invariant forall k :: k in failures && k !in base ==> failures[k] == Some(MissingBase)
      decreases onlyRev
    {
      var key :| key in onlyRev;
      failures := failures[key := Some(MissingBase)];
      onlyRev := onlyRev - {key};
    }
  }

  /** A decoded PNG: its size, the samples per pixel of its colour type, and its bytes. */
  datatype PngData = PngData(width: nat, height: nat, samples: nat, data: seq<Byte>)

  /** The sum over a pixel's samples of the absolute differences, as `i32`. */
  function TotalDiff(p1: seq<Byte>, p2: seq<Byte>): (t: nat)
    requires |p1| == |p2|
    ensures t <= 255 * |p1|
    ensures t == 0 <==> p1 == p2
  {
    if p1 == [] then 0
    else
      var n := |p1| - 1;
      var d := if p1[n] >= p2[n] then p1[n] - p2[n] else p2[n] - p1[n];
      var t := TotalDiff(p1[..n], p2[..n]) + d;
      assert p1 == p2 <==> p1[..n] == p2[..n] && p1[n] == p2[n] by {
        assert p1 == p1[..n] + [p1[n]] && p2 == p2[..n] + [p2[n]];
      }
      t
  }

  /**
   * The byte the difference image gets for a pixel: the average difference
   * over its samples, in integer division, raised to at least 24 so that it
   * shows; 0 when that average is 0.
   */
  function DiffByte(total: nat, samples: nat): (b: Byte)
    requires 1 <= samples && total <= 255 * samples
    ensures b == 0 <==> total < samples
    ensures b != 0 ==> b >= 24 && (b == total / samples || (b == 24 && total / samples < 24))
  {
    var avg := total / samples;
    if avg > 0 then (if avg >= 24 then avg else 24) else 0
  }

  /**
   * `chunks(samples)`: the buffer cut into pieces of `samples` bytes, the
   * last one shorter when the length is not a multiple.
   */
  function Chunks(buf: seq<Byte>, samples: nat): (cs: seq<seq<Byte>>)
    requires 1 <= samples
    ensures forall k :: 0 <= k < |cs| ==> 1 <= |cs[k]| <= samples
    decreases |buf|
  {
    if |buf| == 0 then []
    else if |buf| <= samples then [buf]
    else [buf[..samples]] + Chunks(buf[samples..], samples)
  }

  /** Every piece has exactly `samples` bytes. */
  predicate Pixels(cs: seq<seq<Byte>>, samples: nat) {
    forall k :: 0 <= k < |cs| ==> |cs[k]| == samples
  }

  /** A buffer of whole pixels is cut into exactly its pixels. */
  lemma {:induction false} ChunksArePixels(buf: seq<Byte>, samples: nat)
    requires 1 <= samples && |buf| % samples == 0
    ensures |Chunks(buf, samples)| == |buf| / samples && Pixels(Chunks(buf, samples), samples)
    decreases |buf|
  {
    if |buf| > samples {
      DivStep(|buf|, samples);
      ChunksArePixels(buf[samples..], samples);
    } else if |buf| != 0 {
      if |buf| < samples {
        DivUnique(|buf|, samples, 0, |buf|);
      }
      DivUnique(|buf|, samples, 1, 0);
    }
  }

  /** `a <= b` gives `a * c <= b * c`. */
  lemma MulAtMost(a: nat, b: nat, c: nat)
    ensures a <= b ==> a * c <= b * c
  {
    if a <= b {
      Util.MulLeft(a, b, c);
    }
  }

  /** Removing one divisor's worth from `n` removes one from the quotient and keeps the remainder. */
  lemma DivStep(n: nat, s: nat)
    requires 1 <= s < n
    ensures (n - s) / s + 1 == n / s && (n - s) % s == n % s
  {
    var q, r := (n - s) / s, (n - s) % s;
    assert n == (q + 1) * s + r;
    DivUnique(n, s, q + 1, r);
  }

  /** Quotient and remainder are the only ones that rebuild `n`. */
  lemma DivUnique(n: nat, s: nat, q: nat, r: nat)
    requires 1 <= s && r < s && n == q * s + r
    ensures n / s == q && n % s == r
  {
    var q', r' := n / s, n % s;
    assert n == q' * s + r';
    MulAtMost(q + 1, q', s);
    MulAtMost(q' + 1, q, s);
    assert (q + 1) * s == q * s + s && (q' + 1) * s == q' * s + s;
  }

  /** The pieces laid end to end. */
  function Concat(cs: seq<seq<Byte>>): (buf: seq<Byte>)
  {
    if cs == [] then [] else cs[0] + Concat(cs[1..])
  }

  /** The pieces of a buffer make up the buffer again. */
  lemma {:induction false} ChunksConcat(buf: seq<Byte>, samples: nat)
    requires 1 <= samples
    ensures Concat(Chunks(buf, samples)) == buf
    decreases |buf|
  {
    if |buf| > samples {
      var cs := Chunks(buf, samples);
      assert cs[1..] == Chunks(buf[samples..], samples);
      ChunksConcat(buf[samples..], samples);
      assert buf == buf[..samples] + buf[samples..];
    }
  }

  /** Piece `k` of a buffer holding at least `k + 1` whole pixels is the `k`-th run of `samples` bytes. */
  lemma {:induction false} ChunkAt(buf: seq<Byte>, samples: nat, k: nat)
    requires 1 <= samples && k * samples + samples <= |buf|
    ensures k < |Chunks(buf, samples)| && Chunks(buf, samples)[k] == buf[k * samples..k * samples + samples]
    decreases k
  {
    if k > 0 {
      PreviousMultiple(k, samples);
      var at := k * samples;
      var rest := buf[samples..];
      ChunkAt(rest, samples, k - 1);
      assert Chunks(buf, samples) == [buf[..samples]] + Chunks(rest, samples);
      assert rest[at - samples..at] == buf[at..at + samples];
    }
  }

  /** The multiple of `s` before `k * s` is `k * s - s`, and `k * s` is at least `s`. */
  lemma PreviousMultiple(k: nat, s: nat)
    requires k > 0
    ensures (k - 1) * s == k * s - s && s <= k * s
  {
    MulAtMost(1, k, s);
  }

  /** The difference byte of a pixel; pieces of another size (which the source's assertions rule out) get 0. */
  function PixelByte(p1: seq<Byte>, p2: seq<Byte>, samples: nat): (b: Byte)
    requires 1 <= samples
    ensures |p1| == |p2| == samples ==> (b == 0 <==> TotalDiff(p1, p2) < samples)
    ensures p1 == p2 ==> b == 0
  {
    if |p1| == |p2| == samples then DiffByte(TotalDiff(p1, p2), samples) else 0
  }

  /**
   * The difference image `compare_pngs` writes: one byte per pixel of the
   * `count` the PNG is said to have, the difference bytes for the pixels
   * of the two buffers and 0 past them.
   */
  function DiffImage(c1: seq<seq<Byte>>, c2: seq<seq<Byte>>, samples: nat, count: nat): (img: seq<Byte>)
    requires 1 <= samples
    ensures |img| == count
    ensures forall i :: 0 <= i < count ==> img[i] == (if i < |c1| && i < |c2| then PixelByte(c1[i], c2[i], samples) else 0)
  {
    seq(count, i requires 0 <= i => if i < |c1| && i < |c2| then PixelByte(c1[i], c2[i], samples) else 0)
  }

  /** How many pairs `zip` makes of two sequences: as many as the shorter has. */
  function ZipLength(c1: seq<seq<Byte>>, c2: seq<seq<Byte>>): (n: nat)
    ensures n <= |c1| && n <= |c2| && (n == |c1| || n == |c2|)
  {
    if |c1| <= |c2| then |c1| else |c2|
  }

  /** The sum of the first `n` pixels' average differences, `overall_diff`, without rounding. */
  function OverallDiff(c1: seq<seq<Byte>>, c2: seq<seq<Byte>>, samples: nat, n: nat): (d: real)
    requires 1 <= samples && n <= |c1| && n <= |c2|
    ensures 0.0 <= d
  {
    if n == 0 then 0.0
    else
      var p1, p2 := c1[n - 1], c2[n - 1];
      var t := if |p1| == |p2| then TotalDiff(p1, p2) else 0;
      OverallDiff(c1, c2, samples, n - 1) + t as real / samples as real
  }

  /** The overall difference of pixels of matching sizes is 0 exactly when the pixels agree. */
  lemma {:induction false} OverallDiffZero(c1: seq<seq<Byte>>, c2: seq<seq<Byte>>, samples: nat, n: nat)
    requires 1 <= samples && n <= |c1| && n <= |c2|
    requires forall k :: 0 <= k < n ==> |c1[k]| == |c2[k]|
    ensures OverallDiff(c1, c2, samples, n) == 0.0 <==> c1[..n] == c2[..n]
  {
    if n > 0 {
      OverallDiffZero(c1, c2, samples, n - 1);
      assert c1[..n] == c1[..n - 1] + [c1[n - 1]] && c2[..n] == c2[..n - 1] + [c2[n - 1]];
    }
  }

  /**
   * A pixel that differs from its counterpart by less than one step per
   * sample in total gets difference byte 0 although the buffers differ.
   */
  lemma SmallDifferenceHidden(one: seq<Byte>, two: seq<Byte>)
    requires one == [0, 0, 0, 0] && two == [0, 0, 0, 1]
    ensures one != two && DiffImage(Chunks(one, 4), Chunks(two, 4), 4, 1) == [0]
  {
    assert one[3] != two[3];
    assert one[..3] == two[..3];
    assert TotalDiff(one, two) == 1;
  }

  /**
   * The loop of `compare_pngs` that fills the difference image `buf`,
   * pixel by pixel, and sums the average differences.
   */
  method FillDiff(buf: array<Byte>, c1: seq<seq<Byte>>, c2: seq<seq<Byte>>, samples: nat)
    returns (overall: real)
    requires 1 <= samples && |c1| == |c2| <= buf.Length && Pixels(c1, samples) && Pixels(c2, samples)
    requires forall k :: 0 <= k < buf.Length ==> buf[k] == 0
    modifies buf
    ensures buf[..] == DiffImage(c1, c2, samples, buf.Length)
    ensures overall == OverallDiff(c1, c2, samples, |c1|)
  {
    overall := 0.0;
    for i := 0 to |c1|
      invariant forall k :: 0 <= k < i ==> buf[k] == PixelByte(c1[k], c2[k], samples)
      invariant forall k :: i <= k < buf.Length ==> buf[k] == 0
      invariant overall == OverallDiff(c1, c2, samples, i)
    {
      var total := TotalDiff(c1[i], c2[i]);
      overall := overall + total as real / samples as real;
      buf[i] := PixelByte(c1[i], c2[i], samples);
    }
  }

  /**
   * `info.width * info.height`, a product of two `u32`s, wrapping as it
   * does in a release build: `0x1_0000 * 0x1_0000` is 0.
   */
  function PixelCount(width: nat, height: nat): (n: nat)
    ensures n < U32_LIMIT
    ensures width * height < U32_LIMIT ==> n == width * height
    ensures (width * height - n) % U32_LIMIT == 0
  {
    (width * height) % U32_LIMIT
  }

  /** A 65536 by 65536 image has a pixel count of 0, and one of 65536 by 65537 a count of 65536. */
  lemma PixelCountWraps()
    ensures PixelCount(0x1_0000, 0x1_0000) == 0
    ensures PixelCount(0x1_0000, 0x1_0001) == 0x1_0000
  {
  }

  /**
   * `compare_pngs`. Identical buffers are `Ok(None)`, and nothing is
   * written. Otherwise the difference image goes to `writePath` (the bytes
   * handed to the encoder are returned as `written`), a failure to create
   * the file or write its header or data is an error, and the result is
   * `DifferentData` with the average difference as a percentage of 255.
   * The buffers must then have the same length, a whole number of pixels,
   * and no more pixels than the difference image's `u32` pixel count: the
   * source asserts the first two and indexes the image by pixel.
   */
  method ComparePngs(width: nat, height: nat, samples: nat, one: seq<Byte>, two: seq<Byte>,
                     writePath: string, fileOk: bool, writeOk: bool)
    returns (r: Result<Option<FailureReason>, SampleError>, written: seq<Byte>)
    requires 1 <= samples
    requires one != two ==> |one| == |two| && |one| % samples == 0 && |one| / samples <= PixelCount(width, height)
    ensures one == two ==> r == Ok(None) && written == []
    ensures one != two && !fileOk ==> r == Err(IoError) && written == []
    ensures one != two && fileOk ==> written == DiffImage(Chunks(one, samples), Chunks(two, samples), samples, PixelCount(width, height))
    ensures one != two && fileOk && !writeOk ==> r == Err(IoError)
    ensures one != two && fileOk && writeOk ==> (r.Ok? && r.value.Some? && r.value.value.DifferentData?
                                                 && r.value.value.diffPath == writePath)
    ensures r.Ok? && r.value.Some? ==>
              r.value.value.avgDiffPct
                == OverallDiff(Chunks(one, samples), Chunks(two, samples), samples,
                               ZipLength(Chunks(one, samples), Chunks(two, samples)))
                   / PixelCount(width, height) as real / 255.0 * 100.0
  {
    written := [];
    if one == two {
      return Ok(None), written;
    }
    if !fileOk {
      return Err(IoError), written;
    }
    var count := PixelCount(width, height);
    var buf := new Byte[count](_ => 0);
    ChunksArePixels(one, samples);
    ChunksArePixels(two, samples);
    var overall := FillDiff(buf, Chunks(one, samples), Chunks(two, samples), samples);
    assert count > 0 by {
      NonEmptyPixels(one, two, samples);
    }
    var overallAvg := overall / count as real;
    var avgPerc := overallAvg / 255.0 * 100.0;
    written := buf[..];
    if !writeOk {
      return Err(IoError), written;
    }
    return Ok(Some(DifferentData(avgPerc, writePath))), written;
  }

  /** Two different buffers of equal length hold at least one pixel. */
  lemma NonEmptyPixels(one: seq<Byte>, two: seq<Byte>, samples: nat)
    requires 1 <= samples && one != two && |one| == |two| && |one| % samples == 0
    ensures |one| / samples >= 1
  {
    assert |one| != 0;
  }

  /**
   * `compare_files` on the two decoded files: different sizes are
   * `WrongSize`; otherwise the colour types must agree (the source asserts
   * it) and the pixels are compared, the difference image going to the
   * directory of the revision's file `revPath` under the `-diff` name of
   * the sample.
   */
  method CompareFiles(number: nat, one: PngData, revPath: string, two: PngData, prefix: string, centi: nat,
                      fileOk: bool, writeOk: bool)
    returns (r: Result<Option<FailureReason>, SampleError>)
    requires one.width == two.width && one.height == two.height ==> one.samples == two.samples
    requires 1 <= one.samples
    requires (one.width == two.width && one.height == two.height && one.data != two.data) ==>
               |one.data| == |two.data| && |one.data| % one.samples == 0
               && |one.data| / one.samples <= PixelCount(one.width, one.height)
    ensures one.width != two.width || one.height != two.height ==>
              r == Ok(Some(WrongSize(Size(one.width as real, one.height as real), Size(two.width as real, two.height as real))))
    ensures one.width == two.width && one.height == two.height && one.data == two.data ==> r == Ok(None)
    ensures r.Ok? && r.value.Some? && r.value.value.DifferentData? ==>
              r.value.value.diffPath == WithFileName(revPath, GetFilename(prefix, centi, number, true))
  {
    var oneSize := Size(one.width as real, one.height as real);
    var twoSize := Size(two.width as real, two.height as real);
    if oneSize != twoSize {
      return Ok(Some(WrongSize(oneSize, twoSize)));
    }
    var errWritePath := WithFileName(revPath, GetFilename(prefix, centi, number, true));
    var written;
    r, written := ComparePngs(one.width, one.height, one.samples, one.data, two.data, errWritePath, fileOk, writeOk);
  }
}

=== FILE: shapes.dfy ===
/** Stroke options (piet/src/shapes.rs). */
module Shapes {
  import opened Wrappers

  datatype LineJoin = Miter(limit: real) | Round | Bevel
  datatype LineCap = Butt | Round | Square

  const DEFAULT_MITER_LIMIT: real := 10.0

  /** `impl Default for LineJoin`. */
  const DEFAULT_LINE_JOIN: LineJoin := Miter(DEFAULT_MITER_LIMIT)
  /** `#[default]` of `LineCap`. */
  const DEFAULT_LINE_CAP: LineCap := LineCap.Butt

  /**
   * `StrokeDash`: a static slice set by the const builder and an allocated
   * pattern set by `set_dash_pattern`; the allocated one wins when present.
   */
  datatype StrokeDash = StrokeDash(slice: seq<real>, alloc: Option<seq<real>>)

  /** `impl Deref for StrokeDash`: the pattern a backend sees. */
  function Lengths(d: StrokeDash): (r: seq<real>)
    ensures d.alloc.Some? ==> r == d.alloc.value
    ensures d.alloc.None? ==> r == d.slice
  {
    match d.alloc
    case Some(a) => a
    case None => d.slice
  }

  datatype StrokeStyle = StrokeStyle(
    lineJoin: LineJoin,
    lineCap: LineCap,
    dashPattern: StrokeDash,
    dashOffset: real)

  /** `StrokeStyle::new`. */
  function New(): (s: StrokeStyle)
    ensures s == Default()
    ensures MiterLimit(s) == Some(10.0) && s.lineCap == LineCap.Butt
    ensures Lengths(s.dashPattern) == [] && s.dashOffset == 0.0
  {
    StrokeStyle(Miter(DEFAULT_MITER_LIMIT), LineCap.Butt, StrokeDash([], None), 0.0)
  }

  /** The derived `Default`: every field at its own type's default. */
  function Default(): StrokeStyle
  {
    StrokeStyle(DEFAULT_LINE_JOIN, DEFAULT_LINE_CAP, StrokeDash([], None), 0.0)
  }

  /** The `line_join` builder. */
  function WithLineJoin(s: StrokeStyle, j: LineJoin): StrokeStyle { s.(lineJoin := j) }
  /** The `line_cap` builder. */
  function WithLineCap(s: StrokeStyle, c: LineCap): StrokeStyle { s.(lineCap := c) }
  /** The `dash_offset` builder. */
  function WithDashOffset(s: StrokeStyle, o: real): StrokeStyle { s.(dashOffset := o) }
  /** The `dash_pattern` builder: it sets the static slice only. */
  function WithDashPattern(s: StrokeStyle, lengths: seq<real>): StrokeStyle
  {
    s.(dashPattern := s.dashPattern.(slice := lengths))
  }

  /** `set_line_join`, as the value the style holds afterwards. */
  function SetLineJoin(s: StrokeStyle, j: LineJoin): StrokeStyle { s.(lineJoin := j) }
  /** `set_line_cap`, as the value the style holds afterwards. */
  function SetLineCap(s: StrokeStyle, c: LineCap): StrokeStyle { s.(lineCap := c) }
  /** `set_dash_offset`, as the value the style holds afterwards. */
  function SetDashOffset(s: StrokeStyle, o: real): StrokeStyle { s.(dashOffset := o) }
  /** `set_dash_pattern`, as the value the style holds afterwards: it sets the allocated pattern. */
  function SetDashPattern(s: StrokeStyle, lengths: seq<real>): StrokeStyle
  {
    s.(dashPattern := s.dashPattern.(alloc := Some(lengths)))
  }

  /** `StrokeStyle::miter_limit`. */
  function MiterLimit(s: StrokeStyle): (r: Option<real>)
    ensures r.Some? <==> s.lineJoin.Miter?
    ensures r.Some? ==> r.value == s.lineJoin.limit
  {
    match s.lineJoin
    case Miter(limit) => Some(limit)
    case _ => None
  }

  /**
   * Every builder and setter changes its own field and nothing else, and the
   * builder and setter of the same field agree (the dash pattern aside).
   */
  lemma BuildersAndSettersFrame(s: StrokeStyle, j: LineJoin, c: LineCap, o: real)
    ensures WithLineJoin(s, j).lineJoin == j && WithLineJoin(s, j).(lineJoin := s.lineJoin) == s
    ensures WithLineCap(s, c).lineCap == c && WithLineCap(s, c).(lineCap := s.lineCap) == s
    ensures WithDashOffset(s, o).dashOffset == o && WithDashOffset(s, o).(dashOffset := s.dashOffset) == s
    ensures SetLineJoin(s, j) == WithLineJoin(s, j)
    ensures SetLineCap(s, c) == WithLineCap(s, c)
    ensures SetDashOffset(s, o) == WithDashOffset(s, o)
    ensures MiterLimit(WithLineCap(s, c)) == MiterLimit(s)
  {
  }

  /**
   * Dash precedence: once `set_dash_pattern` has run, the visible pattern is
   * its argument whether the `dash_pattern` builder ran before or after it;
   * without it the builder's slice is visible.
   */
  lemma DashPatternPrecedence(s: StrokeStyle, a: seq<real>, b: seq<real>)
    ensures Lengths(WithDashPattern(SetDashPattern(s, b), a).dashPattern) == b
    ensures Lengths(SetDashPattern(WithDashPattern(s, a), b).dashPattern) == b
    ensures s.dashPattern.alloc.None? ==> Lengths(WithDashPattern(s, a).dashPattern) == a
    ensures WithDashPattern(s, a).(dashPattern := s.dashPattern) == s
    ensures SetDashPattern(s, b).(dashPattern := s.dashPattern) == s
  {
  }
}

=== FILE: strip.dfy ===
/**
 * Strip generation of `cpu-sparse` (cpu-sparse/src/strip.rs): tiles are
 * sorted by path, row and column, two sentinel tiles are appended, and a
 * single pass turns each run of touching tiles in a row into a strip that
 * points at its first alpha word. The alpha words themselves are coverage
 * values computed in floating point; here each word records the tiles,
 * column and incoming winding it is computed from.
 */
module Strip {
  import opened PietTypes
  import Flatten

  type U16 = x: int | 0 <= x < U16_LIMIT
  type U32 = x: int | 0 <= x < U32_LIMIT

  /** `Loc`: the path and the tile position. */
  datatype Loc = Loc(pathId: U32, x: U16, y: U16)

  /** `Tile`: a position and the two packed endpoints of its segment. */
  datatype Tile = Tile(pathId: U32, x: U16, y: U16, p0: U32, p1: U32)

  /** `Strip`. */
  datatype Strip = Strip(pathId: U32, xy: U32, col: nat, winding: int)

  /** `Loc::same_row`. */
  function SameRow(a: Loc, b: Loc): bool
  {
    a.pathId == b.pathId && a.y == b.y
  }

  /**
   * `Loc::same_strip`: `b` is in `a`'s row and `(b.x - a.x) / 2 == 0`, the
   * `u16` subtraction wrapping around when `b.x < a.x`.
   */
  function SameStrip(a: Loc, b: Loc): bool
  {
    SameRow(a, b) && ((b.x - a.x) % U16_LIMIT) / 2 == 0
  }

  /** Two tiles in the same strip are in the same row. */
  lemma SameStripIsSameRow(a: Loc, b: Loc)
    ensures SameStrip(a, b) ==> SameRow(a, b)
  {
  }

  /**
   * From a tile to one at or after it, `same_strip` holds exactly when they
   * are in the same row and at most one column apart.
   */
  lemma SameStripForward(a: Loc, b: Loc)
    requires a.x <= b.x
    ensures SameStrip(a, b) <==> SameRow(a, b) && b.x - a.x <= 1
  {
  }

  /**
   * Backwards, the wrapped difference is at least 1, and it is 1 only from
   * the last column to the first: `same_strip` then holds although the
   * tiles are as far apart as a row allows.
   */
  lemma SameStripBackward(a: Loc, b: Loc)
    requires b.x < a.x
    ensures SameStrip(a, b) <==> SameRow(a, b) && a.x == U16_LIMIT - 1 && b.x == 0
  {
  }

  /** `Tile::loc`. */
  function TileLoc(t: Tile): Loc
  {
    Loc(t.pathId, t.x, t.y)
  }

  /** `p >> 16` on a `u32`: the packed y coordinate. */
  function High(p: U32): (h: nat)
    ensures h < U16_LIMIT && h * U16_LIMIT <= p < (h + 1) * U16_LIMIT
  {
    p / U16_LIMIT
  }

  /** `p & 0xffff` on a `u32`: the packed x coordinate. */
  function Low(p: U32): (l: nat)
    ensures l < U16_LIMIT
    ensures p == High(p) * U16_LIMIT + l
  {
    p % U16_LIMIT
  }

  /**
   * `Tile::delta`: +1 when only the end lies on the tile's top edge, -1
   * when only the start does, and 0 otherwise.
   */
  function Delta(t: Tile): (d: int)
    ensures -1 <= d <= 1
    ensures d == 1 <==> High(t.p1) == 0 && High(t.p0) != 0
    ensures d == -1 <==> High(t.p0) == 0 && High(t.p1) != 0
  {
    (if High(t.p1) == 0 then 1 else 0) - (if High(t.p0) == 0 then 1 else 0)
  }

  /** `2^n`. */
  function Pow2(n: nat): (p: nat)
    ensures p >= 1
  {
    if n == 0 then 1 else 2 * Pow2(n - 1)
  }

  lemma {:induction false} Pow2Monotone(m: nat, n: nat)
    requires m <= n
    ensures Pow2(m) <= Pow2(n)
  {
    if m < n {
      Pow2Monotone(m, n - 1);
    }
  }

  /**
   * `Tile::footprint`: the columns the tile's segment touches, as the mask
   * `(1 << xmax) - (1 << xmin)`. The endpoints' x coordinates are multiples
   * of 1/8192 below 8, which `f32` holds exactly, so the floor of the
   * smaller and the ceiling of the larger are integer divisions; the
   * segment always touches at least one column and at most the first 8.
   */
  function Footprint(t: Tile): (fp: nat)
    ensures 0 < fp < 0x100
  {
    var lo := if Low(t.p0) <= Low(t.p1) then Low(t.p0) else Low(t.p1);
    var hi := if Low(t.p0) <= Low(t.p1) then Low(t.p1) else Low(t.p0);
    var xmin := lo / 8192;
    var ceil := (hi + 8191) / 8192;
    var xmax := if xmin + 1 < ceil then ceil else xmin + 1;
    Pow2Monotone(xmin + 1, xmax);
    Pow2Monotone(xmax, 8);
    Pow2(xmax) - Pow2(xmin)
  }

  /** `a | b` on unsigned integers. */
  function BitOr(a: nat, b: nat): nat
  {
    if a == 0 then b
    else if b == 0 then a
    else 2 * BitOr(a / 2, b / 2) + (if a % 2 == 1 || b % 2 == 1 then 1 else 0)
  }

  /** Or-ing in a set bit leaves a nonzero mask. */
  lemma {:induction false} BitOrNonzero(a: nat, b: nat)
    requires b > 0
    ensures BitOr(a, b) > 0
  {
    if a != 0 && b % 2 == 0 {
      BitOrNonzero(a / 2, b / 2);
    }
  }

  /** Or-ing two masks of `k` bits gives a mask of `k` bits. */
  lemma {:induction false} BitOrBelow(a: nat, b: nat, k: nat)
    requires a < Pow2(k) && b < Pow2(k)
    ensures BitOr(a, b) < Pow2(k)
  {
    if a != 0 && b != 0 {
      BitOrBelow(a / 2, b / 2, k - 1);
    }
  }

  /** `32 - leading_zeros()` of a mask below 2^32: the number of bits up to its highest set one. */
  function BitLength(n: nat): nat
  {
    if n == 0 then 0 else 1 + BitLength(n / 2)
  }

  /** `trailing_zeros()` of a nonzero mask: the position of its lowest set bit. */
  function TrailingZeros(n: nat): (z: nat)
    requires n > 0
    ensures z < BitLength(n)
  {
    if n % 2 == 1 then 0 else 1 + TrailingZeros(n / 2)
  }

  /** A mask below 2^k has at most `k` bits, so `32 - leading_zeros()` is its bit length. */
  lemma {:induction false} BitLengthBelow(n: nat, k: nat)
    requires n < Pow2(k)
    ensures BitLength(n) <= k
  {
    if n > 0 {
      BitLengthBelow(n / 2, k - 1);
    }
  }

  /** The packed position `((y as u32) << 16) + x as u32` that `cmp` compares. */
  function Key(t: Tile): (k: nat)
    ensures k < U32_LIMIT
  {
    t.y * U16_LIMIT + t.x
  }

  /** The order `cmp` sorts by, as one number: path first, then the packed position. */
  function Rank(t: Tile): nat
  {
    t.pathId * U32_LIMIT + Key(t)
  }

  datatype Ordering = Less | Equal | Greater

  /**
   * `Tile::cmp`: the pairs `(path_id, key)` compared lexicographically,
   * which is comparing the tiles' ranks.
   */
  function Cmp(a: Tile, b: Tile): (r: Ordering)
    ensures r == Less <==> Rank(a) < Rank(b)
    ensures r == Equal <==> Rank(a) == Rank(b)
  {
    if a.pathId < b.pathId then Less
    else if a.pathId > b.pathId then Greater
    else if Key(a) < Key(b) then Less
    else if Key(a) > Key(b) then Greater
    else Equal
  }

  /**
   * `cmp` orders by path, then row, then column, and calls two tiles equal
   * exactly when they are at the same location.
   */
  lemma CmpLexicographic(a: Tile, b: Tile)
    ensures Cmp(a, b) == Less <==>
              a.pathId < b.pathId || (a.pathId == b.pathId && (a.y < b.y || (a.y == b.y && a.x < b.x)))
    ensures Cmp(a, b) == Equal <==> TileLoc(a) == TileLoc(b)
  {
    if a.y < b.y {
      assert Key(a) < (a.y + 1) * U16_LIMIT <= Key(b);
    } else if a.y > b.y {
      assert Key(b) < (b.y + 1) * U16_LIMIT <= Key(a);
    }
  }

  /** Sorted by `cmp`: no tile compares greater than one after it. */
  predicate Sorted(ts: seq<Tile>)
  {
    forall i, j :: 0 <= i < j < |ts| ==> Cmp(ts[i], ts[j]) != Greater
  }

  /** `t` inserted before the first tile of `ts` it does not compare greater than. */
  function Insert(t: Tile, ts: seq<Tile>): (r: seq<Tile>)
    ensures multiset(r) == multiset(ts) + multiset{t}
    ensures |r| == |ts| + 1
  {
    if ts == [] then [t]
    else if Cmp(t, ts[0]) != Greater then [t] + ts
    else
      assert ts == [ts[0]] + ts[1..];
      [ts[0]] + Insert(t, ts[1..])
  }

  /** A tile ranked at most every tile of a sorted sequence can go in front of it. */
  lemma ConsSorted(x: Tile, rest: seq<Tile>)
    requires Sorted(rest)
    requires forall k :: 0 <= k < |rest| ==> Rank(x) <= Rank(rest[k])
    ensures Sorted([x] + rest)
  {
    var r := [x] + rest;
    forall i, j | 0 <= i < j < |r|
      ensures Cmp(r[i], r[j]) != Greater
    {
      assert r[j] == rest[j - 1];
      if i > 0 {
        assert r[i] == rest[i - 1];
      }
    }
  }

  /** What is inserted after the head of a sorted sequence ranks no lower than the head. */
  lemma InsertAfterHead(t: Tile, ts: seq<Tile>)
    requires Sorted(ts) && ts != [] && Cmp(t, ts[0]) == Greater
    ensures forall k :: 0 <= k < |ts| ==> Rank(ts[0]) <= Rank(Insert(t, ts[1..])[k])
  {
    var tail := ts[1..];
    var rest := Insert(t, tail);
    forall k | 0 <= k < |rest|
      ensures Rank(ts[0]) <= Rank(rest[k])
    {
      assert rest[k] in multiset(rest);
      if rest[k] != t {
        assert rest[k] in tail;
        var m :| 0 <= m < |tail| && tail[m] == rest[k];
        assert ts[m + 1] == rest[k];
      }
    }
  }

  /** Inserting into a sorted sequence keeps it sorted. */
  lemma {:induction false} InsertSorted(t: Tile, ts: seq<Tile>)
    requires Sorted(ts)
    ensures Sorted(Insert(t, ts))
  {
    if ts == [] {
    } else if Cmp(t, ts[0]) != Greater {
      ConsSorted(t, ts);
    } else {
      assert Sorted(ts[1..]);
      InsertSorted(t, ts[1..]);
      InsertAfterHead(t, ts);
      ConsSorted(ts[0], Insert(t, ts[1..]));
    }
  }

  /**
   * `tiles.sort_by(Tile::cmp)`: the same tiles, each as often as before,
   * sorted by `cmp`.
   */
  function SortTiles(ts: seq<Tile>): (r: seq<Tile>)
    ensures Sorted(r) && multiset(r) == multiset(ts)
    ensures |r| == |ts|
  {
    if ts == [] then []
    else
      assert ts == [ts[0]] + ts[1..];
      InsertSorted(ts[0], SortTiles(ts[1..]));
      Insert(ts[0], SortTiles(ts[1..]))
  }

  /** A sentinel tile: path `path_id`, at column and row `0x3fff`, with both endpoints packed as 0. */
  function Sentinel(pathId: U32): (t: Tile)
    ensures t.pathId == pathId && t.x == 0x3fff && t.y == 0x3fff && t.p0 == 0 && t.p1 == 0
  {
    Tile(pathId, 0x3fff, 0x3fff, 0, 0)
  }

  /** `!1` and `!0` as `u32`. */
  const NOT_ONE: U32 := 0xFFFF_FFFE
  const NOT_ZERO: U32 := 0xFFFF_FFFF

  /** The tiles `render_strips` is given: the sorted tiles, then the two sentinels. */
  function StripInput(tiles: seq<Tile>): (all: seq<Tile>)
    ensures |all| == |tiles| + 2
    ensures all[..|tiles|] == SortTiles(tiles)
    ensures all[|tiles|] == Sentinel(NOT_ONE) && all[|tiles| + 1] == Sentinel(NOT_ZERO)
  {
    SortTiles(tiles) + [Sentinel(NOT_ONE), Sentinel(NOT_ZERO)]
  }

  /** Sorting keeps the set of paths: every tile of the result is one of the input tiles. */
  lemma SortedKeepsPaths(tiles: seq<Tile>, sorted: seq<Tile>)
    requires multiset(sorted) == multiset(tiles)
    requires forall i :: 0 <= i < |tiles| ==> tiles[i].pathId < NOT_ONE
    ensures forall i :: 0 <= i < |sorted| ==> sorted[i].pathId < NOT_ONE
  {
    forall i | 0 <= i < |sorted|
      ensures sorted[i].pathId < NOT_ONE
    {
      assert sorted[i] in multiset(tiles);
    }
  }

  /**
   * When no tile belongs to the two sentinel paths, the sentinels sort
   * after every tile, so the whole input is sorted; and the two sentinels
   * are in different strips, so the last real run is always closed.
   */
  lemma StripInputSorted(tiles: seq<Tile>)
    requires forall i :: 0 <= i < |tiles| ==> tiles[i].pathId < NOT_ONE
    ensures Sorted(StripInput(tiles))
    ensures !SameStrip(TileLoc(Sentinel(NOT_ONE)), TileLoc(Sentinel(NOT_ZERO)))
  {
    var all := StripInput(tiles);
    var sorted := SortTiles(tiles);
    SortedKeepsPaths(tiles, sorted);
    forall i, j | 0 <= i < j < |all|
      ensures Cmp(all[i], all[j]) != Greater
    {
      if j < |tiles| {
        assert all[i] == sorted[i] && all[j] == sorted[j];
      } else if i < |tiles| {
        assert all[i] == sorted[i];
      }
    }
  }

  /**
   * An alpha word of `out`: the coverage of column `column` of the tiles
   * `segStart..segEnd`, with `startDelta` the winding entering the row.
   * The coverage itself, computed in floating point, is not modelled.
   */
  datatype AlphaWord = AlphaWord(segStart: nat, segEnd: nat, column: nat, startDelta: int)

  /** The words pushed for the columns `x0..x1` of one run of tiles, left to right. */
  function Columns(segStart: nat, segEnd: nat, x0: nat, x1: nat, startDelta: int): (ws: seq<AlphaWord>)
    requires x0 <= x1
    ensures |ws| == x1 - x0
    ensures forall k :: 0 <= k < |ws| ==> ws[k] == AlphaWord(segStart, segEnd, x0 + k, startDelta)
  {
    if x0 == x1 then [] else Columns(segStart, segEnd, x0, x1 - 1, startDelta) + [AlphaWord(segStart, segEnd, x1 - 1, startDelta)]
  }

  /** The sum of the tiles' deltas. */
  function SumDelta(ts: seq<Tile>): int
  {
    if ts == [] then 0 else SumDelta(ts[..|ts| - 1]) + Delta(ts[|ts| - 1])
  }

  /** The winding change over `n` tiles lies between `-n` and `n`. */
  lemma {:induction false} SumDeltaBound(ts: seq<Tile>)
    ensures -|ts| <= SumDelta(ts) <= |ts|
  {
    if ts != [] {
      SumDeltaBound(ts[..|ts| - 1]);
    }
  }

  /** The loop that adds up the deltas of the tiles `s..e`. */
  method AddDeltas(tiles: seq<Tile>, s: nat, e: nat, delta: int) returns (d: int)
    requires s <= e <= |tiles|
    ensures d == delta + SumDelta(tiles[s..e])
  {
    d := delta;
    for k := s to e
      invariant d == delta + SumDelta(tiles[s..k])
    {
      assert tiles[s..k + 1][..k - s] == tiles[s..k];
      d := d + Delta(tiles[k]);
    }
  }

  /** The loop over the columns `x0..x1`: one word per column, appended in order. */
  method PushColumns(out: seq<AlphaWord>, segStart: nat, segEnd: nat, x0: nat, x1: nat, startDelta: int)
    returns (out': seq<AlphaWord>)
    requires x0 <= x1
    ensures out' == out + Columns(segStart, segEnd, x0, x1, startDelta)
  {
    out' := out;
    for x := x0 to x1
      invariant out' == out + Columns(segStart, segEnd, x0, x, startDelta)
    {
      out' := out' + [AlphaWord(segStart, segEnd, x, startDelta)];
    }
  }

  /** `xy` of a strip: `(1 << 18) * y + 4 * x + x0` in `u32` arithmetic, which wraps. */
  function StripXy(y: U16, x: U16, x0: nat): U32
  {
    (0x4_0000 * y + 4 * x + x0) % U32_LIMIT
  }

  /** Word `j` is the first of its run: the word before it, if any, belongs to an earlier run. */
  predicate FirstOfRun(out: seq<AlphaWord>, j: nat)
    requires j < |out|
  {
    j == 0 || out[j - 1].segStart < out[j].segStart
  }

  /**
   * The bookkeeping `render_strips` keeps between tiles: `cols` counts the
   * words pushed, every word belongs to a run before `segStart`, and each
   * strip's `col`, increasing from strip to strip, is the index of the
   * first word of a run.
   */
  predicate Bookkeeping(strips: seq<Strip>, out: seq<AlphaWord>, cols: nat, segStart: nat)
  {
    && cols == |out|
    && (forall j :: 0 <= j < |out| ==> out[j].segStart < segStart)
    && (forall k :: 0 <= k < |strips| ==> strips[k].col < |out| && FirstOfRun(out, strips[k].col))
    && (forall k, l :: 0 <= k < l < |strips| ==> strips[k].col < strips[l].col)
  }

  /**
   * Closing the run `segStart..i`: its columns `x0..x1` get one word each,
   * a strip pointing at the first of them is pushed when the run starts a
   * strip, and `cols` grows by the number of words pushed.
   */
  method CloseRun(strips: seq<Strip>, out: seq<AlphaWord>, cols: nat,
                  segStart: nat, i: nat, x0: nat, x1: nat, startDelta: int, stripStart: bool,
                  pathId: U32, xy: U32)
    returns (strips': seq<Strip>, out': seq<AlphaWord>, cols': nat)
    requires Bookkeeping(strips, out, cols, segStart) && segStart < i && x0 < x1
    requires forall j :: 0 <= j < |out| ==> out[j].segStart < out[j].segEnd <= segStart
    ensures Bookkeeping(strips', out', cols', i)
    ensures forall j :: 0 <= j < |out'| ==> out'[j].segStart < out'[j].segEnd <= i
    ensures out' == out + Columns(segStart, i, x0, x1, startDelta)
    ensures stripStart ==> strips' == strips + [Strip(pathId, xy, cols, startDelta)]
    ensures !stripStart ==> strips' == strips
    ensures cols' == cols + (x1 - x0)
  {
    out' := PushColumns(out, segStart, i, x0, x1, startDelta);
    strips' := strips;
    if stripStart {
      strips' := strips + [Strip(pathId, xy, cols, startDelta)];
      assert FirstOfRun(out', cols);
    }
    cols' := cols + (x1 - x0);
  }

  /**
   * The variables of `render_strips` between tiles: the output so far,
   * whether the next run starts a strip, the number of words pushed, the
   * footprint of the open run, where the run began, the winding so far in
   * the row, and the previous tile.
   */
  datatype RenderState = RenderState(
    strips: seq<Strip>, out: seq<AlphaWord>, stripStart: bool, cols: nat,
    fp: nat, segStart: nat, delta: int, prev: Tile)

  /** The shape of the variables before tile `i` is looked at. */
  predicate Shaped(tiles: seq<Tile>, i: nat, st: RenderState)
  {
    1 <= i <= |tiles| && st.segStart < i && st.prev == tiles[i - 1] && 0 < st.fp < Pow2(9)
  }

  /** `fp` when the open run is closed: widened to column 3 when the new tile continues the strip. */
  function RunFootprint(st: RenderState, tile: Tile): (m: nat)
    requires 0 < st.fp < Pow2(9)
    ensures 0 < m < Pow2(9)
  {
    if SameStrip(TileLoc(st.prev), TileLoc(tile)) then
      BitOrBelow(st.fp, 8, 9);
      BitOrNonzero(st.fp, 8);
      BitOr(st.fp, 8)
    else st.fp
  }

  /**
   * The variables once the run `st.segStart..i` is closed because tile `i`
   * is at another location: the run's columns are pushed as words, a strip
   * is pushed when the run started one, and the run starting at `i`
   * inherits column 0 when it continues the strip; the winding is carried
   * on within the row and reset at a new one.
   */
  function Closed(tiles: seq<Tile>, i: nat, st: RenderState): RenderState
    requires i < |tiles| && Shaped(tiles, i, st)
  {
    var tile := tiles[i];
    var same := SameStrip(TileLoc(st.prev), TileLoc(tile));
    var fp := RunFootprint(st, tile);
    var x0 := TrailingZeros(fp);
    var x1 := BitLength(fp);
    RenderState(
      if st.stripStart then st.strips + [Strip(tile.pathId, StripXy(st.prev.y, st.prev.x, x0), st.cols, st.delta)]
      else st.strips,
      st.out + Columns(st.segStart, i, x0, x1, st.delta),
      !same, st.cols + (x1 - x0), if same then 1 else 0, i,
      if SameRow(TileLoc(st.prev), TileLoc(tile)) then st.delta + SumDelta(tiles[st.segStart..i]) else 0,
      st.prev)
  }

  /**
   * One turn of the loop of `render_strips`, for tile `i`: the open run is
   * closed when the tile's location differs from the previous tile's, and
   * either way the tile's footprint joins the open run's.
   */
  function Step(tiles: seq<Tile>, i: nat, st: RenderState): (r: RenderState)
    requires i < |tiles| && Shaped(tiles, i, st)
    ensures Shaped(tiles, i + 1, r)
  {
    var nxt := if TileLoc(st.prev) != TileLoc(tiles[i]) then Closed(tiles, i, st) else st;
    BitOrBelow(nxt.fp, Footprint(tiles[i]), 9);
    BitOrNonzero(nxt.fp, Footprint(tiles[i]));
    nxt.(fp := BitOr(nxt.fp, Footprint(tiles[i])), prev := tiles[i])
  }

  /** The variables of `render_strips` before tile `i` is looked at: the loop's turns for tiles `1..i`, in order. */
  function RenderTo(tiles: seq<Tile>, i: nat): (st: RenderState)
    requires 1 <= i <= |tiles|
    ensures Shaped(tiles, i, st)
  {
    if i == 1 then Initial(tiles) else Step(tiles, i - 1, RenderTo(tiles, i - 1))
  }

  /** The variables before the loop: nothing pushed, a strip to start, the first tile's footprint. */
  function Initial(tiles: seq<Tile>): (st: RenderState)
    requires |tiles| >= 1
    ensures Shaped(tiles, 1, st)
  {
    RenderState([], [], true, 0, Footprint(tiles[0]), 0, 0, tiles[0])
  }

  /** The variables `render_strips` ends with; it returns their strips and words. */
  function Rendered(tiles: seq<Tile>): RenderState
    requires |tiles| >= 1
  {
    RenderTo(tiles, |tiles|)
  }

  /** A location change between tiles `b - 1` and `b`: a run of tiles ends at `b`. */
  predicate Boundary(tiles: seq<Tile>, b: nat)
  {
    1 <= b < |tiles| && TileLoc(tiles[b - 1]) != TileLoc(tiles[b])
  }

  /** Where a run begins: at the first tile or at a location change. */
  predicate RunStart(tiles: seq<Tile>, s: nat)
  {
    s == 0 || Boundary(tiles, s)
  }

  /** No location change strictly inside `s..e`: the tiles `s..e` share one location. */
  predicate OneLocation(tiles: seq<Tile>, s: nat, e: nat)
  {
    forall t :: s < t < e ==> !Boundary(tiles, t)
  }

  /** The run beginning at `s` starts a strip: it is the first run, or the run before it does not continue into it. */
  predicate StartsStrip(tiles: seq<Tile>, s: nat)
  {
    s == 0 || (s < |tiles| && !SameStrip(TileLoc(tiles[s - 1]), TileLoc(tiles[s])))
  }

  /** `fp |= tile.footprint()` over the tiles `s..e`, starting from `carry`. */
  function FootprintsOr(carry: nat, tiles: seq<Tile>, s: nat, e: nat): (m: nat)
    requires s <= e <= |tiles|
    ensures s < e ==> m > 0
    decreases e - s
  {
    if e == s then carry
    else
      BitOrNonzero(FootprintsOr(carry, tiles, s, e - 1), Footprint(tiles[e - 1]));
      BitOr(FootprintsOr(carry, tiles, s, e - 1), Footprint(tiles[e - 1]))
  }

  /**
   * The footprint of the open run `s..e`: its tiles' footprints, and column
   * 0 as well when the run continues a strip.
   */
  function OpenMask(tiles: seq<Tile>, s: nat, e: nat): nat
    requires s < |tiles| && s <= e <= |tiles|
  {
    FootprintsOr(if StartsStrip(tiles, s) then 0 else 1, tiles, s, e)
  }

  /** The footprint of the run `s..e` when tile `e` closes it: widened to column 3 when tile `e` continues the strip. */
  function CloseMask(tiles: seq<Tile>, s: nat, e: nat): (m: nat)
    requires s < e < |tiles|
    ensures m > 0
  {
    var open := OpenMask(tiles, s, e);
    if SameStrip(TileLoc(tiles[e - 1]), TileLoc(tiles[e])) then
      BitOrNonzero(open, 8);
      BitOr(open, 8)
    else open
  }

  /**
   * Where the row of tile `s` begins: the last tile at or before `s` that
   * is not in the row of the tile before it.
   */
  function RowStart(tiles: seq<Tile>, s: nat): (r: nat)
    requires s < |tiles|
    ensures r <= s
  {
    if s == 0 || !SameRow(TileLoc(tiles[s - 1]), TileLoc(tiles[s])) then s else RowStart(tiles, s - 1)
  }

  /** The winding entering tile `s`: the deltas of the tiles before it in its row. */
  function RowWinding(tiles: seq<Tile>, s: nat): int
    requires s < |tiles|
  {
    SumDelta(tiles[RowStart(tiles, s)..s])
  }

  /**
   * A word computed from a whole run of tiles: the tiles `segStart..segEnd`
   * share a location, which differs from the locations before and after,
   * and the word's incoming winding is that of the run's first tile.
   */
  predicate WordOfRun(tiles: seq<Tile>, w: AlphaWord)
  {
    w.segStart < w.segEnd < |tiles| && RunStart(tiles, w.segStart) && Boundary(tiles, w.segEnd)
    && OneLocation(tiles, w.segStart, w.segEnd) && w.startDelta == RowWinding(tiles, w.segStart)
  }

  /**
   * The columns of the words: with `x0..x1` the columns of the run's
   * footprint, the run's first word is for column `x0`, each further word
   * for the next column, and the last for column `x1 - 1`.
   */
  predicate ColumnOfRun(tiles: seq<Tile>, out: seq<AlphaWord>, j: nat)
    requires j < |out| && WordOfRun(tiles, out[j])
  {
    var m := CloseMask(tiles, out[j].segStart, out[j].segEnd);
    && TrailingZeros(m) <= out[j].column < BitLength(m)
    && (FirstOfRun(out, j) ==> out[j].column == TrailingZeros(m))
    && (j + 1 < |out| && out[j + 1].segStart == out[j].segStart ==> out[j + 1].column == out[j].column + 1)
    && (j + 1 == |out| || out[j + 1].segStart != out[j].segStart ==> out[j].column + 1 == BitLength(m))
  }

  /** Tile `t` belongs to the run of some word. */
  predicate Covered(out: seq<AlphaWord>, t: nat)
  {
    exists j :: 0 <= j < |out| && out[j].segStart <= t < out[j].segEnd
  }

  /**
   * A strip points at the first word of a run that starts a strip, carries
   * that word's incoming winding, the path of the tile that closed the run,
   * and the position of the run's tile and first column.
   */
  predicate StripOfRun(tiles: seq<Tile>, out: seq<AlphaWord>, s: Strip)
  {
    && s.col < |out| && WordOfRun(tiles, out[s.col]) && FirstOfRun(out, s.col)
    && StartsStrip(tiles, out[s.col].segStart)
    && s.winding == out[s.col].startDelta
    && s.pathId == tiles[out[s.col].segEnd].pathId
    && s.xy == StripXy(tiles[out[s.col].segEnd - 1].y, tiles[out[s.col].segEnd - 1].x, out[s.col].column)
  }

  /** Some strip points at word `j`. */
  predicate HasStrip(strips: seq<Strip>, j: nat)
  {
    exists k :: 0 <= k < |strips| && strips[k].col == j
  }

  /**
   * What the strips and words built from the tiles `0..i` say, the run
   * from `open` on being still open: every word belongs to a closed run,
   * the words of a run are its columns in order, every tile before the open
   * run belongs to a run that has words, and the strips are exactly the
   * first words of the runs that start a strip, in order.
   */
  predicate Rendering(tiles: seq<Tile>, i: nat, strips: seq<Strip>, out: seq<AlphaWord>, open: nat)
  {
    && open < i <= |tiles| && RunStart(tiles, open) && OneLocation(tiles, open, i)
    && WordsOfRuns(tiles, out, open) && CoveredBefore(out, open) && StripsOfRuns(tiles, strips, out)
  }

  /** Every word belongs to a run closed by `open`, and the words of a run are its columns in order. */
  predicate WordsOfRuns(tiles: seq<Tile>, out: seq<AlphaWord>, open: nat)
  {
    forall j :: 0 <= j < |out| ==> WordOfRun(tiles, out[j]) && out[j].segEnd <= open && ColumnOfRun(tiles, out, j)
  }

  /** Every tile before `open` belongs to the run of some word. */
  predicate CoveredBefore(out: seq<AlphaWord>, open: nat)
  {
    forall t :: 0 <= t < open ==> Covered(out, t)
  }

  /** The strips are exactly the first words of the runs that start a strip, in order. */
  predicate StripsOfRuns(tiles: seq<Tile>, strips: seq<Strip>, out: seq<AlphaWord>)
  {
    && (forall k :: 0 <= k < |strips| ==> StripOfRun(tiles, out, strips[k]))
    && (forall j :: 0 <= j < |out| && FirstOfRun(out, j) && StartsStrip(tiles, out[j].segStart) ==> HasStrip(strips, j))
    && (forall k, l :: 0 <= k < l < |strips| ==> strips[k].col < strips[l].col)
  }

  /** What holds of the variables before tile `i` is looked at. */
  predicate RunFacts(tiles: seq<Tile>, i: nat, st: RenderState)
  {
    && Shaped(tiles, i, st)
    && st.cols == |st.out|
    && st.stripStart == StartsStrip(tiles, st.segStart)
    && st.fp == OpenMask(tiles, st.segStart, i)
    && st.delta == RowWinding(tiles, st.segStart)
    && Rendering(tiles, i, st.strips, st.out, st.segStart)
  }

  /** The facts hold before the loop. */
  lemma InitialFacts(tiles: seq<Tile>)
    requires |tiles| >= 1
    ensures RunFacts(tiles, 1, Initial(tiles))
  {
    assert OpenMask(tiles, 0, 1) == BitOr(FootprintsOr(0, tiles, 0, 0), Footprint(tiles[0]));
  }

  /** A tile at the open run's location extends the run and changes nothing else. */
  lemma {:induction false} SameLocationKeeps(tiles: seq<Tile>, i: nat, st: RenderState)
    requires i < |tiles| && RunFacts(tiles, i, st) && TileLoc(st.prev) == TileLoc(tiles[i])
    ensures RunFacts(tiles, i + 1, Step(tiles, i, st))
  {
    var r := Step(tiles, i, st);
    assert r == st.(fp := BitOr(st.fp, Footprint(tiles[i])), prev := tiles[i]);
    assert !Boundary(tiles, i);
    assert OneLocation(tiles, st.segStart, i + 1);
  }

  /** A word already pushed keeps its facts when the words of a later run are appended. */
  lemma OldWordStays(tiles: seq<Tile>, out: seq<AlphaWord>, ws: seq<AlphaWord>, j: nat)
    requires j < |out| && WordOfRun(tiles, out[j]) && ColumnOfRun(tiles, out, j)
    requires ws != [] && out[|out| - 1].segStart < ws[0].segStart
    ensures WordOfRun(tiles, (out + ws)[j]) && ColumnOfRun(tiles, out + ws, j)
  {
    var r := out + ws;
    assert r[j] == out[j];
    if j > 0 {
      assert r[j - 1] == out[j - 1];
    }
    if j + 1 < |out| {
      assert r[j + 1] == out[j + 1];
    } else {
      assert r[j + 1] == ws[0];
    }
  }

  /** The words appended for the run `s..i` are its columns `x0..x1`, in order. */
  lemma NewWord(tiles: seq<Tile>, out: seq<AlphaWord>, s: nat, i: nat, d: int, j: nat)
    requires s < i < |tiles| && RunStart(tiles, s) && Boundary(tiles, i) && OneLocation(tiles, s, i)
    requires d == RowWinding(tiles, s)
    requires out == [] || out[|out| - 1].segStart < s
    requires |out| <= j < |out| + |Columns(s, i, TrailingZeros(CloseMask(tiles, s, i)), BitLength(CloseMask(tiles, s, i)), d)|
    ensures var r := out + Columns(s, i, TrailingZeros(CloseMask(tiles, s, i)), BitLength(CloseMask(tiles, s, i)), d);
      WordOfRun(tiles, r[j]) && r[j].segEnd <= i && ColumnOfRun(tiles, r, j)
  {
    var m := CloseMask(tiles, s, i);
    var x0, x1 := TrailingZeros(m), BitLength(m);
    var ws := Columns(s, i, x0, x1, d);
    var r := out + ws;
    var n := |out|;
    assert r[j] == ws[j - n] == AlphaWord(s, i, x0 + (j - n), d);
    if j > n {
      assert r[j - 1] == ws[j - n - 1];
    } else if n > 0 {
      assert r[j - 1] == out[n - 1];
    }
    if j + 1 < |r| {
      assert r[j + 1] == ws[j + 1 - n];
    }
  }

  /** Appending the columns of the run `s..i` keeps the facts about the words. */
  lemma AppendRunWords(tiles: seq<Tile>, out: seq<AlphaWord>, s: nat, i: nat, d: int)
    requires s < i < |tiles| && RunStart(tiles, s) && Boundary(tiles, i) && OneLocation(tiles, s, i)
    requires d == RowWinding(tiles, s)
    requires WordsOfRuns(tiles, out, s) && CoveredBefore(out, s)
    ensures WordsOfRuns(tiles, out + Columns(s, i, TrailingZeros(CloseMask(tiles, s, i)), BitLength(CloseMask(tiles, s, i)), d), i)
  {
    var m := CloseMask(tiles, s, i);
    var ws := Columns(s, i, TrailingZeros(m), BitLength(m), d);
    var r := out + ws;
    var n := |out|;
    if n > 0 {
      assert WordOfRun(tiles, out[n - 1]);
    }
    forall j | 0 <= j < |r|
      ensures WordOfRun(tiles, r[j]) && r[j].segEnd <= i && ColumnOfRun(tiles, r, j)
    {
      if j < n {
        OldWordStays(tiles, out, ws, j);
      } else {
        NewWord(tiles, out, s, i, d, j);
      }
    }
  }

  /** Once the columns of the run `s..i` are appended, every tile before `i` belongs to a run that has words. */
  lemma AppendRunCovers(tiles: seq<Tile>, out: seq<AlphaWord>, s: nat, i: nat, d: int)
    requires s < i < |tiles| && RunStart(tiles, s) && Boundary(tiles, i) && OneLocation(tiles, s, i)
    requires d == RowWinding(tiles, s)
    requires WordsOfRuns(tiles, out, s) && CoveredBefore(out, s)
    ensures CoveredBefore(out + Columns(s, i, TrailingZeros(CloseMask(tiles, s, i)), BitLength(CloseMask(tiles, s, i)), d), i)
  {
    var m := CloseMask(tiles, s, i);
    var ws := Columns(s, i, TrailingZeros(m), BitLength(m), d);
    var r := out + ws;
    var n := |out|;
    forall t | 0 <= t < i
      ensures Covered(r, t)
    {
      if t < s {
        assert Covered(out, t);
        var j :| 0 <= j < n && out[j].segStart <= t < out[j].segEnd;
        assert r[j] == out[j];
      } else {
        assert r[n] == ws[0];
      }
    }
  }

  /** A strip already pushed keeps its facts when words are appended. */
  lemma OldStripStays(tiles: seq<Tile>, out: seq<AlphaWord>, ws: seq<AlphaWord>, sp: Strip)
    requires StripOfRun(tiles, out, sp)
    ensures StripOfRun(tiles, out + ws, sp)
  {
    var r := out + ws;
    assert r[sp.col] == out[sp.col];
    if sp.col > 0 {
      assert r[sp.col - 1] == out[sp.col - 1];
    }
  }

  /** The strip pushed for a run that starts one points at its first word. */
  lemma NewStrip(tiles: seq<Tile>, i: nat, st: RenderState)
    requires i < |tiles| && Shaped(tiles, i, st) && TileLoc(st.prev) != TileLoc(tiles[i])
    requires st.stripStart && StartsStrip(tiles, st.segStart) && st.cols == |st.out|
    requires st.out == [] || st.out[|st.out| - 1].segStart < st.segStart
    requires WordOfRun(tiles, Closed(tiles, i, st).out[|st.out|])
    ensures StripOfRun(tiles, Closed(tiles, i, st).out, Closed(tiles, i, st).strips[|st.strips|])
  {
    var r := Closed(tiles, i, st);
    var m := RunFootprint(st, tiles[i]);
    var ws := Columns(st.segStart, i, TrailingZeros(m), BitLength(m), st.delta);
    var n := |st.out|;
    assert r.out == st.out + ws;
    assert r.strips[|st.strips|] == Strip(tiles[i].pathId, StripXy(st.prev.y, st.prev.x, TrailingZeros(m)), n, st.delta);
    assert r.out[n] == ws[0];
    if n > 0 {
      assert r.out[n - 1] == st.out[n - 1];
    }
  }

  /*
   * The words of the run starting at `s` are appended to `out`, and the
   * strip `sp` to `strips` exactly when the run starts a strip: the next
   * three lemmas each show one part of `StripsOfRuns` of the result.
   */

  /** The strips already pushed, and `sp` when it is pushed, point at first words of runs that start strips. */
  lemma StripsStay(tiles: seq<Tile>, strips: seq<Strip>, out: seq<AlphaWord>, ws: seq<AlphaWord>, s: nat, sp: Strip)
    requires StripsOfRuns(tiles, strips, out)
    requires s < |tiles| && ws != [] && (forall j :: 0 <= j < |ws| ==> ws[j].segStart == s)
    requires out == [] || out[|out| - 1].segStart < s
    requires StartsStrip(tiles, s) ==> StripOfRun(tiles, out + ws, sp) && sp.col == |out|
    ensures var rs := if StartsStrip(tiles, s) then strips + [sp] else strips;
      forall k :: 0 <= k < |rs| ==> StripOfRun(tiles, out + ws, rs[k])
  {
    var rs := if StartsStrip(tiles, s) then strips + [sp] else strips;
    forall k | 0 <= k < |rs|
      ensures StripOfRun(tiles, out + ws, rs[k])
    {
      if k < |strips| {
        assert rs[k] == strips[k];
        OldStripStays(tiles, out, ws, strips[k]);
      }
    }
  }

  /** The first word of every run that starts a strip has a strip pointing at it. */
  lemma FirstWordsHaveStrips(tiles: seq<Tile>, strips: seq<Strip>, out: seq<AlphaWord>, ws: seq<AlphaWord>, s: nat, sp: Strip)
    requires StripsOfRuns(tiles, strips, out)
    requires s < |tiles| && ws != [] && (forall j :: 0 <= j < |ws| ==> ws[j].segStart == s)
    requires out == [] || out[|out| - 1].segStart < s
    requires StartsStrip(tiles, s) ==> StripOfRun(tiles, out + ws, sp) && sp.col == |out|
    ensures var rs := if StartsStrip(tiles, s) then strips + [sp] else strips;
      forall j :: 0 <= j < |out + ws| && FirstOfRun(out + ws, j) && StartsStrip(tiles, (out + ws)[j].segStart) ==> HasStrip(rs, j)
  {
    var rs := if StartsStrip(tiles, s) then strips + [sp] else strips;
    var r := out + ws;
    var n := |out|;
    forall j | n < j < |r|
      ensures !FirstOfRun(r, j)
    {
      assert r[j] == ws[j - n] && r[j - 1] == ws[j - n - 1];
    }
    forall j | 0 <= j < |r| && FirstOfRun(r, j) && StartsStrip(tiles, r[j].segStart)
      ensures HasStrip(rs, j)
    {
      if j < n {
        assert r[j] == out[j];
        if j > 0 {
          assert r[j - 1] == out[j - 1];
        }
        assert HasStrip(strips, j);
        var k :| 0 <= k < |strips| && strips[k].col == j;
        assert rs[k] == strips[k];
      } else if j == n {
        assert r[j] == ws[0];
        assert rs[|strips|] == sp;
      } else {
        assert false;
      }
    }
  }

  /** A strip pushed at the end of the words comes after every earlier strip. */
  lemma StripsStayOrdered(tiles: seq<Tile>, strips: seq<Strip>, out: seq<AlphaWord>, ws: seq<AlphaWord>, s: nat, sp: Strip)
    requires StripsOfRuns(tiles, strips, out)
    requires s < |tiles| && ws != [] && (forall j :: 0 <= j < |ws| ==> ws[j].segStart == s)
    requires out == [] || out[|out| - 1].segStart < s
    requires StartsStrip(tiles, s) ==> StripOfRun(tiles, out + ws, sp) && sp.col == |out|
    ensures var rs := if StartsStrip(tiles, s) then strips + [sp] else strips;
      forall k, l :: 0 <= k < l < |rs| ==> rs[k].col < rs[l].col
  {
    var rs := if StartsStrip(tiles, s) then strips + [sp] else strips;
    forall k, l | 0 <= k < l < |rs|
      ensures rs[k].col < rs[l].col
    {
      assert rs[k] == strips[k];
      if l < |strips| {
        assert rs[l] == strips[l];
      } else {
        assert StripOfRun(tiles, out, strips[k]);
      }
    }
  }

  /** Appending the words of a run and the strip it starts, if any, keeps the facts about the strips. */
  lemma AppendStrips(tiles: seq<Tile>, strips: seq<Strip>, out: seq<AlphaWord>, ws: seq<AlphaWord>, s: nat, sp: Strip)
    requires StripsOfRuns(tiles, strips, out)
    requires s < |tiles| && ws != [] && (forall j :: 0 <= j < |ws| ==> ws[j].segStart == s)
    requires out == [] || out[|out| - 1].segStart < s
    requires StartsStrip(tiles, s) ==> StripOfRun(tiles, out + ws, sp) && sp.col == |out|
    ensures StripsOfRuns(tiles, if StartsStrip(tiles, s) then strips + [sp] else strips, out + ws)
  {
    StripsStay(tiles, strips, out, ws, s, sp);
    FirstWordsHaveStrips(tiles, strips, out, ws, s, sp);
    StripsStayOrdered(tiles, strips, out, ws, s, sp);
  }

  /** Closing the run before tile `i` leaves the facts of the tiles up to `i`, with the run at `i` open. */
  lemma {:induction false} ClosedRendering(tiles: seq<Tile>, i: nat, st: RenderState)
    requires i < |tiles| && RunFacts(tiles, i, st) && TileLoc(st.prev) != TileLoc(tiles[i])
    ensures Rendering(tiles, i + 1, Closed(tiles, i, st).strips, Closed(tiles, i, st).out, i)
  {
    var c := Closed(tiles, i, st);
    var s := st.segStart;
    var m := CloseMask(tiles, s, i);
    assert RunFootprint(st, tiles[i]) == m;
    var ws := Columns(s, i, TrailingZeros(m), BitLength(m), st.delta);
    assert c.out == st.out + ws;
    assert Boundary(tiles, i);
    AppendRunWords(tiles, st.out, s, i, st.delta);
    AppendRunCovers(tiles, st.out, s, i, st.delta);
    var n := |st.out|;
    if n > 0 {
      assert WordOfRun(tiles, st.out[n - 1]);
    }
    var sp := if st.stripStart then c.strips[|st.strips|] else Strip(0, 0, 0, 0);
    if st.stripStart {
      NewStrip(tiles, i, st);
      assert c.strips == st.strips + [sp];
    }
    AppendStrips(tiles, st.strips, st.out, ws, s, sp);
    assert OneLocation(tiles, i, i + 1);
  }

  /** The deltas of two consecutive stretches of tiles add up. */
  lemma {:induction false} SumDeltaAppend(a: seq<Tile>, b: seq<Tile>)
    ensures SumDelta(a + b) == SumDelta(a) + SumDelta(b)
  {
    if b != [] {
      assert (a + b)[..|a + b| - 1] == a + b[..|b| - 1];
      SumDeltaAppend(a, b[..|b| - 1]);
    } else {
      assert a + b == a;
    }
  }

  /** The tiles of one run are in one row, so they share where it begins. */
  lemma {:induction false} RowStartInRun(tiles: seq<Tile>, s: nat, t: nat)
    requires s <= t < |tiles| && OneLocation(tiles, s, t + 1)
    ensures RowStart(tiles, t) == RowStart(tiles, s)
    decreases t - s
  {
    if s < t {
      assert !Boundary(tiles, t);
      RowStartInRun(tiles, s, t - 1);
    }
  }

  /**
   * The winding carried into the run at `i`: within the row, the winding
   * entering the closed run plus its tiles' deltas; at a new row, 0.
   */
  lemma ClosedWinding(tiles: seq<Tile>, i: nat, st: RenderState)
    requires i < |tiles| && RunFacts(tiles, i, st) && TileLoc(st.prev) != TileLoc(tiles[i])
    ensures Closed(tiles, i, st).delta == RowWinding(tiles, i)
  {
    var s := st.segStart;
    if SameRow(TileLoc(st.prev), TileLoc(tiles[i])) {
      RowStartInRun(tiles, s, i - 1);
      var r := RowStart(tiles, s);
      assert RowStart(tiles, i) == r;
      assert tiles[r..i] == tiles[r..s] + tiles[s..i];
      SumDeltaAppend(tiles[r..s], tiles[s..i]);
    }
  }

  /** A tile at another location closes the run, and the facts hold of the run it opens. */
  lemma {:induction false} LocationChangeKeeps(tiles: seq<Tile>, i: nat, st: RenderState)
    requires i < |tiles| && RunFacts(tiles, i, st) && TileLoc(st.prev) != TileLoc(tiles[i])
    ensures RunFacts(tiles, i + 1, Step(tiles, i, st))
  {
    var c := Closed(tiles, i, st);
    ClosedRendering(tiles, i, st);
    ClosedWinding(tiles, i, st);
    var r := Step(tiles, i, st);
    assert r == c.(fp := BitOr(c.fp, Footprint(tiles[i])), prev := tiles[i]);
    var m := RunFootprint(st, tiles[i]);
    assert |c.out| == |st.out| + (BitLength(m) - TrailingZeros(m));
    assert OpenMask(tiles, i, i + 1) == BitOr(FootprintsOr(c.fp, tiles, i, i), Footprint(tiles[i]));
  }

  /** The facts include the bookkeeping closing a run relies on. */
  lemma FactsBookkeeping(tiles: seq<Tile>, i: nat, st: RenderState)
    requires RunFacts(tiles, i, st)
    ensures Bookkeeping(st.strips, st.out, st.cols, st.segStart)
    ensures forall j :: 0 <= j < |st.out| ==> st.out[j].segStart < st.out[j].segEnd <= st.segStart
  {
    forall j | 0 <= j < |st.out|
      ensures st.out[j].segStart < st.out[j].segEnd <= st.segStart
    {
      assert WordOfRun(tiles, st.out[j]);
    }
    forall k | 0 <= k < |st.strips|
      ensures st.strips[k].col < |st.out| && FirstOfRun(st.out, st.strips[k].col)
    {
      assert StripOfRun(tiles, st.out, st.strips[k]);
    }
  }

  /** Each turn of the loop keeps the facts. */
  lemma StepKeeps(tiles: seq<Tile>, i: nat, st: RenderState)
    requires i < |tiles| && RunFacts(tiles, i, st)
    ensures RunFacts(tiles, i + 1, Step(tiles, i, st))
  {
    if TileLoc(st.prev) == TileLoc(tiles[i]) {
      SameLocationKeeps(tiles, i, st);
    } else {
      LocationChangeKeeps(tiles, i, st);
    }
  }

  /** The facts hold before every turn of the loop. */
  lemma {:induction false} RenderToFacts(tiles: seq<Tile>, i: nat)
    requires 1 <= i <= |tiles|
    ensures RunFacts(tiles, i, RenderTo(tiles, i))
  {
    if i == 1 {
      InitialFacts(tiles);
    } else {
      RenderToFacts(tiles, i - 1);
      StepKeeps(tiles, i - 1, RenderTo(tiles, i - 1));
    }
  }

  /** Before every turn of the loop the bookkeeping that closing a run relies on holds. */
  lemma RenderToBookkeeping(tiles: seq<Tile>, i: nat)
    requires 1 <= i <= |tiles|
    ensures var st := RenderTo(tiles, i);
      && Bookkeeping(st.strips, st.out, st.cols, st.segStart)
      && (forall j :: 0 <= j < |st.out| ==> st.out[j].segStart < st.out[j].segEnd <= st.segStart)
  {
    RenderToFacts(tiles, i);
    FactsBookkeeping(tiles, i, RenderTo(tiles, i));
  }

  /**
   * What `render_strips` returns, for any tiles: the words are the columns
   * of the runs of tiles at one location, in order, every run but the last
   * one gets them, and the strips are exactly the first words of the runs
   * that do not continue the run before them.
   */
  lemma RenderedRuns(tiles: seq<Tile>)
    requires |tiles| >= 1
    ensures var r := Rendered(tiles);
      Rendering(tiles, |tiles|, r.strips, r.out, r.segStart)
  {
    RenderToFacts(tiles, |tiles|);
  }

  /**
   * One turn of the loop of `render_strips`, for tile `i`: when its
   * location differs from the previous tile's, the open run is closed
   * (its footprint widened to column 3 when the new tile continues the
   * strip) and a new run starts at `i`, the winding being reset at a new
   * row; either way the tile's footprint joins the open run's.
   */
  method RenderTile(tiles: seq<Tile>, i: nat, st: RenderState) returns (st': RenderState)
    requires i < |tiles| && Shaped(tiles, i, st) && Bookkeeping(st.strips, st.out, st.cols, st.segStart)
    requires forall j :: 0 <= j < |st.out| ==> st.out[j].segStart < st.out[j].segEnd <= st.segStart
    ensures st' == Step(tiles, i, st)
  {
    var tile := tiles[i];
    st' := st;
    var fp := st.fp;
    if TileLoc(st.prev) != TileLoc(tile) {
      var startDelta := st.delta;
      var sameStrip := SameStrip(TileLoc(st.prev), TileLoc(tile));
      if sameStrip {
        BitOrBelow(fp, 8, 9);
        BitOrNonzero(fp, 8);
        fp := BitOr(fp, 8);
      }
      var x0 := TrailingZeros(fp);
      BitLengthBelow(fp, 9);
      var x1 := BitLength(fp);
      var delta := AddDeltas(tiles, st.segStart, i, st.delta);
      var xy := StripXy(st.prev.y, st.prev.x, x0);
      var strips, out, cols;
      strips, out, cols := CloseRun(st.strips, st.out, st.cols, st.segStart, i, x0, x1, startDelta,
                                    st.stripStart, tile.pathId, xy);
      fp := if sameStrip then 1 else 0;
      if !SameRow(TileLoc(st.prev), TileLoc(tile)) {
        delta := 0;
      }
      st' := RenderState(strips, out, !sameStrip, cols, fp, i, delta, st.prev);
      assert st' == Closed(tiles, i, st);
    }
    BitOrBelow(fp, Footprint(tile), 9);
    BitOrNonzero(fp, Footprint(tile));
    st' := st'.(fp := BitOr(fp, Footprint(tile)), prev := tile);
  }

  /**
   * `render_strips`: the loop over the tiles, returning the strips and
   * words of `Rendered`, of which `RenderedRuns` says what they are. The
   * tiles must not be empty: `tiles[0]` is read first.
   */
  method RenderStrips(tiles: seq<Tile>) returns (strips: seq<Strip>, out: seq<AlphaWord>)
    requires |tiles| >= 1
    ensures strips == Rendered(tiles).strips && out == Rendered(tiles).out
    ensures Rendering(tiles, |tiles|, strips, out, Rendered(tiles).segStart)
  {
    var st := Initial(tiles);
    for i := 1 to |tiles|
      invariant st == RenderTo(tiles, i)
    {
      RenderToBookkeeping(tiles, i);
      st := RenderTile(tiles, i, st);
    }
    strips, out := st.strips, st.out;
    RenderedRuns(tiles);
  }

  /**
   * `make_strips`: the tiles of the bowl's line soup (computed by
   * `make_tiles`, outside this model, and passed in) are sorted, the two
   * sentinels appended, and the strips and alpha words of that input
   * returned with the bowl's colours. The second sentinel is at another
   * location than the first, so every run up to and including the first
   * sentinel is closed: every sorted tile belongs to a run that has words.
   */
  method MakeStrips(bowl: Flatten.SoupBowl, tiles: seq<Tile>)
    returns (strips: seq<Strip>, alpha: seq<AlphaWord>, colors: seq<Flatten.PremulRgba8>)
    ensures colors == bowl.colors
    ensures strips == Rendered(StripInput(tiles)).strips && alpha == Rendered(StripInput(tiles)).out
    ensures Rendering(StripInput(tiles), |tiles| + 2, strips, alpha, |tiles| + 1)
    ensures forall t :: 0 <= t <= |tiles| ==> Covered(alpha, t)
  {
    var all := StripInput(tiles);
    strips, alpha := RenderStrips(all);
    assert Boundary(all, |tiles| + 1);
    colors := bowl.colors;
  }
}

=== FILE: svg.dfy ===
/**
 * The SVG render context: its save/restore stack of states, the ids it
 * hands out to clip paths and gradients, the attributes it writes on each
 * shape element, and the formatting of ids and colours. The document is
 * the sequence of nodes appended to it; shapes, brushes' colours and
 * numbers are kept as values rather than serialised.
 */
module Svg {
  import opened Wrappers
  import opened PietTypes
  import opened Affine
  import opened Shapes
  import Colors
  import Hex

  // ---------------------------------------------------------------------
  // Ids

  /** `ALPHABET[d]` of `Id::to_string`: `a`-`z` then `A`-`Z`. */
  function Letter(d: nat): char
    requires d < 52
  {
    if d < 26 then ('a' as int + d) as char else ('A' as int + d - 26) as char
  }

  /** The index of a letter of the alphabet. */
  function LetterIndex(c: char): nat
  {
    if 'a' <= c <= 'z' then c as nat - 'a' as nat
    else if 'A' <= c <= 'Z' then c as nat - 'A' as nat + 26
    else 0
  }

  /** The base-52 digits of an id, least significant first, as `Id::to_string` writes them. */
  function IdDigits(x: nat): (s: string)
    ensures |s| > 0
  {
    [Letter(x % 52)] + (if x / 52 == 0 then [] else IdDigits(x / 52))
  }

  /** One digit of `IdDigits`, and the digits of the rest. */
  lemma IdDigitsStep(x: nat)
    ensures x / 52 == 0 ==> IdDigits(x) == [Letter(x % 52)]
    ensures x / 52 != 0 ==> IdDigits(x) == [Letter(x % 52)] + IdDigits(x / 52)
  {
  }

  /** The id a string of digits denotes, least significant first. */
  function ParseId(s: string): nat
  {
    if s == [] then 0 else LetterIndex(s[0]) + 52 * ParseId(s[1..])
  }

  /** Reading the digits back gives the id. */
  lemma {:induction false} IdRoundTrip(x: nat)
    ensures ParseId(IdDigits(x)) == x
  {
    var s := IdDigits(x);
    assert LetterIndex(Letter(x % 52)) == x % 52;
    if x / 52 != 0 {
      IdRoundTrip(x / 52);
      assert s[1..] == IdDigits(x / 52);
    } else {
      assert s[1..] == [];
    }
  }

  /** Distinct ids give distinct strings, and id 0 is `"a"`. */
  lemma IdDigitsInjective(x: nat, y: nat)
    ensures IdDigits(x) == IdDigits(y) ==> x == y
    ensures IdDigits(0) == "a"
  {
    IdRoundTrip(x);
    IdRoundTrip(y);
  }

  /** `Id::to_string`: the loop that emits a digit, divides, and stops at zero. */
  method IdToString(id: nat) returns (out: string)
    ensures out == IdDigits(id)
  {
    out := [];
    var x := id;
    while true
      invariant out + IdDigits(x) == IdDigits(id)
      decreases x
    {
      var digit := x % 52;
      IdDigitsStep(x);
      ghost var before := out;
      out := out + [Letter(digit)];
      var next := x / 52;
      if next == 0 {
        return;
      }
      assert before + IdDigits(x) == out + IdDigits(next);
      x := next;
    }
  }

  /** `format!("url(#{})", id.to_string())`. */
  function UrlOf(id: nat): string
  {
    "url(#" + IdDigits(id) + ")"
  }

  // ---------------------------------------------------------------------
  // Brushes and colours

  /** `BrushKind`: a solid colour, or a reference to a gradient by id. */
  datatype Brush = Solid(color: Colors.Color) | Ref(id: nat)

  /** `fmt_color`: `#` and the six hex digits of the colour without alpha. */
  function FmtColor(c: Colors.Color): string
  {
    Hex.HexColor(c.rgba)
  }

  /** `fmt_opacity`: the alpha channel as a fraction of 1. */
  function FmtOpacity(c: Colors.Color): real
  {
    (c.rgba % 0x100) as real / 255.0
  }

  /** `Brush::color`: the colour, or a `url(#id)` reference to the gradient. */
  function BrushColor(b: Brush): (v: string)
    ensures b.Solid? ==> |v| == 7 && v[0] == '#' && Hex.ParseHex(v[1..]) == b.color.rgba / 0x100
    ensures b.Ref? ==> v == UrlOf(b.id)
  {
    match b
    case Solid(c) => FmtColor(c)
    case Ref(id) => UrlOf(id)
  }

  /** `Brush::opacity`: the alpha of a solid colour, and nothing for a gradient. */
  function BrushOpacity(b: Brush): (o: Option<real>)
    ensures o.Some? <==> b.Solid?
    ensures b.Solid? ==> o.value == FmtOpacity(b.color)
  {
    match b
    case Solid(c) => Some(FmtOpacity(c))
    case Ref(_) => None
  }

  // ---------------------------------------------------------------------
  // Attributes

  /** `Attrs`: transform, clip, optional fill (with its fill rule) and optional stroke. */
  datatype Attrs = Attrs(
    xf: Affine,
    clip: Option<nat>,
    fill: Option<(Brush, Option<string>)>,
    stroke: Option<(Brush, real, StrokeStyle)>)

  /**
   * The presentation attributes `apply_to` may assign on an element, each
   * `None` until assigned; numbers and the matrix are kept unformatted.
   */
  datatype Presentation = Presentation(
    transform: Option<Affine>,
    clipPath: Option<string>,
    fill: Option<string>,
    fillOpacity: Option<real>,
    fillRule: Option<string>,
    stroke: Option<string>,
    strokeOpacity: Option<real>,
    strokeWidth: Option<real>,
    strokeMiterlimit: Option<real>,
    strokeLinejoin: Option<string>,
    strokeLinecap: Option<string>,
    strokeDasharray: Option<seq<real>>,
    strokeDashoffset: Option<real>)

  /** A freshly created element: nothing assigned. */
  const UNASSIGNED: Presentation :=
    Presentation(None, None, None, None, None, None, None, None, None, None, None, None, None)

  /** The fill part of `apply_to`. */
  function FillAttrs(node: Presentation, fill: Option<(Brush, Option<string>)>): (r: Presentation)
    ensures fill.None? ==> r == node.(fill := Some("none"))
    ensures fill.Some? ==> && r.fill == Some(BrushColor(fill.value.0))
                           && r.fillOpacity == (if fill.value.0.Solid? then BrushOpacity(fill.value.0) else node.fillOpacity)
                           && r.fillRule == (if fill.value.1.Some? then fill.value.1 else node.fillRule)
    ensures r.(fill := node.fill, fillOpacity := node.fillOpacity, fillRule := node.fillRule) == node
  {
    match fill
    case Some((brush, rule)) =>
      var node := node.(fill := Some(BrushColor(brush)));
      var node := if BrushOpacity(brush).Some? then node.(fillOpacity := BrushOpacity(brush)) else node;
      if rule.Some? then node.(fillRule := rule) else node
    case None => node.(fill := Some("none"))
  }

  /** The join part of a stroke: a miter limit other than the default, or a round or bevel join. */
  function JoinAttrs(node: Presentation, join: LineJoin): (r: Presentation)
    ensures r.strokeMiterlimit ==
      (if join.Miter? && join.limit != DEFAULT_MITER_LIMIT then Some(join.limit) else node.strokeMiterlimit)
    ensures r.strokeLinejoin.Some? <==> node.strokeLinejoin.Some? || !join.Miter?
    ensures r.(strokeMiterlimit := node.strokeMiterlimit, strokeLinejoin := node.strokeLinejoin) == node
  {
    match join
    case Miter(limit) => if limit == DEFAULT_MITER_LIMIT then node else node.(strokeMiterlimit := Some(limit))
    case Round => node.(strokeLinejoin := Some("round"))
    case Bevel => node.(strokeLinejoin := Some("bevel"))
  }

  /** The cap part of a stroke: only round and square caps are written. */
  function CapAttrs(node: Presentation, cap: LineCap): (r: Presentation)
    ensures r.strokeLinecap.Some? <==> node.strokeLinecap.Some? || !cap.Butt?
    ensures r.(strokeLinecap := node.strokeLinecap) == node
  {
    match cap
    case Round => node.(strokeLinecap := Some("round"))
    case Square => node.(strokeLinecap := Some("square"))
    case Butt => node
  }

  /** None of the stroke attributes is assigned. */
  predicate NoStroke(node: Presentation)
  {
    && node.stroke.None? && node.strokeOpacity.None? && node.strokeWidth.None?
    && node.strokeMiterlimit.None? && node.strokeLinejoin.None? && node.strokeLinecap.None?
    && node.strokeDasharray.None? && node.strokeDashoffset.None?
  }

  /** What the stroke part of `apply_to` assigns on an element without stroke attributes. */
  predicate StrokeAssigned(node: Presentation, brush: Brush, width: real, style: StrokeStyle)
  {
    && node.stroke == Some(BrushColor(brush))
    && node.strokeOpacity == BrushOpacity(brush)
    && node.strokeWidth == (if width != 1.0 then Some(width) else None)
    && node.strokeMiterlimit ==
         (if style.lineJoin.Miter? && style.lineJoin.limit != DEFAULT_MITER_LIMIT then Some(style.lineJoin.limit) else None)
    && (node.strokeLinejoin.Some? <==> !style.lineJoin.Miter?)
    && (node.strokeLinecap.Some? <==> !style.lineCap.Butt?)
    && node.strokeDasharray == (if Lengths(style.dashPattern) != [] then Some(Lengths(style.dashPattern)) else None)
    && node.strokeDashoffset == (if style.dashOffset != 0.0 then Some(style.dashOffset) else None)
  }

  /** The stroke part of `apply_to`. */
  function StrokeAttrs(node: Presentation, stroke: Option<(Brush, real, StrokeStyle)>): (r: Presentation)
    ensures stroke.None? ==> r == node
    ensures stroke.Some? && NoStroke(node) ==> StrokeAssigned(r, stroke.value.0, stroke.value.1, stroke.value.2)
    ensures r.(stroke := node.stroke, strokeOpacity := node.strokeOpacity, strokeWidth := node.strokeWidth,
               strokeMiterlimit := node.strokeMiterlimit, strokeLinejoin := node.strokeLinejoin,
               strokeLinecap := node.strokeLinecap, strokeDasharray := node.strokeDasharray,
               strokeDashoffset := node.strokeDashoffset) == node
  {
    match stroke
    case None => node
    case Some((brush, width, style)) =>
      var node := node.(stroke := Some(BrushColor(brush)));
      var node := if BrushOpacity(brush).Some? then node.(strokeOpacity := BrushOpacity(brush)) else node;
      var node := if width != 1.0 then node.(strokeWidth := Some(width)) else node;
      var node := JoinAttrs(node, style.lineJoin);
      var node := CapAttrs(node, style.lineCap);
      var dashes := Lengths(style.dashPattern);
      var node := if dashes != [] then node.(strokeDasharray := Some(dashes)) else node;
      if style.dashOffset != 0.0 then node.(strokeDashoffset := Some(style.dashOffset)) else node
  }

  /**
   * `Attrs::apply_to` on a fresh element: the transform always; a clip
   * path exactly with a clip; `fill` is the brush's colour, or `none`
   * without a fill, with the opacity of a solid colour and the fill rule
   * when given; and the stroke's colour and opacity, then each stroke
   * attribute only where it differs from SVG's default: the width unless
   * 1, the miter limit unless 10, the join for round and bevel, the cap
   * for round and square, the dash array when non-empty and the offset
   * when non-zero.
   */
  function ApplyTo(a: Attrs): (node: Presentation)
    ensures node.transform == Some(a.xf)
    ensures node.clipPath.Some? <==> a.clip.Some?
    ensures a.clip.Some? ==> node.clipPath == Some(UrlOf(a.clip.value))
    ensures a.fill.None? ==> node.fill == Some("none") && node.fillOpacity.None? && node.fillRule.None?
    ensures a.fill.Some? ==> && node.fill == Some(BrushColor(a.fill.value.0))
                             && node.fillOpacity == BrushOpacity(a.fill.value.0)
                             && node.fillRule == a.fill.value.1
    ensures a.stroke.None? ==> NoStroke(node)
    ensures a.stroke.Some? ==> StrokeAssigned(node, a.stroke.value.0, a.stroke.value.1, a.stroke.value.2)
  {
    var node := UNASSIGNED.(transform := Some(a.xf));
    var node := if a.clip.Some? then node.(clipPath := Some(UrlOf(a.clip.value))) else node;
    StrokeAttrs(FillAttrs(node, a.fill), a.stroke)
  }

  // ---------------------------------------------------------------------
  // Shapes and the document

  /**
   * What `add_shape` asks of a shape: whether it is a circle, a rounded
   * rectangle with one radius for all corners, or a rectangle. `key`
   * identifies the shape's geometry, which is not modelled.
   */
  datatype Shape = Shape(key: nat, isCircle: bool, isSingleRadiusRoundedRect: bool, isRect: bool)

  /** The SVG element `add_shape` chooses. */
  datatype ElementKind = CircleElement | RoundedRectElement | RectElement | PathElement

  /** `add_shape`'s dispatch: a circle first, then a rounded rectangle with one radius, then a rectangle, else a path. */
  function ElementFor(shape: Shape): (k: ElementKind)
    ensures k == CircleElement <==> shape.isCircle
    ensures k == RoundedRectElement <==> !shape.isCircle && shape.isSingleRadiusRoundedRect
    ensures k == RectElement <==> !shape.isCircle && !shape.isSingleRadiusRoundedRect && shape.isRect
  {
    if shape.isCircle then CircleElement
    else if shape.isSingleRadiusRoundedRect then RoundedRectElement
    else if shape.isRect then RectElement
    else PathElement
  }

  /** An element drawn for a shape, with the attributes `apply_to` gave it. */
  datatype Element = Element(kind: ElementKind, shape: Shape, attrs: Presentation)

  /** `add_shape`. */
  function AddShape(shape: Shape, a: Attrs): Element
  {
    Element(ElementFor(shape), shape, ApplyTo(a))
  }

  /** A node appended to the document. */
  datatype DocNode =
    | Drawn(element: Element)
    | ClipPath(id: nat, element: Element)
    | GradientDef(id: nat, radial: bool)

  /** The ids the document defines, in order. */
  function DefinedIds(doc: seq<DocNode>): (ids: seq<nat>)
    ensures |ids| <= |doc|
  {
    if doc == [] then []
    else
      var rest := DefinedIds(doc[..|doc| - 1]);
      match doc[|doc| - 1]
      case Drawn(_) => rest
      case ClipPath(id, _) => rest + [id]
      case GradientDef(id, _) => rest + [id]
  }

  /** Strictly increasing and below `bound`. */
  predicate IncreasingBelow(ids: seq<nat>, bound: nat)
  {
    && (forall i, j :: 0 <= i < j < |ids| ==> ids[i] < ids[j])
    && (forall i :: 0 <= i < |ids| ==> ids[i] < bound)
  }

  /** Appending a node that defines `next`, the smallest unused id, keeps the ids increasing. */
  lemma AppendDefinition(doc: seq<DocNode>, node: DocNode, next: nat)
    requires IncreasingBelow(DefinedIds(doc), next)
    requires node.ClipPath? || node.GradientDef?
    requires node.id == next
    ensures DefinedIds(doc + [node]) == DefinedIds(doc) + [next]
    ensures IncreasingBelow(DefinedIds(doc + [node]), next + 1)
  {
    assert (doc + [node])[..|doc|] == doc;
  }

  /** Appending a drawn element defines nothing. */
  lemma AppendDrawn(doc: seq<DocNode>, e: Element)
    ensures DefinedIds(doc + [Drawn(e)]) == DefinedIds(doc)
  {
    assert (doc + [Drawn(e)])[..|doc|] == doc;
  }

  /** `State`: the current transform and clip. */
  datatype State = State(xf: Affine, clip: Option<nat>)

  const DEFAULT_STATE: State := State(IDENTITY, None)

  /** The clip of a state, if any, is one of `ids`. */
  predicate ClipDefined(s: State, ids: seq<nat>)
  {
    s.clip.Some? ==> s.clip.value in ids
  }

  /**
   * Every id the document defines was handed out, in increasing order,
   * and every clip in the current or a saved state is a clip path the
   * document defines.
   */
  predicate Consistent(stack: seq<State>, state: State, doc: seq<DocNode>, nextId: nat)
  {
    && IncreasingBelow(DefinedIds(doc), nextId)
    && ClipDefined(state, DefinedIds(doc))
    && (forall i :: 0 <= i < |stack| ==> ClipDefined(stack[i], DefinedIds(doc)))
  }

  /** Defining the next id keeps the context consistent, and the new id was not defined before. */
  lemma DefineNext(stack: seq<State>, state: State, doc: seq<DocNode>, nextId: nat, node: DocNode)
    requires Consistent(stack, state, doc, nextId)
    requires node.ClipPath? || node.GradientDef?
    requires node.id == nextId
    ensures nextId !in DefinedIds(doc)
    ensures DefinedIds(doc + [node]) == DefinedIds(doc) + [nextId]
    ensures Consistent(stack, state, doc + [node], nextId + 1)
    ensures Consistent(stack, state.(clip := Some(nextId)), doc + [node], nextId + 1)
  {
    AppendDefinition(doc, node, nextId);
  }

  /** `RenderContext` of the SVG backend (without its text and size). */
  class SvgContext {
    var stack: seq<State>
    var state: State
    var doc: seq<DocNode>
    var nextId: nat

    /** The context is `Consistent`. */
    ghost predicate Valid()
      reads this
    {
      Consistent(stack, state, doc, nextId)
    }

    /** `RenderContext::new`: an empty document, no saved states, the default state. */
    constructor ()
      ensures Valid()
      ensures stack == [] && state == DEFAULT_STATE && doc == [] && nextId == 0
    {
      stack := [];
      state := DEFAULT_STATE;
      doc := [];
      nextId := 0;
    }

    /** `new_id`: the next id; ids handed out by one context strictly increase. */
    method NewId() returns (id: nat)
      modifies this
      ensures id == old(nextId) && nextId == old(nextId) + 1
      ensures stack == old(stack) && state == old(state) && doc == old(doc)
    {
      id := nextId;
      nextId := nextId + 1;
    }

    /** `status`: the SVG backend never holds an error. */
    function Status(): (r: Result<(), Error>)
      ensures r.Ok?
    {
      Ok(())
    }

    /** `save`: pushes a copy of the state, which stays as it was. */
    method Save() returns (r: Result<(), Error>)
      requires Valid()
      modifies this
      ensures Valid() && r.Ok?
      ensures stack == old(stack) + [old(state)] && state == old(state)
      ensures doc == old(doc) && nextId == old(nextId)
    {
      stack := stack + [state];
      r := Ok(());
    }

    /** `restore`: pops the last saved state back; with none saved, `StackUnbalance` and nothing changes. */
    method Restore() returns (r: Result<(), Error>)
      requires Valid()
      modifies this
      ensures Valid()
      ensures old(stack) == [] ==> r == Err(StackUnbalance) && stack == [] && state == old(state)
      ensures old(stack) != [] ==> r.Ok? && stack == old(stack)[..|old(stack)| - 1] && state == old(stack)[|old(stack)| - 1]
      ensures doc == old(doc) && nextId == old(nextId)
    {
      if stack == [] {
        return Err(StackUnbalance);
      }
      state := stack[|stack| - 1];
      stack := stack[..|stack| - 1];
      r := Ok(());
    }

    /** `transform`: right-multiplies the current transform. */
    method Transform(transform: Affine)
      requires Valid()
      modifies this
      ensures Valid()
      ensures state == old(state).(xf := Mul(old(state).xf, transform))
      ensures stack == old(stack) && doc == old(doc) && nextId == old(nextId)
    {
      state := state.(xf := Mul(state.xf, transform));
    }

    /** `current_transform`. */
    function CurrentTransform(): Affine
      reads this
    {
      state.xf
    }

    /**
     * `clip`: a clip path with a fresh id holding the shape (drawn in the
     * current transform and clip) is appended, and it becomes the clip;
     * nothing else in the state changes.
     */
    method Clip(shape: Shape)
      requires Valid()
      modifies this
      ensures Valid()
      ensures nextId == old(nextId) + 1 && old(nextId) !in DefinedIds(old(doc))
      ensures doc == old(doc) + [ClipPath(old(nextId), AddShape(shape, Attrs(old(state).xf, old(state).clip, None, None)))]
      ensures state == old(state).(clip := Some(old(nextId)))
      ensures stack == old(stack)
    {
      var node := ClipPath(nextId, AddShape(shape, Attrs(state.xf, state.clip, None, None)));
      DefineNext(stack, state, doc, nextId, node);
      var id := NewId();
      doc := doc + [node];
      state := state.(clip := Some(id));
    }

    /** `gradient`: a gradient with a fresh id is appended, and a brush referring to it returned. */
    method Gradient(radial: bool) returns (r: Result<Brush, Error>)
      requires Valid()
      modifies this
      ensures Valid()
      ensures r == Ok(Ref(old(nextId))) && old(nextId) !in DefinedIds(old(doc))
      ensures nextId == old(nextId) + 1 && doc == old(doc) + [GradientDef(old(nextId), radial)]
      ensures state == old(state) && stack == old(stack)
    {
      var id := NewId();
      var node := GradientDef(id, radial);
      DefineNext(stack, state, doc, id, node);
      doc := doc + [node];
      r := Ok(Ref(id));
    }

    /** Appends a drawn shape with the current transform and clip. */
    method Draw(shape: Shape, fill: Option<(Brush, Option<string>)>, stroke: Option<(Brush, real, StrokeStyle)>)
      requires Valid()
      modifies this
      ensures Valid()
      ensures doc == old(doc) + [Drawn(AddShape(shape, Attrs(old(state).xf, old(state).clip, fill, stroke)))]
      ensures state == old(state) && stack == old(stack) && nextId == old(nextId)
    {
      var e := AddShape(shape, Attrs(state.xf, state.clip, fill, stroke));
      AppendDrawn(doc, e);
      doc := doc + [Drawn(e)];
    }

    /** `fill`: the shape with the brush as its fill and no stroke. */
    method Fill(shape: Shape, brush: Brush)
      requires Valid()
      modifies this
      ensures Valid()
      ensures doc == old(doc) + [Drawn(AddShape(shape, Attrs(old(state).xf, old(state).clip, Some((brush, None)), None)))]
      ensures state == old(state) && stack == old(stack) && nextId == old(nextId)
    {
      Draw(shape, Some((brush, None)), None);
    }

    /** `fill_even_odd`: as `fill`, with the `evenodd` fill rule. */
    method FillEvenOdd(shape: Shape, brush: Brush)
      requires Valid()
      modifies this
      ensures Valid()
      ensures doc == old(doc) + [Drawn(AddShape(shape, Attrs(old(state).xf, old(state).clip, Some((brush, Some("evenodd"))), None)))]
      ensures state == old(state) && stack == old(stack) && nextId == old(nextId)
    {
      Draw(shape, Some((brush, Some("evenodd"))), None);
    }

    /** `stroke`: the shape stroked with the default style. */
    method Stroke(shape: Shape, brush: Brush, width: real)
      requires Valid()
      modifies this
      ensures Valid()
      ensures doc == old(doc) + [Drawn(AddShape(shape, Attrs(old(state).xf, old(state).clip, None, Some((brush, width, New())))))]
      ensures state == old(state) && stack == old(stack) && nextId == old(nextId)
    {
      Draw(shape, None, Some((brush, width, New())));
    }

    /** `stroke_styled`: the shape stroked with the given style. */
    method StrokeStyled(shape: Shape, brush: Brush, width: real, style: StrokeStyle)
      requires Valid()
      modifies this
      ensures Valid()
      ensures doc == old(doc) + [Drawn(AddShape(shape, Attrs(old(state).xf, old(state).clip, None, Some((brush, width, style)))))]
      ensures state == old(state) && stack == old(stack) && nextId == old(nextId)
    {
      Draw(shape, None, Some((brush, width, style)));
    }

    /** `save`, `transform`, `restore` leaves the current transform as it was. */
    method SaveTransformRestore(transform: Affine)
      requires Valid()
      modifies this
      ensures Valid()
      ensures CurrentTransform() == old(CurrentTransform()) && state == old(state) && stack == old(stack)
    {
      var _ := Save();
      Transform(transform);
      var _ := Restore();
    }
  }

  /** `solid_brush`. */
  function SolidBrush(color: Colors.Color): (b: Brush)
    ensures BrushOpacity(b).Some? && BrushColor(b) == FmtColor(color)
  {
    Solid(color)
  }

  /** `capture_image_area` and `blur_image` are not implemented by the SVG backend. */
  function CaptureImageArea(): (r: Result<(), Error>)
    ensures r == Err(Unimplemented)
  {
    Err(Unimplemented)
  }
}

=== FILE: unicode.dfy ===
/**
 * Rust strings are UTF-8 byte sequences whose offsets are byte offsets.
 * A string is modelled as its sequence of Unicode scalar values; this module
 * gives its UTF-8 encoding (section 3 of RFC 3629), its UTF-16 length
 * (section 2.1 of RFC 2781), byte-offset slicing and `char::is_whitespace`.
 */
module Unicode {
  import opened PietTypes

  /** Number of bytes in the UTF-8 encoding of `c`. */
  function Utf8Len(c: char): (n: nat)
    ensures 1 <= n <= 4
    ensures n == 1 <==> c as int < 0x80
  {
    if c as int < 0x80 then 1
    else if c as int < 0x800 then 2
    else if c as int < 0x1_0000 then 3
    else 4
  }

  /** Number of UTF-16 code units encoding `c`: two for a supplementary-plane scalar. */
  function Utf16Len(c: char): (n: nat)
    ensures n == 1 || n == 2
  {
    if c as int < 0x1_0000 then 1 else 2
  }

  predicate IsContinuation(b: Byte) { 0x80 <= b < 0xC0 }

  /** The UTF-8 bytes of one scalar value, lead byte first. */
  function EncodeChar(c: char): (bs: seq<Byte>)
    ensures |bs| == Utf8Len(c)
    ensures !IsContinuation(bs[0])
    ensures (bs[0] >= 0xF0) <==> |bs| == 4
    ensures forall i :: 1 <= i < |bs| ==> IsContinuation(bs[i])
  {
    var v := c as int;
    if v < 0x80 then [v]
    else if v < 0x800 then [0xC0 + v / 0x40, 0x80 + v % 0x40]
    else if v < 0x1_0000 then [0xE0 + v / 0x1000, 0x80 + (v / 0x40) % 0x40, 0x80 + v % 0x40]
    else [0xF0 + v / 0x4_0000, 0x80 + (v / 0x1000) % 0x40, 0x80 + (v / 0x40) % 0x40, 0x80 + v % 0x40]
  }

  /** `str::as_bytes`. */
  function Encode(s: string): seq<Byte>
  {
    if s == [] then [] else EncodeChar(s[0]) + Encode(s[1..])
  }

  /** `str::len`: the length in bytes. */
  function ByteLen(s: string): nat
  {
    if s == [] then 0 else Utf8Len(s[0]) + ByteLen(s[1..])
  }

  /** The length of the string re-encoded as UTF-16. */
  function Utf16Length(s: string): nat
  {
    if s == [] then 0 else Utf16Len(s[0]) + Utf16Length(s[1..])
  }

  lemma {:induction false} EncodeLength(s: string)
    ensures |Encode(s)| == ByteLen(s)
  {
    if s != [] { EncodeLength(s[1..]); }
  }

  lemma {:induction false} EncodeAppend(s: string, t: string)
    ensures Encode(s + t) == Encode(s) + Encode(t)
  {
    if s == [] {
      assert s + t == t;
    } else {
      assert (s + t)[1..] == s[1..] + t;
      EncodeAppend(s[1..], t);
    }
  }

  lemma {:induction false} ByteLenAppend(s: string, t: string)
    ensures ByteLen(s + t) == ByteLen(s) + ByteLen(t)
  {
    if s == [] {
      assert s + t == t;
    } else {
      assert (s + t)[1..] == s[1..] + t;
      ByteLenAppend(s[1..], t);
    }
  }

  /** The last byte of a non-empty encoding is ASCII exactly when the last scalar is. */
  lemma {:induction false} EncodeLastByte(s: string)
    requires s != []
    ensures |Encode(s)| > 0
    ensures Encode(s)[|Encode(s)| - 1] < 0x80 <==> s[|s| - 1] as int < 0x80
    ensures s[|s| - 1] as int < 0x80 ==> Encode(s)[|Encode(s)| - 1] == s[|s| - 1] as int
  {
    if |s| == 1 {
      assert Encode(s) == EncodeChar(s[0]) + Encode(s[1..]);
    } else {
      EncodeLastByte(s[1..]);
      assert s[1..][|s[1..]| - 1] == s[|s| - 1];
    }
  }

  /**
   * `&s[a..b]` for byte offsets `a` and `b`: the scalars whose encoding
   * starts at a byte offset in `[a, b)`.
   */
  function Slice(s: string, a: int, b: int): (r: string)
    ensures |r| <= |s|
  {
    if s == [] then []
    else
      var w := Utf8Len(s[0]);
      (if a <= 0 < b then [s[0]] else []) + Slice(s[1..], a - w, b - w)
  }

  /** A non-empty slice has its end after its start and after 0. */
  lemma {:induction false} SliceNonEmpty(s: string, a: int, b: int)
    requires Slice(s, a, b) != []
    ensures a < b && 0 < b
  {
    var w := Utf8Len(s[0]);
    if !(a <= 0 < b) {
      SliceNonEmpty(s[1..], a - w, b - w);
    }
  }

  /** A slice splits at any offset between its ends. */
  lemma {:induction false} SliceSplit(s: string, a: int, m: int, b: int)
    requires a <= m <= b
    ensures Slice(s, a, b) == Slice(s, a, m) + Slice(s, m, b)
  {
    if s != [] {
      var w := Utf8Len(s[0]);
      var t := s[1..];
      var x, y := Slice(t, a - w, m - w), Slice(t, m - w, b - w);
      SliceSplit(t, a - w, m - w, b - w);
      var hab := if a <= 0 < b then [s[0]] else [];
      var ham := if a <= 0 < m then [s[0]] else [];
      var hmb := if m <= 0 < b then [s[0]] else [];
      if hmb != [] && x != [] {
        SliceNonEmpty(t, a - w, m - w);
      }
      SplitHeads(hab, ham, hmb, x, y);
    }
  }

  /** The sequence algebra of one step of `SliceSplit`. */
  lemma SplitHeads(hab: string, ham: string, hmb: string, x: string, y: string)
    requires hab == ham + hmb && (hmb != [] ==> x == [])
    ensures hab + (x + y) == (ham + x) + (hmb + y)
  {
    if hmb != [] {
      assert x == [];
    }
  }

  /** `k` is a byte offset at which a scalar starts, or the end of the string. */
  predicate IsCharBoundary(s: string, k: int)
  {
    exists i :: 0 <= i <= |s| && ByteLen(s[..i]) == k
  }

  /** Every scalar of `s` is ASCII, so each is one byte. */
  predicate IsAscii(s: string)
  {
    forall i :: 0 <= i < |s| ==> s[i] as int < 0x80
  }

  /** `x` clamped to `[0, n]`. */
  function Clip(x: int, n: nat): nat
  {
    if x < 0 then 0 else if x > n then n else x
  }

  /** Slicing ASCII text from a non-positive offset keeps a prefix. */
  lemma {:induction false} AsciiSlicePrefix(s: string, a: int, b: int)
    requires IsAscii(s) && a <= 0
    ensures Slice(s, a, b) == s[..Clip(b, |s|)]
  {
    if s != [] {
      AsciiSlicePrefix(s[1..], a - 1, b - 1);
      if 0 < b {
        assert [s[0]] + s[1..][..Clip(b - 1, |s| - 1)] == s[..Clip(b, |s|)];
      }
    }
  }

  /** Slicing ASCII text from offset `a` is slicing what follows the first `a` scalars from 0. */
  lemma {:induction false} AsciiSliceDrop(s: string, a: int, b: int)
    requires IsAscii(s) && 0 <= a <= |s|
    ensures Slice(s, a, b) == Slice(s[a..], 0, b - a)
  {
    if a > 0 {
      AsciiSliceDrop(s[1..], a - 1, b - 1);
      assert s[1..][a - 1..] == s[a..];
    }
  }

  /** For ASCII text, byte offsets are scalar indices and slicing is sequence slicing. */
  lemma AsciiSlice(s: string, a: nat, b: nat)
    requires IsAscii(s) && a <= b <= |s|
    ensures Slice(s, a, b) == s[a..b]
  {
    AsciiSliceDrop(s, a, b);
    AsciiSlicePrefix(s[a..], 0, b - a);
  }

  /** For ASCII text, the byte length is the number of scalars. */
  lemma {:induction false} AsciiByteLen(s: string)
    requires IsAscii(s)
    ensures ByteLen(s) == |s|
  {
    if s != [] { AsciiByteLen(s[1..]); }
  }

  /** `char::is_whitespace`: the White_Space property of the Unicode character database. */
  predicate IsWhitespace(c: char)
  {
    var v := c as int;
    (0x09 <= v <= 0x0D) || v == 0x20 || v == 0x85 || v == 0xA0 || v == 0x1680
    || (0x2000 <= v <= 0x200A) || v == 0x2028 || v == 0x2029 || v == 0x202F
    || v == 0x205F || v == 0x3000
  }
}

=== FILE: util.dfy ===
/**
 * Helpers shared by the backends (piet/src/util.rs): UTF-8 to UTF-16 offset
 * conversion, line lookup, range clamping, image-buffer repacking,
 * unpremultiplication and the default text attributes.
 */
module Util {
  import opened Wrappers
  import opened PietTypes
  import opened Unicode
  import Font
  import Colors

  const DEFAULT_FONT_SIZE: real := 12.0
  const DEFAULT_TEXT_COLOR: Colors.Color := Colors.BLACK

  // ---------------------------------------------------------------------
  // UTF-16 counting

  /** `b as i8`: the two's-complement reading of a byte. */
  function AsI8(b: Byte): int { if b < 0x80 then b else b - 0x100 }

  /**
   * What the counting loops add for one byte: one for every byte that is not
   * a continuation byte (`(b as i8) >= -0x40`) and one more for a four-byte
   * lead (`b >= 0xf0`), whose scalar needs a surrogate pair.
   */
  function Utf16Weight(b: Byte): (w: nat)
    ensures w == (if IsContinuation(b) then 0 else 1) + (if b >= 0xF0 then 1 else 0)
  {
    (if AsI8(b) >= -0x40 then 1 else 0) + (if b >= 0xF0 then 1 else 0)
  }

  /** The value `count_utf16` computes for a byte string. */
  function Utf16Count(bs: seq<Byte>): nat
  {
    if bs == [] then 0 else Utf16Weight(bs[0]) + Utf16Count(bs[1..])
  }

  lemma {:induction false} Utf16CountAppend(a: seq<Byte>, b: seq<Byte>)
    ensures Utf16Count(a + b) == Utf16Count(a) + Utf16Count(b)
  {
    if a == [] {
      assert a + b == b;
    } else {
      assert (a + b)[1..] == a[1..] + b;
      Utf16CountAppend(a[1..], b);
    }
  }

  lemma Utf16CountPrefixStep(bs: seq<Byte>, i: nat)
    requires i < |bs|
    ensures Utf16Count(bs[..i + 1]) == Utf16Count(bs[..i]) + Utf16Weight(bs[i])
  {
    assert bs[..i + 1] == bs[..i] + [bs[i]];
    Utf16CountAppend(bs[..i], [bs[i]]);
  }

  lemma Utf16CountMonotone(bs: seq<Byte>, j: nat, k: nat)
    requires j <= k <= |bs|
    ensures Utf16Count(bs[..j]) <= Utf16Count(bs[..k])
  {
    assert bs[..k] == bs[..j] + bs[j..k];
    Utf16CountAppend(bs[..j], bs[j..k]);
  }

  lemma {:induction false} Utf16CountContinuations(bs: seq<Byte>)
    requires forall i :: 0 <= i < |bs| ==> IsContinuation(bs[i])
    ensures Utf16Count(bs) == 0
  {
    if bs != [] { Utf16CountContinuations(bs[1..]); }
  }

  /** The bytes of one scalar count as its UTF-16 length. */
  lemma Utf16CountChar(c: char)
    ensures Utf16Count(EncodeChar(c)) == Utf16Len(c)
  {
    var bs := EncodeChar(c);
    Utf16CountContinuations(bs[1..]);
  }

  /** For well-formed UTF-8, `count_utf16` is the UTF-16 length of the text. */
  lemma {:induction false} Utf16CountEncode(s: string)
    ensures Utf16Count(Encode(s)) == Utf16Length(s)
  {
    if s != [] {
      Utf16CountChar(s[0]);
      Utf16CountAppend(EncodeChar(s[0]), Encode(s[1..]));
      Utf16CountEncode(s[1..]);
    }
  }

  /** `count_utf16`: the number of UTF-16 code units needed for `s`. */
  method CountUtf16(s: string) returns (count: nat)
    ensures count == Utf16Length(s)
  {
    var bytes := Encode(s);
    count := 0;
    var i := 0;
    while i < |bytes|
      invariant 0 <= i <= |bytes|
      invariant count == Utf16Count(bytes[..i])
    {
      var b := bytes[i];
      Utf16CountPrefixStep(bytes, i);
      if AsI8(b) >= -0x40 {
        count := count + 1;
      }
      if b >= 0xF0 {
        count := count + 1;
      }
      i := i + 1;
    }
    assert bytes[..i] == bytes;
    Utf16CountEncode(s);
  }

  /**
   * The byte index at which the running UTF-16 count first exceeds `pos`,
   * or `None` when the whole string counts no more than `pos`.
   */
  function CountUntil(bs: seq<Byte>, pos: nat): (r: Option<nat>)
    ensures r.None? <==> Utf16Count(bs) <= pos
    ensures r.Some? ==>
      r.value < |bs| && Utf16Count(bs[..r.value]) <= pos < Utf16Count(bs[..r.value + 1])
  {
    if bs == [] then None
    else if Utf16Weight(bs[0]) > pos then
      assert bs[..1] == [bs[0]];
      assert bs[..0] == [];
      Some(0)
    else
      match CountUntil(bs[1..], pos - Utf16Weight(bs[0]))
      case None => None
      case Some(k) =>
        assert bs[..k + 1][1..] == bs[1..][..k];
        assert bs[..k + 2][1..] == bs[1..][..k + 1];
        Some(k + 1)
  }

  /** The first crossing is unique, so any index where the count crosses `pos` is the one `CountUntil` finds. */
  lemma CountUntilUnique(bs: seq<Byte>, pos: nat, k: nat)
    requires k < |bs| && Utf16Count(bs[..k]) <= pos < Utf16Count(bs[..k + 1])
    ensures CountUntil(bs, pos) == Some(k)
  {
    var r := CountUntil(bs, pos);
    Utf16CountMonotone(bs, k + 1, |bs|);
    assert bs[..|bs|] == bs;
    var j := r.value;
    if j < k {
      Utf16CountMonotone(bs, j + 1, k);
    } else if j > k {
      Utf16CountMonotone(bs, k + 1, j);
    }
  }

  /** `count_until_utf16`: converts a UTF-16 offset into the UTF-8 offset of the byte that reaches it. */
  method CountUntilUtf16(s: string, utf16Position: nat) returns (r: Option<nat>)
    ensures r == CountUntil(Encode(s), utf16Position)
    ensures r.None? <==> Utf16Length(s) <= utf16Position
  {
    var bytes := Encode(s);
    var utf8Count := 0;
    var utf16Count := 0;
    while utf8Count < |bytes|
      invariant 0 <= utf8Count <= |bytes|
      invariant utf16Count == Utf16Count(bytes[..utf8Count]) <= utf16Position
    {
      var b := bytes[utf8Count];
      Utf16CountPrefixStep(bytes, utf8Count);
      if AsI8(b) >= -0x40 {
        utf16Count := utf16Count + 1;
      }
      if b >= 0xF0 {
        utf16Count := utf16Count + 1;
      }
      if utf16Count > utf16Position {
        CountUntilUnique(bytes, utf16Position, utf8Count);
        Utf16CountMonotone(bytes, utf8Count + 1, |bytes|);
        assert bytes[..|bytes|] == bytes;
        Utf16CountEncode(s);
        return Some(utf8Count);
      }
      utf8Count := utf8Count + 1;
    }
    assert bytes[..utf8Count] == bytes;
    Utf16CountEncode(s);
    return None;
  }

  /** `count_until_utf16` on the example of the source's tests, and on the empty string. */
  lemma CountUntilExample()
    ensures var bs := Encode(EXAMPLE);
      && CountUntil(bs, 0) == Some(0) && CountUntil(bs, 1) == Some(2)
      && CountUntil(bs, 2) == Some(3) && CountUntil(bs, 3) == Some(6)
      && CountUntil(bs, 4) == Some(9) && CountUntil(bs, 5) == None
    ensures CountUntil(Encode(""), 0) == None
  {
    var bs := Encode(EXAMPLE);
    ExamplePrefixCounts();
    CountUntilUnique(bs, 0, 0);
    CountUntilUnique(bs, 1, 2);
    CountUntilUnique(bs, 2, 3);
    CountUntilUnique(bs, 3, 6);
    CountUntilUnique(bs, 4, 9);
  }

  /** The example of the source's tests: a two-byte, a one-byte, two three-byte scalars and a digit. */
  const EXAMPLE: string := "\U{E9}#\U{FE0F}\U{20E3}1"

  /** The running UTF-16 counts over the ten bytes of the example. */
  lemma ExamplePrefixCounts()
    ensures var bs := Encode(EXAMPLE);
      && |bs| == 10 && bs[..10] == bs
      && Utf16Count(bs[..0]) == 0 && Utf16Count(bs[..1]) == 1 && Utf16Count(bs[..2]) == 1
      && Utf16Count(bs[..3]) == 2 && Utf16Count(bs[..4]) == 3 && Utf16Count(bs[..6]) == 3
      && Utf16Count(bs[..7]) == 4 && Utf16Count(bs[..9]) == 4 && Utf16Count(bs[..10]) == 5
  {
    var bs := Encode(EXAMPLE);
    EncodeExample();
    assert bs[..0] == [];
    var counts := [0, 1, 1, 2, 3, 3, 3, 4, 4, 4, 5];
    var i := 0;
    while i < 10
      invariant 0 <= i <= 10
      invariant forall j :: 0 <= j <= i ==> Utf16Count(bs[..j]) == counts[j]
    {
      Utf16CountPrefixStep(bs, i);
      i := i + 1;
    }
  }

  lemma EncodeExample()
    ensures Encode(EXAMPLE) == [0xC3, 0xA9, 0x23, 0xEF, 0xB8, 0x8F, 0xE2, 0x83, 0xA3, 0x31]
  {
    var s := EXAMPLE;
    assert EncodeChar(s[0]) == [0xC3, 0xA9];
    assert EncodeChar(s[1]) == [0x23];
    assert EncodeChar(s[2]) == [0xEF, 0xB8, 0x8F];
    assert EncodeChar(s[3]) == [0xE2, 0x83, 0xA3];
    assert EncodeChar(s[4]) == [0x31];
    assert Encode(s[4..]) == [0x31] by { assert s[4..][1..] == []; }
    assert Encode(s[3..]) == EncodeChar(s[3]) + Encode(s[4..]) by { assert s[3..][1..] == s[4..]; }
    assert Encode(s[2..]) == EncodeChar(s[2]) + Encode(s[3..]) by { assert s[2..][1..] == s[3..]; }
    assert Encode(s[1..]) == EncodeChar(s[1]) + Encode(s[2..]) by { assert s[1..][1..] == s[2..]; }
  }

  // ---------------------------------------------------------------------
  // Newlines and lines

  /** `trailing_nlf`: the length of a trailing newline, looked up on the last byte. */
  function TrailingNlf(s: string): (r: Option<nat>)
    ensures r.Some? ==> r.value == 1
    ensures r.Some? <==> |s| > 0 && s[|s| - 1] == '\n'
  {
    if s == [] then None  // `last()` of no bytes
    else
      EncodeLastByte(s);
      var bytes := Encode(s);
      if bytes[|bytes| - 1] == 0x0A then Some(1) else None
  }

  predicate StrictlyIncreasing(keys: seq<nat>)
  {
    forall i, j :: 0 <= i < j < |keys| ==> keys[i] < keys[j]
  }

  /** Sorted, repeated keys allowed: what `slice::binary_search` asks of its slice. */
  predicate NonDecreasing(keys: seq<nat>)
  {
    forall i, j :: 0 <= i < j < |keys| ==> keys[i] <= keys[j]
  }

  /** Keys that never drop from one to the next are sorted. */
  lemma {:induction false} StepwiseNonDecreasing(keys: seq<nat>)
    requires forall k :: 0 < k < |keys| ==> keys[k - 1] <= keys[k]
    ensures NonDecreasing(keys)
  {
    if |keys| > 1 {
      var init := keys[..|keys| - 1];
      StepwiseNonDecreasing(init);
      forall i, j | 0 <= i < j < |keys| ensures keys[i] <= keys[j] {
        if j < |keys| - 1 {
          assert init[i] <= init[j];
        } else if i < j - 1 {
          assert init[i] <= init[j - 1];
        }
      }
    }
  }

  datatype SearchResult = Found(index: nat) | NotFound(index: nat)

  /**
   * `slice::binary_search` over `keys[lo..hi]`, keys outside that window
   * being known to miss. Where a key repeats, any one of its indices may be
   * found, as the standard library documents.
   */
  function BinarySearch(keys: seq<nat>, x: nat, lo: nat, hi: nat): (r: SearchResult)
    requires lo <= hi <= |keys| && NonDecreasing(keys)
    requires forall i :: 0 <= i < lo ==> keys[i] < x
    requires forall i :: hi <= i < |keys| ==> x < keys[i]
    ensures r.Found? ==> r.index < |keys| && keys[r.index] == x
    ensures r.NotFound? ==>
      && r.index <= |keys|
      && (forall i :: 0 <= i < r.index ==> keys[i] < x)
      && (forall i :: r.index <= i < |keys| ==> x < keys[i])
    decreases hi - lo
  {
    if lo == hi then NotFound(lo)
    else
      var mid := lo + (hi - lo) / 2;
      if keys[mid] < x then BinarySearch(keys, x, mid + 1, hi)
      else if x < keys[mid] then BinarySearch(keys, x, lo, mid)
      else Found(mid)
  }

  function StartOffsets(lines: seq<LineMetric>): (r: seq<nat>)
    ensures |r| == |lines| && forall i :: 0 <= i < |lines| ==> r[i] == lines[i].startOffset
  {
    if lines == [] then [] else [lines[0].startOffset] + StartOffsets(lines[1..])
  }

  /**
   * `line_number_for_position`: a line starting at or before `position`
   * after which no line starts before it: the last such line, or, where
   * several lines start exactly at `position`, any one of them. The source
   * asserts a non-empty slice, and an insertion point of 0 would underflow.
   */
  function LineNumberForPosition(lines: seq<LineMetric>, position: nat): (i: nat)
    requires |lines| > 0 && NonDecreasing(StartOffsets(lines))
    requires lines[0].startOffset <= position
    ensures i < |lines| && lines[i].startOffset <= position
    ensures i == |lines| - 1 || position < lines[i + 1].startOffset || lines[i].startOffset == position
  {
    var keys := StartOffsets(lines);
    match BinarySearch(keys, position, 0, |keys|)
    case Found(idx) => idx
    case NotFound(idx) => idx - 1
  }

  lemma StrictIsNonDecreasing(keys: seq<nat>)
    requires StrictlyIncreasing(keys)
    ensures NonDecreasing(keys)
  {
    forall i, j | 0 <= i < j < |keys| ensures keys[i] <= keys[j] {
      assert keys[i] < keys[j];
    }
  }

  /** With strictly increasing starts the line is the last one starting at or before `position`. */
  lemma {:induction false} LineNumberForStrictStarts(lines: seq<LineMetric>, position: nat)
    requires |lines| > 0 && StrictlyIncreasing(StartOffsets(lines))
    requires lines[0].startOffset <= position
    ensures NonDecreasing(StartOffsets(lines))
    ensures var i := LineNumberForPosition(lines, position);
      i == |lines| - 1 || position < lines[i + 1].startOffset
  {
    var keys := StartOffsets(lines);
    StrictIsNonDecreasing(keys);
    var i := LineNumberForPosition(lines, position);
    assert i < |lines| && lines[i].startOffset <= position;
    if i < |lines| - 1 {
      assert keys[i] < keys[i + 1];
    }
  }

  /** With repeated starts the search may stop at any line starting exactly at `position`. */
  lemma LineNumberForRepeatedStarts(lines: seq<LineMetric>)
    requires |lines| == 3 && StartOffsets(lines) == [0, 1, 1]
    ensures NonDecreasing(StartOffsets(lines))
    ensures LineNumberForPosition(lines, 1) == 1 && lines[2].startOffset == 1
    ensures LineNumberForPosition(lines, 0) == 0
  {
  }

  // ---------------------------------------------------------------------
  // Ranges

  datatype Bound = Unbounded | Included(n: nat) | Excluded(n: nat)

  /** A `RangeBounds<usize>` value, given by its two bounds. */
  datatype RangeBounds = RangeBounds(startBound: Bound, endBound: Bound)

  /** A `Range<usize>`: `start..end`. */
  datatype Range = Range(start: nat, end: nat)

  function Min(a: int, b: int): int { if a < b then a else b }

  /** `resolve_range`: bounds turned into a half-open range, each end clamped to `len`. */
  function ResolveRange(range: RangeBounds, len: nat): (r: Range)
    ensures r.start <= len && r.end <= len
    ensures range.startBound.Unbounded? ==> r.start == 0
    ensures range.endBound.Unbounded? ==> r.end == len
    ensures range.startBound.Included? ==> r.start == Min(range.startBound.n, len)
    ensures range.startBound.Excluded? ==> r.start == Min(range.startBound.n + 1, len)
    ensures range.endBound.Included? ==> r.end == Min(range.endBound.n + 1, len)
    ensures range.endBound.Excluded? ==> r.end == Min(range.endBound.n, len)
  {
    var start := match range.startBound
      case Unbounded => 0
      case Included(n) => n
      case Excluded(n) => n + 1;
    var end := match range.endBound
      case Unbounded => len
      case Included(n) => n + 1
      case Excluded(n) => n;
    Range(Min(start, len), Min(end, len))
  }

  /** Resolving is idempotent: a resolved range, fed back as `start..end`, resolves to itself. */
  lemma ResolveRangeIdempotent(range: RangeBounds, len: nat)
    ensures var r := ResolveRange(range, len);
      ResolveRange(RangeBounds(Included(r.start), Excluded(r.end)), len) == r
  {
  }

  /** `resolve_range` keeps reversed bounds reversed: `5..3` over length 10 stays `5..3`. */
  lemma ResolveRangeMayBeReversed()
    ensures var r := ResolveRange(RangeBounds(Included(5), Excluded(3)), 10);
      r == Range(5, 3) && r.start > r.end
  {
  }

  // ---------------------------------------------------------------------
  // Image buffers

  /** The offset of row `y` when rows lie `stride` bytes apart, added up one row at a time. */
  function RowOffset(y: nat, stride: nat): nat
  {
    if y == 0 then 0 else RowOffset(y - 1, stride) + stride
  }

  /** The row offset is the product `y * stride` the source computes. */
  lemma {:induction false} RowOffsetIsProduct(y: nat, stride: nat)
    ensures RowOffset(y, stride) == y * stride
  {
    if y > 0 {
      RowOffsetIsProduct(y - 1, stride);
      assert y * stride == (y - 1) * stride + stride;
    }
  }

  /** Later rows start no earlier. */
  lemma {:induction false} RowOffsetMonotone(y: nat, z: nat, stride: nat)
    requires y <= z
    ensures RowOffset(y, stride) <= RowOffset(z, stride)
  {
    if y < z {
      RowOffsetMonotone(y, z - 1, stride);
    }
  }

  /** `expected_image_buffer_size`: the bytes needed for `height` rows `stride` apart. */
  function ExpectedImageBufferSize(rowSize: nat, height: nat, stride: nat): (n: nat)
    ensures height == 0 ==> n == 0
    ensures height > 0 ==> n == RowOffset(height - 1, stride) + rowSize
    ensures forall y :: 0 <= y < height ==> RowOffset(y, stride) + rowSize <= n
  {
    if height == 0 then 0
    else
      RowOffsetIsProduct(height - 1, stride);
      assert forall y :: 0 <= y < height ==> RowOffset(y, stride) <= RowOffset(height - 1, stride) by {
        forall y | 0 <= y < height ensures RowOffset(y, stride) <= RowOffset(height - 1, stride) {
          RowOffsetMonotone(y, height - 1, stride);
        }
      }
      stride * (height - 1) + rowSize
  }

  lemma MulLeft(a: nat, b: nat, c: nat)
    requires a <= b
    ensures a * c <= b * c
  {
  }

  /** Row `y` of a buffer whose rows start `stride` bytes apart. */
  function RowAt(buf: seq<Byte>, stride: nat, rowSize: nat, y: nat): seq<Byte>
    requires RowOffset(y, stride) + rowSize <= |buf|
  {
    buf[RowOffset(y, stride) .. RowOffset(y, stride) + rowSize]
  }

  /** The first `n` rows of `buf`, concatenated without padding. */
  function Packed(buf: seq<Byte>, stride: nat, rowSize: nat, n: nat): (r: seq<Byte>)
    requires n == 0 || RowOffset(n - 1, stride) + rowSize <= |buf|
    ensures |r| == RowOffset(n, rowSize)
  {
    if n == 0 then []
    else
      assert n - 1 == 0 || RowOffset(n - 2, stride) + rowSize <= |buf|;
      Packed(buf, stride, rowSize, n - 1) + RowAt(buf, stride, rowSize, n - 1)
  }

  /** Row `y` of the packed buffer is row `y` of the strided source. */
  lemma {:induction false} PackedRow(buf: seq<Byte>, stride: nat, rowSize: nat, n: nat, y: nat)
    requires y < n && RowOffset(n - 1, stride) + rowSize <= |buf|
    ensures RowOffset(y, stride) + rowSize <= |buf|
    ensures RowOffset(y, rowSize) + rowSize <= RowOffset(n, rowSize)
    ensures RowAt(Packed(buf, stride, rowSize, n), rowSize, rowSize, y) == RowAt(buf, stride, rowSize, y)
  {
    RowOffsetMonotone(y, n - 1, stride);
    RowOffsetMonotone(y + 1, n, rowSize);
    var p := Packed(buf, stride, rowSize, n);
    if y < n - 1 {
      PackedRow(buf, stride, rowSize, n - 1, y);
      var q := Packed(buf, stride, rowSize, n - 1);
      assert p == q + RowAt(buf, stride, rowSize, n - 1);
      assert p[RowOffset(y, rowSize) .. RowOffset(y, rowSize) + rowSize]
        == q[RowOffset(y, rowSize) .. RowOffset(y, rowSize) + rowSize];
    }
  }

  /**
   * Every row of the packed buffer is the matching row of the strided source,
   * and the packed buffer holds exactly `n * rowSize` bytes.
   */
  lemma PackedRows(buf: seq<Byte>, stride: nat, rowSize: nat, n: nat)
    requires n > 0 && RowOffset(n - 1, stride) + rowSize <= |buf|
    ensures |Packed(buf, stride, rowSize, n)| == n * rowSize
    ensures forall y :: 0 <= y < n ==>
      && RowOffset(y, stride) + rowSize <= |buf|
      && RowOffset(y, rowSize) + rowSize <= RowOffset(n, rowSize)
      && RowAt(Packed(buf, stride, rowSize, n), rowSize, rowSize, y) == RowAt(buf, stride, rowSize, y)
  {
    RowOffsetIsProduct(n, rowSize);
    forall y | 0 <= y < n
      ensures RowOffset(y, stride) + rowSize <= |buf|
      ensures RowOffset(y, rowSize) + rowSize <= RowOffset(n, rowSize)
      ensures RowAt(Packed(buf, stride, rowSize, n), rowSize, rowSize, y) == RowAt(buf, stride, rowSize, y)
    {
      PackedRow(buf, stride, rowSize, n, y);
    }
  }

  /** `dst[start..start + |src|].copy_from_slice(src)`; the bytes before `start` are kept. */
  method CopyFromSlice(dst: array<Byte>, start: nat, src: seq<Byte>)
    requires start + |src| <= dst.Length
    modifies dst
    ensures dst[..start + |src|] == old(dst[..start]) + src
    ensures dst[start + |src|..] == old(dst[start + |src|..])
  {
    forall x | 0 <= x < |src| {
      dst[start + x] := src[x];
    }
  }

  /**
   * The copy loop of `image_buffer_to_tightly_packed`: a zeroed buffer of
   * `height * rowSize` bytes receives each source row in turn.
   */
  method CopyRows(buff: seq<Byte>, stride: nat, rowSize: nat, height: nat) returns (packed: seq<Byte>)
    requires height > 0 && RowOffset(height - 1, stride) + rowSize <= |buff|
    ensures packed == Packed(buff, stride, rowSize, height)
  {
    RowOffsetIsProduct(height, rowSize);
    var newBuff := new Byte[height * rowSize](_ => 0);
    var y, srcRowStart, dstRowStart := 0, 0, 0;
    while y < height
      invariant 0 <= y <= height
      invariant srcRowStart == RowOffset(y, stride) && dstRowStart == RowOffset(y, rowSize)
      invariant dstRowStart <= newBuff.Length == RowOffset(height, rowSize)
      invariant y == 0 || RowOffset(y - 1, stride) + rowSize <= |buff|
      invariant newBuff[..dstRowStart] == Packed(buff, stride, rowSize, y)
    {
      RowOffsetMonotone(y, height - 1, stride);
      RowOffsetMonotone(y + 1, height, rowSize);
      var row := buff[srcRowStart .. srcRowStart + rowSize];
      ghost var before := newBuff[..dstRowStart];
      assert Packed(buff, stride, rowSize, y + 1) == before + row;
      CopyFromSlice(newBuff, dstRowStart, row);
      assert newBuff[..dstRowStart + rowSize] == before + row;
      y, srcRowStart, dstRowStart := y + 1, srcRowStart + stride, dstRowStart + rowSize;
    }
    assert newBuff[..] == newBuff[..dstRowStart];
    packed := newBuff[..];
  }

  /**
   * `image_buffer_to_tightly_packed`: drops the padding between rows. An
   * empty image gives an empty buffer; a buffer too short for its rows is
   * `InvalidInput`; a buffer that is already tight is returned as is;
   * otherwise the result holds the rows back to back (see `PackedRows`).
   */
  method ImageBufferToTightlyPacked(buff: seq<Byte>, width: nat, height: nat, stride: nat, format: ImageFormat)
    returns (r: Result<seq<Byte>, Error>)
    ensures width == 0 || height == 0 ==> r == Ok([])
    ensures r.Err? ==> r.error == InvalidInput
    ensures width > 0 && height > 0 ==>
      (r.Err? <==> |buff| < ExpectedImageBufferSize(width * BytesPerPixel(format), height, stride))
    ensures r.Ok? && width > 0 && height > 0 && stride == width * BytesPerPixel(format) ==> r.value == buff
    ensures r.Ok? && width > 0 && height > 0 && stride != width * BytesPerPixel(format) ==>
      r.value == Packed(buff, stride, width * BytesPerPixel(format), height)
  {
    if width == 0 || height == 0 {
      return Ok([]);
    }
    var bytesPerPixel := BytesPerPixel(format);
    var rowSize := width * bytesPerPixel;
    if |buff| < ExpectedImageBufferSize(rowSize, height, stride) {
      return Err(InvalidInput);
    }
    if stride == rowSize {
      return Ok(buff);
    }
    assert RowOffset(height - 1, stride) + rowSize <= |buff|;
    var packed := CopyRows(buff, stride, rowSize, height);
    return Ok(packed);
  }

  /** `unpremul`: undoes premultiplication by `a`, rounding to nearest and saturating at 255. */
  function Unpremul(x: Byte, a: Byte): (r: Byte)
    ensures a == 0 ==> r == 0
    ensures 0 < a <= x ==> r == 255
    ensures a == 255 ==> r == x
    ensures 0 < a && x <= a ==> r * a <= x * 255 + a / 2 < r * a + a
  {
    if a == 0 then 0
    else
      var y := (x * 255 + a / 2) / a;
      UnpremulBounds(x, a, y);
      if y < 255 then y else 255
  }

  lemma UnpremulBounds(x: Byte, a: Byte, y: int)
    requires 0 < a && y == (x * 255 + a / 2) / a
    ensures y * a <= x * 255 + a / 2 < y * a + a
    ensures a <= x ==> y >= 255
    ensures x <= a ==> y <= 255
    ensures a == 255 ==> y == x
  {
    var n := x * 255 + a / 2;
    assert n == y * a + n % a;
    if a <= x {
      MulLeft(a, x, 255);
      assert y * a + a > 255 * a;
      if y < 255 { MulLeft(y + 1, 255, a); }
    }
    if x <= a {
      MulLeft(x, a, 255);
      assert y * a < 256 * a;
      if y > 255 { MulLeft(256, y, a); }
    }
    if a == 255 {
      assert n == x * 255 + 127;
    }
  }

  /** What `unpremultiply_rgba` leaves at index `i` of an RGBA buffer `s`. */
  function UnpremultipliedAt(s: seq<Byte>, i: nat): Byte
    requires |s| % 4 == 0 && i < |s|
  {
    var alpha := s[i - i % 4 + 3];
    if i % 4 == 3 || alpha == 0 then s[i] else Unpremul(s[i], alpha)
  }

  /**
   * `unpremultiply_rgba`: rewrites the colour bytes of every pixel whose
   * alpha is non-zero. The source indexes `data[i + 3]` for every `i` that
   * is a multiple of 4, so a length that is not a multiple of 4 panics.
   */
  method UnpremultiplyRgba(data: array<Byte>)
    requires data.Length % 4 == 0
    modifies data
    ensures forall i :: 0 <= i < data.Length ==> data[i] == UnpremultipliedAt(old(data[..]), i)
  {
    ghost var orig := data[..];
    var i := 0;
    while i < data.Length
      invariant 0 <= i <= data.Length && i % 4 == 0
      invariant forall k :: 0 <= k < i ==> data[k] == UnpremultipliedAt(orig, k)
      invariant forall k :: i <= k < data.Length ==> data[k] == orig[k]
    {
      var a := data[i + 3];
      if a != 0 {
        var x := i;
        while x < i + 3
          invariant i <= x <= i + 3
          invariant forall k :: 0 <= k < i ==> data[k] == UnpremultipliedAt(orig, k)
          invariant forall k :: i <= k < x ==> data[k] == Unpremul(orig[k], a)
          invariant forall k :: x <= k < data.Length ==> data[k] == orig[k]
        {
          data[x] := Unpremul(data[x], a);
          x := x + 1;
        }
      }
      assert forall k :: i <= k < i + 4 ==> k - k % 4 + 3 == i + 3;
      i := i + 4;
    }
  }

  // ---------------------------------------------------------------------
  // Default text attributes

  /** The attributes `LayoutDefaults::set` accepts (`piet::TextAttribute`). */
  datatype TextAttribute =
    | FontFamily(family: Font.FontFamily)
    | FontSize(size: real)
    | Weight(weight: Font.FontWeight)
    | Style(style: FontStyle)
    | Underline(underline: bool)
    | TextColor(color: Colors.Color)
    | Strikethrough(strikethrough: bool)

  /** `LayoutDefaults`: the attributes applied to a whole layout before any range attribute. */
  class LayoutDefaults {
    var font: Font.FontFamily
    var fontSize: real
    var weight: Font.FontWeight
    var fgColor: Colors.Color
    var style: FontStyle
    var underline: bool
    var strikethrough: bool

    /** The size is always positive: `set` replaces a non-positive size by the default. */
    ghost predicate Valid()
      reads this
    {
      fontSize > 0.0
    }

    /** `LayoutDefaults::default`. */
    constructor Default()
      ensures Valid()
      ensures font == Font.DEFAULT_FAMILY && fontSize == DEFAULT_FONT_SIZE
      ensures weight == Font.DEFAULT_WEIGHT && fgColor == DEFAULT_TEXT_COLOR
      ensures style == Regular && !underline && !strikethrough
    {
      font := Font.DEFAULT_FAMILY;
      fontSize := DEFAULT_FONT_SIZE;
      weight := Font.DEFAULT_WEIGHT;
      fgColor := DEFAULT_TEXT_COLOR;
      style := Regular;
      underline := false;
      strikethrough := false;
    }

    /** `LayoutDefaults::set`: updates the one field the attribute names. */
    method Set(attr: TextAttribute)
      modifies this
      ensures old(Valid()) ==> Valid()
      ensures font == (if attr.FontFamily? then attr.family else old(font))
      ensures fontSize == (if attr.FontSize? then (if attr.size <= 0.0 then DEFAULT_FONT_SIZE else attr.size) else old(fontSize))
      ensures weight == (if attr.Weight? then attr.weight else old(weight))
      ensures style == (if attr.Style? then attr.style else old(style))
      ensures underline == (if attr.Underline? then attr.underline else old(underline))
      ensures fgColor == (if attr.TextColor? then attr.color else old(fgColor))
      ensures strikethrough == (if attr.Strikethrough? then attr.strikethrough else old(strikethrough))
    {
      match attr
      case FontFamily(t) => font := t;
      case FontSize(size) => fontSize := if size <= 0.0 then DEFAULT_FONT_SIZE else size;
      case Weight(w) => weight := w;
      case Style(s) => style := s;
      case Underline(flag) => underline := flag;
      case TextColor(c) => fgColor := c;
      case Strikethrough(flag) => strikethrough := flag;
    }
  }
}

=== FILE: web_context.dfy ===
/**
 * The web canvas render context as far as piet keeps its own state: the
 * pending error that drawing operations store instead of returning, the
 * stroke parameters and colours it hands to the canvas, and the pixel
 * conversion of `make_image`. The canvas is seen only through the calls
 * piet makes on it; the outcomes of the calls that can fail are inputs.
 */
module WebContext {
  import opened Wrappers
  import opened PietTypes
  import opened Affine
  import opened Pixels
  import Hex
  import Util

  // ---------------------------------------------------------------------
  // Line styles and colours

  /** The `LineJoin` of the `StrokeStyle` this backend is written against: no miter limit of its own. */
  datatype WebLineJoin = Miter | Round | Bevel

  /** `LineCap`. */
  datatype WebLineCap = Butt | Round | Square

  /** The `StrokeStyle` this backend is written against: every field optional. */
  datatype WebStrokeStyle = WebStrokeStyle(
    lineJoin: Option<WebLineJoin>,
    lineCap: Option<WebLineCap>,
    dash: Option<(seq<real>, real)>,
    miterLimit: Option<real>)

  /** `convert_line_cap`: the canvas `lineCap` keyword. */
  function ConvertLineCap(cap: WebLineCap): (s: string)
    ensures s == "butt" <==> cap.Butt?
    ensures s == "round" <==> cap.Round?
    ensures s == "square" <==> cap.Square?
  {
    match cap
    case Butt => "butt"
    case Round => "round"
    case Square => "square"
  }

  /** `convert_line_join`: the canvas `lineJoin` keyword. */
  function ConvertLineJoin(join: WebLineJoin): (s: string)
    ensures s == "miter" <==> join.Miter?
    ensures s == "round" <==> join.Round?
    ensures s == "bevel" <==> join.Bevel?
  {
    match join
    case Miter => "miter"
    case Round => "round"
    case Bevel => "bevel"
  }

  /** Distinct caps and distinct joins get distinct keywords. */
  lemma KeywordsOneToOne(c1: WebLineCap, c2: WebLineCap, j1: WebLineJoin, j2: WebLineJoin)
    ensures ConvertLineCap(c1) == ConvertLineCap(c2) ==> c1 == c2
    ensures ConvertLineJoin(j1) == ConvertLineJoin(j2) ==> j1 == j2
  {
  }

  /**
   * A CSS colour as `format_color` builds it: `#rrggbb` for an opaque
   * colour, otherwise `rgba(r,g,b,alpha)`, whose alpha is written as the
   * fraction `alpha / 255` to three decimals and is kept here as its byte.
   */
  datatype CssColor = HexRgb(text: string) | Rgba(r: nat, g: nat, b: nat, alpha: Byte)

  /** `format_color` of a colour packed as `0xRRGGBBAA`. */
  function FormatColor(rgba: nat): (c: CssColor)
    requires rgba < U32_LIMIT
    ensures c.HexRgb? <==> rgba % 0x100 == 0xff
    ensures c.HexRgb? ==> c.text == Hex.HexColor(rgba)
                          && |c.text| == 7 && c.text[0] == '#' && Hex.ParseHex(c.text[1..]) == rgba / 0x100
  {
    var rgb := rgba / 0x100;
    var a := rgba % 0x100;
    if a == 0xff then HexRgb(Hex.HexColor(rgba))
    else Rgba((rgb / 0x1_0000) % 0x100, (rgb / 0x100) % 0x100, rgb % 0x100, a)
  }

  /** The four numbers of an `rgba(...)` colour are its four bytes, most significant first. */
  lemma FormatColorBytes(rgba: nat)
    requires rgba < U32_LIMIT && rgba % 0x100 != 0xff
    ensures var c := FormatColor(rgba);
      c.Rgba? && c.r < 0x100 && c.g < 0x100 && c.b < 0x100
      && c.r * 0x100_0000 + c.g * 0x1_0000 + c.b * 0x100 + c.alpha == rgba
  {
    var rgb := rgba / 0x100;
    var hi := rgb / 0x100;
    assert rgba == rgb * 0x100 + rgba % 0x100;
    assert rgb == hi * 0x100 + rgb % 0x100;
    assert rgb < 0x100_0000;
    assert hi < 0x1_0000;
    assert rgb / 0x1_0000 == hi / 0x100;
    assert hi == (hi / 0x100) * 0x100 + hi % 0x100;
    assert hi / 0x100 < 0x100;
  }

  // ---------------------------------------------------------------------
  // make_image

  /** `n as u32`. */
  function AsU32(n: nat): (r: nat)
    ensures r < U32_LIMIT && (n < U32_LIMIT ==> r == n)
  {
    n % U32_LIMIT
  }

  /** Pixel `i` of a premultiplied buffer with its colour divided back by alpha. */
  function UnpremulPixel(buf: seq<Byte>, i: nat): (px: seq<Byte>)
    ensures |px| == 4
  {
    var a := ByteAt(buf, 4 * i + 3);
    [Util.Unpremul(ByteAt(buf, 4 * i), a), Util.Unpremul(ByteAt(buf, 4 * i + 1), a),
     Util.Unpremul(ByteAt(buf, 4 * i + 2), a), a]
  }

  /** The four bytes `make_image` produces for pixel `i` of a premultiplied or RGB buffer. */
  function WebPixel(buf: seq<Byte>, format: ImageFormat, i: nat): (px: seq<Byte>)
    ensures |px| == 4
  {
    if format.Rgb? then RgbPixel(buf, i) else UnpremulPixel(buf, i)
  }

  /** The first `n` converted pixels, laid end to end. */
  function WebPixels(buf: seq<Byte>, format: ImageFormat, n: nat): (data: seq<Byte>)
    ensures |data| == 4 * n
  {
    if n == 0 then [] else WebPixels(buf, format, n - 1) + WebPixel(buf, format, n - 1)
  }

  /** The first `m` converted pixels begin the first `n`. */
  lemma {:induction false} WebPixelsPrefix(buf: seq<Byte>, format: ImageFormat, n: nat, m: nat)
    requires m <= n
    ensures Filled(WebPixels(buf, format, n), WebPixels(buf, format, m))
  {
    if m < n {
      WebPixelsPrefix(buf, format, n - 1, m);
      FilledConcat(WebPixels(buf, format, n - 1), WebPixel(buf, format, n - 1), WebPixels(buf, format, m));
    } else {
      FilledSelf(WebPixels(buf, format, n));
    }
  }

  /**
   * Pixel `i` of the converted buffer: an RGB pixel gets alpha 255, a
   * premultiplied one its colour unpremultiplied (0 where alpha is 0) and
   * its alpha kept.
   */
  lemma WebPixelAt(buf: seq<Byte>, format: ImageFormat, n: nat, i: nat)
    requires i < n
    ensures Holds(WebPixels(buf, format, n), 4 * i, WebPixel(buf, format, i))
    ensures format.Rgb? ==> WebPixel(buf, format, i)[3] == 255
    ensures !format.Rgb? ==> WebPixel(buf, format, i)[3] == ByteAt(buf, 4 * i + 3)
    ensures !format.Rgb? && ByteAt(buf, 4 * i + 3) == 0 ==> WebPixel(buf, format, i)[..3] == [0, 0, 0]
  {
    WebPixelsPrefix(buf, format, n, i + 1);
    SliceAfterPrefix(WebPixels(buf, format, n), WebPixels(buf, format, i), WebPixel(buf, format, i));
  }

  /** A fresh buffer of `4 * n` zero bytes: `vec![0; width * height * 4]`. */
  method Zeroed(n: nat) returns (d: array<Byte>)
    ensures fresh(d) && d.Length == 4 * n
  {
    d := new Byte[4 * n]((_) => 0);
  }

  /** The `RgbaPremul` and `Rgb` loops: each pixel's four bytes written in turn. */
  method ConvertPixels(buf: seq<Byte>, format: ImageFormat, n: nat) returns (d: array<Byte>)
    requires format.Rgb? ==> 3 * n <= |buf|
    requires !format.Rgb? ==> 4 * n <= |buf|
    ensures fresh(d) && d[..] == WebPixels(buf, format, n)
  {
    d := Zeroed(n);
    assert Filled(d[..], []);
    for i := 0 to n
      invariant Filled(d[..], WebPixels(buf, format, i))
    {
      ConvertPixel(d, buf, format, i);
    }
    assert d[..] == d[..4 * n];
  }

  /** One pixel of the loops, reading only within `buf`. */
  method ConvertPixel(d: array<Byte>, buf: seq<Byte>, format: ImageFormat, i: nat)
    requires format.Rgb? ==> 3 * i + 3 <= |buf|
    requires !format.Rgb? ==> 4 * i + 4 <= |buf|
    requires 4 * i + 4 <= d.Length
    requires Filled(d[..], WebPixels(buf, format, i))
    modifies d
    ensures Filled(d[..], WebPixels(buf, format, i + 1))
  {
    ghost var before := d[..];
    var px: seq<Byte>;
    if format.Rgb? {
      px := [buf[3 * i], buf[3 * i + 1], buf[3 * i + 2], 255];
    } else {
      var a := buf[4 * i + 3];
      px := [Util.Unpremul(buf[4 * i], a), Util.Unpremul(buf[4 * i + 1], a), Util.Unpremul(buf[4 * i + 2], a), a];
    }
    assert px == WebPixel(buf, format, i);
    d[4 * i], d[4 * i + 1], d[4 * i + 2], d[4 * i + 3] := px[0], px[1], px[2], px[3];
    Splice(before, d[..], px, 4 * i);
    FillGrows(before, d[..], WebPixels(buf, format, i), px, WebPixels(buf, format, i + 1));
  }

  /** The pixels `make_image` hands to the canvas: separate alpha as is, grayscale as nothing. */
  function ImageBytes(width: nat, height: nat, buf: seq<Byte>, format: ImageFormat): seq<Byte>
  {
    match format
    case RgbaSeparate => buf
    case Grayscale => []
    case _ => WebPixels(buf, format, width * height)
  }

  /** `WebImage`: a canvas element of the image's size holding its pixels. */
  datatype WebImage = WebImage(width: nat, height: nat, data: seq<Byte>)

  /** What `make_image` returns, given the outcomes of `ImageData::new` and `put_image_data`. */
  function MadeImage(width: nat, height: nat, buf: seq<Byte>, format: ImageFormat,
                     imageData: Result<(), Error>, put: Result<(), Error>): Result<WebImage, Error>
  {
    if imageData.Err? then Err(imageData.error)
    else if put.Err? then Err(put.error)
    else Ok(WebImage(AsU32(width), AsU32(height), ImageBytes(width, height, buf, format)))
  }

  // ---------------------------------------------------------------------
  // The render context

  /** The winding rule of a canvas fill. */
  datatype WindingRule = NonzeroRule | EvenoddRule

  /** A call piet makes on the canvas. */
  datatype CanvasCall =
    | CanvasSave
    | CanvasRestore
    | CanvasTransform(xf: Affine)
    | SetLineWidth(width: real)
    | SetLineJoin(join: string)
    | SetLineCap(cap: string)
    | SetMiterLimit(limit: real)
    | SetLineDash(segments: seq<real>)
    | SetLineDashOffset(offset: real)
    | SetFont(font: string)
    | SetFillStyle(color: CssColor)
    | FillText(text: string, pos: Point)
    | DrawCanvasImage(image: WebImage, src: Rect, dst: Rect)

  /**
   * The calls `set_stroke` makes: without a style, or for each field the
   * style leaves unset, Miter, Butt, a miter limit of 10 and no dashes.
   */
  function StrokeCalls(width: real, style: Option<WebStrokeStyle>): (calls: seq<CanvasCall>)
    ensures |calls| == 6 && calls[0] == SetLineWidth(width)
  {
    var join := if style.Some? && style.value.lineJoin.Some? then style.value.lineJoin.value else Miter;
    var cap := if style.Some? && style.value.lineCap.Some? then style.value.lineCap.value else Butt;
    var limit := if style.Some? && style.value.miterLimit.Some? then style.value.miterLimit.value else 10.0;
    var dash := if style.Some? && style.value.dash.Some? then style.value.dash.value else ([], 0.0);
    [SetLineWidth(width), SetLineJoin(ConvertLineJoin(join)), SetLineCap(ConvertLineCap(cap)),
     SetMiterLimit(limit), SetLineDash(dash.0), SetLineDashOffset(dash.1)]
  }

  /**
   * No style and a style with every field unset stroke alike: round
   * joins are never the default, and the line is solid.
   */
  lemma StrokeDefaults(width: real)
    ensures StrokeCalls(width, None) == StrokeCalls(width, Some(WebStrokeStyle(None, None, None, None)))
    ensures StrokeCalls(width, None) == [SetLineWidth(width), SetLineJoin("miter"), SetLineCap("butt"),
                                         SetMiterLimit(10.0), SetLineDash([]), SetLineDashOffset(0.0)]
  {
  }

  /** A style's own settings reach the canvas. */
  lemma StrokeStyleApplied(width: real, s: WebStrokeStyle)
    requires s.lineJoin.Some? && s.lineCap.Some? && s.miterLimit.Some? && s.dash.Some?
    ensures StrokeCalls(width, Some(s)) == [SetLineWidth(width), SetLineJoin(ConvertLineJoin(s.lineJoin.value)),
                                            SetLineCap(ConvertLineCap(s.lineCap.value)),
                                            SetMiterLimit(s.miterLimit.value), SetLineDash(s.dash.value.0),
                                            SetLineDashOffset(s.dash.value.1)]
  {
  }

  class WebRenderContext {
    var err: Result<(), Error>
    var calls: seq<CanvasCall>

    /** `WebRenderContext::new`: no pending error. */
    constructor ()
      ensures err == Ok(()) && calls == []
    {
      err := Ok(());
      calls := [];
    }

    /** `status`: the pending error, which is reset. */
    method Status() returns (r: Result<(), Error>)
      modifies this
      ensures r == old(err) && err == Ok(()) && calls == old(calls)
    {
      r := err;
      err := Ok(());
    }

    /** `finish`: the same as `status`. */
    method Finish() returns (r: Result<(), Error>)
      modifies this
      ensures r == old(err) && err == Ok(()) && calls == old(calls)
    {
      r := Status();
    }

    /** `save`: the canvas saves, and piet reports success. */
    method Save() returns (r: Result<(), Error>)
      modifies this
      ensures r.Ok? && err == old(err) && calls == old(calls) + [CanvasSave]
    {
      calls := calls + [CanvasSave];
      r := Ok(());
    }

    /** `restore`: the canvas restores, and piet reports success. */
    method Restore() returns (r: Result<(), Error>)
      modifies this
      ensures r.Ok? && err == old(err) && calls == old(calls) + [CanvasRestore]
    {
      calls := calls + [CanvasRestore];
      r := Ok(());
    }

    /** `transform`: handed to the canvas, whose outcome is ignored. */
    method Transform(t: Affine)
      modifies this
      ensures err == old(err) && calls == old(calls) + [CanvasTransform(t)]
    {
      calls := calls + [CanvasTransform(t)];
    }

    /**
     * `current_transform`: the identity, whatever was applied, because the
     * canvas bindings offer no way to read the transform back.
     */
    function CurrentTransform(): (xf: Affine)
      ensures xf == IDENTITY
    {
      IDENTITY
    }

    /** `set_stroke`. */
    method SetStroke(width: real, style: Option<WebStrokeStyle>)
      modifies this
      ensures err == old(err) && calls == old(calls) + StrokeCalls(width, style)
    {
      calls := calls + StrokeCalls(width, style);
    }

    /**
     * `draw_text`: the font and the solid fill colour are set and the text
     * filled; a failure of `fill_text` is stored in `err`.
     */
    method DrawText(font: string, rgba: nat, text: string, pos: Point, filled: Result<(), Error>)
      requires rgba < U32_LIMIT
      modifies this
      ensures calls == old(calls) + [SetFont(font), SetFillStyle(FormatColor(rgba)), FillText(text, pos)]
      ensures err == if filled.Err? then Err(filled.error) else old(err)
    {
      calls := calls + [SetFont(font), SetFillStyle(FormatColor(rgba)), FillText(text, pos)];
      if filled.Err? {
        err := Err(filled.error);
      }
    }

    /**
     * `draw_image` and `draw_image_area`: inside a save and a restore, the
     * source area (the whole image when none is given) is drawn into the
     * destination; a failure of the draw is stored in `err` (the canvas
     * save and restore cannot fail).
     */
    method DrawImage(image: WebImage, srcRect: Option<Rect>, dstRect: Rect, interp: InterpolationMode,
                     drawn: Result<(), Error>)
      modifies this
      ensures var src := if srcRect.Some? then srcRect.value else Rect(0.0, 0.0, image.width as real, image.height as real);
        calls == old(calls) + [CanvasSave, DrawCanvasImage(image, src, dstRect), CanvasRestore]
      ensures err == if drawn.Err? then Err(drawn.error) else old(err)
    {
      var _ := Save();
      var src := if srcRect.Some? then srcRect.value else Rect(0.0, 0.0, image.width as real, image.height as real);
      calls := calls + [DrawCanvasImage(image, src, dstRect)];
      var _ := Restore();
      if drawn.Err? {
        err := Err(drawn.error);
      }
    }

    /**
     * `make_image`: the buffer is converted for the canvas, wrapped as
     * `ImageData` and put into a new canvas element of the image's size.
     */
    method MakeImage(width: nat, height: nat, buf: seq<Byte>, format: ImageFormat,
                     imageData: Result<(), Error>, put: Result<(), Error>) returns (r: Result<WebImage, Error>)
      requires format.RgbaPremul? ==> 4 * (width * height) <= |buf|
      requires format.Rgb? ==> 3 * (width * height) <= |buf|
      ensures r == MadeImage(width, height, buf, format, imageData, put)
    {
      var data: seq<Byte> := [];
      if format.RgbaSeparate? {
        data := buf;
      } else if format.RgbaPremul? || format.Rgb? {
        var d := ConvertPixels(buf, format, width * height);
        data := d[..];
      }
      if imageData.Err? {
        return Err(imageData.error);
      }
      if put.Err? {
        return Err(put.error);
      }
      r := Ok(WebImage(AsU32(width), AsU32(height), data));
    }
  }
}

=== FILE: web_grapheme.dfy ===
/**
 * The grapheme helpers of the web text layout, a copy of the Cairo ones
 * whose edges are the canvas widths of the prefixes that end at a cluster
 * boundary. The cluster starts and `measure_text(..).width` are inputs.
 */
module WebGrapheme {
  import opened Wrappers
  import opened Unicode
  import opened PietTypes
  import opened Graphemes
  import opened CairoGrapheme

  /** The measured width of the text before byte offset `pos`. */
  function PrefixWidth(text: string, advance: string -> real, pos: nat): real
  {
    advance(Slice(text, 0, pos))
  }

  /**
   * `get_grapheme_boundaries`: `None` past the last cluster; otherwise the
   * cluster's start and the next start (`text.len()` after the last
   * cluster), with the widths of the prefixes that end there.
   */
  function GetGraphemeBoundaries(text: string, starts: seq<nat>, advance: string -> real, p: nat)
    : (r: Option<GraphemeBoundaries>)
    ensures r.None? <==> p >= |starts|
    ensures r.Some? ==> r.value.currIdx == starts[p] && r.value.nextIdx == NextStart(starts, ByteLen(text), p)
    ensures r.Some? ==> r.value.leading == PrefixWidth(text, advance, r.value.currIdx)
    ensures r.Some? ==> r.value.trailing == PrefixWidth(text, advance, r.value.nextIdx)
  {
    if p >= |starts| then None
    else
      var curr := starts[p];
      var next := NextStart(starts, ByteLen(text), p);
      Some(GraphemeBoundaries(curr, next, PrefixWidth(text, advance, curr), PrefixWidth(text, advance, next)))
  }

  /**
   * Successive clusters share an edge: where one cluster's boundaries end,
   * the next one's begin, and the last ends at the width of the whole text.
   */
  lemma AdjacentBoundaries(text: string, starts: seq<nat>, advance: string -> real, p: nat)
    requires Segments(starts, ByteLen(text)) && p < |starts|
    ensures var b := GetGraphemeBoundaries(text, starts, advance, p).value;
      && b.currIdx < b.nextIdx <= ByteLen(text)
      && (p + 1 < |starts| ==> b.nextIdx == GetGraphemeBoundaries(text, starts, advance, p + 1).value.currIdx)
      && (p + 1 < |starts| ==> b.trailing == GetGraphemeBoundaries(text, starts, advance, p + 1).value.leading)
      && (p + 1 == |starts| ==> b.nextIdx == ByteLen(text))
  {
  }

  /**
   * The web `point_x_in_grapheme` is the Cairo one: inside the closed
   * interval a hit, with a position exactly at the midpoint going to the
   * next boundary, and `None` outside.
   */
  lemma PointXInGraphemeMidpoint(b: GraphemeBoundaries)
    requires b.leading <= b.trailing
    ensures PointXInGrapheme((b.leading + b.trailing) / 2.0, b) == Some(HitTestPoint(b.nextIdx, true))
    ensures forall x :: x < b.leading || x > b.trailing ==> PointXInGrapheme(x, b).None?
  {
  }
}

=== FILE: web_lines.dfy ===
/**
 * `calculate_line_metrics` of the web backend: the same greedy break loop as
 * the Cairo backend, with line heights fixed from the font size, each
 * line's top (`y_offset`) recorded before the running height grows, trailing
 * whitespace counted in bytes, and a final line for text left after the last
 * break.
 */
module WebLines {
  import opened Unicode
  import opened LineBreaking
  import opened PietTypes

  /** `height = font_size * 1.2`: the same for every line. */
  function LineHeight(fontSize: real): real { fontSize * 1.2 }

  /** `baseline = height * 0.8`. */
  function Baseline(fontSize: real): real { LineHeight(fontSize) * 0.8 }

  /**
   * Every line carries the fixed height and baseline and its own trailing
   * whitespace in bytes, and the top of line `k` lies `k` lines down.
   */
  predicate Recorded(text: string, height: real, baseline: real, lines: seq<LineMetric>)
  {
    forall k :: 0 <= k < |lines| ==> LineRecorded(text, height, baseline, lines[k], k)
  }

  /** What `add_line_metric` records for the line at index `k`. */
  predicate LineRecorded(text: string, height: real, baseline: real, line: LineMetric, k: nat)
  {
    && line.trailingWhitespace == TrailingWhitespaceBytes(Slice(text, line.startOffset, line.endOffset))
    && line.baseline == baseline
    && line.height == height
    && line.yOffset == Stacked(k, height)
  }

  /** Appending a line whose top lies below all earlier lines keeps `Recorded`. */
  lemma AppendRecorded(text: string, height: real, baseline: real, lines: seq<LineMetric>, start: nat, end: nat)
    requires Recorded(text, height, baseline, lines)
    ensures Recorded(text, height, baseline, lines + [LineMetric(start, end,
      TrailingWhitespaceBytes(Slice(text, start, end)), baseline, height, Stacked(|lines|, height))])
  {
    var lines' := lines + [LineMetric(start, end,
      TrailingWhitespaceBytes(Slice(text, start, end)), baseline, height, Stacked(|lines|, height))];
    forall k | 0 <= k < |lines'|
      ensures LineRecorded(text, height, baseline, lines'[k], k)
    {
      if k < |lines| { assert lines'[k] == lines[k]; }
    }
  }

  /**
   * Records the line `text[start..end]` with its top at `y_offset`, then
   * moves `y_offset` down by one line.
   */
  method AddLineMetric(
    text: string, startOffset: nat, endOffset: nat, baseline: real, height: real,
    yOffset: real, lines: seq<LineMetric>)
    returns (yOffset': real, lines': seq<LineMetric>)
    ensures yOffset' == yOffset + height
    ensures lines' == lines + [LineMetric(startOffset, endOffset,
      TrailingWhitespaceBytes(Slice(text, startOffset, endOffset)), baseline, height, yOffset)]
    ensures LineRanges(lines') == LineRanges(lines) + [Span(startOffset, endOffset)]
    ensures Recorded(text, height, baseline, lines) && yOffset == Stacked(|lines|, height) ==>
      Recorded(text, height, baseline, lines') && yOffset' == Stacked(|lines'|, height)
  {
    var line := Slice(text, startOffset, endOffset);
    var trailingWhitespace := TrailingWhitespaceBytes(line);
    var metric := LineMetric(startOffset, endOffset, trailingWhitespace, baseline, height, yOffset);
    lines' := lines + [metric];
    yOffset' := yOffset + height;
    AppendLineRanges(lines, metric);
    if Recorded(text, height, baseline, lines) && yOffset == Stacked(|lines|, height) {
      AppendRecorded(text, height, baseline, lines, startOffset, endOffset);
    }
  }

  /**
   * The lines of the web backend: those of the break loop, then
   * `line_start..text.len()` when the loop left text after its last line.
   */
  function WebSpans(m: Measure, breaks: seq<Break>): seq<Span>
  {
    var st := Run(m, breaks);
    st.spans + (if st.lineStart != ByteLen(m.text) then [Span(st.lineStart, ByteLen(m.text))] else [])
  }

  /**
   * The break loop and the trailing line. `advance` is the canvas'
   * `measure_text(..).width`, `breaks` the opportunities `LineBreakIterator`
   * yields for `text`.
   */
  method CalculateLineMetrics(
    text: string, advance: string -> real, width: Width, fontSize: real, breaks: seq<Break>)
    returns (lines: seq<LineMetric>)
    ensures LineRanges(lines) == WebSpans(Measure(text, advance, width), breaks)
    ensures Recorded(text, LineHeight(fontSize), Baseline(fontSize), lines)
  {
    ghost var m := Measure(text, advance, width);
    lines := [];
    var lineStart: nat := 0;
    var prevBreak: nat := 0;
    var yOffset := 0.0;
    var height := LineHeight(fontSize);
    var baseline := height * 0.8;
    var i := 0;
    while i < |breaks|
      invariant i <= |breaks|
      invariant Run(m, breaks[..i]) == State(lineStart, prevBreak, LineRanges(lines))
      invariant yOffset == Stacked(|lines|, height)
      invariant Recorded(text, height, baseline, lines)
    {
      RunSnoc(m, breaks, i);
      ghost var st := State(lineStart, prevBreak, LineRanges(lines));
      var lineBreak := breaks[i].offset;
      var isHardBreak := breaks[i].hard;
      if !isHardBreak {
        var currWidth := advance(Slice(text, lineStart, lineBreak));
        if Exceeds(currWidth, width) {
          if prevBreak == lineStart {
            prevBreak := lineBreak;
          }
          StepSoftWide(m, st, breaks[i], prevBreak);
          yOffset, lines := AddLineMetric(text, lineStart, prevBreak, baseline, height, yOffset, lines);
          var restWidth := advance(Slice(text, prevBreak, lineBreak));
          if Exceeds(restWidth, width) {
            yOffset, lines := AddLineMetric(text, prevBreak, lineBreak, baseline, height, yOffset, lines);
            lineStart := lineBreak;
            prevBreak := lineBreak;
          } else {
            lineStart := prevBreak;
            prevBreak := lineBreak;
          }
        } else {
          StepSoftFits(m, st, breaks[i]);
          prevBreak := lineBreak;
        }
      } else {
        StepHard(m, st, breaks[i]);
        var currWidth := advance(Slice(text, lineStart, lineBreak));
        if Exceeds(currWidth, width) {
          if prevBreak != lineStart {
            yOffset, lines := AddLineMetric(text, lineStart, prevBreak, baseline, height, yOffset, lines);
            lineStart := prevBreak;
          }
        }
        yOffset, lines := AddLineMetric(text, lineStart, lineBreak, baseline, height, yOffset, lines);
        lineStart := lineBreak;
        prevBreak := lineBreak;
      }
      i := i + 1;
    }
    assert breaks[..|breaks|] == breaks;
    var textLen := ByteLen(text);
    if lineStart != textLen {
      yOffset, lines := AddLineMetric(text, lineStart, textLen, baseline, height, yOffset, lines);
    }
  }

  /**
   * For opportunities within the text, the web lines are contiguous from 0
   * and together cover the whole text: the last line ends at `text.len()`.
   */
  lemma WebSpansCover(m: Measure, breaks: seq<Break>)
    requires Increasing(breaks)
    requires forall j :: 0 <= j < |breaks| ==> breaks[j].offset <= ByteLen(m.text)
    ensures Contiguous(WebSpans(m, breaks))
    ensures LastEnd(WebSpans(m, breaks)) == ByteLen(m.text)
  {
    var st := Run(m, breaks);
    var len := ByteLen(m.text);
    SpansProperties(m, breaks);
    FinalLineStart(m, breaks);
    assert st.lineStart <= len by {
      if st.spans != [] {
        var k := |st.spans| - 1;
        assert ReportedBefore(breaks, |breaks|, st.spans[k].end);
      }
    }
    if st.lineStart != len {
      AppendContiguous(st.spans, [Span(st.lineStart, len)]);
    }
  }

  /** A text that ends with a hard break gets no extra trailing line. */
  lemma NoTrailingAfterHardEnd(m: Measure, breaks: seq<Break>)
    requires Increasing(breaks)
    requires |breaks| > 0 && breaks[|breaks| - 1].hard && breaks[|breaks| - 1].offset == ByteLen(m.text)
    ensures WebSpans(m, breaks) == Spans(m, breaks)
  {
    FinalLineStart(m, breaks);
    assert Run(m, breaks).spans + [] == Run(m, breaks).spans;
  }

  /** Trailing whitespace of the web backend counts bytes: `"a\u{3000}"` ends in one three-byte space. */
  lemma TrailingWhitespaceBytesExample()
    ensures CountTrailingWhitespace("a\U{3000}") == 1
    ensures TrailingWhitespaceBytes("a\U{3000}") == 3
  {
    assert "a\U{3000}"[..1] == "a";
  }
}

=== FILE: web_text.dfy ===
/**
 * The web text layout: its font string, the builder, `update_width`,
 * line text and hit testing. The canvas' `measure_text(..).width`, the
 * break opportunities of the text and its grapheme cluster starts are
 * inputs; hit testing treats the text as one line, as the backend does.
 */
module WebText {
  import opened Wrappers
  import opened Unicode
  import opened PietTypes
  import opened Graphemes
  import opened LineBreaking
  import opened CairoGrapheme
  import opened WebGrapheme
  import WebLines

  // ---------------------------------------------------------------------
  // Fonts

  /** The CSS `font-style` of a web font. */
  datatype WebFontStyle = Normal | Italic | Oblique(angle: Option<real>)

  /** `WebFont`: family, numeric weight (`u32`), style and size in pixels. */
  datatype WebFont = WebFont(family: string, weight: nat, style: WebFontStyle, size: real)

  /** `new_font_by_name`: the named family at weight 400 and normal style. */
  function NewFontByName(name: string, size: real): (f: WebFont)
    ensures f.family == name && f.size == size
    ensures f.weight == 400 && f.style == WebFontStyle.Normal
  {
    WebFont(name, 400, WebFontStyle.Normal, size)
  }

  /** `WebFontBuilder::build`: always the font it holds. */
  function BuildFont(font: WebFont): (r: Result<WebFont, Error>)
    ensures r == Ok(font)
  {
    Ok(font)
  }

  /** The decimal digit for `d`. */
  function Digit(d: nat): char
    requires d < 10
  {
    "0123456789"[d]
  }

  /** The value of a decimal digit. */
  function DigitValue(c: char): nat
  {
    if '0' <= c <= '9' then c as nat - '0' as nat else 0
  }

  /** `{}` of an unsigned integer: its decimal digits, most significant first. */
  function Decimal(n: nat): (s: string)
    ensures |s| > 0
    ensures forall i :: 0 <= i < |s| ==> '0' <= s[i] <= '9'
  {
    if n < 10 then [Digit(n)] else Decimal(n / 10) + [Digit(n % 10)]
  }

  /** The number a string of decimal digits denotes. */
  function ParseDecimal(s: string): nat
  {
    if s == [] then 0 else ParseDecimal(s[..|s| - 1]) * 10 + DigitValue(s[|s| - 1])
  }

  /** Reading the digits back gives the number. */
  lemma {:induction false} DecimalRoundTrip(n: nat)
    ensures ParseDecimal(Decimal(n)) == n
  {
    if n >= 10 {
      DecimalRoundTrip(n / 10);
      var s := Decimal(n);
      assert s[..|s| - 1] == Decimal(n / 10);
    }
  }

  /** The style part of the font string; an oblique style without an angle is written `italic`. */
  function StyleString(style: WebFontStyle, showReal: real -> string): string
  {
    match style
    case Normal => "normal"
    case Italic => "italic"
    case Oblique(None) => "italic"
    case Oblique(Some(angle)) => "oblique " + showReal(angle) + "deg"
  }

  /**
   * `get_font_string`: `"{style} {weight} {size}px \"{family}\""`, with
   * `showReal` standing for the `{}` formatting of an `f64`.
   */
  function FontString(font: WebFont, showReal: real -> string): string
  {
    StyleString(font.style, showReal) + " " + Decimal(font.weight) + " " + showReal(font.size) + "px \"" + font.family + "\""
  }

  /**
   * The font string starts with the style and a space, then the weight's
   * digits (which read back as the weight) and a space, and ends with the
   * family in double quotes; an oblique style without angle reads like
   * italic.
   */
  lemma FontStringFields(font: WebFont, showReal: real -> string)
    ensures var s := FontString(font, showReal);
      var st := StyleString(font.style, showReal);
      var w := Decimal(font.weight);
      && s[..|st|] == st && s[|st|] == ' '
      && ParseDecimal(s[|st| + 1..|st| + 1 + |w|]) == font.weight && s[|st| + 1 + |w|] == ' '
      && s[|s| - |font.family| - 2..] == "\"" + font.family + "\""
    ensures font.style == WebFontStyle.Oblique(None) ==>
      FontString(font, showReal) == FontString(font.(style := WebFontStyle.Italic), showReal)
  {
    var s := FontString(font, showReal);
    var st := StyleString(font.style, showReal);
    var w := Decimal(font.weight);
    var rest := showReal(font.size) + "px \"" + font.family + "\"";
    assert s == st + " " + w + " " + rest;
    assert s[|st| + 1..|st| + 1 + |w|] == w;
    DecimalRoundTrip(font.weight);
  }

  // ---------------------------------------------------------------------
  // Builder

  /** `WebTextLayoutBuilder`, without its canvas context. */
  datatype WebTextLayoutBuilder = WebTextLayoutBuilder(font: WebFont, text: string, width: real)

  /** `new_text_layout`: the font, the text and the width constraint as given. */
  function NewTextLayout(font: WebFont, text: string, width: real): (b: WebTextLayoutBuilder)
    ensures b.font == font && b.text == text && b.width == width
  {
    WebTextLayoutBuilder(font, text, width)
  }

  /** `text[lm.start_offset..lm.end_offset - lm.trailing_whitespace]`: the line without its trailing whitespace. */
  function TrimmedLine(text: string, line: LineMetric): string
  {
    Slice(text, line.startOffset, line.endOffset - line.trailingWhitespace)
  }

  /** The measured widths of the lines without their trailing whitespace. */
  function TrimmedWidths(text: string, advance: string -> real, lines: seq<LineMetric>): (ws: seq<real>)
    ensures |ws| == |lines|
    ensures forall k :: 0 <= k < |lines| ==> ws[k] == advance(TrimmedLine(text, lines[k]))
  {
    seq(|lines|, k requires 0 <= k < |lines| => advance(TrimmedLine(text, lines[k])))
  }

  /** The line metrics hold the web lines of `text` for the width constraint `constraint`. */
  ghost predicate LaidOut(text: string, font: WebFont, advance: string -> real, breaks: seq<Break>,
    constraint: real, lines: seq<LineMetric>)
  {
    && LineRanges(lines) == WebLines.WebSpans(Measure(text, advance, Finite(constraint)), breaks)
    && WebLines.Recorded(text, WebLines.LineHeight(font.size), WebLines.Baseline(font.size), lines)
  }

  // ---------------------------------------------------------------------
  // Hit testing

  /** The x position of cluster boundary `i`: the width of the text before cluster `i`, or of all of it. */
  function WebEdge(text: string, starts: seq<nat>, advance: string -> real, i: nat): real
  {
    PrefixWidth(text, advance, if i < |starts| then starts[i] else ByteLen(text))
  }

  /** The boundaries of cluster `p` lie at edges `p` and `p + 1`. */
  lemma WebBoundsAreEdges(text: string, starts: seq<nat>, advance: string -> real, p: nat)
    requires p < |starts|
    ensures WebGrapheme.GetGraphemeBoundaries(text, starts, advance, p).value.leading == WebEdge(text, starts, advance, p)
    ensures WebGrapheme.GetGraphemeBoundaries(text, starts, advance, p).value.trailing == WebEdge(text, starts, advance, p + 1)
  {
  }

  /** `h` is the hit `point_x_in_grapheme` reports for `x` inside cluster `p`. */
  ghost predicate WebHitIn(text: string, starts: seq<nat>, advance: string -> real, x: real, p: nat, h: HitTestPoint)
  {
    && p < |starts|
    && WebEdge(text, starts, advance, p) <= x <= WebEdge(text, starts, advance, p + 1)
    && PointXInGrapheme(x, WebGrapheme.GetGraphemeBoundaries(text, starts, advance, p).value) == Some(h)
  }

  /**
   * What `hit_test_point` returns: the default for the empty text, the end
   * of the text (outside) right of its last edge, the default at or left of
   * its first edge, and otherwise the hit within a cluster that spans `x`.
   */
  ghost predicate WebHit(text: string, starts: seq<nat>, advance: string -> real, x: real, h: HitTestPoint)
  {
    if text == [] then h == DEFAULT_HIT
    else if x > WebEdge(text, starts, advance, |starts|) then h == HitTestPoint(ByteLen(text), false)
    else if x <= WebEdge(text, starts, advance, 0) then h == DEFAULT_HIT
    else exists p :: WebHitIn(text, starts, advance, x, p, h)
  }

  /**
   * `hit_test_text_position` on a text of layout width `width`: position 0
   * at the origin; positions at or past the end at the layout width,
   * reported as the end; and an interior position at the width of the text
   * before its cluster, reported unchanged.
   */
  function TextPositionOf(text: string, starts: seq<nat>, advance: string -> real, width: real, pos: nat)
    : (r: Option<TextPositionHit>)
    requires Segments(starts, ByteLen(text))
    ensures r.Some?
    ensures pos == 0 ==> r.value == TextPositionHit(0.0, 0.0, 0)
    ensures pos > 0 && pos >= ByteLen(text) ==> r.value == TextPositionHit(width, 0.0, ByteLen(text))
    ensures 0 < pos < ByteLen(text) ==> r.value.textPosition == pos && r.value.y == 0.0
    ensures forall p: nat :: 0 < pos < ByteLen(text) && Contains(starts, ByteLen(text), p, pos) ==>
      r.value.x == PrefixWidth(text, advance, starts[p])
  {
    var len := ByteLen(text);
    if pos == 0 then Some(TextPositionHit(0.0, 0.0, 0))
    else if pos >= len then Some(TextPositionHit(width, 0.0, len))
    else
      assert Contains(starts, len, 0, 0);
      LastStartOfContainingSome(starts, len, pos);
      match LastStartAtMost(starts, pos)
      case Some(idx) =>
        Some(TextPositionHit(advance(Slice(text, 0, idx)), 0.0, pos))
      case None =>
        Some(TextPositionHit(width, 0.0, len))
  }

  /** Every position inside the text has a cluster at or before it. */
  lemma LastStartOfContainingSome(starts: seq<nat>, len: nat, pos: nat)
    requires Segments(starts, len) && pos < len
    ensures LastStartAtMost(starts, pos).Some?
    ensures forall p: nat :: Contains(starts, len, p, pos) ==> LastStartAtMost(starts, pos) == Some(starts[p])
  {
    var q := ContainingCluster(starts, len, pos);
    LastStartOfContaining(starts, len, q, pos);
  }

  /**
   * On `"\u{e9}"`, two bytes in one cluster, byte 1 lies inside the cluster:
   * it is drawn where the text starts and reported as 1; 2 and past it are
   * at the layout width.
   */
  lemma ComplexTextPositionExample(advance: string -> real, width: real)
    ensures TextPositionOf("é", [0], advance, width, 1) == Some(TextPositionHit(advance(""), 0.0, 1))
    ensures TextPositionOf("é", [0], advance, width, 2) == Some(TextPositionHit(width, 0.0, 2))
    ensures TextPositionOf("é", [0], advance, width, 0) == Some(TextPositionHit(0.0, 0.0, 0))
  {
    assert ByteLen("é") == 2 by { assert "é"[1..] == ""; }
    assert Slice("é", 0, 0) == "" by { assert "é"[1..] == ""; }
    assert Contains([0], 2, 0, 1);
  }

  /** Position 11 of a ten-byte text is reported as 10, at the layout width. */
  lemma PastEndExample(text: string, starts: seq<nat>, advance: string -> real, width: real)
    requires ByteLen(text) == 10 && Segments(starts, 10)
    ensures TextPositionOf(text, starts, advance, width, 11) == Some(TextPositionHit(width, 0.0, 10))
    ensures TextPositionOf(text, starts, advance, width, 10) == Some(TextPositionHit(width, 0.0, 10))
  {
  }

  /**
   * The search of `hit_test_point`: the ends first, then a binary search over the
   * clusters of the text. The search keeps `x` strictly between the leading
   * edges of its two bounds, so it ends with a hit, in whatever order the
   * measured edges lie.
   */
  method HitTestText(text: string, graphemes: seq<nat>, advance: string -> real, x: real) returns (h: HitTestPoint)
    requires Segments(graphemes, ByteLen(text))
    ensures WebHit(text, graphemes, advance, x, h)
  {
    if text == [] {
      return DEFAULT_HIT;
    }
    assert ByteLen(text) >= Utf8Len(text[0]);
    var end := |graphemes| - 1;
    var endBounds := WebGrapheme.GetGraphemeBoundaries(text, graphemes, advance, end).value;
    WebBoundsAreEdges(text, graphemes, advance, end);
    var start := 0;
    var startBounds := WebGrapheme.GetGraphemeBoundaries(text, graphemes, advance, start).value;
    WebBoundsAreEdges(text, graphemes, advance, start);
    if x > endBounds.trailing {
      return HitTestPoint(ByteLen(text), false);
    }
    if x <= startBounds.leading {
      return DEFAULT_HIT;
    }
    var hit := PointXInGrapheme(x, startBounds);
    if hit.Some? {
      assert WebHitIn(text, graphemes, advance, x, start, hit.value);
      return hit.value;
    }
    hit := PointXInGrapheme(x, endBounds);
    if hit.Some? {
      assert WebHitIn(text, graphemes, advance, x, end, hit.value);
      return hit.value;
    }
    var left: nat, right: nat := start, end;
    while true
      invariant left < right <= end
      invariant WebEdge(text, graphemes, advance, left) < x < WebEdge(text, graphemes, advance, right)
      decreases right - left
    {
      var middle := left + (right - left) / 2;
      var bounds := WebGrapheme.GetGraphemeBoundaries(text, graphemes, advance, middle).value;
      WebBoundsAreEdges(text, graphemes, advance, middle);
      hit := PointXInGrapheme(x, bounds);
      if hit.Some? {
        assert WebHitIn(text, graphemes, advance, x, middle, hit.value);
        return hit.value;
      }
      if x < bounds.leading {
        right := middle;
      } else {
        assert x > bounds.trailing;
        left := middle + 1;
      }
    }
  }

  // ---------------------------------------------------------------------
  // The layout

  /**
   * `WebTextLayout`. `breaks` are the opportunities `LineBreakIterator`
   * yields for `text`, `graphemes` its cluster starts, and `advance` the
   * canvas' measurement in the layout's font.
   */
  class WebTextLayout {
    const font: WebFont
    const text: string
    const advance: string -> real
    const breaks: seq<Break>
    const graphemes: seq<nat>
    var lineMetrics: seq<LineMetric>
    var width: real
    ghost var constraint: real

    /** The line metrics are those of the text at the last width constraint. */
    ghost predicate Valid()
      reads this
    {
      LaidOut(text, font, advance, breaks, constraint, lineMetrics)
    }

    /** The layout `build` returns. */
    constructor(font: WebFont, text: string, advance: string -> real, breaks: seq<Break>, graphemes: seq<nat>,
      lineMetrics: seq<LineMetric>, width: real, ghost constraint: real)
      ensures this.font == font && this.text == text && this.advance == advance
      ensures this.breaks == breaks && this.graphemes == graphemes
      ensures this.lineMetrics == lineMetrics && this.width == width && this.constraint == constraint
    {
      this.font := font;
      this.text := text;
      this.advance := advance;
      this.breaks := breaks;
      this.graphemes := graphemes;
      this.lineMetrics := lineMetrics;
      this.width := width;
      this.constraint := constraint;
    }

    /**
     * `update_width`: the new constraint itself becomes the layout's width,
     * and the lines are broken again at it.
     */
    method UpdateWidth(newWidth: real) returns (r: Result<(), Error>)
      modifies this
      ensures r.Ok?
      ensures width == newWidth && constraint == newWidth && Valid()
    {
      width := newWidth;
      constraint := newWidth;
      lineMetrics := WebLines.CalculateLineMetrics(text, advance, Finite(newWidth), font.size, breaks);
      r := Ok(());
    }

    /** `line_text`: line `n` without its trailing whitespace, or `None` past the last line. */
    function LineText(n: nat): (r: Option<string>)
      reads this
      ensures r.Some? <==> n < |lineMetrics|
      ensures r.Some? ==> r.value == TrimmedLine(text, lineMetrics[n])
    {
      if n < |lineMetrics| then Some(TrimmedLine(text, lineMetrics[n])) else None
    }

    /** `hit_test_point`: the hit the text gives for `x`; `y` plays no part. */
    method HitTestPoint(x: real, y: real) returns (h: PietTypes.HitTestPoint)
      requires Segments(graphemes, ByteLen(text))
      ensures WebHit(text, graphemes, advance, x, h)
    {
      h := HitTestText(text, graphemes, advance, x);
    }

    /** `hit_test_text_position`, with the layout's width for positions at or past the end. */
    function HitTestTextPosition(pos: nat): (r: Option<TextPositionHit>)
      reads this
      requires Segments(graphemes, ByteLen(text))
      ensures r.Some?
      ensures pos == 0 ==> r.value == TextPositionHit(0.0, 0.0, 0)
      ensures pos > 0 && pos >= ByteLen(text) ==> r.value == TextPositionHit(width, 0.0, ByteLen(text))
      ensures 0 < pos < ByteLen(text) ==> r.value.textPosition == pos && r.value.y == 0.0
      ensures forall p: nat :: 0 < pos < ByteLen(text) && Contains(graphemes, ByteLen(text), p, pos) ==>
        r.value.x == PrefixWidth(text, advance, graphemes[p])
    {
      TextPositionOf(text, graphemes, advance, width, pos)
    }
  }

  /**
   * `build`: breaks the text at the builder's width and takes as the
   * layout's width the widest line without its trailing whitespace, or 0
   * without lines; it always succeeds.
   */
  method Build(b: WebTextLayoutBuilder, advance: string -> real, breaks: seq<Break>, graphemes: seq<nat>)
    returns (r: Result<WebTextLayout, Error>)
    ensures r.Ok? && fresh(r.value) && r.value.Valid()
    ensures r.value.text == b.text && r.value.font == b.font && r.value.constraint == b.width
    ensures r.value.width == MaxOf(0.0, TrimmedWidths(b.text, advance, r.value.lineMetrics))
  {
    var lineMetrics := WebLines.CalculateLineMetrics(b.text, advance, Finite(b.width), b.font.size, breaks);
    var width := MaxOf(0.0, TrimmedWidths(b.text, advance, lineMetrics));
    var layout := new WebTextLayout(b.font, b.text, advance, breaks, graphemes, lineMetrics, width, b.width);
    r := Ok(layout);
  }

  /**
   * The built width is at least 0 and every trimmed line fits in it, and
   * it is 0 or the width of one of the lines.
   */
  lemma BuildWidthIsWidestLine(text: string, advance: string -> real, lines: seq<LineMetric>)
    ensures var w := MaxOf(0.0, TrimmedWidths(text, advance, lines));
      && w >= 0.0
      && (forall k :: 0 <= k < |lines| ==> advance(TrimmedLine(text, lines[k])) <= w)
      && (w == 0.0 || exists k :: 0 <= k < |lines| && w == advance(TrimmedLine(text, lines[k])))
  {
    var ws := TrimmedWidths(text, advance, lines);
    var w := MaxOf(0.0, ws);
    forall k | 0 <= k < |lines|
      ensures advance(TrimmedLine(text, lines[k])) <= w
    {
      assert ws[k] == advance(TrimmedLine(text, lines[k]));
    }
  }

  /**
   * The trimmed line and the trailing whitespace that was cut off make up
   * the whole line, and the cut is at a character boundary of the line.
   */
  lemma TrimmedLineSplits(text: string, line: LineMetric)
    requires line.startOffset <= line.endOffset - line.trailingWhitespace
    ensures Slice(text, line.startOffset, line.endOffset)
      == TrimmedLine(text, line) + Slice(text, line.endOffset - line.trailingWhitespace, line.endOffset)
  {
    SliceSplit(text, line.startOffset, line.endOffset - line.trailingWhitespace, line.endOffset);
  }
}

=== FILE: wrappers.dfy ===
/** Option and Result, the two sum types every Rust function of the model returns. */
module Wrappers {
  datatype Option<T> = None | Some(value: T)

  datatype Result<T, E> = Ok(value: T) | Err(error: E)
  {
    predicate IsOk() { this.Ok? }
  }
}
